=== FILE: README.md ===
# Immortal engine core, modelled in Dafny

Immortal is a C++ rendering and image-processing engine with Direct3D 12 and
Vulkan back ends. This project models, in Dafny, the parts of it whose
behaviour is integer logic and state changes, and proves what they promise:

- the asynchronous compute worker that records, submits and recycles command
  buffers on behalf of other threads (`AsyncCompute`);
- the bitmask slot allocators: the D3D12 descriptor pool and the generic
  memory resource (`DescriptorPool`, `MemoryResource`);
- the routing rules of the D3D12 and Vulkan devices: descriptor buckets,
  samplers, pipelines, queue families, queues, command pools, memory types and
  the rotating destroy queues (`D3D12Device`, `VulkanDevice`);
- the fixed-capacity vector `LightArray` (`LightArray`);
- the TIFF/EXIF reader (`Exif`), the JPEG entropy-segment bit reader (`Jpeg`)
  and the `.cube` 3D-LUT loader (`Lut3D`);
- chroma sampling factors and the planar picture layout (`Sampling`,
  `Picture`), mip-level counts (`Textures`), file-name helpers (`FileNames`),
  2D sprite batching (`Render2DBatch`) and mesh helpers (`Meshes`);
- the display-orientation filter, the raw-image codec, the D3D12 buffer, the
  D3D12 render context, the Vulkan instance and the Vulkan image
  (`DisplayOrientation`, `Raw`, `D3D12Buffer`, `RenderContext`,
  `VulkanInstance`, `VulkanImage`).

`Common` holds what several modules share: `Option`, `SLALIGN` (round up to a
multiple, `AlignUp`), `SLROTATE` (`Rotate`), powers of two and the 64-bit
mask helpers (`Bits`, with `_tzcnt_u64` as `TrailingZeros`). These macros and
the intrinsic are defined outside the files modelled here, so their
definitions here are the usual meaning of their names.

Code that changes state step by step is modelled as classes whose methods
have `modifies` clauses and loops with invariants; each such method is proved
against a specification function, and the properties are proved about that
function. Pure code is modelled as functions and lemmas. GPU and operating
system calls, the allocator, the clock and the thread are outside the model:
what they return is a parameter of the model, and the calls the code makes
into them are recorded in traces where the order matters.

## Model

| member | source | states |
|---|---|---|
| AsyncCompute.TaskClassTags | Immortal/Graphics/AsyncCompute.h:58-158 | each task class fixes its own tag (SetQueueTask, RecordingTask, QueueTask, ExecutionCompletedTask), a plain task keeps the tag it was built with, and SetQueueTask hands back exactly its queue |
| AsyncCompute.SetTypeThenGetType | Immortal/Graphics/AsyncCompute.h:33-52 | GetType answers the tag of the last SetType, SetType leaves the payload alone, and setting the current tag changes nothing |
| AsyncCompute.InitialInv | Immortal/Graphics/AsyncCompute.cpp:11-17 | the worker starts with no pending work, nextSyncValue 1, no queue, no open buffer and an empty recycle FIFO, and that state satisfies the worker invariant |
| AsyncCompute.Step | Immortal/Graphics/AsyncCompute.cpp:38-167 | a stopped worker ignores every task; the call trace only grows; the worker leaves the running state only by a fault or by Terminate |
| AsyncCompute.BeginRecordingStep | Immortal/Graphics/AsyncCompute.cpp:62-88 | BeginRecording only appends to the trace, leaves recorded work and pending completions alone, and, while running, leaves a buffer open unless it faults |
| AsyncCompute.SubmitStep | Immortal/Graphics/AsyncCompute.cpp:97-136 | Submiting always clears the recorded-work counter, only appends to the trace and creates no handle |
| AsyncCompute.TerminateStep | Immortal/Graphics/AsyncCompute.cpp:144-162 | Terminate stops the worker with an empty recycle FIFO and only appends deletes to the trace |
| AsyncCompute.BeginRecordingPreservesInv | Immortal/Graphics/AsyncCompute.cpp:62-88 | BeginRecording keeps every held command buffer and event distinct and live (reusing the FIFO front or creating a fresh pair) |
| AsyncCompute.SubmitPreservesInv | Immortal/Graphics/AsyncCompute.cpp:97-136 | a submit keeps the held buffers distinct: the open pair moves to the back of the FIFO, which never held it |
| AsyncCompute.TerminatePreservesInv | Immortal/Graphics/AsyncCompute.cpp:144-162 | Terminate leaves a state satisfying the invariant |
| AsyncCompute.StepPreservesInv | Immortal/Graphics/AsyncCompute.cpp:38-167 | every task of the switch preserves the worker invariant (no command buffer or event held twice, nextSyncValue unchanged) |
| AsyncCompute.RunPreservesInv | Immortal/Graphics/AsyncCompute.cpp:19-168 | the invariant holds after any sequence of tasks and GPU progress |
| AsyncCompute.NextSyncValueNeverChanges | Immortal/Graphics/AsyncCompute.cpp:12 | nextSyncValue is 1 after any run of inputs from the initial state |
| AsyncCompute.RecordingForwardsSyncAndBuffer | Immortal/Graphics/AsyncCompute.cpp:54-60 | a Recording task adds one to the pending-work counter and calls its callback with (nextSyncValue, open command buffer), the buffer possibly absent since nothing checks that recording began |
| AsyncCompute.QueueOperationForwardsQueue | Immortal/Graphics/AsyncCompute.cpp:47-52 | a QueueOperation task calls its callback with the current queue, set or not, and changes nothing else |
| AsyncCompute.BeginRecordingReusesOnlyCompletedFront | Immortal/Graphics/AsyncCompute.cpp:62-88 | with no open buffer, the FIFO front is reused iff its event's completion value has reached its sync point; otherwise a fresh buffer and event are created, which fails the queue assertion iff no queue was set; the opened buffer is begun |
| AsyncCompute.BeginRecordingKeepsOpenBuffer | Immortal/Graphics/AsyncCompute.cpp:64-86 | with a buffer already open, BeginRecording keeps it and only begins it again |
| AsyncCompute.EndRecordingNeedsOpenBuffer | Immortal/Graphics/AsyncCompute.cpp:90-95 | EndRecording fails its assertion iff no buffer is open, and otherwise only ends the open buffer |
| AsyncCompute.SubmitWithoutWorkIsNoop | Immortal/Graphics/AsyncCompute.cpp:99-102 | Submiting with no pending work changes nothing: no submit, FIFO and pending completions untouched |
| AsyncCompute.SubmitRecyclesAndDrains | Immortal/Graphics/AsyncCompute.cpp:103-133 | a submit with work resets the counter, submits the open pair once, and with pending completions waits on its event and invokes them in enqueue order; the pair goes to the back of the FIFO and nothing stays open |
| AsyncCompute.SubmitNeedsOpenBuffer | Immortal/Graphics/AsyncCompute.cpp:103-104 | a submit with pending work and no open buffer fails its assertion |
| AsyncCompute.ExecutionCompletedOnlyAppends | Immortal/Graphics/AsyncCompute.cpp:138-142 | ExecutionCompleted only appends (nextSyncValue, callback) to the pending completions |
| AsyncCompute.MistaggedTaskIsBadCast | Immortal/Graphics/AsyncCompute.cpp:42-123 | a task whose tag names a class other than the one that built it is caught as a bad cast instead of being reinterpreted |
| AsyncCompute.StoppedStaysStopped | Immortal/Graphics/AsyncCompute.cpp:144-162 | once the worker has returned, no later input changes its status, trace or FIFO |
| AsyncCompute.TerminateDeletesAllAndStops | Immortal/Graphics/AsyncCompute.cpp:144-162 | Terminate deletes the open buffer and every recycled pair front first, empties the FIFO and stops; later tasks have no effect |
| AsyncCompute.CompletionsDeliveredInOrder | Immortal/Graphics/AsyncCompute.cpp:107-142 | over any run, completion callbacks are invoked exactly once each and in the order their tasks were enqueued (delivered followed by pending equals the enqueue order) |
| AsyncCompute.StepDelivers | Immortal/Graphics/AsyncCompute.cpp:38-167 | one step keeps the delivered order and appends the completion callback it enqueues, if any |
| AsyncCompute.AsyncComputeThread.constructor | Immortal/Graphics/AsyncCompute.cpp:7-17 | a new thread has no queued task and its worker is in the initial state |
| AsyncCompute.AsyncComputeThread.IsExecutionCompleted | Immortal/Graphics/AsyncCompute.cpp:174-179 | answers true for every value |
| AsyncCompute.AsyncComputeThread.Execute | Immortal/Graphics/AsyncCompute.h:174-183 | enqueues exactly one task at the back and signals the semaphore once, keeping one signal per queued task |
| AsyncCompute.AsyncComputeThread.ExecuteType | Immortal/Graphics/AsyncCompute.h:185-188 | Execute(type) enqueues a tag-only task and signals once |
| AsyncCompute.AsyncComputeThread.RunOnce | Immortal/Graphics/AsyncCompute.cpp:19-167 | one loop turn takes the front task and consumes one signal, then dispatches it; with nothing queued or after Terminate it takes nothing |
| AsyncCompute.AsyncComputeThread.Dispatch | Immortal/Graphics/AsyncCompute.cpp:38-166 | the switch run on the fields leaves exactly the state Step computes |
| AsyncCompute.AsyncComputeThread.BeginRecordingInPlace | Immortal/Graphics/AsyncCompute.cpp:62-88 | the BeginRecording case on the fields leaves exactly the state BeginRecordingStep computes |
| AsyncCompute.AsyncComputeThread.SubmitInPlace | Immortal/Graphics/AsyncCompute.cpp:97-136 | the Submiting case on the fields leaves exactly the state SubmitStep computes |
| AsyncCompute.InvokeCallbacks | Immortal/Graphics/AsyncCompute.cpp:121-124 | every pending completion callback is invoked once, in the order it was queued |
| AsyncCompute.AsyncComputeThread.TerminateInPlace | Immortal/Graphics/AsyncCompute.cpp:144-162 | the Terminate case, its delete loop included, leaves exactly the state TerminateStep computes |
| AsyncCompute.AsyncComputeThread.AdvanceGpu | Immortal/Graphics/AsyncCompute.cpp:69 | the GPU advancing an event's completion value, never past its sync point, with the task queue untouched |
| Bits.TrailingZeros | Immortal/Graphics/D3D12/DescriptorPool.cpp:64 | the trailing-zero count of a non-zero mask is a set bit with no set bit below it |
| DescriptorPool.SlotsPerHeap | Immortal/Graphics/D3D12/DescriptorPool.cpp:22-23 | min(256 / descriptorCount, 64): between 1 and 64 ranges, fitting in 256 descriptors, and the most that fit unless capped at 64 |
| DescriptorPool.FullMask | Immortal/Graphics/D3D12/DescriptorPool.cpp:24 | ((1 << (n - 1)) << 1) - 1 has exactly the low n bits set, all 64 when n is 64 |
| DescriptorPool.Claim | Immortal/Graphics/D3D12/DescriptorPool.cpp:58-88 | mask ^= 1 << index flips exactly bit index and leaves every other bit |
| DescriptorPool.Release | Immortal/Graphics/D3D12/DescriptorPool.cpp:102 | mask \|= 1 << index sets bit index and leaves every other bit |
| DescriptorPool.ReleaseUndoesClaim | Immortal/Graphics/D3D12/DescriptorPool.cpp:88-102 | freeing a slot just claimed from a free bit restores the mask |
| DescriptorPool.SlotOfSlotOffset | Immortal/Graphics/D3D12/DescriptorPool.cpp:91-100 | Free's (ptr - base) / (descriptorCount * increment) recovers exactly the slot AllocateWithMask offset the descriptor by |
| DescriptorPool.SlotOffsetInjective | Immortal/Graphics/D3D12/DescriptorPool.cpp:91-92 | distinct slots of a heap give distinct descriptors |
| DescriptorPool.SlotInsideHeap | Immortal/Graphics/D3D12/DescriptorPool.cpp:22-92 | a slot below the per-heap count starts a range that ends inside the heap |
| DescriptorPool.ClaimKeepsInv | Immortal/Graphics/D3D12/DescriptorPool.cpp:88-89 | claiming a set bit hands out a slot not already out, and keeps every handed-out slot's bit clear |
| DescriptorPool.NewHeapKeepsInv | Immortal/Graphics/D3D12/DescriptorPool.cpp:47-80 | a new heap of the pool's size with the full mask keeps the pool invariant and has slot 0 free |
| DescriptorPool.ReleaseKeepsInv | Immortal/Graphics/D3D12/DescriptorPool.cpp:97-103 | setting the bit of a handed-out slot retires it and keeps the invariant |
| DescriptorPool.ReleaseFreeIsNoop | Immortal/Graphics/D3D12/DescriptorPool.cpp:102 | setting a bit that is already set leaves the mask unchanged |
| DescriptorPool.DescriptorPool.constructor | Immortal/Graphics/D3D12/DescriptorPool.cpp:19-27 | the count-bucket constructor sets the full mask to the low min(256 / descriptorCount, 64) bits and the per-heap size to that many ranges of descriptorCount; it records whether heaps are shader visible, and nothing is active yet |
| DescriptorPool.DescriptorPool.AllocateNextDescriptorHeap | Immortal/Graphics/D3D12/DescriptorPool.cpp:47-53 | appends exactly one heap of descriptorCountPerHeap descriptors and returns it |
| DescriptorPool.DescriptorPool.AddHeap | Immortal/Graphics/D3D12/DescriptorPool.cpp:75-86 | the all-full branch: one new heap with the full mask becomes the active heap (and the active GPU heap when shader visible), with slot 0 free and no slot handed out |
| DescriptorPool.DescriptorPool.ClaimSlot | Immortal/Graphics/D3D12/DescriptorPool.cpp:88-89 | mask ^= 1 << index on a free slot: exactly that bit of that heap is cleared and the slot joins the handed-out ones |
| DescriptorPool.DescriptorPool.FindAvailable | Immortal/Graphics/D3D12/DescriptorPool.cpp:57-73 | finds a heap iff some mask is non-zero, and then takes that heap's lowest set bit |
| DescriptorPool.DescriptorPool.AllocateWithMask | Immortal/Graphics/D3D12/DescriptorPool.cpp:55-95 | claims the lowest free bit of a heap with one, or, when all are full, slot 0 of exactly one new full heap, which becomes the active heap and, in a shader-visible pool, the active GPU heap; only the chosen heap's mask changes, by that one bit; the descriptor is base + index * descriptorCount * increment, and no slot is handed out twice |
| DescriptorPool.DescriptorPool.Free | Immortal/Graphics/D3D12/DescriptorPool.cpp:97-103 | recovers the slot from the descriptor and sets its bit again, with no other mask changed; freeing a slot already free leaves every mask as it was |
| MemoryResource.InitialMark | Immortal/Memory/MemoryResource.h:32-37 | a new mark word has exactly the low `count` bits set, so every slot starts free |
| MemoryResource.Unmarked | Immortal/Memory/MemoryResource.h:39-49 | Unmark clears bit 0 for index 0 and otherwise flips bit index (XOR), leaving every other bit |
| MemoryResource.Marked | Immortal/Memory/MemoryResource.h:51-61 | Mark sets bit index and leaves every other bit |
| MemoryResource.UnmarkTogglesAboveZero | Immortal/Memory/MemoryResource.h:39-49 | Unmark clears a set bit, but on a clear bit other than 0 it sets it |
| MemoryResource.MarkUndoesUnmark | Immortal/Memory/MemoryResource.h:39-61 | Mark after Unmark of a free slot restores the word |
| MemoryResource.MarkFreeIsNoop | Immortal/Memory/MemoryResource.h:51-61 | Mark of a slot that is already free leaves the word as it was, so releasing a free slot again changes nothing |
| MemoryResource.SlotOfAllocated | Immortal/Memory/MemoryResource.h:75-82 | (ptr - data) / size recovers the slot of data + index * size |
| MemoryResource.AllocateThenRelease | Immortal/Memory/MemoryResource.h:63-87 | what Allocate hands out lies in the block, maps back to its slot, and releasing it restores the mark word |
| MemoryResource.MarkBuffer.constructor | Immortal/Memory/MemoryResource.h:32-37 | a new buffer keeps its data pointer and has the initial mark word |
| MemoryResource.MarkBuffer.Unmark | Immortal/Memory/MemoryResource.h:39-49 | the mark word becomes Unmarked of the old one |
| MemoryResource.MarkBuffer.Mark | Immortal/Memory/MemoryResource.h:51-61 | the mark word becomes Marked of the old one |
| MemoryResource.MarkBuffer.Allocate | Immortal/Memory/MemoryResource.h:63-76 | null iff the mark is 0 (with no change); otherwise data + index * size for the lowest set bit, whose bit becomes clear |
| MemoryResource.MarkBuffer.Release | Immortal/Memory/MemoryResource.h:78-87 | true iff ptr lies in [data, data + size * count), in which case slot (ptr - data) / size is marked; otherwise nothing changes |
| MemoryResource.FirstFree | Immortal/Memory/MemoryResource.h:116-123 | the first block whose mark is non-zero, or none when every block is full |
| MemoryResource.MemoryResource.constructor | Immortal/Memory/MemoryResource.h:98-103 | a new resource has no block and keeps size and count |
| MemoryResource.MemoryResource.Allocate | Immortal/Memory/MemoryResource.h:114-128 | takes the lowest free slot of the first block with one, changing only that block's mark; only when every block is full it appends exactly one new block and hands out its slot 0 |
| MemoryResource.MemoryResource.AllocateIn | Immortal/Memory/MemoryResource.h:116-123 | allocating on block k hands out its lowest free slot and changes only block k's mark word |
| MemoryResource.MemoryResource.AllocateInNewBlock | Immortal/Memory/MemoryResource.h:125-127 | the emplace_back path appends one fresh block after all others and hands out its slot 0, whose bit is cleared |
| MemoryResource.MemoryResource.Grow | Immortal/Memory/MemoryResource.h:125-126 | appends one fresh block with every slot free, placed after all others |
| MemoryResource.MemoryResource.Release | Immortal/Memory/MemoryResource.h:130-139 | marks the slot in the first block that owns the pointer and changes nothing for a foreign pointer |
| MemoryResource.MemoryResource.FindFree | Immortal/Memory/MemoryResource.h:116-123 | the list walk finds exactly FirstFree of the marks |
| MemoryResource.MemoryResource.FindOwner | Immortal/Memory/MemoryResource.h:132-138 | the list walk finds exactly the first block whose bytes contain the pointer |
| MemoryResource.MemoryResource.OwnerIsHoldingBlock | Immortal/Memory/MemoryResource.h:130-139 | since blocks do not overlap, the first owner of a pointer inside block k is block k itself |
| D3D12Device.Cast | Immortal/Graphics/D3D12/Device.cpp:24-41 | CAST(QueueType) gives DIRECT exactly for Graphics and any unnamed queue type |
| D3D12Device.QueueTypeOf | Immortal/Graphics/D3D12/Device.cpp:24-41 | every command-list type comes from a named queue type, never an unnamed one |
| D3D12Device.CastIsBijectionOnNamedTypes | Immortal/Graphics/D3D12/Device.cpp:24-41 | Graphics, Compute, Transfer, VideoDecoding and VideoEncoding map to DIRECT, COMPUTE, COPY, VIDEO_DECODE and VIDEO_ENCODE: every command-list type is reached, each from exactly one named queue type |
| D3D12Device.AllocateRoute | Immortal/Graphics/D3D12/Device.cpp:304-327 | a count goes to its bucket iff it is below the bucket-array length, otherwise to a dedicated heap; never out of range |
| D3D12Device.FreeRoute | Immortal/Graphics/D3D12/Device.cpp:370-382 | corrected: freeing goes to the bucket iff the count is below the bucket-array length, otherwise deletes the dedicated heap; never out of range |
| D3D12Device.FreeRouteAsWritten | Immortal/Graphics/D3D12/Device.cpp:329-334 | FreeDescriptor as written never takes a dedicated-heap route: a count at or past the bucket-array length indexes past it |
| D3D12Device.FreeAsWrittenMissesDedicated | Immortal/Graphics/D3D12/Device.cpp:322-334 | a descriptor of bucketCount entries is allocated on a dedicated heap but FreeDescriptor as written routes it out of the bucket array |
| D3D12Device.FreeRouteMatchesAllocateRoute | Immortal/Graphics/D3D12/Device.cpp:304-382 | with the dedicated-heap branch FreeShaderVisibleDescriptor has, every descriptor is freed the way it was allocated |
| D3D12Device.GpuOffset | Immortal/Graphics/D3D12/Device.cpp:355-357 | (offset / increment) * increment is a multiple of the increment within one increment below the CPU offset |
| D3D12Device.GpuOffsetMatchesCpuOffset | Immortal/Graphics/D3D12/Device.cpp:352-357 | the GPU handle offset by (ptr - heap CPU base) / increment increments lands at the same byte offset as the CPU descriptor |
| D3D12Device.Device.constructor | Immortal/Graphics/D3D12/Device.cpp:304-382 | a new device has no bucket pool, no dedicated heap, no sampler and no cached pipeline |
| D3D12Device.Device.AllocateDescriptor | Immortal/Graphics/D3D12/Device.cpp:304-327 | a count below the bucket-array length allocates from bucket (type, count), created on first use and reused afterwards: the slot handed out was free, is now live, and only its bit is cleared, with every other bucket, the samplers and the pipelines unchanged; a count of 0 fails; a larger count gets a new dedicated heap |
| D3D12Device.Device.GetOrCreatePool | Immortal/Graphics/D3D12/Device.cpp:309-317 | the bucket is created once, with the heap type's increment, and the same pool is returned afterwards |
| D3D12Device.Device.AllocateInBucket | Immortal/Graphics/D3D12/Device.cpp:306-319 | the bucket path returns a descriptor of bucket (type, count) at the offset of a slot that was free and is now live, with only its bit cleared; the pool is created only when missing, and no other bucket changes |
| D3D12Device.Device.AllocateFromPool | Immortal/Graphics/D3D12/Device.cpp:319 | AllocateWithMask on the bucket's pool returns a descriptor of that bucket at the offset of the slot it claimed; the slot was free, is now live, and only its bit is cleared |
| D3D12Device.Device.FreeToPool | Immortal/Graphics/D3D12/Device.cpp:329-334 | Free on the bucket's pool retires exactly that slot and sets exactly its bit again |
| D3D12Device.Device.FreeDescriptor | Immortal/Graphics/D3D12/Device.cpp:329-334 | corrected: a bucket descriptor's bit is set again in its pool and nothing else changes; a dedicated heap is deleted |
| D3D12Device.Device.AllocateShaderVisibleDescriptor | Immortal/Graphics/D3D12/Device.cpp:336-368 | the same routing over the shader-visible buckets, creating the bucket on first use, with the claimed slot free before and live after, every other bucket unchanged, and the GPU handle at the CPU descriptor's offset |
| D3D12Device.Device.AllocateShaderVisibleInBucket | Immortal/Graphics/D3D12/Device.cpp:338-359 | the bucket path creates the shader-visible bucket when missing and returns a descriptor of a slot that was free and is now live, with no other bucket changed, and a GPU offset equal to its CPU offset |
| D3D12Device.Device.GetOrCreateShaderVisiblePool | Immortal/Graphics/D3D12/Device.cpp:341-350 | the shader-visible bucket is created once and reused |
| D3D12Device.Device.FreeShaderVisibleDescriptor | Immortal/Graphics/D3D12/Device.cpp:370-382 | below the bucket-array length the slot returns to its pool; at or past it the dedicated heap is deleted |
| D3D12Device.Device.GetSampler | Immortal/Graphics/D3D12/Device.cpp:283-302 | Nearest and Linear samplers are created on first request and the same one is returned afterwards; any other filter gets none and nothing changes |
| D3D12Device.Device.GetPipeline | Immortal/Graphics/D3D12/Device.cpp:231-281 | a cached pipeline is returned as is; a name missing from the static table, or whose shader file cannot be opened, gives none and is not cached; otherwise the pipeline is built and cached under its name |
| VulkanDevice.ExclusionMask | Immortal/Graphics/Vulkan/Device.cpp:194-204 | a compute request excludes graphics families, a transfer request excludes graphics and compute families, nothing else is excluded |
| VulkanDevice.FamilyIndex | Immortal/Graphics/Vulkan/Device.cpp:190-217 | the first family having a requested bit and no excluded one, or 0 when none does |
| VulkanDevice.GetQueueFamilyIndex | Immortal/Graphics/Vulkan/Device.cpp:190-217 | the read-only scan returns exactly FamilyIndex |
| VulkanDevice.FamilyIndexIsFirst | Immortal/Graphics/Vulkan/Device.cpp:206-214 | the scan stops at the first serving family |
| VulkanDevice.DedicatedTransferFamily | Immortal/Graphics/Vulkan/Device.cpp:201-214 | when a transfer-only family exists, a transfer request gets a family with the transfer bit and neither graphics nor compute |
| VulkanDevice.QueuePriorities | Immortal/Graphics/Vulkan/Device.cpp:39-55 | one priority per queue of each family, all 0.5 except queue 0 of the graphics family GetQueueFailyIndex picks, which is 1.0 iff the high-priority flag is set; requires that family to report at least one queue when the flag is set |
| VulkanDevice.Supported | Immortal/Graphics/Vulkan/Device.cpp:87-95 | a requested extension name is enabled iff it is supported |
| VulkanDevice.EnableExtensions | Immortal/Graphics/Vulkan/Device.cpp:75-108 | the dedicated-allocation pair comes first iff both are supported, then every supported requested extension in order; a missing optional one is only skipped, and creation stops iff some required one is missing |
| VulkanDevice.GetMemoryType | Immortal/Graphics/Vulkan/Device.cpp:375-403 | the least i below memoryTypeCount whose requirement bit is set and whose flags include the properties; when none fits, not-found iff the caller asked to be told, otherwise the assertion fails |
| VulkanDevice.FirstFit | Immortal/Graphics/Vulkan/Device.cpp:377-391 | the shifting scan finds a fitting type with no fitting type before it, or reports that none below memoryTypeCount fits |
| VulkanDevice.Device.constructor | Immortal/Graphics/Vulkan/Device.cpp:33-55 | a new device has every queue unoccupied, no command pool and empty destroy queues |
| VulkanDevice.Device.FindFreeQueue | Immortal/Graphics/Vulkan/Device.cpp:270-282 | the first unoccupied queue in family-major order whose family has every requested flag, or none |
| VulkanDevice.Device.CreateQueue | Immortal/Graphics/Vulkan/Device.cpp:266-286 | occupies and returns the first free queue that has every requested flag; when none, occupies queue [0][0] whatever its state; exactly that one queue changes |
| VulkanDevice.Device.CommandPoolFor | Immortal/Graphics/Vulkan/Device.cpp:288-308 | at most one command pool per thread id: created on the thread's first request and reused afterwards |
| VulkanDevice.Device.DestroyObjects | Immortal/Graphics/Vulkan/Device.cpp:405-420 | takes the queue at `freeing`, rotates both cursors, runs that queue's callbacks in FIFO order and leaves it empty; no other queue changes |
| VulkanDevice.RotateKeepsDistance | Immortal/Graphics/Vulkan/Device.cpp:410-411 | both cursors rotate together, so their distance around the ring never changes |
| LightArray.LightArray.constructor | Immortal/Algorithm/LightArray.h:16-34 | a new array is empty, has Reserved slots, all value-initialised |
| LightArray.LightArray.Move | Immortal/Algorithm/LightArray.h:41-46 | the move constructor takes over the other array's first size elements and leaves it empty, its former elements reset |
| LightArray.LightArray.MoveAssign | Immortal/Algorithm/LightArray.h:48-55 | move assignment copies the other's elements over its own, keeps its slots past them, and leaves the other empty |
| LightArray.LightArray.Size | Immortal/Algorithm/LightArray.h:60-63 | the current element count |
| LightArray.LightArray.GetCapacity | Immortal/Algorithm/LightArray.h:90-93 | capacity() is always Reserved, the length of the storage |
| LightArray.LightArray.Empty | Immortal/Algorithm/LightArray.h:130-133 | empty() iff the size is 0 |
| LightArray.LightArray.Front | Immortal/Algorithm/LightArray.h:75-78 | front() is storage slot 0, the first element when there is one |
| LightArray.LightArray.Back | Immortal/Algorithm/LightArray.h:80-83 | back() is the element at size - 1, the last one |
| LightArray.LightArray.Resize | Immortal/Algorithm/LightArray.h:85-88 | resize sets the size only, with no bound check and no element written |
| LightArray.LightArray.EmplaceBack | Immortal/Algorithm/LightArray.h:95-107 | with size below capacity, appends at position size and leaves earlier elements and later slots unchanged |
| LightArray.LightArray.Get | Immortal/Algorithm/LightArray.h:109-119 | operator[] with index below size reads that element |
| LightArray.LightArray.Set | Immortal/Algorithm/LightArray.h:109-113 | writing through operator[] changes exactly that element |
| LightArray.LightArray.Clear | Immortal/Algorithm/LightArray.h:121-128 | resets the first size slots to the default value, leaves the rest, and sets size to 0 |
| Exif.LittleEndian | Immortal/Vision/Image/Exif.cpp:8-12 | InterpretAs on a little-endian host: the value of n bytes is below 256^n |
| Exif.ReversedLittleEndianIsBigEndian | Immortal/Vision/Image/Exif.cpp:14-45 | reading reversed bytes least significant first is reading the bytes most significant first |
| Exif.MMInterpretAs | Immortal/Vision/Image/Exif.cpp:14-45 | the bytes of a 2-, 4- or 8-byte value read in reverse order give a value below 256^width |
| Exif.MMInterpretAsIsBigEndian | Immortal/Vision/Image/Exif.cpp:14-45 | MMInterpretAs of a 2-, 4- or 8-byte value is its big-endian reading, the order TIFF prescribes for "MM" files |
| Exif.ReadField | Immortal/Vision/Image/Exif.cpp:56-74 | a 16- or 32-bit field is read in the file's byte order; it is absent exactly when it lies past the buffer, and below 256^width |
| Exif.OffsetBytesRoundTrip | Immortal/Vision/Image/Exif.h:66-69 | the four bytes of the offset field, as a value of at most 4 bytes is copied from it, read back to the offset |
| Exif.ElementWidth | Immortal/Vision/Image/Exif.cpp:81-130 | the twelve TIFF types 1..12 have element sizes 1, 2, 4 or 8; every other type code has none |
| Exif.ReadValueAsWritten | Immortal/Vision/Image/Exif.h:60-83 | ReadValue as written: an accepted value has size of-type times count bytes |
| Exif.ReadValue | Immortal/Vision/Image/Exif.h:60-83 | corrected: a value read has size of-type times count bytes; it may end exactly at the end of the buffer |
| Exif.ReadValueReadsInBounds | Immortal/Vision/Image/Exif.h:60-83 | the corrected ReadValue succeeds iff the value fits in the offset field or lies wholly inside the buffer, and returns exactly those bytes |
| Exif.AsWrittenAgreesWhenAccepted | Immortal/Vision/Image/Exif.h:66-80 | wherever the code as written accepts a value, it reads the same bytes as the corrected one |
| Exif.ReadValueRejectsValueEndingAtEnd | Immortal/Vision/Image/Exif.h:72-75 | two LONGs in the last 8 bytes of a 12-byte buffer are rejected as written and read when corrected |
| Exif.ReadValues | Immortal/Vision/Image/Exif.cpp:81-136 | corrected: reading values keeps type, count and offset, and the tag either stays or becomes Invalid |
| Exif.ParseEntry | Immortal/Vision/Image/Exif.cpp:56-74 | corrected: an entry is built iff its 12 bytes lie in the buffer |
| Exif.EntryInvalidIffUnreadable | Immortal/Vision/Image/Exif.cpp:81-136 | corrected: an entry keeps its tag iff its type is known and its value fits in the offset field or the buffer |
| Exif.ParseEntriesAt | Immortal/Vision/Image/Exif.cpp:245-251 | a run of count entries parses iff it fits, and entry j is the one at 12 j bytes past the start |
| Exif.InsertKeys | Immortal/Vision/Image/Exif.cpp:250 | after storing entries under their tags, the tags present are the earlier ones and the entries' tags |
| Exif.LastEntryWins | Immortal/Vision/Image/Exif.cpp:250 | an entry whose tag no later entry repeats is the one stored under that tag |
| Exif.EntriesKeep | Immortal/Vision/Image/Exif.cpp:250 | a tag no stored entry carries keeps its earlier entry |
| Exif.EntriesStep | Immortal/Vision/Image/Exif.cpp:245-251 | one loop turn: the first entry is stored, then the remaining count - 1 are read; an unreadable first entry fails the run |
| Exif.Entries | Immortal/Vision/Image/Exif.cpp:245-251 | corrected: count entries are stored iff the count is 0 or all 12 count bytes lie in the buffer, and no tag already in the map is lost |
| Exif.Directory | Immortal/Vision/Image/Exif.cpp:238-274 | corrected: a directory parses only when its count and next-offset fields lie in the buffer, and keeps every tag already in its slot |
| Exif.Chain | Immortal/Vision/Image/Exif.cpp:214-236 | corrected: a chain that parses leaves seven slots |
| Exif.ChainKeepsEarlierSlots | Immortal/Vision/Image/Exif.cpp:214-236 | a chain starting at slot index never changes the slots before it |
| Exif.ChainFillsSuccessiveSlots | Immortal/Vision/Image/Exif.cpp:217-255 | corrected: a chain that parses puts its first directory, merged into that slot's entries, in its starting slot |
| Exif.ReadHeader | Immortal/Vision/Image/Exif.cpp:177-212 | a header accepted as Success has at least 8 bytes and starts "MM" or "II", and is big-endian iff it starts "MM" |
| Exif.HeaderByteOrder | Immortal/Vision/Image/Exif.cpp:177-212 | an 8-byte header is accepted iff it is "II" 2A 00 or "MM" 00 2A |
| Exif.EmptySlots | Immortal/Vision/Image/Exif.cpp:146-149 | the reader starts with seven empty directory maps |
| Exif.GetValue | Immortal/Vision/Image/Exif.h:105-165 | a slot index out of range or a missing tag gives the zero value; otherwise the first bytes of the stored value |
| Exif.SubChains | Immortal/Vision/Image/Exif.cpp:161-174 | the sub-directory checks of IFD0..IFD2 keep the seven slots |
| Exif.SubChainStep | Immortal/Vision/Image/Exif.cpp:165-172 | a present SubIFDs tag reads the chain at its value into SubIFD0 on, and the main slots are left alone |
| Exif.SubChainsKeepMainSlots | Immortal/Vision/Image/Exif.cpp:161-174 | the sub-directory chains never change IFD0..IFD2 |
| Exif.HeaderFailureParsesNothing | Immortal/Vision/Image/Exif.cpp:151-154 | a header that fails returns its status and leaves every slot empty |
| Exif.Read | Immortal/Vision/Image/Exif.cpp:138-175 | corrected: the reader always ends with seven directory slots, whatever the bytes |
| Exif.ExifReader.constructor | Immortal/Vision/Image/Exif.cpp:138-175 | corrected: constructing runs header, IFD0 chain and sub-directory chains, and the reader's state is Read of the data |
| Exif.ExifReader.ParseHeader | Immortal/Vision/Image/Exif.cpp:177-212 | ParseHeader returns the header's verdict and records its byte order and first offset |
| Exif.ExifReader.ParseIFD | Immortal/Vision/Image/Exif.cpp:238-274 | corrected: one directory (little- or big-endian) is merged into its slot, no other slot changes, and the next offset is returned |
| Exif.ExifReader.ReadEntries | Immortal/Vision/Image/Exif.cpp:245-270 | corrected: the entry loop stores each entry under its tag in the slot, as Entries specifies |
| Exif.ExifReader.ParseIFDChain | Immortal/Vision/Image/Exif.cpp:214-236 | corrected: the chain loop leaves the slots as Chain specifies, and fails only out of bounds |
| Exif.ExifReader.ParseSubIFDs | Immortal/Vision/Image/Exif.cpp:161-174 | the loop over IFD0..IFD2 leaves the slots as SubChains specifies |
| Jpeg.BytesToBitsConcat | Immortal/Vision/Image/JPEG.h:72-76 | the bits of two byte runs are the bits of the first followed by those of the second, the order bytes are shifted into the word |
| Jpeg.Feed | Immortal/Vision/Image/JPEG.h:74-93 | one feed moves the pointer forward within the buffer, or leaves it where it is past the end |
| Jpeg.FeedCases | Immortal/Vision/Image/JPEG.h:74-93 | one feed: a plain byte advances by one; 0xFF 0x00 feeds 0xFF and skips the stuffed zero; 0xFF RSTn feeds the marker byte and flags a restart; past the end it feeds 0 and stays |
| Jpeg.StreamPrefix | Immortal/Vision/Image/JPEG.h:67-96 | the de-stuffed stream is one sequence: reading more bytes only extends what was read |
| Jpeg.ZerosPastEnd | Immortal/Vision/Image/JPEG.h:74 | once the buffer is exhausted the pointer stays and every further byte fed is 0 |
| Jpeg.RefillAsWritten | Immortal/Vision/Image/JPEG.h:67-73 | Move as written raises bitsLeft by bytes to at least n, with no limit at 64 |
| Jpeg.RefillAsWrittenOverflows | Immortal/Vision/Image/JPEG.h:52-95 | GetBits(10) with 9 bits pending makes Move(58) raise bitsLeft to 65, so the shift count 64 - bitsLeft is negative |
| Jpeg.Refill | Immortal/Vision/Image/JPEG.h:67-96 | corrected: the refill never lowers the pending bit count, and reads nothing when n bits are already pending or the word has more than 56 |
| Jpeg.RefillFits | Immortal/Vision/Image/JPEG.h:67-96 | the corrected refill stays within 64 bits, adds whole bytes, and reaches n or fills the word past 56 bits |
| Jpeg.BitTracker.constructor | Immortal/Vision/Image/JPEG.h:43-50 | the tracker starts at the buffer's first byte with the word filled by Move(64): 64 bits pending, 8 bytes fed, the restart flag set iff one of them was a restart marker |
| Jpeg.BitTracker.GetBits | Immortal/Vision/Image/JPEG.h:52-64 | corrected: GetBits(n) returns the next n bits of the de-stuffed stream right-aligned, advances the position by n, and refills with Move(n + 48) only when fewer than n bits are pending; any n up to 63 is served from pending bits, up to 57 when a refill is due |
| Jpeg.BitTracker.Take | Immortal/Vision/Image/JPEG.h:59-63 | with n bits pending, returns them right-aligned and shifts them out of the word |
| Jpeg.BitTracker.Move | Immortal/Vision/Image/JPEG.h:67-96 | corrected: Move(n) appends stream bytes below the pending bits without moving the read position, to the corrected refill count, and records any restart marker met |
| Jpeg.BitTracker.Fill | Immortal/Vision/Image/JPEG.h:69-94 | Move's loop collects the fed bytes right-aligned and extends the stream by exactly them |
| Jpeg.BitTracker.FeedNext | Immortal/Vision/Image/JPEG.h:70-94 | one loop turn adds 8 pending bits and the next stream byte |
| Jpeg.BitTracker.FeedByte | Immortal/Vision/Image/JPEG.h:72-93 | one loop body shifts the collected bits up a byte and or-s in the byte Feed gives, moving the pointer as Feed does |
| Jpeg.Word | Immortal/Vision/Image/JPEG.h:143-161 | Word reads two bytes big-endian into a 16-bit value |
| Jpeg.WordRoundTrip | Immortal/Vision/Image/JPEG.h:143-161 | Word and the two-byte big-endian layout are inverse |
| Jpeg.ParseMarker | Immortal/Vision/Image/JPEG.h:274-282 | after the marker code, the segment length is the next word; the data pointer moves past the segment and the body starts after the length; absent when the length lies past the buffer |
| Jpeg.MarkerBodyLength | Immortal/Vision/Image/JPEG.h:277-281 | the body handed to process is the segment less its two length bytes |
| Lut3D.IsSpace | Immortal/Filter/Lut3DFilter.cpp:20-28 | white space is exactly space, form feed, newline, carriage return, tab and vertical tab, so never '#' |
| Lut3D.SkipLine | Immortal/Filter/Lut3DFilter.cpp:30-37 | a line is skipped iff, after its leading white space, it is empty or starts with '#' |
| Lut3D.DomainBound | Immortal/Filter/Lut3DFilter.cpp:46-54 | a DOMAIN_ line names the lower bound iff "MIN " follows the prefix and the upper bound iff "MAX " does |
| Lut3D.DomainLine | Immortal/Filter/Lut3DFilter.cpp:44-65 | a DOMAIN_ line is Text iff its bound is known and three numbers follow, and then only that bound changes; otherwise InvalidData, never Value |
| Lut3D.Parsed | Immortal/Filter/Lut3DFilter.cpp:39-73 | the corrected ParseText: Value leaves in the buffer the first line that is neither blank, comment, DOMAIN_ nor TITLE, after skipping only blank and comment lines; Text comes from a DOMAIN_ or TITLE line; the end of the file is InvalidData |
| Lut3D.ParseTextAsWrittenHangsAtEnd | Immortal/Filter/Lut3DFilter.cpp:41-70 | as written, once the file is exhausted getline leaves an empty line, which is skipped, so ParseText never returns whatever the number of iterations |
| Lut3D.ParseTextAsWritten | Immortal/Filter/Lut3DFilter.cpp:41-70 | as written: a line returned as a value line is neither skippable nor a TITLE line, and lies past the starting position |
| Lut3D.ParseTextAsWrittenAgrees | Immortal/Filter/Lut3DFilter.cpp:39-73 | whenever ParseText as written returns, the file was not exhausted and it returns what the corrected one does |
| Lut3D.IdxInjective | Immortal/Filter/Lut3DFilter.cpp:140 | the slot i*s*s + j*s + k determines its three coordinates below s |
| Lut3D.Coords | Immortal/Filter/Lut3DFilter.cpp:124-140 | every slot below s^3 has coordinates below s that index it |
| Lut3D.StoreIsBijection | Immortal/Filter/Lut3DFilter.cpp:124-145 | storing data line k*s*s + j*s + i at slot i*s*s + j*s + k sends distinct lines to distinct slots and fills every slot of [0, s^3) |
| Lut3D.StoreStep | Immortal/Filter/Lut3DFilter.cpp:140-141 | storing the next data line at its transposed slot keeps every earlier line at its own slot |
| Lut3D.GetEntryPoint | Immortal/Filter/Lut3DFilter.cpp:75-88 | Nearest gives "InterpolateNearest", Trilinear gives "InterpolateTrilinear", every other type none |
| Lut3D.Side | Immortal/Filter/Lut3DFilter.cpp:124-128 | the loops run size times each, none for a negative size |
| Lut3D.SizeText | Immortal/Filter/Lut3DFilter.cpp:109 | atoi reads the text after the 12-character prefix; a shorter line gives the empty text |
| Lut3D.Datum | Immortal/Filter/Lut3DFilter.cpp:130-141 | a table entry that reads consumes at least one line and stays within the file |
| Lut3D.Data | Immortal/Filter/Lut3DFilter.cpp:124-145 | count entries that read give exactly count values and end within the file |
| Lut3D.TableScan | Immortal/Filter/Lut3DFilter.cpp:104-148 | the outer getline loop keeps the table the size of its cube: a scan that returns holds Side(size)^3 entries for its last size |
| Lut3D.DataFailureExtends | Immortal/Filter/Lut3DFilter.cpp:130-144 | once one entry fails to read, reading any larger table fails |
| Lut3D.SizeOutOfRangeLoads | Immortal/Filter/Lut3DFilter.cpp:109-116 | LUT_3D_SIZE 1 is outside [2, 256] but is only logged: its single entry is loaded |
| Lut3D.UnknownDomainAborts | Immortal/Filter/Lut3DFilter.cpp:55-58 | a DOMAIN_ line with an unknown suffix among the data aborts the constructor |
| Lut3D.TruncatedTableAborts | Immortal/Filter/Lut3DFilter.cpp:124-138 | a size-2 table with no data lines hangs as written and aborts when corrected |
| Lut3D.CubeStream.constructor | Immortal/Filter/Lut3DFilter.cpp:95-102 | the stream starts before the first line with the bounds 0 0 0 and 1 1 1 given |
| Lut3D.CubeStream.GetLine | Immortal/Filter/Lut3DFilter.cpp:43 | getline stores the next line and advances, or at the end of the file fails and leaves the empty line |
| Lut3D.CubeStream.ParseText | Immortal/Filter/Lut3DFilter.cpp:39-73 | the do-while loop leaves the stream exactly as Parsed specifies and returns its result |
| Lut3D.CubeStream.ReadDatum | Immortal/Filter/Lut3DFilter.cpp:130-141 | ParseText is repeated while it gives Text, then three numbers are read from the line; this succeeds iff the next table entry exists |
| Lut3D.Lut3DFilter.constructor | Immortal/Filter/Lut3DFilter.cpp:90-175 | corrected: every LUT_3D_SIZE line loads a table; if a load aborts, no pipeline is created; otherwise the last size and table are kept, each line at its transposed slot, and the pipeline gets the type's entry point |
| Lut3D.Lut3DFilter.LoadTable | Immortal/Filter/Lut3DFilter.cpp:107-148 | one LUT_3D_SIZE line sets the size and makes a new s^3 table; it fails iff the s^3 entries cannot be read, and otherwise stores each one at its transposed slot |
| Lut3D.Lut3DFilter.LoadPlane | Immortal/Filter/Lut3DFilter.cpp:126-146 | the j and i loops for one k read s*s more entries into their slots, or fail only where the whole read fails |
| Lut3D.Lut3DFilter.LoadRow | Immortal/Filter/Lut3DFilter.cpp:128-145 | the i loop for one (k, j) reads s more entries into their slots, or fails only where the whole read fails |
| Lut3D.Lut3DFilter.LoadEntry | Immortal/Filter/Lut3DFilter.cpp:130-144 | one entry is read and stored at slot i*s*s + j*s + k, or the whole read fails |
| Sampling.FactorOf | Immortal/Vision/Common/SamplingFactor.h:19-46 | the format constructor halves horizontally exactly the 4:2:2 and 4:2:0 8- and 10-bit formats, NV12 and P010LE, and vertically exactly the 4:2:0 ones among them; every other format keeps (0, 0) |
| Sampling.PlaneFactors | Immortal/Vision/Common/SamplingFactor.h:52-92 | the planar families get three factors, plane 0 full and planes 1 and 2 equal (full, 2:1 horizontal, or 2:1 both ways); Y210/Y216 get one factor (1, 0); other formats none |
| Sampling.GetSamplingFactor | Immortal/Vision/Common/SamplingFactor.h:52-92 | the array's first entries become the format's plane factors and the rest of the caller's array is unchanged |
| Sampling.ConstructorMatchesChroma | Immortal/Vision/Common/SamplingFactor.h:19-92 | where the format constructor picks a factor, it equals the chroma factor GetSamplingFactor gives planes 1 and 2 |
| Sampling.ConstructorIgnoresDeepFormats | Immortal/Vision/Common/SamplingFactor.h:43-83 | the 12- and 16-bit 4:2:2 and 4:2:0 formats are where the two disagree: the constructor keeps (0, 0) and GetSamplingFactor subsamples them |
| Picture.FactorFor | Immortal/Vision/Picture.cpp:38-39 | plane i uses the factor GetSamplingFactor wrote for it, else the default (0, 0) |
| Picture.PixelShift | Immortal/Vision/Picture.cpp:41 | the pixel shift is 1 iff the format is high bit depth, else 0 |
| Picture.PlaneStride | Immortal/Vision/Picture.cpp:46-49 | every plane stride is a multiple of 8 |
| Picture.PlaneRows | Immortal/Vision/Picture.cpp:47 | the luma plane has height >> y rows; a chroma plane has the height rounded up to even, >> y |
| Picture.PlaneOffset | Immortal/Vision/Picture.cpp:43-57 | offsets[i] is the sum of the sizes of the planes before i (its properties are PlanesDisjoint and PlanesFitAllocation) |
| Picture.PlanesDisjoint | Immortal/Vision/Picture.cpp:43-57 | the planes do not overlap: a later plane starts at or after the end of an earlier one |
| Picture.PlanesFitAllocation | Immortal/Vision/Picture.cpp:50-53 | every plane ends within the single allocation of the summed size |
| Picture.LayoutStep | Immortal/Vision/Picture.cpp:45-50 | one loop turn computes plane i's stride and the offset of plane i + 1 |
| Picture.Factors | Immortal/Vision/Picture.cpp:38-39 | the four default-constructed factors after GetSamplingFactor are FactorFor of each plane |
| Picture.PictureStride | Immortal/Vision/Picture.cpp:109-110 | the stride Picture passes is width times texel size cast to 32 bits, exact when it fits |
| Picture.SharedPictureData.constructor | Immortal/Vision/Picture.cpp:10-70 | without allocation: the given stride, no data and no allocator call; with a memory resource: the aligned stride, one block and a release closure bound to this picture; otherwise a YUV picture gets the three plane strides and plane addresses inside one block of exactly the planes' total size, any other picture the aligned stride and a block of stride[0] × height bytes, each released by deallocation; except for a heap-allocated YUV picture, planes 1 and 2 keep zero data and stride |
| Picture.SharedPictureData.AllocateFromHeap | Immortal/Vision/Picture.cpp:35-63 | the allocator is asked for the planes' total size for a YUV picture, with each plane placed at its offset in the block, and for stride[0] × height bytes for any other picture, whose strides and planes 1 and 2 stay as they were |
| Picture.SharedPictureData.AllocatePlanes | Immortal/Vision/Picture.cpp:43-57 | plane 0 is the block and each later plane is at the block plus its offset, with the layout's strides; the size allocated is the sum of all plane sizes |
| Picture.SharedPictureData.Layout | Immortal/Vision/Picture.cpp:38-51 | the layout loop sets each plane's stride and returns each plane's offset and the total size of the planes |
| Picture.SharedPictureData.PlaneStep | Immortal/Vision/Picture.cpp:45-50 | one loop turn sets only plane i's stride and returns the offset of plane i + 1 |
| Picture.SharedPictureData.Destroy | Immortal/Vision/Picture.cpp:78-84 | the destructor calls the release function on data[0] iff one is set; the memory-resource closure releases into the memory resource its owner holds at that moment, the heap closure deallocates |
| Picture.SharedPictureData.Swap | Immortal/Vision/Picture.cpp:91-101 | both pictures exchange data and strides element by element, format, size, memory type, release and memory resource; each keeps its own timestamp |
| Picture.SwapThenDestroyReleasesToOtherResource | Immortal/Vision/Picture.cpp:29-31 | after pictures allocated from resources rA and rB are swapped, destroying the second releases the first picture's block into rB: the swapped closure reads its owner's swapped resource pointer |
| Textures.Levels | Immortal/Graphics/Texture.h:16-23 | at least one level for every side length |
| Textures.MipLevels | Immortal/Graphics/Texture.h:16-23 | every texture has at least one mip level |
| Textures.LevelsBounds | Immortal/Graphics/Texture.h:16-23 | m < 2^Levels(m), and m >= 2^l for every l from 1 below Levels(m) |
| Textures.StopsIff | Immortal/Graphics/Texture.h:19 | the loop test fails at L exactly when the shorter side is below 2^L |
| Textures.MipLevelsLeast | Immortal/Graphics/Texture.h:16-23 | the mip-level count is the least L >= 1 at which one side shifted right by L is 0 |
| Textures.ZeroSideOneLevel | Immortal/Graphics/Texture.h:18-19 | a texture with a zero side has one level |
| Textures.MipLevelsSymmetric | Immortal/Graphics/Texture.h:19 | exchanging width and height gives the same count |
| Textures.FullHdLevels | Immortal/Graphics/Texture.h:16-23 | a 1920 x 1080 texture has 11 levels |
| Textures.CalculateMipmapLevels | Immortal/Graphics/Texture.h:16-23 | the counting loop returns MipLevels of the two sides |
| Textures.Texture.constructor | Immortal/Graphics/Texture.h:46-66 | SetMeta: the texture holds the given format, size, mip levels and array layers |
| Textures.Texture.Swap | Immortal/Graphics/Texture.h:48-55 | the two textures exchange format, width, height, mip levels and array layers |
| FileNames.NameStart | Immortal/FileSystem/FileSystem.cpp:56-68 | the name starts right after a separator (or at 0) and no separator follows it |
| FileNames.NameStartUnique | Immortal/FileSystem/FileSystem.cpp:62 | that start is the only position with a separator (or the path start) before it and none after it |
| FileNames.ParseFileName | Immortal/FileSystem/FileSystem.cpp:56-68 | the backwards walk returns the path from just after its last '/' or '\' |
| FileNames.RFind | Immortal/FileSystem/FileSystem.h:48 | rfind gives the last index holding the character, or none when no index does |
| FileNames.ExtractFileName | Immortal/FileSystem/FileSystem.h:45-53 | the extracted name is no longer than the parsed name |
| FileNames.ExtractIsParsedWithoutExtension | Immortal/FileSystem/FileSystem.h:45-53 | the extracted name is a prefix of the parsed name; when shorter, it stops at the parsed name's last '.' |
| FileNames.ExtractFileNameNoSeparator | Immortal/FileSystem/FileSystem.h:45-53 | the extracted name holds no separator |
| FileNames.ExtractExamples | Immortal/FileSystem/FileSystem.h:47-52 | "dir/a.b.txt" gives "a.b"; "x.d/name" gives "name", because a dot before the name start wraps the unsigned count and substr runs to the end |
| FileNames.Classify | Immortal/FileSystem/FileSystem.cpp:14-45 | an entry is a regular file iff the iterator says so, else a directory; a directory is empty iff is_empty does not answer false, and a regular file is never marked empty |
| FileNames.Listed | Immortal/FileSystem/FileSystem.cpp:12-48 | no more entries are listed than the iterator yields |
| FileNames.ListedKept | Immortal/FileSystem/FileSystem.cpp:22-47 | every listed entry is the classification of an entry the filter keeps: no '$' or '.' name, no "System Volume Information", no SYSTEM attribute on Win32 |
| FileNames.KeptListed | Immortal/FileSystem/FileSystem.cpp:12-48 | every entry the filter keeps is listed |
| FileNames.ListDirectory | Immortal/FileSystem/FileSystem.cpp:8-54 | the loop appends the kept entries, classified, in iteration order after what the vector held |
| Render2DBatch.Corner | Immortal/Render/Render2D.cpp:57-63 | the six indices of a quad name corners below 4 |
| Render2DBatch.IndicesInVertexBuffer | Immortal/Render/Render2D.cpp:50-66 | every index written is below MaxVertices, so it names a vertex of the vertex buffer |
| Render2DBatch.QuadCoversCorners | Immortal/Render/Render2D.cpp:57-63 | the triangles (0, 1, 2) and (2, 3, 0) share their diagonal and cover all four corners |
| Render2DBatch.FillIndices | Immortal/Render/Render2D.cpp:53-66 | the fill loop stores for quad q the six indices 4q, 4q+1, 4q+2, 4q+2, 4q+3, 4q |
| Render2DBatch.Quad | Immortal/Render/Render2D.cpp:189-197 | a rectangle writes four vertices, corners 0 to 3, each with the same texture index and object id |
| Render2DBatch.FirstSlot | Immortal/Render/Render2D.cpp:169-176 | the search loop stops at the first slot holding the texture, or after the last slot when none holds it |
| Render2DBatch.ReusedTextureShifts | Immortal/Render/Render2D.cpp:178-187 | as written, a texture drawn twice in a batch gets index 0 the first time and -1 the second |
| Render2DBatch.ReusedSlotMissed | Immortal/Render/Render2D.cpp:184-187 | as written, a reused texture takes no slot but gets the index one below the slot holding it |
| Render2DBatch.TexIndexAsWritten | Immortal/Render/Render2D.cpp:169-187 | as written, a texture already in the batch takes no slot but gets the index one below the slot holding it (-1 for slot 0); a new one gets the next slot |
| Render2DBatch.TexIndex | Immortal/Render/Render2D.cpp:169-187 | the corrected choice names a slot that holds the texture; it takes a new slot iff the texture is not yet in the batch |
| Render2DBatch.TexIndexStable | Immortal/Render/Render2D.cpp:169-187 | drawing the same texture again in a batch gives the same index and takes no new slot |
| Render2DBatch.Flushed | Immortal/Render/Render2D.cpp:76-98 | Flush records one draw of the batch's index count, none for an empty batch |
| Render2DBatch.FirstSlotUnique | Immortal/Render/Render2D.cpp:170-176 | the first matching slot is the only index with a match there and none before it |
| Render2DBatch.Render2D.VerticesFit | Immortal/Render/Render2D.cpp:189-199 | the vertices written in a batch never exceed the MaxVertices the buffer holds |
| Render2DBatch.Render2D.constructor | Immortal/Render/Render2D.cpp:11-69 | an empty batch; the linear sampler is bound at binding 0 iff the shader file is readable, and nothing is bound otherwise; the texture-slot count starts at 0, where the source leaves it unset until the first StartBatch |
| Render2DBatch.Render2D.Flush | Immortal/Render/Render2D.cpp:76-98 | Flush records the draw Flushed gives and changes no batch state |
| Render2DBatch.Render2D.StartBatch | Immortal/Render/Render2D.cpp:100-105 | an empty batch from the start of the vertex buffer with no texture slots taken; bindings and draws kept |
| Render2DBatch.Render2D.NextBatch | Immortal/Render/Render2D.cpp:107-111 | flushes the batch, then starts an empty one |
| Render2DBatch.Render2D.FindTexture | Immortal/Render/Render2D.cpp:169-176 | the search loop returns FirstSlot of the batch's slots |
| Render2DBatch.Render2D.TakeSlot | Immortal/Render/Render2D.cpp:169-187 | corrected: the slot choice is TexIndex; a new texture is stored in the next slot and bound at binding slot + 1; nothing else changes |
| Render2DBatch.Render2D.WriteQuad | Immortal/Render/Render2D.cpp:189-199 | exactly four vertices naming the slot are appended and the index count grows by 6 |
| Render2DBatch.Render2D.DrawRect | Immortal/Render/Render2D.cpp:147-200 | corrected: a batch full of indices or texture slots is flushed and restarted first; then the rectangle takes the slot already holding its texture or appends the texture as a new slot (earlier slots kept), writes four vertices sampling that texture and adds six indices, and its vertices name a slot holding its texture |
| Meshes.FirstFree | Immortal/Render/Mesh.cpp:106-108 | the first slot whose weight is 0, with every slot before it taken, or the slot count when all are taken |
| Meshes.FirstFreeUnique | Immortal/Render/Mesh.cpp:106-114 | the first free slot is the only free slot with no free slot before it |
| Meshes.AddBoneTwice | Immortal/Render/Mesh.cpp:104-115 | two AddBone calls with non-zero weights on an empty vertex fill slots 0 and 1 in order |
| Meshes.SkeletonVertex.constructor | Immortal/Render/Mesh.cpp:104-115 | a vertex starts with every bone slot free (weight 0) |
| Meshes.SkeletonVertex.AddBone | Immortal/Render/Mesh.cpp:104-115 | (id, weight) goes into the first slot whose weight is 0 and no other slot changes; with no free slot nothing changes |
| Meshes.LowerBound | Immortal/Render/Mesh.cpp:75 | lower_bound: every key before it is earlier than t and it is not earlier than t |
| Meshes.SelectKeys | Immortal/Render/Mesh.cpp:65-90 | Interpolate picks one existing key, or two adjacent keys to blend |
| Meshes.FactorInRange | Immortal/Render/Mesh.cpp:85-90 | when two keys are blended, they bracket t and the factor the SLASSERT checks lies in [0, 1] |
| Meshes.SelectKeysClamps | Immortal/Render/Mesh.cpp:70-83 | at or before the first key the first key's value is taken, past the last key the last key's value |
| Meshes.RowShape | Immortal/Render/Mesh.cpp:477-484 | one latitude band holds two faces per quad, (f, s, f+1) and (s, s+1, f+1), indexing only its two vertex rings |
| Meshes.RowsShape | Immortal/Render/Mesh.cpp:475-485 | lat bands hold 60 faces each and index only the first lat + 1 rings of 31 vertices |
| Meshes.SphereIndicesInRange | Immortal/Render/Mesh.cpp:475-485 | the sphere has 2 x 30 x 30 triangles, each index below the 961 vertices |
| Meshes.CreateSphere | Immortal/Render/Mesh.cpp:448-488 | the loops emit 31 x 31 vertices and exactly the faces of the 30 bands, in order |
| Meshes.Names | Immortal/Render/Mesh.cpp:362-364 | the bone names, one per bone, in order |
| Meshes.AssignIds | Immortal/Render/Mesh.cpp:362-370 | after the names are seen, each name has an id, earlier ids are kept, no other name is added, and the counter never decreases |
| Meshes.AssignIdsDistinct | Immortal/Render/Mesh.cpp:367-370 | assignment keeps ids distinct and below the counter |
| Meshes.RepeatedNameKeepsId | Immortal/Render/Mesh.cpp:367-372 | a name seen again keeps the id it got first and the counter does not move |
| Meshes.Weighted | Immortal/Render/Mesh.cpp:373-377 | one AddBone call per weight, on vertex baseVertex + vertex id, with the bone's id and the weight |
| Meshes.CallsStable | Immortal/Render/Mesh.cpp:372-377 | the calls depend only on the ids of the names they use, so later insertions do not change them |
| Meshes.WeightCalls | Immortal/Render/Mesh.cpp:373-377 | the weight loop makes exactly the calls Weighted gives |
| Meshes.LoadStep | Immortal/Render/Mesh.cpp:362-378 | one loop turn extends the id assignment by bone i's name and the calls by that bone's weights |
| Meshes.Mesh.constructor | Immortal/Render/Mesh.cpp:200-208 | a mesh starts with no bones and animation 0; neither constructor sets them, so these are taken as the members' default values |
| Meshes.Mesh.LoadBoneData | Immortal/Render/Mesh.cpp:355-381 | false for a mesh with no bones, changing nothing; otherwise each first-seen name gets the counter's value, every name has an id, and every weight becomes an AddBone call with its name's id |
| Meshes.Mesh.BoneId | Immortal/Render/Mesh.cpp:367-372 | a known name keeps its id; a new name gets the counter's value and the counter increments |
| Meshes.Mesh.SwitchToAnimation | Immortal/Render/Mesh.cpp:490-493 | the current animation becomes the index |
| Meshes.Mesh.GetAnimationState | Immortal/Render/Mesh.cpp:495-498 | returns the current animation |
| Meshes.SwitchThenGet | Immortal/Render/Mesh.cpp:490-498 | SwitchToAnimation(i) followed by GetAnimationState() returns i |
| DisplayOrientation.Macros | Immortal/Filter/DisplayOrientationFilter.cpp:56-69 | the shader gets HFLIP iff hflip, VFLIP iff vflip and TRANSPOSE iff the rotation is 90 (so 270 gets none), each at most once |
| DisplayOrientation.OutputFor | Immortal/Filter/DisplayOrientationFilter.cpp:76-84 | an output keeps the input's format, swaps width and height iff the rotation is 90 or 270, has the full mip chain and one layer |
| DisplayOrientation.Groups | Immortal/Filter/DisplayOrientationFilter.cpp:98-99 | the corrected group count is the fewest groups of 32 threads that cover the side |
| DisplayOrientation.GroupsAsWritten | Immortal/Filter/DisplayOrientationFilter.cpp:98-99 | as written, SLALIGN(side / 32, 32) is always a multiple of 32 groups, and 0 for a side below 32 |
| DisplayOrientation.GroupsAsWrittenMissesColumns | Immortal/Filter/DisplayOrientationFilter.cpp:98-99 | as written, SLALIGN(side / 32, 32) groups leave a 16-pixel side with no group at all and a 1025-pixel side with its last column uncovered |
| DisplayOrientation.Dispatches | Immortal/Filter/DisplayOrientationFilter.cpp:95-104 | corrected: one dispatch per input, over descriptor set i, covering output i |
| DisplayOrientation.DisplayOrientationFilter.constructor | Immortal/Filter/DisplayOrientationFilter.cpp:12-24 | a rotation of 180 toggles both flips and is stored as 180; otherwise the flags are stored as given |
| DisplayOrientation.DisplayOrientationFilter.FromExif | Immortal/Filter/DisplayOrientationFilter.cpp:26-34 | the EXIF-orientation constructor ignores its argument and clears every flag, so the filter passes through |
| DisplayOrientation.DisplayOrientationFilter.BuildMacros | Immortal/Filter/DisplayOrientationFilter.cpp:56-69 | the macro array filled through numMacro is Macros of the flags |
| DisplayOrientation.DisplayOrientationFilter.CreateOutputs | Immortal/Filter/DisplayOrientationFilter.cpp:74-87 | one output texture per input, as OutputFor gives, each with a descriptor set holding it at binding 1 |
| DisplayOrientation.DisplayOrientationFilter.BindInputs | Immortal/Filter/DisplayOrientationFilter.cpp:90-93 | input i is bound at binding 0 of descriptor set i and nothing else changes |
| DisplayOrientation.DisplayOrientationFilter.Run | Immortal/Filter/DisplayOrientationFilter.cpp:36-105 | corrected: with no flip and rotation 0 the output is the input and nothing is recorded; the first other run compiles the variant and creates outputs (nothing happens if the shader does not open); every such run binds its inputs and queues one dispatch per input |
| DisplayOrientation.DisplayOrientationFilter.RecordDispatches | Immortal/Filter/DisplayOrientationFilter.cpp:96-103 | corrected: the recording loop produces Dispatches of the outputs |
| Raw.SampleMax | Immortal/Vision/Image/Raw.cpp:28 | the alpha sample T(-1) is one less than 2 to the sample width |
| Raw.CopyRow | Immortal/Vision/Image/Raw.cpp:23-29 | pixel j's three samples land at 4j, 4j+1 and 4j+2 of the row, 4j+3 gets the largest sample value, and nothing outside the row's 4 · width samples changes |
| Raw.ReadPixelsToPicture | Immortal/Vision/Image/Raw.cpp:17-31 | every one of `height` rows of the picture holds the matching input row (the source advancing 3 samples per pixel from i · width · channels) with opaque alpha, and no sample outside the written spans changes |
| Raw.ThreeChannelsCopyPixels | Immortal/Vision/Image/Raw.cpp:21-23 | with three channels, output pixel j of row i reads input pixel i · width + j |
| Raw.OutputBits | Immortal/Vision/Image/Raw.cpp:84 | dcraw is asked for 16 bits iff the output is RGBA16, else 8 |
| Raw.Outcome | Immortal/Vision/Image/Raw.cpp:45-118 | Decode succeeds iff LibRaw opens and unpacks and the format is Bayer, or RGBA whose processing and memory image succeed; UnsupportFormat iff it opened and unpacked a format other than those three; a failed open or unpack is ExternalFailed |
| Raw.BayerPicture | Immortal/Vision/Image/Raw.cpp:62-73 | the Bayer picture has the LibRaw image sizes, the raw pitch as stride and starts 2 · left margin + pitch · top margin bytes into the raw image |
| Raw.RawCodec.constructor | Immortal/Vision/Image/Raw.cpp:33-38 | the codec keeps its output format and has no picture yet |
| Raw.RawCodec.Decode | Immortal/Vision/Image/Raw.cpp:45-119 | returns Outcome; on failure the previous picture stays; a Bayer decode stores BayerPicture; an RGBA decode stores a picture of the memory image's size and the requested format, with 4 · width samples per row aligned up and room for every row, every row holding the image row's three samples per pixel and the maximum sample value of the output depth as alpha |
| D3D12Buffer.BufferSize | Immortal/Graphics/D3D12/Buffer.cpp:17-18 | a buffer whose type is exactly ConstantBuffer gets its size rounded up to the next multiple of 256 (never by 256 or more); any other keeps its size |
| D3D12Buffer.PlacementOf | Immortal/Graphics/D3D12/Buffer.cpp:42-93 | the first type bit set, in the order ConstantBuffer, TransferSource, TransferDestination, Scratch, AccelerationStructure, picks the heap and initial state; unordered access is allowed iff Scratch or AccelerationStructure decides; with none of those bits the buffer sits in an upload heap in generic-read state |
| D3D12Buffer.ViewElements | Immortal/Graphics/D3D12/Buffer.cpp:114 | the view's element count, the size cast to 32 bits over 4, never spans more than the buffer and, below 4 GiB, leaves at most 3 bytes uncovered |
| D3D12Buffer.ConstantBufferViewCovers | Immortal/Graphics/D3D12/Buffer.cpp:17-121 | for a buffer of type exactly ConstantBuffer below 4 GiB, the view covers every byte |
| D3D12Buffer.CombinedTypeViewTruncates | Immortal/Graphics/D3D12/Buffer.cpp:18-118 | a buffer with the ConstantBuffer bit and another bit is not rounded up, so a 6-byte one gets a view of 4 bytes |
| D3D12Buffer.MapRange | Immortal/Graphics/D3D12/Buffer.cpp:133-144 | a successful map covers [offset, offset + size); a failed one yields null |
| D3D12Buffer.Buffer.constructor | Immortal/Graphics/D3D12/Buffer.cpp:17-121 | the stored size follows BufferSize and the placement PlacementOf; a buffer with the ConstantBuffer bit takes a descriptor with a view of ViewElements; given data, the bytes are uploaded when the map succeeds and the copy goes through null otherwise |
| D3D12Buffer.Buffer.Map | Immortal/Graphics/D3D12/Buffer.cpp:133-144 | returns MapRange of the request and the call's success |
| D3D12Buffer.Buffer.Destroy | Immortal/Graphics/D3D12/Buffer.cpp:32-38 | the destructor hands back a descriptor iff the ConstantBuffer bit is set, and it is the one the buffer holds |
| D3D12Buffer.ConstructThenDestroy | Immortal/Graphics/D3D12/Buffer.cpp:17-119 | the descriptor a destroyed buffer frees is the slot it took at construction, and only a buffer with the ConstantBuffer bit takes one |
| RenderContext.Overlap | Immortal/Platform/D3D12/RenderContext.cpp:153 | the overlap of two half-open intervals, never negative |
| RenderContext.IntersectionArea | Immortal/Platform/D3D12/RenderContext.cpp:149-154 | the common area of two rectangles is never negative |
| RenderContext.IntersectionSymmetric | Immortal/Platform/D3D12/RenderContext.cpp:149-154 | the common area does not depend on the order of the rectangles |
| RenderContext.DisjointNoArea | Immortal/Platform/D3D12/RenderContext.cpp:149-154 | rectangles apart in one axis have no common area |
| RenderContext.ContainedFullArea | Immortal/Platform/D3D12/RenderContext.cpp:149-154 | a rectangle inside another shares its whole area with it |
| RenderContext.AreaBounded | Immortal/Platform/D3D12/RenderContext.cpp:149-154 | the common area never exceeds the area of either well-formed rectangle |
| RenderContext.TargetColorSpace | Immortal/Platform/D3D12/RenderContext.cpp:158-178 | ST.2084 / Rec2020 iff 10 bits with ST.2084 enabled, linear Rec709 iff 16 bits, otherwise sRGB Rec709 |
| RenderContext.CurveFor | Immortal/Platform/D3D12/RenderContext.cpp:160-178 | the display curve is ST.2084 iff 10 bits with ST.2084, none for 16 bits, and unchanged for an unlisted depth |
| RenderContext.NextColorSpace | Immortal/Platform/D3D12/RenderContext.cpp:180-189 | the colour space changes iff the target differs from the current one and the swap chain can present it, and then becomes the target |
| RenderContext.NextColorSpaceIdempotent | Immortal/Platform/D3D12/RenderContext.cpp:180-189 | a second call with the same target changes nothing |
| RenderContext.BestAmong | Immortal/Platform/D3D12/RenderContext.cpp:202-229 | among the outputs seen so far, the chosen one has the largest area in common with the window and every output before it has less; there is a choice iff any output was seen |
| RenderContext.BestAmongUnique | Immortal/Platform/D3D12/RenderContext.cpp:205-227 | the first output with the largest common area is the one chosen |
| RenderContext.BestOutput | Immortal/Platform/D3D12/RenderContext.cpp:202-229 | the scan that keeps the best area seen so far (starting from -1) ends on the output BestAmong picks |
| RenderContext.HdrMetadataAsWritten | Immortal/Platform/D3D12/RenderContext.cpp:240-292 | as written: no call without a swap chain, at most two calls, and two (NONE, then HDR10 with the Rec709 primaries) exactly when the display supports HDR and the depth and colour space match neither HDR pair |
| RenderContext.SdrSwapchainGetsHdr10 | Immortal/Platform/D3D12/RenderContext.cpp:258-291 | as written, an 8-bit sRGB swap chain on an HDR display ends with HDR10 metadata set |
| RenderContext.HdrMetadata | Immortal/Platform/D3D12/RenderContext.cpp:240-292 | corrected: no call without a swap chain, at most one call, HDR10 iff the display supports HDR and the depth and colour space form one of the two HDR pairs, Rec2020 primaries iff 10 bits, and the levels passed through |
| RenderContext.HdrMetadataDiffersOnlyUnmatched | Immortal/Platform/D3D12/RenderContext.cpp:258-291 | the written calls are the corrected ones, or those followed by one Rec709 HDR10 call |
| RenderContext.RenderContext.constructor | Immortal/Platform/D3D12/RenderContext.cpp:26-44 | one fence value per frame, all zero, the first frame current, sRGB output and no HDR support yet |
| RenderContext.RenderContext.EnsureSwapChainColorSpace | Immortal/Platform/D3D12/RenderContext.cpp:156-190 | the curve becomes CurveFor and the colour space NextColorSpace of the target; the swap chain is told iff the colour space changes; nothing else changes |
| RenderContext.RenderContext.CheckDisplayHDRSupport | Immortal/Platform/D3D12/RenderContext.cpp:192-238 | with at least one output, HDR support is whether the output BestAmong picks presents in ST.2084 / Rec2020; nothing else changes |
| RenderContext.RenderContext.SetHDRMetaData | Immortal/Platform/D3D12/RenderContext.cpp:240-292 | corrected: appends exactly the HdrMetadata calls and changes nothing else |
| RenderContext.RenderContext.WaitForGPU | Immortal/Platform/D3D12/RenderContext.cpp:294-300 | signals the current frame's value, waits until the GPU reaches it, and raises that value by one, leaving other frames alone |
| RenderContext.RenderContext.WaitForPreviousFrame | Immortal/Platform/D3D12/RenderContext.cpp:302-318 | signals the current value, switches to the next back buffer, waits until the GPU reaches its value, and gives it the signalled value plus one |
| VulkanInstance.Picks | Immortal/Platform/Vulkan/Instance.cpp:119-141 | one listed extension adds itself iff it is debug utils in a debug build, the headless surface in a headless instance, or properties2 |
| VulkanInstance.Scanned | Immortal/Platform/Vulkan/Instance.cpp:119-141 | the scan enables exactly the listed debug utils (debug builds), headless surface (headless only) and properties2 |
| VulkanInstance.Names | Immortal/Platform/Vulkan/Instance.cpp:158-161 | the names of the requested extensions, one per request, in order |
| VulkanInstance.RequestedPresent | Immortal/Platform/Vulkan/Instance.cpp:158-182 | a requested extension is enabled iff the loader lists it; a missing one, optional or required, is only logged |
| VulkanInstance.RequestedEnabledIffPresent | Immortal/Platform/Vulkan/Instance.cpp:119-182 | in the full list, a requested extension other than the built-in ones is enabled iff the loader lists it |
| VulkanInstance.SurfaceAndReportRule | Immortal/Platform/Vulkan/Instance.cpp:142-156 | the surface extension is enabled iff the instance is not headless or the headless surface is listed; debug report iff a debug build lacks debug utils |
| VulkanInstance.EnabledAreListed | Immortal/Platform/Vulkan/Instance.cpp:119-182 | every enabled extension is listed by the loader, except the surface and debug report added unchecked |
| VulkanInstance.EnabledExtensions | Immortal/Platform/Vulkan/Instance.cpp:110-182 | the list starts with the scanned extensions, has the surface extension whenever it is enabled, and debug report in a debug build without debug utils |
| VulkanInstance.AppendSurface | Immortal/Platform/Vulkan/Instance.cpp:142-149 | the surface extension is appended unless the instance is headless without the headless surface |
| VulkanInstance.AppendReport | Immortal/Platform/Vulkan/Instance.cpp:151-156 | debug report is appended iff a debug build lacks debug utils |
| VulkanInstance.Contains | Immortal/Platform/Vulkan/Instance.cpp:64-72 | the search finds the name iff the list holds it |
| VulkanInstance.ValidateLayers | Immortal/Platform/Vulkan/Instance.cpp:60-81 | true iff every required layer is available |
| VulkanInstance.ScanAvailable | Immortal/Platform/Vulkan/Instance.cpp:119-141 | the loop over the listed extensions computes Scanned |
| VulkanInstance.EnableRequested | Immortal/Platform/Vulkan/Instance.cpp:158-182 | the loop over the requests computes RequestedPresent |
| VulkanInstance.BuildExtensions | Immortal/Platform/Vulkan/Instance.cpp:110-182 | the constructor's extension list is the scan, then the surface, then debug report, then the requested ones present |
| VulkanInstance.ReportChainIsHandle | Immortal/Platform/Vulkan/Instance.cpp:233-239 | as written, a debug build without debug utils chains the report callback handle where its create info belongs |
| VulkanInstance.DebugChainAsWritten | Immortal/Platform/Vulkan/Instance.cpp:221-240 | as written, only a debug build chains anything, and the chained structure matches the messenger created after the instance except in a debug build without debug utils |
| VulkanInstance.MessengerCreated | Immortal/Platform/Vulkan/Instance.cpp:245-256 | a debug build creates a messenger, the utils one iff debug utils is listed; a release build none |
| VulkanInstance.DebugChainFor | Immortal/Platform/Vulkan/Instance.cpp:221-240 | corrected: the chained structure is the create info of the messenger created after the instance, never a handle |
| VulkanInstance.SuitableIndex | Immortal/Platform/Vulkan/Instance.cpp:304-323 | the first discrete GPU; else device 0 unless it is a CPU; an empty list or a lone CPU fallback throws |
| VulkanInstance.FirstDiscrete | Immortal/Platform/Vulkan/Instance.cpp:308-314 | the first discrete GPU from a position on, or none there |
| VulkanInstance.AdoptRefusesValidHandles | Immortal/Platform/Vulkan/Instance.cpp:260-268 | as written, adopting throws for every real handle and accepts the null one |
| VulkanInstance.AdoptAsWritten | Immortal/Platform/Vulkan/Instance.cpp:260-268 | as written, adoption throws exactly for the real handles, so it disagrees with the intended check on every handle |
| VulkanInstance.Adopt | Immortal/Platform/Vulkan/Instance.cpp:260-268 | corrected: only the null handle is refused |
| VulkanInstance.Win32SurfaceLost | Immortal/Platform/Vulkan/Instance.cpp:339-345 | as written, a native Win32 window whose surface call succeeds reports success but leaves the surface unset |
| VulkanInstance.CreateSurfaceAsWritten | Immortal/Platform/Vulkan/Instance.cpp:325-352 | as written, only a GLFW window ever gets a surface, and the result differs from the intended one exactly for a native Win32 window whose call succeeds |
| VulkanInstance.CreateSurface | Immortal/Platform/Vulkan/Instance.cpp:325-352 | corrected: a missing or headless window gets a null surface and success; a GLFW or Win32 window returns its call's result and the surface on success; a native window on Linux fails to initialise |
| VulkanInstance.UtilsLevel | Immortal/Platform/Vulkan/Instance.cpp:16-37 | verbose and info messages log as info, warnings as warnings, everything else as errors |
| VulkanInstance.ReportLevel | Immortal/Platform/Vulkan/Instance.cpp:39-58 | error flags log as errors, warning and performance-warning flags as warnings, everything else as info |
| VulkanInstance.CombinedReportFlagsLogAsInfo | Immortal/Platform/Vulkan/Instance.cpp:43-55 | the switch compares the whole flag word, so an error with a warning bit logs as info |
| VulkanInstance.Instance.constructor | Immortal/Platform/Vulkan/Instance.cpp:102-258 | corrected: enables EnabledExtensions and the required layers, records whether the layers validate, chains DebugChainFor, keeps the created handle and throws iff no physical device is found |
| VulkanInstance.Instance.Adopting | Immortal/Platform/Vulkan/Instance.cpp:260-268 | corrected adoption: keeps the handle, throws for the null handle or when no device is found, else holds every device |
| VulkanInstance.Instance.QueryPhysicalDevice | Immortal/Platform/Vulkan/Instance.cpp:288-302 | throws iff the loader reports no device, else holds every device in order, changing nothing else |
| VulkanInstance.Instance.SuitablePhysicalDevice | Immortal/Platform/Vulkan/Instance.cpp:304-323 | returns SuitableIndex of the held devices |
| VulkanImage.Dimensions | Immortal/src/Platform/Vulkan/VulkanImage.cpp:14-29 | the number of counted sides is at most 3; which sides count (width at least 1, height at least 1, depth above 1) is stated by TypeOf's contract |
| VulkanImage.TypeOf | Immortal/src/Platform/Vulkan/VulkanImage.cpp:10-48 | 3D iff all three sides count; 1D iff at most one counts (none logs an error and yields the zero value, 1D); the error is raised iff width and height are 0 and depth at most 1 |
| VulkanImage.FlatImagesAre2D | Immortal/src/Platform/Vulkan/VulkanImage.cpp:16-37 | an image with width and height set and depth 0 or 1 is 2D, even a single row |
| VulkanImage.SharingFor | Immortal/src/Platform/Vulkan/VulkanImage.cpp:92-97 | the sharing is concurrent iff queue families are given, and then lists exactly those families |
| VulkanImage.PrefersLazy | Immortal/src/Platform/Vulkan/VulkanImage.cpp:99-104 | lazily allocated memory is preferred iff the usage holds the transient attachment bit |
| VulkanImage.ImageView.constructor | Immortal/src/Platform/Vulkan/VulkanImage.cpp:128-131 | a view refers to the image it is given, the reference the move re-points |
| VulkanImage.VulkanImage.Wrapping | Immortal/src/Platform/Vulkan/VulkanImage.cpp:52-63 | wrapping a handle keeps it with its extent, format, usage and sample count, takes the type from TypeOf, and has one mip level and one layer |
| VulkanImage.VulkanImage.Creating | Immortal/src/Platform/Vulkan/VulkanImage.cpp:65-107 | a created image stores its description, layer count and tiling, its mip and layer counts as the subresource, sharing as SharingFor, lazy memory as PrefersLazy, and the handle and memory the allocator returns |
| VulkanImage.VulkanImage.MovingAsWritten | Immortal/src/Platform/Vulkan/VulkanImage.cpp:109-132 | as written, the move copies every member but the layer count and the views, re-points the new image's empty view list, and clears the source's handle, memory and mapping |
| VulkanImage.VulkanImage.Moving | Immortal/src/Platform/Vulkan/VulkanImage.cpp:109-132 | corrected: every member moves, including the layer count and the views, which then point at the new image; the source keeps no handle, memory, mapping or view |
| VulkanImage.MoveAsWrittenLosesLayers | Immortal/src/Platform/Vulkan/VulkanImage.cpp:109-132 | as written, a moved six-layer image has no layer count, and its view stays with the source and still points there |
| VulkanImage.MoveKeepsLayers | Immortal/src/Platform/Vulkan/VulkanImage.cpp:109-132 | the corrected move keeps the six layers and carries the view, now pointing at the new image |

## Left out

- The worker's transport: the lock-free task queue, the semaphore, the thread and the coroutine around the completion drain. The task stream is a sequence, each `Execute` records one signal, and the GPU's progress is an input of `AdvanceGpu`.
- The GPU event implementation is not part of this model: a submit is taken to raise the event's sync point by one, and a wait to return once the GPU has reached it.
- `WaitIdle`: its body is commented out in the source, so it does nothing and has no member here.
- DescriptorPool.DescriptorPool.constructor: requires 1 <= descriptorCount <= 256. The source checks neither bound: a count of 0 divides by zero, and above 256 the quotient 256 / count is 0, so `descriptorCountPerHeap - 1` wraps and the shift by it is undefined.
- MemoryResource.MarkBuffer.constructor: requires 1 <= count <= 64, because a mask of 64 bits cannot describe more slots and the shift for 64 is undefined in C++; the same holds for the blocks `MemoryResource` creates. Release accepts any pointer, as the source does: a pointer outside every block is ignored, and a pointer to a slot that is already free marks that bit again, which leaves the mask as it was (MemoryResource.MarkFreeIsNoop).
- DescriptorPool.DescriptorPool.Free: requires a slot of one of this pool's heaps, handed out or already free (a free slot's bit is set again, which changes nothing); a pointer from another pool or outside its heaps is not modelled.
- LightArray.LightArray.EmplaceBack: requires size < capacity and `Get` requires index < size, as the source's assertions do; `Clear`, `Back` and the moves require size <= capacity, which a `Resize` past the capacity (unchecked in the source) would break.
- VulkanDevice.QueuePriorities: with the high-priority flag set, requires the graphics family GetQueueFailyIndex picks to report at least one queue, because the source then writes priority 0 of that family (Device.cpp:47-50); Vulkan reports at least one queue for every family.
- VulkanImage.VulkanImage.Creating: requires at least one mip level and one layer, the source's assertions; its `flags` argument is unused in the source and a failed `vmaCreateImage` (which throws through `Check`) is not modelled.
- VulkanImage.h is not part of this model: members the constructors leave alone are `None`.
- Raw.ReadPixelsToPicture: the row offsets are `int` products in the source; the model assumes they do not overflow, which holds for images under 2^31 bytes.
- Raw.ReadPixelsToPicture: requires the input to hold what the copy reads; with `channels` other than 3 the source still advances 3 samples per pixel, which the contract states but which reads a differently laid out buffer.
- Raw: `GetParams`, `GetCurve` and `GetProjectionMatrix` are floating point and are left out; `GetFlipType` returns a LibRaw field unchanged; the LibRaw calls themselves are inputs.
- RenderContext.RenderContext.CheckDisplayHDRSupport: with no output at all the source calls through a null `bestOutput`; the model returns not-found and changes nothing. The best area is kept exactly, where the source keeps it in a float; areas are unbounded where the source's `int` product could overflow.
- RenderContext: `Setup`, `UpdateSwapchain`, `WaitForNextFrameResources` and the descriptor copies are GPU calls; the HDR metadata's scaling to fixed point is floating point and only the arguments are recorded.
- VulkanInstance: a missing required instance extension only logs in the source, and so it does in the model; library loading, `vkCreateInstance` and the messenger creation are inputs.
- Exif: a read past the buffer and a chain longer than the seven slots are undefined behaviour in the source; the model reports them as the extra status `OutOfBounds`.
- Exif.ExifReader.ParseIFD: as written, a failing inner call would be reported as success (the function returns its untouched result), but the inner call never fails, so the model returns success too.
- Lut3D: `%f` parsing is the `scan` parameter and `atoi` the `atoi` parameter; the filter's `Run` body and the shader-file read only record GPU work and are left out.
- Render2D: `BeginScene`/`EndScene` (the camera and the floating-point zoom switch) and the vertex positions, colours and texture coordinates are left out; a vertex is recorded by its texture index.
- Meshes: the quaternion and vector blending of `Interpolate` and the sphere's vertex positions are floating point; only the key selection, the factor's range and the index pattern are modelled.
- FileNames.ListDirectory: the directory listing is an input; an iterator exception caught and logged mid-listing is not modelled.
- Picture: the constructors that wrap a `Texture` are not modelled.
- Picture.SharedPictureData.Destroy: object lifetime is not modelled; if the closure's owner was destroyed before the picture that holds the closure (possible after a Swap), the source reads freed memory, while the model reads the owner's last memory resource.
- Picture.SharedPictureData.constructor: the allocator is not modelled; the block address it returns is the `heapBlock` (or `resourceBlock`) parameter, and the ghost field `allocSize` records the byte count it is asked for.
- DisplayOrientation.DisplayOrientationFilter.Run: requires a later run to have no more inputs than the first, because the source indexes its outputs by input; shader compilation and the GPU recording are recorded, not executed.
- Render2DBatch.Render2D.constructor: the texture-slot count starts at 0; the source leaves `textureIndex` unset until the first `StartBatch` (reached through `BeginScene` and `NextBatch`), and `Flush` does not read it while the batch is empty.
- Render2DBatch: `MaxTextureSlots` is 32, the value outside Apple platforms; Apple builds use 16.
- Meshes.Mesh.constructor: Mesh.h is not part of this model; the constructors at Mesh.cpp:166 and 200 set neither the bones nor the animation state, so no bones and animation 0 are taken as the members' default values.
- Exif.ReadValue: the corrected bound (`>` where Exif.h:74 has `>=`); every member below that reads values uses it, so a value ending exactly at the end of the buffer is read where the source stores the entry under InvalidTag.
- Exif.ReadValues: reads with the corrected Exif.ReadValue.
- Exif.ParseEntry: builds its entry through the corrected Exif.ReadValues.
- Exif.EntryInvalidIffUnreadable: states the tag rule for the corrected bound.
- Exif.Entries: stores entries read with the corrected bound.
- Exif.Directory: stores entries read with the corrected bound.
- Exif.Chain: stores entries read with the corrected bound.
- Exif.ChainFillsSuccessiveSlots: about chains read with the corrected bound.
- Exif.Read: specifies the reader with the corrected bound.
- Exif.ExifReader.constructor: runs with the corrected bound.
- Exif.ExifReader.ParseIFD: runs with the corrected bound.
- Exif.ExifReader.ReadEntries: runs with the corrected bound.
- Exif.ExifReader.ParseIFDChain: runs with the corrected bound.
- DisplayOrientation.Dispatches: dispatches the corrected DisplayOrientation.Groups per axis, not SLALIGN(side / 32, 32).
- DisplayOrientation.DisplayOrientationFilter.RecordDispatches: records the corrected group counts.
- DisplayOrientation.DisplayOrientationFilter.Run: records the corrected group counts.
- Render2DBatch.Render2D.TakeSlot: chooses the slot with the corrected Render2DBatch.TexIndex, not the `index--` of Render2D.cpp:184-187.
- Render2DBatch.Render2D.DrawRect: writes the texture index of the corrected Render2DBatch.TexIndex.
- Jpeg.BitTracker.Move: refills with the corrected Jpeg.Refill, which stops before the 64-bit word overflows.
- Jpeg.BitTracker.GetBits: refills through the corrected Jpeg.BitTracker.Move. It requires n <= 57 when fewer than n bits are pending, because a refill adds whole bytes and must stay within the 64-bit word, so it may stop at 57 pending bits, and n <= 63 otherwise, because `word <<= 64` is undefined in C++.
- Lut3D.Lut3DFilter.constructor: reads entries with the corrected ParseText, which stops at the end of the file.
- D3D12Device.Device.FreeDescriptor: deletes a dedicated heap, the corrected routing; the source indexes past the bucket array.
- VulkanInstance.Instance.constructor: chains the corrected VulkanInstance.DebugChainFor.
- RenderContext.RenderContext.SetHDRMetaData: issues the calls of the corrected RenderContext.HdrMetadata, which stops after setting NONE where RenderContext.cpp:258-272 falls through to HDR10.
- AsyncCompute.Step: a mistagged ExecutionCompleted task faults with BadCast as soon as it is dequeued; the source only queues it and casts it when the callbacks run after a submit (AsyncCompute.cpp:121-124), so there the fault comes later, or never without a submit.
- Lut3D.Side: the source computes `size * size * size` in `int`, which overflows for sizes above 1290; the model's cube is unbounded.
- Lut3D.Side: a negative `LUT_3D_SIZE` becomes a huge `size_t` row width in the source (Lut3DFilter.cpp:109-120), an allocation request that fails; the model builds an empty table instead.
- Lut3D.CubeStream.GetLine: lines are whole strings; the source's `getline` into a 512-byte buffer fails on a line of 512 characters or more and ends its loop there.
- Lut3D.SizeText: a `LUT_3D_SIZE` line of exactly eleven characters makes `atoi(line + 12)` read one byte past the terminating zero; the model reads the empty text there, so the size is whatever `atoi` gives for it.
- Jpeg.Feed: a 0xFF that is the last byte of the buffer makes the source read `*ptr` one byte past `end`; the model feeds the 0xFF and does not read further, since what lies past the buffer is not part of it.
- Meshes.SelectKeys: requires at least one key time; with no keys Mesh.cpp:76-79 dereferences `rbegin()` of an empty set, which is undefined behaviour.
- Textures.CalculateMipmapLevels: the source's `1 << L` on a 32-bit `int` is undefined for L >= 32, which only sides of 2^31 or more reach; the model's powers are unbounded.
- Everything else outside the integer core: floating-point scaling, native GPU calls, codecs backed by libraries, file and OS I/O, UI, serialisation and concurrency.
- LightArray.LightArray.MoveAssign: requires other != this; a self move-assignment in the source (LightArray.h:48-55) copies the buffer onto itself, an overlapping `memcpy` that is undefined, and then empties the array.

## Findings

| source | as written | input that shows it | evidently intended | confidence | as-written member | corrected member |
|---|---|---|---|---|---|---|
| Immortal/Vision/Image/Exif.h:70-77 | a value longer than 4 bytes is refused when `size + offset >= end` | an 8-byte value at offset 4 of a 12-byte buffer, ending exactly at the end, is refused | refuse only when `size + offset > end` | high, not executed | Exif.ReadValueAsWritten, Exif.ReadValueRejectsValueEndingAtEnd | Exif.ReadValue, Exif.ReadValueReadsInBounds, Exif.ReadValues, Exif.ExifReader.constructor, Exif.ExifReader.ReadEntries, Exif.ExifReader.ParseIFD |
| Immortal/Vision/Image/JPEG.h:52-57, 67-96 | `GetBits(n)` refills with `Move(n + 48)`, which adds bytes until more than n + 48 bits are held | `GetBits(10)` with 9 bits left refills to 65 bits, so the shift by `64 - bitsLeft` is negative | refill only up to what fits in the 64-bit word | high, not executed | Jpeg.RefillAsWritten, Jpeg.RefillAsWrittenOverflows | Jpeg.Refill, Jpeg.RefillFits, Jpeg.BitTracker.Move |
| Immortal/Graphics/D3D12/Device.cpp:329-334 | `FreeDescriptor` always indexes the bucket array by count | a count equal to the bucket-array length: allocation used a dedicated heap, freeing indexes past the array | delete the dedicated heap, as `FreeShaderVisibleDescriptor` does | high, not executed | D3D12Device.FreeRouteAsWritten, D3D12Device.FreeAsWrittenMissesDedicated | D3D12Device.FreeRoute, D3D12Device.FreeRouteMatchesAllocateRoute, D3D12Device.Device.FreeDescriptor |
| Immortal/Filter/Lut3DFilter.cpp:41-70 | `ParseText` loops over `getline` without checking for the end of the stream | a file that ends before the table is complete: the empty line read at the end is skippable, so the loop never ends | stop with an error at the end of the stream | medium, not executed | Lut3D.ParseTextAsWritten, Lut3D.ParseTextAsWrittenHangsAtEnd | Lut3D.Parsed, Lut3D.CubeStream.ParseText, Lut3D.Lut3DFilter.constructor |
| Immortal/Render/Render2D.cpp:169-187 | a texture found in slot k gets `index--`, that is k - 1 | drawing the same texture twice in a batch: the second quad gets texture index -1 | keep the slot where the texture was found | high, not executed | Render2DBatch.TexIndexAsWritten, Render2DBatch.ReusedTextureShifts | Render2DBatch.TexIndex, Render2DBatch.TexIndexStable, Render2DBatch.Render2D.TakeSlot, Render2DBatch.Render2D.DrawRect |
| Immortal/Filter/DisplayOrientationFilter.cpp:98-99 | `SLALIGN(width / 32, 32)` thread groups of 32 threads | a 16-pixel side gets no group; a 1025-pixel side gets 32 groups and its last column is not covered | round the side up to whole groups | medium, not executed | DisplayOrientation.GroupsAsWritten, DisplayOrientation.GroupsAsWrittenMissesColumns | DisplayOrientation.Groups, DisplayOrientation.Dispatches, DisplayOrientation.DisplayOrientationFilter.RecordDispatches, DisplayOrientation.DisplayOrientationFilter.Run |
| Immortal/Platform/D3D12/RenderContext.cpp:258-272 | the unmatched branch sets metadata NONE and then falls through to set HDR10 | an 8-bit sRGB swap chain on an HDR display gets NONE and then HDR10 with Rec709 primaries | return after setting NONE | high, not executed | RenderContext.HdrMetadataAsWritten, RenderContext.SdrSwapchainGetsHdr10 | RenderContext.HdrMetadata, RenderContext.RenderContext.SetHDRMetaData |
| Immortal/Platform/Vulkan/Instance.cpp:260-268 | `Instance(VkInstance)` throws when the handle is not null | adopting any real instance throws; the null handle is accepted | throw when the handle is null | high, not executed | VulkanInstance.AdoptAsWritten, VulkanInstance.AdoptRefusesValidHandles | VulkanInstance.Adopt, VulkanInstance.Instance.Adopting |
| Immortal/Platform/Vulkan/Instance.cpp:339-345 | the Win32 branch passes `nullptr` as the surface to create | a native Win32 window whose surface call succeeds returns success with `*pSurface` unset | pass `pSurface` | high, not executed | VulkanInstance.CreateSurfaceAsWritten, VulkanInstance.Win32SurfaceLost | VulkanInstance.CreateSurface |
| Immortal/Platform/Vulkan/Instance.cpp:233-239 | a debug build without debug utils chains `&debugReportCallback`, the callback handle | a debug build on a loader without debug utils | chain `&debugReportCreateInfo` | high, not executed | VulkanInstance.DebugChainAsWritten, VulkanInstance.ReportChainIsHandle | VulkanInstance.DebugChainFor, VulkanInstance.Instance.constructor |
| Immortal/src/Platform/Vulkan/VulkanImage.cpp:109-132 | the move constructor does not move the layer count or the views, and re-points the new object's empty view list | moving a six-layer image that has one view: the new image has no layer count and the view stays with the moved-from image | move every member and re-point the moved views | medium (the header is not part of this model), not executed | VulkanImage.VulkanImage.MovingAsWritten, VulkanImage.MoveAsWrittenLosesLayers | VulkanImage.VulkanImage.Moving, VulkanImage.MoveKeepsLayers |

=== FILE: async_compute.dfy ===
// The asynchronous compute worker: a thread that drains typed tasks and
// records, submits and recycles command buffers on a compute queue.
//
// The lock-free task queue and its semaphore are modelled by a sequence and a
// counter; the body of the worker loop is `Step`, a function from the worker's
// state and one task to the next state, and `AsyncComputeThread.Dispatch`
// runs the same switch imperatively on the fields of a class. GPU events are
// pairs of counters; command buffers, events, queues and callbacks are opaque
// handles. Every call the worker makes into code outside it (a callback, a
// command-buffer Begin/End, a queue submit, an event wait, a delete) is
// appended to an `effects` trace, so that contracts can speak about what was
// called, with which arguments and in which order.

module AsyncCompute {
  import opened Common

  type QueueId = nat
  type BufferId = nat
  type EventId = nat
  type CallbackId = nat

  // ---------------------------------------------------------------- tasks

  datatype AsyncTaskType =
    | Recording
    | Submiting
    | SetQueue
    | QueueOperation
    | BeginRecording
    | EndRecording
    | ExecutionCompleted
    | Terminate

  /** Which task class built the object, with the data that class stores. */
  datatype Payload =
    | Plain                                      // AsyncTask{type}
    | QueueHandle(queue: Option<QueueId>)        // SetQueueTask
    | RecordingCallback(callback: CallbackId)    // RecordingTask
    | QueueCallback(callback: CallbackId)        // QueueTask
    | CompletionCallback(callback: CallbackId)   // ExecutionCompletedTask

  /** A task: its type tag (which SetType may overwrite) and its payload. */
  datatype AsyncTask = AsyncTask(tag: AsyncTaskType, payload: Payload)

  function NewTask(t: AsyncTaskType): AsyncTask { AsyncTask(t, Plain) }

  function NewSetQueueTask(queue: Option<QueueId>): AsyncTask
  {
    AsyncTask(SetQueue, QueueHandle(queue))
  }

  function NewRecordingTask(callback: CallbackId): AsyncTask
  {
    AsyncTask(Recording, RecordingCallback(callback))
  }

  function NewQueueTask(callback: CallbackId): AsyncTask
  {
    AsyncTask(QueueOperation, QueueCallback(callback))
  }

  function NewExecutionCompletedTask(callback: CallbackId): AsyncTask
  {
    AsyncTask(ExecutionCompleted, CompletionCallback(callback))
  }

  function GetType(task: AsyncTask): AsyncTaskType { task.tag }

  function SetType(task: AsyncTask, value: AsyncTaskType): AsyncTask
  {
    task.(tag := value)
  }

  function GetQueue(task: AsyncTask): Option<QueueId>
    requires task.payload.QueueHandle?
  {
    task.payload.queue
  }

  /** Each task class fixes its own tag; SetQueueTask hands back its queue. */
  lemma TaskClassTags(queue: Option<QueueId>, callback: CallbackId, t: AsyncTaskType)
    ensures GetType(NewTask(t)) == t
    ensures GetType(NewSetQueueTask(queue)) == SetQueue
    ensures GetQueue(NewSetQueueTask(queue)) == queue
    ensures GetType(NewRecordingTask(callback)) == Recording
    ensures GetType(NewQueueTask(callback)) == QueueOperation
    ensures GetType(NewExecutionCompletedTask(callback)) == ExecutionCompleted
  {}

  /** GetType answers the tag of the last SetType and leaves the payload alone. */
  lemma SetTypeThenGetType(task: AsyncTask, value: AsyncTaskType)
    ensures GetType(SetType(task, value)) == value
    ensures SetType(task, value).payload == task.payload
    ensures SetType(task, GetType(task)) == task
  {}

  // ----------------------------------------------------------- worker state

  /** A GPU event as two counters: what the GPU has reached, what was signalled. */
  datatype GpuEvent = GpuEvent(completion: nat, syncPoint: nat)

  /** A command buffer together with the event that tracks its execution. */
  datatype Slot = Slot(event: EventId, buffer: BufferId)

  /** An assertion the worker makes, or a cast it performs, that failed. */
  datatype Fault =
    | QueueNotSet       // BeginRecording had to create a buffer without a queue
    | NotBegun          // EndRecording with no open command buffer
    | NothingToSubmit   // Submiting with pending work but no open command buffer
    | NullQueue         // Submiting through a queue that was never set
    | BadCast           // a task whose tag does not match the class that built it

  datatype Status = Running | Terminated | Faulted(fault: Fault)

  /** A call the worker makes into code outside it. */
  datatype Effect =
    | QueueOperationCalled(callback: CallbackId, current: Option<QueueId>)
    | RecordingCalled(callback: CallbackId, sync: nat, openBuffer: Option<BufferId>)
    | Created(slot: Slot, queue: QueueId)
    | Begun(buffer: BufferId)
    | Ended(buffer: BufferId)
    | Submitted(queue: QueueId, slot: Slot)
    | Waited(event: EventId)
    | Invoked(callback: CallbackId)
    | BufferDeleted(buffer: BufferId)
    | EventDeleted(event: EventId)

  /**
   * The worker's locals (`open` stands for the commandBuffer/gpuEvent pair,
   * which is always set and cleared together), the thread object's
   * executionCompletedTasks, the events the device created, the next fresh
   * handle, the trace of outside calls and whether the loop still runs.
   */
  datatype WorkerState = WorkerState(
    recording: nat,
    nextSyncValue: nat,
    queue: Option<QueueId>,
    open: Option<Slot>,
    commandBuffers: seq<Slot>,
    executionCompletedTasks: seq<(nat, CallbackId)>,
    events: map<EventId, GpuEvent>,
    nextHandle: nat,
    effects: seq<Effect>,
    status: Status)

  function Initial(): WorkerState
  {
    WorkerState(0, 1, None, None, [], [], map[], 0, [], Running)
  }

  function OpenBuffer(open: Option<Slot>): Option<BufferId>
  {
    if open.Some? then Some(open.value.buffer) else None
  }

  predicate IsComplete(events: map<EventId, GpuEvent>, e: EventId)
  {
    e in events && events[e].completion >= events[e].syncPoint
  }

  /** queue->Submit(buffer, event): the queue signals the event at its next sync point, taken as given. */
  function Signal(events: map<EventId, GpuEvent>, e: EventId): map<EventId, GpuEvent>
  {
    if e in events then events[e := GpuEvent(events[e].completion, events[e].syncPoint + 1)]
    else events
  }

  /** gpuEvent->Wait(max): returns once the GPU has reached the sync point. */
  function WaitFor(events: map<EventId, GpuEvent>, e: EventId): map<EventId, GpuEvent>
  {
    if e in events then events[e := GpuEvent(events[e].syncPoint, events[e].syncPoint)]
    else events
  }

  function Invocations(pending: seq<(nat, CallbackId)>): seq<Effect>
  {
    seq(|pending|, i requires 0 <= i < |pending| => Invoked(pending[i].1))
  }

  /** The loop over executionCompletedTasks: each callback is invoked once, in order. */
  method InvokeCallbacks(pending: seq<(nat, CallbackId)>) returns (invoked: seq<Effect>)
    ensures invoked == Invocations(pending)
  {
    invoked := [];
    var i := 0;
    while i < |pending|
      invariant 0 <= i <= |pending|
      invariant invoked == Invocations(pending[..i])
    {
      assert Invocations(pending[..i + 1]) == Invocations(pending[..i]) + [Invoked(pending[i].1)];
      invoked := invoked + [Invoked(pending[i].1)];
      i := i + 1;
    }
    assert pending[..i] == pending;
  }

  /** The deletes Terminate performs on the recycled pairs, front first. */
  function Deletions(slots: seq<Slot>): seq<Effect>
  {
    if slots == [] then []
    else Deletions(slots[..|slots| - 1])
         + [EventDeleted(slots[|slots| - 1].event), BufferDeleted(slots[|slots| - 1].buffer)]
  }

  function Fail(s: WorkerState, f: Fault): WorkerState
  {
    s.(status := Faulted(f))
  }

  /** BeginRecording only appends to the trace and leaves recorded work and pending completions alone. */
  function BeginRecordingStep(s: WorkerState): (r: WorkerState)
    ensures s.effects <= r.effects
    ensures r.recording == s.recording && r.executionCompletedTasks == s.executionCompletedTasks
    ensures s.status.Running? ==> (r.status.Running? <==> r.open.Some?)
  {
    if s.open.Some? then
      s.(effects := s.effects + [Begun(s.open.value.buffer)])
    else if |s.commandBuffers| > 0 && IsComplete(s.events, s.commandBuffers[0].event) then
      var slot := s.commandBuffers[0];
      s.(open := Some(slot), commandBuffers := s.commandBuffers[1..],
         effects := s.effects + [Begun(slot.buffer)])
    else if s.queue.None? then
      Fail(s, QueueNotSet)
    else
      var slot := Slot(s.nextHandle, s.nextHandle);
      s.(open := Some(slot),
         events := s.events[slot.event := GpuEvent(0, 0)],
         nextHandle := s.nextHandle + 1,
         effects := s.effects + [Created(slot, s.queue.value), Begun(slot.buffer)])
  }

  /** Submiting always clears the recording counter and only appends to the trace. */
  function SubmitStep(s: WorkerState): (r: WorkerState)
    ensures s.effects <= r.effects && r.recording == 0
    ensures r.nextHandle == s.nextHandle
  {
    if s.recording == 0 then s
    else if s.open.None? then Fail(s.(recording := 0), NothingToSubmit)
    else if s.queue.None? then Fail(s.(recording := 0), NullQueue)
    else
      var slot := s.open.value;
      var signalled := Signal(s.events, slot.event);
      var pending := s.executionCompletedTasks;
      s.(recording := 0,
         events := if pending == [] then signalled else WaitFor(signalled, slot.event),
         effects := s.effects + [Submitted(s.queue.value, slot)]
                    + (if pending == [] then [] else [Waited(slot.event)] + Invocations(pending)),
         executionCompletedTasks := [],
         commandBuffers := s.commandBuffers + [slot],
         open := None)
  }

  /** Terminate stops the worker with an empty recycle FIFO, only appending deletes to the trace. */
  function TerminateStep(s: WorkerState): (r: WorkerState)
    ensures r.status == Terminated && r.commandBuffers == []
    ensures s.effects <= r.effects
  {
    s.(effects := s.effects
                  + (if s.open.Some? then [BufferDeleted(s.open.value.buffer)] else [])
                  + Deletions(s.commandBuffers),
       commandBuffers := [],
       status := Terminated)
  }

  /** One turn of the worker loop on one dequeued task. */
  function Step(s: WorkerState, task: AsyncTask): (r: WorkerState)
    ensures !s.status.Running? ==> r == s
    ensures s.effects <= r.effects
    ensures r.status != s.status ==> r.status.Faulted? || (task.tag == Terminate && r.status == Terminated)
  {
    if !s.status.Running? then s
    else
      match task.tag
      case SetQueue =>
        if task.payload.QueueHandle? then s.(queue := task.payload.queue) else Fail(s, BadCast)
      case QueueOperation =>
        if task.payload.QueueCallback? then
          s.(effects := s.effects + [QueueOperationCalled(task.payload.callback, s.queue)])
        else Fail(s, BadCast)
      case Recording =>
        if task.payload.RecordingCallback? then
          s.(recording := s.recording + 1,
             effects := s.effects
                        + [RecordingCalled(task.payload.callback, s.nextSyncValue, OpenBuffer(s.open))])
        else Fail(s, BadCast)
      case BeginRecording => BeginRecordingStep(s)
      case EndRecording =>
        if s.open.Some? then s.(effects := s.effects + [Ended(s.open.value.buffer)])
        else Fail(s, NotBegun)
      case Submiting => SubmitStep(s)
      case ExecutionCompleted =>
        if task.payload.CompletionCallback? then
          s.(executionCompletedTasks := s.executionCompletedTasks
                                        + [(s.nextSyncValue, task.payload.callback)])
        else Fail(s, BadCast)
      case Terminate => TerminateStep(s)
  }

  /** The GPU advancing an event's completion value, which it never takes past the sync point. */
  function GpuProgress(s: WorkerState, e: EventId, value: nat): WorkerState
  {
    if e in s.events && s.events[e].completion <= value <= s.events[e].syncPoint then
      s.(events := s.events[e := GpuEvent(value, s.events[e].syncPoint)])
    else s
  }

  /** What happens to the worker: a task reaches it, or the GPU makes progress. */
  datatype Input = Task(task: AsyncTask) | Progress(event: EventId, value: nat)

  function Apply(s: WorkerState, input: Input): WorkerState
  {
    match input
    case Task(t) => Step(s, t)
    case Progress(e, v) => GpuProgress(s, e, v)
  }

  function Run(s: WorkerState, inputs: seq<Input>): WorkerState
    decreases |inputs|
  {
    if inputs == [] then s else Run(Apply(s, inputs[0]), inputs[1..])
  }

  // ---------------------------------------------------------- invariant

  /** Every command buffer the worker holds, the open one first, then the FIFO. */
  function Slots(s: WorkerState): seq<Slot>
  {
    (if s.open.Some? then [s.open.value] else []) + s.commandBuffers
  }

  predicate DistinctSlots(slots: seq<Slot>)
  {
    forall i, j :: 0 <= i < j < |slots| ==>
      slots[i].buffer != slots[j].buffer && slots[i].event != slots[j].event
  }

  /**
   * nextSyncValue keeps its initial value; every event the device created
   * has a handle below nextHandle and has not completed past its sync point;
   * every held slot has a live event, and no command buffer or event is held
   * twice, so a buffer in the recycle FIFO is never the open one.
   */
  ghost predicate Inv(s: WorkerState)
  {
    && s.nextSyncValue == 1
    && (forall e :: e in s.events ==> e < s.nextHandle && s.events[e].completion <= s.events[e].syncPoint)
    && (forall slot :: slot in Slots(s) ==> slot.event in s.events && slot.buffer < s.nextHandle)
    && DistinctSlots(Slots(s))
  }

  lemma InitialInv()
    ensures Inv(Initial())
    ensures Initial().recording == 0 && Initial().nextSyncValue == 1
    ensures Initial().queue.None? && Initial().open.None? && Initial().commandBuffers == []
  {}

  lemma {:induction false} RotateDistinct(x: Slot, rest: seq<Slot>)
    requires DistinctSlots([x] + rest)
    ensures DistinctSlots(rest + [x])
  {
    var a, b := [x] + rest, rest + [x];
    forall i, j | 0 <= i < j < |b|
      ensures b[i].buffer != b[j].buffer && b[i].event != b[j].event
    {
      if j == |b| - 1 {
        assert b[i] == a[i + 1] && b[j] == a[0];
      } else {
        assert b[i] == a[i + 1] && b[j] == a[j + 1];
      }
    }
  }

  /** Opening a freshly created slot in front of the held ones keeps them distinct. */
  lemma {:induction false} FreshSlotDistinct(s: WorkerState, slot: Slot)
    requires Inv(s) && s.open.None?
    requires slot.buffer == s.nextHandle && slot.event == s.nextHandle
    ensures DistinctSlots([slot] + Slots(s))
  {
    var r := [slot] + Slots(s);
    forall i, j | 0 <= i < j < |r|
      ensures r[i].buffer != r[j].buffer && r[i].event != r[j].event
    {
      assert r[j] == Slots(s)[j - 1];
      assert r[j] in Slots(s);
      if i > 0 {
        assert r[i] == Slots(s)[i - 1];
      }
    }
  }

  lemma {:induction false} CreatePreservesInv(s: WorkerState)
    requires Inv(s) && s.open.None? && s.queue.Some?
    requires !(|s.commandBuffers| > 0 && IsComplete(s.events, s.commandBuffers[0].event))
    ensures Inv(BeginRecordingStep(s))
  {
    var r := BeginRecordingStep(s);
    var slot := Slot(s.nextHandle, s.nextHandle);
    assert Slots(r) == [slot] + Slots(s);
    FreshSlotDistinct(s, slot);
    assert r.events == s.events[slot.event := GpuEvent(0, 0)];
    assert r.nextHandle == s.nextHandle + 1;
  }

  lemma {:induction false} BeginRecordingPreservesInv(s: WorkerState)
    requires Inv(s)
    ensures Inv(BeginRecordingStep(s))
  {
    if s.open.None? {
      if |s.commandBuffers| > 0 && IsComplete(s.events, s.commandBuffers[0].event) {
        assert Slots(BeginRecordingStep(s)) == Slots(s);
      } else if s.queue.Some? {
        CreatePreservesInv(s);
      }
    }
  }

  lemma {:induction false} SubmitPreservesInv(s: WorkerState)
    requires Inv(s)
    ensures Inv(SubmitStep(s))
  {
    if s.recording != 0 && s.open.Some? && s.queue.Some? {
      SubmitKeepsEvents(s);
      SubmitRotatesSlots(s);
    }
  }

  /** Signalling and waiting on the submitted buffer's event keep every event within its sync point. */
  lemma SubmitKeepsEvents(s: WorkerState)
    requires Inv(s) && s.recording != 0 && s.open.Some? && s.queue.Some?
    ensures var r := SubmitStep(s);
      r.events.Keys == s.events.Keys && r.nextHandle == s.nextHandle &&
      forall e :: e in r.events ==> r.events[e].completion <= r.events[e].syncPoint
  {}

  /** Submitting moves the open slot to the back of the recycle FIFO. */
  lemma SubmitRotatesSlots(s: WorkerState)
    requires Inv(s) && s.recording != 0 && s.open.Some? && s.queue.Some?
    ensures DistinctSlots(Slots(SubmitStep(s)))
    ensures forall slot :: slot in Slots(SubmitStep(s)) ==> slot in Slots(s)
  {
    assert Slots(s) == [s.open.value] + s.commandBuffers;
    assert Slots(SubmitStep(s)) == s.commandBuffers + [s.open.value];
    RotateDistinct(s.open.value, s.commandBuffers);
  }

  lemma {:induction false} TerminatePreservesInv(s: WorkerState)
    requires Inv(s)
    ensures Inv(TerminateStep(s))
  {
    var r := TerminateStep(s);
    assert Slots(r) == (if s.open.Some? then [s.open.value] else []);
    assert forall slot :: slot in Slots(r) ==> slot in Slots(s);
  }

  lemma {:induction false} StepPreservesInv(s: WorkerState, task: AsyncTask)
    requires Inv(s)
    ensures Inv(Step(s, task))
  {
    if s.status.Running? {
      match task.tag
      case BeginRecording => BeginRecordingPreservesInv(s);
      case Submiting => SubmitPreservesInv(s);
      case Terminate => TerminatePreservesInv(s);
      case _ => assert Slots(Step(s, task)) == Slots(s);
    }
  }

  lemma {:induction false} RunPreservesInv(s: WorkerState, inputs: seq<Input>)
    requires Inv(s)
    ensures Inv(Run(s, inputs))
    decreases |inputs|
  {
    if inputs != [] {
      if inputs[0].Task? {
        StepPreservesInv(s, inputs[0].task);
      } else {
        assert Slots(Apply(s, inputs[0])) == Slots(s);
      }
      RunPreservesInv(Apply(s, inputs[0]), inputs[1..]);
    }
  }

  /** nextSyncValue is 1 at the start and after any run of inputs. */
  lemma NextSyncValueNeverChanges(inputs: seq<Input>)
    ensures Run(Initial(), inputs).nextSyncValue == 1
  {
    InitialInv();
    RunPreservesInv(Initial(), inputs);
  }

  // ---------------------------------------------------------- per-task facts

  /**
   * Recording counts one more piece of pending work and calls the task's
   * callback with nextSyncValue and the open command buffer, which may be
   * absent: there is no check that recording began.
   */
  lemma RecordingForwardsSyncAndBuffer(s: WorkerState, callback: CallbackId)
    requires Inv(s) && s.status.Running?
    ensures Step(s, NewRecordingTask(callback)).recording == s.recording + 1
    ensures Step(s, NewRecordingTask(callback)).effects
            == s.effects + [RecordingCalled(callback, 1, OpenBuffer(s.open))]
    ensures Step(s, NewRecordingTask(callback)).status.Running?
  {}

  /** A QueueOperation task's callback receives the current queue, set or not. */
  lemma QueueOperationForwardsQueue(s: WorkerState, callback: CallbackId)
    requires s.status.Running?
    ensures Step(s, NewQueueTask(callback))
            == s.(effects := s.effects + [QueueOperationCalled(callback, s.queue)])
  {}

  /**
   * BeginRecording without an open buffer looks only at the front of the
   * recycle FIFO: it takes that pair iff its event has completed, otherwise
   * it creates a fresh buffer and event, which needs a queue. Whichever it
   * opens is then begun.
   */
  lemma BeginRecordingReusesOnlyCompletedFront(s: WorkerState)
    requires Inv(s) && s.status.Running? && s.open.None?
    ensures var r := Step(s, NewTask(BeginRecording));
      && (r.open.Some? && r.open.value in s.commandBuffers
          <==> |s.commandBuffers| > 0 && IsComplete(s.events, s.commandBuffers[0].event))
      && (r.open.Some? && r.open.value in s.commandBuffers
          ==> r.open.value == s.commandBuffers[0] && r.commandBuffers == s.commandBuffers[1..])
      && (r.open.Some? && r.open.value !in s.commandBuffers
          ==> s.queue.Some? && r.open.value.buffer == s.nextHandle
              && r.effects == s.effects + [Created(r.open.value, s.queue.value), Begun(r.open.value.buffer)])
      && (r.open.None? <==> r.status == Faulted(QueueNotSet))
      && (r.status == Faulted(QueueNotSet)
          <==> s.queue.None? && !(|s.commandBuffers| > 0 && IsComplete(s.events, s.commandBuffers[0].event)))
  {
    var r := Step(s, NewTask(BeginRecording));
    if !(|s.commandBuffers| > 0 && IsComplete(s.events, s.commandBuffers[0].event)) && s.queue.Some? {
      assert Slots(s) == s.commandBuffers;
    }
  }

  /** BeginRecording with a buffer already open keeps it and begins it again. */
  lemma BeginRecordingKeepsOpenBuffer(s: WorkerState)
    requires s.status.Running? && s.open.Some?
    ensures Step(s, NewTask(BeginRecording))
            == s.(effects := s.effects + [Begun(s.open.value.buffer)])
  {}

  /** EndRecording ends the open buffer, and fails its assertion iff none is open. */
  lemma EndRecordingNeedsOpenBuffer(s: WorkerState)
    requires s.status.Running?
    ensures var r := Step(s, NewTask(EndRecording));
      && (r.status == Faulted(NotBegun) <==> s.open.None?)
      && (s.open.Some? ==> r == s.(effects := s.effects + [Ended(s.open.value.buffer)]))
  {}

  /** Submiting with no recorded work changes nothing at all. */
  lemma SubmitWithoutWorkIsNoop(s: WorkerState)
    requires s.recording == 0
    ensures Step(s, NewTask(Submiting)) == s
  {}

  /**
   * A submit with recorded work resets the counter, submits the open pair
   * exactly once, and, when completion callbacks are pending, waits for the
   * event and then invokes every one of them in the order they were queued;
   * finally the pair goes to the back of the recycle FIFO and nothing is open.
   */
  lemma SubmitRecyclesAndDrains(s: WorkerState)
    requires Inv(s) && s.status.Running? && s.recording > 0 && s.open.Some? && s.queue.Some?
    ensures var r := Step(s, NewTask(Submiting));
      && r.status.Running? && r.recording == 0 && r.open.None?
      && r.commandBuffers == s.commandBuffers + [s.open.value]
      && r.executionCompletedTasks == []
      && r.effects[..|s.effects| + 1] == s.effects + [Submitted(s.queue.value, s.open.value)]
      && (s.executionCompletedTasks == [] ==> |r.effects| == |s.effects| + 1)
      && (s.executionCompletedTasks != [] ==>
            && r.effects[|s.effects| + 1] == Waited(s.open.value.event)
            && r.effects[|s.effects| + 2..] == Invocations(s.executionCompletedTasks)
            && IsComplete(r.events, s.open.value.event))
  {
    var slot := s.open.value;
    assert slot in Slots(s);
  }

  /** Submiting with work recorded but no open buffer fails its assertion. */
  lemma SubmitNeedsOpenBuffer(s: WorkerState)
    requires s.status.Running? && s.recording > 0 && s.open.None?
    ensures Step(s, NewTask(Submiting)).status == Faulted(NothingToSubmit)
  {}

  /** ExecutionCompleted only queues (nextSyncValue, callback). */
  lemma ExecutionCompletedOnlyAppends(s: WorkerState, callback: CallbackId)
    requires s.status.Running?
    ensures Step(s, NewExecutionCompletedTask(callback))
            == s.(executionCompletedTasks := s.executionCompletedTasks + [(s.nextSyncValue, callback)])
  {}

  /** A task whose tag names a class that did not build it is a bad cast. */
  lemma MistaggedTaskIsBadCast(s: WorkerState, t: AsyncTaskType)
    requires s.status.Running?
    requires t in {SetQueue, QueueOperation, Recording, ExecutionCompleted}
    ensures Step(s, NewTask(t)).status == Faulted(BadCast)
  {}

  // ------------------------------------------------------------ Terminate

  lemma {:induction false} StoppedStaysStopped(s: WorkerState, inputs: seq<Input>)
    requires !s.status.Running?
    ensures Run(s, inputs).status == s.status
    ensures Run(s, inputs).effects == s.effects
    ensures Run(s, inputs).commandBuffers == s.commandBuffers
    decreases |inputs|
  {
    if inputs != [] {
      StoppedStaysStopped(Apply(s, inputs[0]), inputs[1..]);
    }
  }

  /**
   * Terminate deletes the open buffer and every recycled pair, front first,
   * and the worker returns: no later task has any effect.
   */
  lemma TerminateDeletesAllAndStops(s: WorkerState, later: seq<Input>)
    requires s.status.Running?
    ensures var r := Run(s, [Task(NewTask(Terminate))] + later);
      && r.status == Terminated
      && r.commandBuffers == []
      && r.effects == s.effects
                      + (if s.open.Some? then [BufferDeleted(s.open.value.buffer)] else [])
                      + Deletions(s.commandBuffers)
  {
    var inputs := [Task(NewTask(Terminate))] + later;
    assert inputs[1..] == later;
    StoppedStaysStopped(Step(s, NewTask(Terminate)), later);
  }

  // ------------------------------------------------- completion callbacks

  /** The callbacks named by Invoked effects, in trace order. */
  function Called(effects: seq<Effect>): seq<CallbackId>
  {
    if effects == [] then []
    else Called(effects[..|effects| - 1])
         + (if effects[|effects| - 1].Invoked? then [effects[|effects| - 1].callback] else [])
  }

  function Callbacks(pending: seq<(nat, CallbackId)>): seq<CallbackId>
  {
    seq(|pending|, i requires 0 <= i < |pending| => pending[i].1)
  }

  /** Completion callbacks invoked so far, followed by those still pending. */
  function Delivered(s: WorkerState): seq<CallbackId>
  {
    Called(s.effects) + Callbacks(s.executionCompletedTasks)
  }

  /** The completion callbacks a sequence of inputs enqueues, in order. */
  function Enqueued(inputs: seq<Input>): seq<CallbackId>
    decreases |inputs|
  {
    if inputs == [] then []
    else
      (if inputs[0].Task? && inputs[0].task.tag == ExecutionCompleted
          && inputs[0].task.payload.CompletionCallback?
       then [inputs[0].task.payload.callback] else [])
      + Enqueued(inputs[1..])
  }

  lemma {:induction false} CalledAppend(a: seq<Effect>, b: seq<Effect>)
    ensures Called(a + b) == Called(a) + Called(b)
    decreases |b|
  {
    if b == [] {
      assert a + b == a;
    } else {
      var b' := b[..|b| - 1];
      assert (a + b)[..|a + b| - 1] == a + b';
      assert (a + b)[|a + b| - 1] == b[|b| - 1];
      CalledAppend(a, b');
    }
  }

  lemma {:induction false} CalledInvocations(pending: seq<(nat, CallbackId)>)
    ensures Called(Invocations(pending)) == Callbacks(pending)
    decreases |pending|
  {
    if pending != [] {
      var p' := pending[..|pending| - 1];
      assert Invocations(pending)[..|pending| - 1] == Invocations(p');
      CalledInvocations(p');
    }
  }

  lemma {:induction false} CalledOfCallFree(es: seq<Effect>)
    requires forall i :: 0 <= i < |es| ==> !es[i].Invoked?
    ensures Called(es) == []
    decreases |es|
  {
    if es != [] {
      CalledOfCallFree(es[..|es| - 1]);
    }
  }

  lemma {:induction false} CalledOfDeletions(slots: seq<Slot>)
    ensures Called(Deletions(slots)) == []
    decreases |slots|
  {
    if slots != [] {
      var last := slots[|slots| - 1];
      CalledOfDeletions(slots[..|slots| - 1]);
      CalledAppend(Deletions(slots[..|slots| - 1]), [EventDeleted(last.event), BufferDeleted(last.buffer)]);
      CalledOfCallFree([EventDeleted(last.event), BufferDeleted(last.buffer)]);
    }
  }

  /** Appending calls other than invocations leaves Called unchanged. */
  lemma CallFreeAppend(a: seq<Effect>, added: seq<Effect>)
    requires forall i :: 0 <= i < |added| ==> !added[i].Invoked?
    ensures Called(a + added) == Called(a)
  {
    CalledAppend(a, added);
    CalledOfCallFree(added);
  }

  lemma {:induction false} SubmitDelivers(s: WorkerState)
    requires SubmitStep(s).status.Running?
    ensures Delivered(SubmitStep(s)) == Delivered(s)
  {
    var r := SubmitStep(s);
    if s.recording > 0 {
      var slot := s.open.value;
      var pending := s.executionCompletedTasks;
      var head := [Submitted(s.queue.value, slot)];
      if pending == [] {
        assert r.effects == s.effects + head;
        CallFreeAppend(s.effects, head);
      } else {
        var tail := [Waited(slot.event)] + Invocations(pending);
        assert r.effects == (s.effects + head) + tail;
        CallFreeAppend(s.effects, head);
        CalledAppend(s.effects + head, tail);
        CalledAppend([Waited(slot.event)], Invocations(pending));
        CalledOfCallFree([Waited(slot.event)]);
        CalledInvocations(pending);
      }
    }
  }

  /** Tasks that only call out (and never invoke a completion) deliver nothing. */
  lemma {:induction false} CallOutDelivers(s: WorkerState, t: AsyncTask)
    requires s.status.Running?
    requires t.tag in {QueueOperation, Recording, BeginRecording, EndRecording, SetQueue, Terminate}
    ensures Step(s, t).status.Running? ==> Delivered(Step(s, t)) == Delivered(s)
  {
    var r := Step(s, t);
    if r.status.Running? {
      var added := r.effects[|s.effects|..];
      assert r.effects == s.effects + added;
      assert r.executionCompletedTasks == s.executionCompletedTasks;
      CallFreeAppend(s.effects, added);
    }
  }

  lemma {:induction false} TaskDelivers(s: WorkerState, t: AsyncTask)
    requires Step(s, t).status.Running?
    ensures Delivered(Step(s, t)) == Delivered(s)
              + (if t.tag == ExecutionCompleted && t.payload.CompletionCallback?
                 then [t.payload.callback] else [])
  {
    if t.tag == Submiting {
      SubmitDelivers(s);
    } else if t.tag == ExecutionCompleted {
      var r := Step(s, t);
      assert Callbacks(r.executionCompletedTasks)
             == Callbacks(s.executionCompletedTasks) + [t.payload.callback];
    } else {
      CallOutDelivers(s, t);
    }
  }

  /** One step keeps the delivered order and appends the callback it enqueues, if any. */
  lemma {:induction false} StepDelivers(s: WorkerState, input: Input)
    requires Apply(s, input).status.Running?
    ensures Delivered(Apply(s, input)) == Delivered(s) + Enqueued([input])
  {
    assert Enqueued([input]) == (if input.Task? && input.task.tag == ExecutionCompleted
                                    && input.task.payload.CompletionCallback?
                                 then [input.task.payload.callback] else []) + Enqueued([]);
    if input.Task? {
      TaskDelivers(s, input.task);
    }
  }

  lemma {:induction false} RunningBeforeIfRunningAfter(s: WorkerState, inputs: seq<Input>)
    requires Run(s, inputs).status.Running?
    ensures s.status.Running?
    decreases |inputs|
  {
    if inputs == [] {
    } else if !s.status.Running? {
      StoppedStaysStopped(s, inputs);
    }
  }

  /**
   * Every completion callback that reaches a worker that is still running is
   * invoked exactly once, after those enqueued before it, or is still
   * pending: invoked callbacks followed by pending ones are exactly the
   * callbacks enqueued, in enqueue order.
   */
  lemma {:induction false} CompletionsDeliveredInOrder(s: WorkerState, inputs: seq<Input>)
    requires Run(s, inputs).status.Running?
    ensures Delivered(Run(s, inputs)) == Delivered(s) + Enqueued(inputs)
    decreases |inputs|
  {
    if inputs != [] {
      var s1 := Apply(s, inputs[0]);
      RunningBeforeIfRunningAfter(s1, inputs[1..]);
      StepDelivers(s, inputs[0]);
      CompletionsDeliveredInOrder(s1, inputs[1..]);
      assert Enqueued(inputs) == Enqueued([inputs[0]]) + Enqueued(inputs[1..]) by {
        assert [inputs[0]][1..] == [];
      }
    }
  }

  // --------------------------------------------------------------- thread

  /**
   * AsyncComputeThread: the task queue and semaphore shared with producers,
   * the executionCompletedTasks member, and (as fields) the locals of the
   * worker lambda.
   */
  class AsyncComputeThread {
    var tasks: seq<AsyncTask>
    var semaphore: nat

    var recording: nat
    var nextSyncValue: nat
    var queue: Option<QueueId>
    var open: Option<Slot>
    var commandBuffers: seq<Slot>
    var executionCompletedTasks: seq<(nat, CallbackId)>
    var events: map<EventId, GpuEvent>
    var nextHandle: nat
    var effects: seq<Effect>
    var status: Status

    function State(): WorkerState
      reads this
    {
      WorkerState(recording, nextSyncValue, queue, open, commandBuffers,
                  executionCompletedTasks, events, nextHandle, effects, status)
    }

    /** One semaphore signal per queued task, and the worker invariant. */
    ghost predicate Valid()
      reads this
    {
      semaphore == |tasks| && Inv(State())
    }

    constructor ()
      ensures Valid() && tasks == [] && State() == Initial()
    {
      tasks, semaphore := [], 0;
      recording, nextSyncValue := 0, 1;
      queue, open := None, None;
      commandBuffers, executionCompletedTasks := [], [];
      events, nextHandle, effects, status := map[], 0, [], Running;
      InitialInv();
    }

    /** IsExecutionCompleted answers true whatever the value. */
    function IsExecutionCompleted(value: nat): (done: bool)
      ensures done
    {
      true
    }

    /** Execute<T>(args): enqueue one task, then signal the semaphore once. */
    method Execute(task: AsyncTask)
      requires Valid()
      modifies this
      ensures Valid()
      ensures tasks == old(tasks) + [task] && semaphore == old(semaphore) + 1
      ensures State() == old(State())
    {
      tasks := tasks + [task];
      semaphore := semaphore + 1;
    }

    /** Execute(type): a task carrying only its tag. */
    method ExecuteType(t: AsyncTaskType)
      requires Valid()
      modifies this
      ensures Valid()
      ensures tasks == old(tasks) + [NewTask(t)] && semaphore == old(semaphore) + 1
      ensures State() == old(State())
    {
      Execute(NewTask(t));
    }

    /**
     * One turn of the worker loop: wait on the semaphore, dequeue a task and
     * dispatch it. With nothing signalled the worker would block; once it
     * has returned it takes nothing more.
     */
    method RunOnce() returns (taken: Option<AsyncTask>)
      requires Valid()
      modifies this
      ensures Valid()
      ensures (old(tasks) == [] || !old(status).Running?) ==> taken.None? && unchanged(this)
      ensures old(tasks) != [] && old(status).Running? ==>
                && taken == Some(old(tasks)[0])
                && tasks == old(tasks)[1..] && semaphore == old(semaphore) - 1
                && State() == Step(old(State()), old(tasks)[0])
    {
      if semaphore == 0 || !status.Running? {
        return None;
      }
      semaphore := semaphore - 1;
      var task := tasks[0];
      tasks := tasks[1..];
      ghost var before := State();
      Dispatch(task);
      StepPreservesInv(before, task);
      taken := Some(task);
    }

    /** The GPU reaching `value` on event `e`. */
    method AdvanceGpu(e: EventId, value: nat)
      requires Valid()
      modifies this
      ensures Valid()
      ensures State() == GpuProgress(old(State()), e, value)
      ensures tasks == old(tasks) && semaphore == old(semaphore)
    {
      if e in events && events[e].completion <= value <= events[e].syncPoint {
        ghost var before := State();
        events := events[e := GpuEvent(value, events[e].syncPoint)];
        assert Slots(State()) == Slots(before);
      }
    }

    /** The switch on the task's type, run on the worker's fields. */
    method Dispatch(task: AsyncTask)
      modifies this
      ensures State() == Step(old(State()), task)
      ensures tasks == old(tasks) && semaphore == old(semaphore)
    {
      if !status.Running? {
        return;
      }
      match task.tag {
        case SetQueue =>
          if task.payload.QueueHandle? {
            queue := task.payload.queue;
          } else {
            status := Faulted(BadCast);
          }
        case QueueOperation =>
          if task.payload.QueueCallback? {
            effects := effects + [QueueOperationCalled(task.payload.callback, queue)];
          } else {
            status := Faulted(BadCast);
          }
        case Recording =>
          if task.payload.RecordingCallback? {
            recording := recording + 1;
            effects := effects + [RecordingCalled(task.payload.callback, nextSyncValue, OpenBuffer(open))];
          } else {
            status := Faulted(BadCast);
          }
        case BeginRecording =>
          BeginRecordingInPlace();
        case EndRecording =>
          if open.Some? {
            effects := effects + [Ended(open.value.buffer)];
          } else {
            status := Faulted(NotBegun);
          }
        case Submiting =>
          SubmitInPlace();
        case ExecutionCompleted =>
          if task.payload.CompletionCallback? {
            executionCompletedTasks := executionCompletedTasks + [(nextSyncValue, task.payload.callback)];
          } else {
            status := Faulted(BadCast);
          }
        case Terminate =>
          TerminateInPlace();
      }
    }

    method BeginRecordingInPlace()
      requires status.Running?
      modifies this
      ensures State() == BeginRecordingStep(old(State()))
      ensures tasks == old(tasks) && semaphore == old(semaphore)
    {
      if open.None? {
        if |commandBuffers| > 0 {
          var front := commandBuffers[0];
          if IsComplete(events, front.event) {
            open := Some(front);
            commandBuffers := commandBuffers[1..];
          }
        }
        if open.None? {
          if queue.None? {
            status := Faulted(QueueNotSet);
            return;
          }
          var slot := Slot(nextHandle, nextHandle);
          events := events[slot.event := GpuEvent(0, 0)];
          nextHandle := nextHandle + 1;
          open := Some(slot);
          effects := effects + [Created(slot, queue.value)];
        }
      }
      effects := effects + [Begun(open.value.buffer)];
    }

    method SubmitInPlace()
      requires status.Running?
      modifies this
      ensures State() == SubmitStep(old(State()))
      ensures tasks == old(tasks) && semaphore == old(semaphore)
    {
      if recording == 0 {
        return;
      }
      recording := 0;
      if open.None? {
        status := Faulted(NothingToSubmit);
        return;
      }
      if queue.None? {
        status := Faulted(NullQueue);
        return;
      }
      var slot := open.value;
      events := Signal(events, slot.event);
      effects := effects + [Submitted(queue.value, slot)];
      if executionCompletedTasks != [] {
        var pending := executionCompletedTasks;
        executionCompletedTasks := [];
        events := WaitFor(events, slot.event);
        var invoked := InvokeCallbacks(pending);
        effects := effects + ([Waited(slot.event)] + invoked);
      }
      commandBuffers := commandBuffers + [slot];
      open := None;
    }

    method TerminateInPlace()
      requires status.Running?
      modifies this
      ensures State() == TerminateStep(old(State()))
      ensures tasks == old(tasks) && semaphore == old(semaphore)
    {
      if open.Some? {
        effects := effects + [BufferDeleted(open.value.buffer)];
      }
      var remaining := commandBuffers;
      var deleted := [];
      ghost var k := 0;
      while remaining != []
        invariant 0 <= k <= |commandBuffers|
        invariant remaining == commandBuffers[k..]
        invariant deleted == Deletions(commandBuffers[..k])
        decreases |remaining|
      {
        var front := remaining[0];
        assert commandBuffers[..k + 1][..k] == commandBuffers[..k];
        deleted := deleted + [EventDeleted(front.event), BufferDeleted(front.buffer)];
        remaining := remaining[1..];
        k := k + 1;
      }
      assert commandBuffers[..k] == commandBuffers;
      effects := effects + deleted;
      commandBuffers := remaining;
      status := Terminated;
    }
  }
}

=== FILE: common.dfy ===
// Shared vocabulary: optional values and the two arithmetic helpers of the
// engine's base library that the modelled code calls but whose definitions
// are not part of this model (SLALIGN and SLROTATE). Their meaning here is
// inferred from their uses: round up to a multiple, and step an index around a ring.

module Common {

  datatype Option<T> = None | Some(value: T)

  /** An unsigned 8-bit value (uint8_t). */
  type Byte = b: int | 0 <= b < 256

  /** SLALIGN(x, a): x rounded up to the next multiple of a (meaning inferred from its uses). */
  function AlignUp(x: nat, a: nat): (r: nat)
    requires a > 0
    ensures exists k: nat :: r == k * a
    ensures r % a == 0
    ensures x <= r < x + a
  {
    var n := x + a - 1;
    var q := n / a;
    assert n == q * a + n % a;
    DivOfMultiple(q, a);
    q * a
  }

  lemma MulPositive(a: nat, b: nat)
    requires a > 0 && b > 0
    ensures a * b > 0
  {}

  lemma {:induction false} DivOfMultiple(k: nat, unit: nat)
    requires unit > 0
    ensures (k * unit) / unit == k
  {
    var q := (k * unit) / unit;
    var r := (k * unit) % unit;
    assert k * unit == q * unit + r;
    assert (k - q) * unit == r;
    FactorBelowUnit(k - q, unit);
  }

  /** A multiple of unit in [0, unit) is 0 * unit. */
  lemma FactorBelowUnit(a: int, unit: nat)
    requires unit > 0 && 0 <= a * unit < unit
    ensures a == 0
  {
    if a >= 1 {
      MulMonotone(1, a, unit);
    }
  }

  /** An offset below count slots of `size` bytes lies in a slot below count. */
  lemma DivBelow(x: nat, size: nat, count: nat)
    requires size > 0 && x < size * count
    ensures x / size < count
  {
    var q := x / size;
    assert q * size <= x;
    if q >= count {
      MulMonotone(count, q, size);
    }
  }

  lemma MulMonotone(a: nat, b: nat, c: nat)
    requires a <= b
    ensures a * c <= b * c
  {}

  lemma MulSucc(a: nat, b: nat)
    ensures (a + 1) * b == a * b + b
  {}

  lemma MulAssoc(a: nat, b: nat, c: nat)
    ensures a * (b * c) == a * b * c
  {}

  /** Adding the modulus does not change the remainder. */
  lemma ModShift(x: int, n: nat)
    requires n > 0
    ensures (x + n) % n == x % n
  {
    var q, r := x / n, x % n;
    assert x + n == (q + 1) * n + r;
    ModUnique(x + n, n, q + 1, r);
  }

  /** The remainder is the r of any y == q * n + r with 0 <= r < n. */
  lemma ModUnique(y: int, n: nat, q: int, r: int)
    requires n > 0 && 0 <= r < n && y == q * n + r
    ensures y % n == r
  {
    var q2, r2 := y / n, y % n;
    assert y == q2 * n + r2;
    var d := q - q2;
    assert d * n == r2 - r by { SubMul(q, q2, n); }
    if d > 0 {
      MulAtLeast(d, n);
    } else if d < 0 {
      SubMul(q2, q, n);
      MulAtLeast(q2 - q, n);
    }
  }

  lemma SubMul(a: int, b: int, n: int)
    ensures a * n - b * n == (a - b) * n
  {}

  lemma MulAtLeast(k: nat, n: nat)
    requires k >= 1
    ensures k * n >= n
  {
    assert k * n == (k - 1) * n + n;
  }

  /** x << k and x >> k on unsigned values wide enough not to wrap. */
  function Pow2(k: nat): (p: nat)
    ensures p >= 1
  {
    if k == 0 then 1 else 2 * Pow2(k - 1)
  }

  /** SLROTATE(i, n): the index after i on a ring of n slots (meaning inferred from its uses). */
  function Rotate(i: nat, n: nat): (r: nat)
    requires i < n
    ensures r < n
    ensures r == 0 <==> i == n - 1
    ensures i < n - 1 ==> r == i + 1
  {
    if i + 1 == n then 0 else i + 1
  }

  function Min(a: int, b: int): (r: int)
    ensures r <= a && r <= b && (r == a || r == b)
  {
    if a <= b then a else b
  }

  function Max(a: int, b: int): (r: int)
    ensures r >= a && r >= b && (r == a || r == b)
  {
    if a >= b then a else b
  }
}

// 64-bit masks as used by the slot allocators: bit i set means slot i is free.
module Bits {

  /** A bit position of a 64-bit word. */
  type Index = i: bv7 | i < 64

  predicate IsSet(m: bv64, i: Index)
  {
    (m >> i) & 1 == 1
  }

  /** A number below 64 as a bit position. */
  function ToIndex(n: nat): (i: Index)
    requires n < 64
    ensures i as int == n
  {
    if n == 0 then 0 else ToIndex(n - 1) + 1
  }

  lemma IndexInjective(i: Index, j: Index)
    requires i as int == j as int
    ensures i == j
  {}

  /** Setting bit i leaves every other bit as it was. */
  lemma OrBit(m: bv64, i: Index, r: bv64, j: Index)
    requires r == m | (1 << i)
    ensures IsSet(r, j) <==> j == i || IsSet(m, j)
  {}

  /** Toggling bit i flips it and leaves every other bit as it was. */
  lemma XorBit(m: bv64, i: Index, r: bv64, j: Index)
    requires r == m ^ (1 << i)
    ensures IsSet(r, j) <==> (if j == i then !IsSet(m, j) else IsSet(m, j))
  {}

  /** Clearing bit i leaves every other bit as it was. */
  lemma AndNotBit(m: bv64, i: Index, r: bv64, j: Index)
    requires r == m & !(1 << i)
    ensures IsSet(r, j) <==> j != i && IsSet(m, j)
  {}

  /** 2 << (k - 1) is the word with bit k set. */
  lemma DoubleShift(k: Index)
    requires k >= 1
    ensures (2 as bv64) << (k - 1) == 1 << k
  {}

  lemma ShiftTwice(k: Index)
    ensures (2 as bv64) << k == (1 << k) << 1
  {}

  /** ((1 << k) << 1) - 1 has exactly the bits 0 to k set, all 64 when k is 63. */
  lemma LowMaskBits(k: Index, w: bv64)
    requires w == ((1 << k) << 1) - 1
    ensures forall j: Index :: IsSet(w, j) <==> (j as int) <= (k as int)
  {
    forall j: Index
      ensures IsSet(w, j) <==> (j as int) <= (k as int)
    {
      if j <= k {
        LowMaskIn(k, j);
      } else {
        MaskTopClear(k);
        ShiftedOut(w, k + 1, j);
      }
    }
  }

  lemma LowMaskIn(k: Index, j: Index)
    requires j <= k
    ensures IsSet(((1 << k) << 1) - 1, j)
  {}

  lemma MaskTopClear(k: Index)
    requires k < 63
    ensures ((((1 as bv64) << k) << 1) - 1) >> (k + 1) == 0
  {}

  /** A word with nothing at or above bit n has bit j clear for every j from n on. */
  lemma ShiftedOut(w: bv64, n: Index, j: Index)
    requires w >> n == 0 && n <= j
    ensures !IsSet(w, j)
  {
    assert w >> j == (w >> n) >> (j - n);
  }

  /** No bit of m below position r is set. */
  ghost predicate ClearBelow(m: bv64, r: bv7)
  {
    forall j: Index :: j < r ==> !IsSet(m, j)
  }

  /**
   * _tzcnt_u64 / __builtin_ctzll: the position of the lowest set bit of a
   * non-zero word (the intrinsic's meaning, inferred from its uses).
   */
  function TrailingZeros(m: bv64): (r: Index)
    requires m != 0
    ensures IsSet(m, r)
    ensures ClearBelow(m, r)
    decreases m
  {
    if m & 1 == 1 then
      LowSet(m);
      0
    else
      var h := m >> 1;
      HalfOfEven(m, h);
      var r' := TrailingZeros(h);
      TrailingStep(m, h, r');
      r' + 1
  }

  lemma LowSet(m: bv64)
    requires m & 1 == 1
    ensures IsSet(m, 0)
  {}

  lemma HalfOfEven(m: bv64, h: bv64)
    requires m != 0 && m & 1 != 1 && h == m >> 1
    ensures h != 0 && h < m
  {}

  /** Bit j of the half is bit j + 1 of the word, and the half's top bit is clear. */
  lemma BitOfHalf(m: bv64, h: bv64, j: Index)
    requires h == m >> 1
    ensures j < 63 ==> (IsSet(h, j) <==> IsSet(m, j + 1))
    ensures j == 63 ==> !IsSet(h, j)
  {}

  /** The lowest set bit of an even word is one above that of its half. */
  lemma TrailingStep(m: bv64, h: bv64, r: Index)
    requires h == m >> 1 && m & 1 != 1
    requires IsSet(h, r) && ClearBelow(h, r)
    ensures r < 63 && IsSet(m, r + 1) && ClearBelow(m, r + 1)
  {
    BitOfHalf(m, h, r);
    forall j: Index | j < r + 1
      ensures !IsSet(m, j)
    {
      BelowClear(m, h, r, j);
    }
  }

  /** Below one above the half's lowest set bit, the even word has no bit set. */
  lemma BelowClear(m: bv64, h: bv64, r: Index, j: Index)
    requires h == m >> 1 && m & 1 != 1
    requires forall j: Index :: j < r ==> !IsSet(h, j)
    requires j <= r && r < 63
    ensures !IsSet(m, j)
  {
    if j == 0 {
      LowClear(m);
    } else {
      BitOfHalf(m, h, j - 1);
    }
  }

  lemma LowClear(m: bv64)
    requires m & 1 != 1
    ensures !IsSet(m, 0)
  {}
}

=== FILE: d3d12_buffer.dfy ===
// The D3D12 buffer (Graphics/D3D12/Buffer.cpp): the size rule of the
// constructor, the heap, initial state and flags Construct picks from the
// buffer's type bits, the shader-resource descriptor a constant buffer
// holds from construction to destruction, the initial upload and Map.
//
// The buffer type is a set of flag bits. The device's descriptor allocator
// and the D3D12 calls are outside the model: the slot the allocator hands
// out and whether Map succeeds are parameters.

module D3D12Buffer {
  import opened Common

  datatype Usage = Vertex | Index | ConstantBuffer | TransferSource | TransferDestination | Scratch
                 | AccelerationStructure | Storage

  datatype HeapType = Upload | Default | Readback

  datatype ResourceState = GenericRead | Common | CopyDest | UnorderedAccess | RaytracingAccelerationStructure

  /** What Construct passes to CreateCommittedResource besides the size. */
  datatype Placement = Placement(heap: HeapType, state: ResourceState, allowUnorderedAccess: bool)

  /** The size the constructor stores: rounded up to 256 only for a buffer whose type is exactly ConstantBuffer. */
  function BufferSize(usage: set<Usage>, size: nat): (r: nat)
    ensures usage == {ConstantBuffer} ==> r % 256 == 0 && size <= r < size + 256
    ensures usage != {ConstantBuffer} ==> r == size
  {
    if usage == {ConstantBuffer} then AlignUp(size, 256) else size
  }

  /**
   * Construct's choice, by the first type bit set in the order
   * ConstantBuffer, TransferSource, TransferDestination, Scratch,
   * AccelerationStructure; with none of them, an upload heap read by the GPU.
   */
  function PlacementOf(usage: set<Usage>): (p: Placement)
    ensures ConstantBuffer in usage ==> p == Placement(Default, Common, false)
    ensures ConstantBuffer !in usage && TransferSource in usage ==> p == Placement(Upload, GenericRead, false)
    ensures ConstantBuffer !in usage && TransferSource !in usage && TransferDestination in usage ==>
      p == Placement(Readback, CopyDest, false)
    ensures p.allowUnorderedAccess <==>
      (ConstantBuffer !in usage && TransferSource !in usage && TransferDestination !in usage &&
       (Scratch in usage || AccelerationStructure in usage))
    ensures p.heap == Upload <==>
      (ConstantBuffer !in usage &&
       (TransferSource in usage ||
        (TransferDestination !in usage && Scratch !in usage && AccelerationStructure !in usage)))
  {
    if ConstantBuffer in usage then Placement(Default, Common, false)
    else if TransferSource in usage then Placement(Upload, GenericRead, false)
    else if TransferDestination in usage then Placement(Readback, CopyDest, false)
    else if Scratch in usage then Placement(Default, UnorderedAccess, true)
    else if AccelerationStructure in usage then Placement(Default, RaytracingAccelerationStructure, true)
    else Placement(Upload, GenericRead, false)
  }

  /** The element count of the view: the size cast to 32 bits, in 4-byte elements. */
  function ViewElements(size: nat): (n: nat)
    ensures n * 4 <= size
    ensures size < 0x1_0000_0000 ==> size < n * 4 + 4
  {
    (size % 0x1_0000_0000) / 4
  }

  /** A buffer of type exactly ConstantBuffer below 4 GiB is covered by its view to the last byte. */
  lemma ConstantBufferViewCovers(size: nat)
    requires AlignUp(size, 256) < 0x1_0000_0000
    ensures ViewElements(BufferSize({ConstantBuffer}, size)) * 4 == BufferSize({ConstantBuffer}, size)
  {
    var r := BufferSize({ConstantBuffer}, size);
    assert r % 4 == 0 by {
      var k :| r == k * 256;
      assert r == (k * 64) * 4;
    }
  }

  /** Any other buffer with the ConstantBuffer bit keeps its size, so its view drops the last size % 4 bytes. */
  lemma CombinedTypeViewTruncates()
    ensures BufferSize({ConstantBuffer, Vertex}, 6) == 6 && ViewElements(6) * 4 == 4
  {}

  /** The mapped range: [offset, offset + size) on success, null on failure. */
  function MapRange(offset: nat, size: nat, succeeds: bool): (r: Option<(nat, nat)>)
    ensures r.Some? <==> succeeds
    ensures r.Some? ==> r.value.0 == offset && r.value.1 - r.value.0 == size
  {
    if succeeds then Some((offset, offset + size)) else None
  }

  class Buffer {
    const usage: set<Usage>
    const size: nat
    const placement: Placement
    /** The shader-resource descriptor, held iff the ConstantBuffer bit is set. */
    var descriptor: Option<nat>
    /** The element count of that descriptor's view. */
    var viewElements: nat
    /** The bytes uploaded at construction, from offset 0. */
    var uploaded: seq<nat>
    /** Set when the initial copy went through the null pointer a failed Map leaves. */
    var faulted: bool

    ghost predicate Valid()
      reads this
    {
      (descriptor.Some? <==> ConstantBuffer in usage) &&
      (ConstantBuffer in usage ==> viewElements == ViewElements(size))
    }

    /**
     * Buffer(device, type, size, data): the stored size follows BufferSize,
     * Construct picks the placement and, for the ConstantBuffer bit, takes
     * the descriptor `slot`; with data, the first `size` bytes are copied
     * into the mapped buffer.
     */
    constructor (usage: set<Usage>, size: nat, data: Option<seq<nat>>, slot: nat, mapSucceeds: bool)
      requires data.Some? ==> |data.value| == size
      ensures Valid()
      ensures this.usage == usage && this.size == BufferSize(usage, size)
      ensures placement == PlacementOf(usage)
      ensures descriptor == (if ConstantBuffer in usage then Some(slot) else None)
      ensures uploaded == (if data.Some? && mapSucceeds then data.value else [])
      ensures faulted <==> data.Some? && !mapSucceeds
    {
      this.usage := usage;
      this.size := BufferSize(usage, size);
      placement := PlacementOf(usage);
      if ConstantBuffer in usage {
        descriptor := Some(slot);
        viewElements := ViewElements(BufferSize(usage, size));
      } else {
        descriptor := None;
        viewElements := 0;
      }
      uploaded := [];
      faulted := false;
      new;
      if data.Some? {
        var mapped := Map(0, size, mapSucceeds);
        if mapped.None? {
          faulted := true;
        } else {
          uploaded := data.value;
        }
      }
    }

    /** Map: the range [offset, offset + size) of subresource 0, or null when the call fails. */
    method Map(offset: nat, size: nat, succeeds: bool) returns (r: Option<(nat, nat)>)
      ensures r == MapRange(offset, size, succeeds)
    {
      if succeeds {
        r := Some((offset, offset + size));
      } else {
        r := None;
      }
    }

    /** The destructor: a buffer with the ConstantBuffer bit hands its descriptor back to the device. */
    method Destroy() returns (freed: Option<nat>)
      requires Valid()
      ensures freed == descriptor
      ensures freed.Some? <==> ConstantBuffer in usage
    {
      if ConstantBuffer in usage {
        freed := descriptor;
      } else {
        freed := None;
      }
    }
  }

  /** The descriptor the destructor frees is the one the constructor took, and only a constant buffer takes one. */
  method ConstructThenDestroy(usage: set<Usage>, size: nat, slot: nat) returns (freed: Option<nat>)
    ensures freed.Some? <==> ConstantBuffer in usage
    ensures freed.Some? ==> freed.value == slot
  {
    var b := new Buffer(usage, size, None, slot, true);
    freed := b.Destroy();
  }
}

=== FILE: d3d12_device.dfy ===
// The routing rules of the D3D12 device: queue-type mapping, descriptor
// allocation through lazily created per-(heap type, count) pools or a
// dedicated heap, the shader-visible GPU handle offset, the lazy sampler
// cache and the pipeline cache.
//
// Native objects (heaps, samplers, pipelines) are identified by numbers drawn
// from a counter; creating them is a foreign call. The length of the bucket
// arrays is declared in the device header, which is not part of this model,
// so it is the constant `bucketCount`.

module D3D12Device {
  import opened Common
  import opened Bits
  import DP = DescriptorPool

  datatype QueueType = Graphics | Compute | Transfer | VideoDecoding | VideoEncoding | OtherQueue

  datatype CommandListType = Direct | ComputeList | Copy | VideoDecode | VideoEncode

  /** CAST(QueueType): each named queue type to its command-list type, anything else to DIRECT. */
  function Cast(t: QueueType): (r: CommandListType)
    ensures r == Direct <==> t == Graphics || t == OtherQueue
  {
    match t
    case Graphics => Direct
    case Compute => ComputeList
    case Transfer => Copy
    case VideoDecoding => VideoDecode
    case VideoEncoding => VideoEncode
    case OtherQueue => Direct
  }

  /** The queue type each command-list type comes from. */
  function QueueTypeOf(c: CommandListType): (q: QueueType)
    ensures q != OtherQueue
  {
    match c
    case Direct => Graphics
    case ComputeList => Compute
    case Copy => Transfer
    case VideoDecode => VideoDecoding
    case VideoEncode => VideoEncoding
  }

  /** Every command-list type is reached, from exactly one named queue type. */
  lemma CastIsBijectionOnNamedTypes(a: QueueType, b: QueueType, c: CommandListType)
    ensures Cast(QueueTypeOf(c)) == c
    ensures a != OtherQueue && b != OtherQueue && Cast(a) == Cast(b) ==> a == b
  {}

  datatype HeapType = CbvSrvUav | SamplerHeap | Rtv | Dsv

  type PoolKey = (HeapType, nat)

  /** Where a descriptor lives: a heap of a bucket pool, or a dedicated heap. */
  datatype HeapRef = Pooled(key: PoolKey, heap: DP.HeapId) | Dedicated(id: nat)

  /** A CPU descriptor: its heap and its byte offset from the heap's start. */
  datatype Handle = Handle(heap: HeapRef, offset: nat)

  datatype Fault =
    | DivisionByZero   // a bucket pool for count 0 divides 256 by 0
    | BucketOutOfRange // indexing the bucket array at or past its end
    | NullPool         // a bucket that was never created

  datatype Result<T> = Ok(value: T) | Err(fault: Fault)

  datatype Route = Bucket | DedicatedHeap | OutOfRange

  /** How Allocate(ShaderVisible)Descriptor and FreeShaderVisibleDescriptor route a count. */
  function AllocateRoute(count: nat, bucketCount: nat): (r: Route)
    ensures r != OutOfRange
    ensures r == Bucket <==> count < bucketCount
  {
    if count < bucketCount then Bucket else DedicatedHeap
  }

  /** FreeDescriptor as written: always the bucket array, whatever the count. */
  function FreeRouteAsWritten(count: nat, bucketCount: nat): (r: Route)
    ensures r != DedicatedHeap
  {
    if count < bucketCount then Bucket else OutOfRange
  }

  /** FreeDescriptor with the dedicated-heap branch FreeShaderVisibleDescriptor has. */
  function FreeRoute(count: nat, bucketCount: nat): (r: Route)
    ensures r != OutOfRange
    ensures r == Bucket <==> count < bucketCount
  {
    if count < bucketCount then Bucket else DedicatedHeap
  }

  /** The counterexample: a dedicated descriptor of bucketCount entries cannot be freed. */
  lemma FreeAsWrittenMissesDedicated(bucketCount: nat)
    ensures AllocateRoute(bucketCount, bucketCount) == DedicatedHeap
    ensures FreeRouteAsWritten(bucketCount, bucketCount) == OutOfRange
  {}

  /** Every descriptor is freed the way it was allocated. */
  lemma FreeRouteMatchesAllocateRoute(count: nat, bucketCount: nat)
    ensures FreeRoute(count, bucketCount) == AllocateRoute(count, bucketCount)
    ensures FreeRoute(count, bucketCount) != OutOfRange
  {}

  /**
   * The shader-visible GPU handle: index = (ptr - heap CPU base) / increment,
   * then the GPU base offset by index increments. For a pool descriptor at
   * slot s this is the same byte offset as the CPU descriptor.
   */
  function GpuOffset(cpuOffset: nat, increment: nat): (g: nat)
    requires increment > 0
    ensures g % increment == 0
    ensures g <= cpuOffset < g + increment
  {
    var q := cpuOffset / increment;
    assert q * increment % increment == 0 && q * increment <= cpuOffset < q * increment + increment by {
      ModUnique(q * increment, increment, q, 0);
      assert cpuOffset == q * increment + cpuOffset % increment;
    }
    q * increment
  }

  lemma {:induction false} GpuOffsetMatchesCpuOffset(index: Index, descriptorCount: nat, increment: nat)
    requires increment > 0
    ensures GpuOffset(DP.SlotOffset(index, descriptorCount, increment), increment)
            == DP.SlotOffset(index, descriptorCount, increment)
  {
    var k := (index as int) * descriptorCount;
    assert DP.SlotOffset(index, descriptorCount, increment) == k * increment by {
      MulAssoc(index as int, descriptorCount, increment);
    }
    GpuOffsetOfMultiple(k, increment);
  }

  lemma GpuOffsetOfMultiple(k: nat, increment: nat)
    requires increment > 0
    ensures GpuOffset(k * increment, increment) == k * increment
  {
    DivOfMultiple(k, increment);
  }

  datatype Filter = Nearest | Linear | OtherFilter

  /** The static table of pipelines GetPipeline knows how to build. */
  const PipelineTable: set<string> := {"GenerateMipMaps"}

  /** Bucket (type, count) is a valid pool of `count`-descriptor ranges of that type. */
  ghost predicate PoolFor(k: PoolKey, pool: DP.DescriptorPool, bucketCount: nat, increments: map<HeapType, nat>)
    reads pool
  {
    && 1 <= k.1 < bucketCount
    && k.0 in increments
    && pool.Valid()
    && pool.incrementSize == increments[k.0]
  }

  /** A new, empty descriptor pool for one bucket. */
  method NewPool(count: nat, incrementSize: nat, shaderVisible: bool) returns (pool: DP.DescriptorPool)
    requires 1 <= count <= 256 && incrementSize > 0
    ensures fresh(pool) && pool.Valid()
    ensures pool.incrementSize == incrementSize && pool.live == {} && pool.masks == map[]
  {
    pool := new DP.DescriptorPool(count, incrementSize, shaderVisible);
  }

  /**
   * Pool state after one claim of slot (heap, index), from the live slots
   * and masks the pool had before (none for a pool just created): the slot
   * was free and is now handed out, and exactly its bit is cleared.
   */
  ghost predicate Claimed(pool: DP.DescriptorPool, liveBefore: set<(DP.HeapId, Index)>,
                          masksBefore: map<DP.HeapId, bv64>, heap: DP.HeapId, index: Index)
    reads pool
  {
    && (heap, index) !in liveBefore
    && pool.live == liveBefore + {(heap, index)}
    && pool.masks == masksBefore[heap := DP.Claim(if heap in masksBefore then masksBefore[heap] else pool.fullMask, index)]
  }

  class Device {
    const bucketCount: nat
    /** GetDescriptorHandleIncrementSize, per heap type (a foreign query). */
    const increments: map<HeapType, nat>

    var pools: map<PoolKey, DP.DescriptorPool>
    var shaderVisiblePools: map<PoolKey, DP.DescriptorPool>
    /** Dedicated heaps alive: id to its descriptor count. */
    var dedicated: map<nat, nat>
    var nearest: Option<nat>
    var linear: Option<nat>
    var pipelines: map<string, nat>
    /** The next native object id. */
    var nextObject: nat

    ghost predicate Valid()
      reads this, pools.Values, shaderVisiblePools.Values
    {
      && bucketCount <= 257
      && (forall t: HeapType :: t in increments && increments[t] > 0)
      && (forall k :: k in pools ==> PoolFor(k, pools[k], bucketCount, increments))
      && (forall k :: k in shaderVisiblePools ==> PoolFor(k, shaderVisiblePools[k], bucketCount, increments))
      && (forall k1, k2 :: k1 in pools && k2 in pools && k1 != k2 ==> pools[k1] != pools[k2])
      && (forall k1, k2 :: k1 in shaderVisiblePools && k2 in shaderVisiblePools && k1 != k2 ==>
            shaderVisiblePools[k1] != shaderVisiblePools[k2])
      && (forall k1, k2 :: k1 in pools && k2 in shaderVisiblePools ==> pools[k1] != shaderVisiblePools[k2])
      && (forall id :: id in dedicated ==> id < nextObject)
    }

    constructor (bucketCount: nat, increments: map<HeapType, nat>)
      requires bucketCount <= 257
      requires forall t: HeapType :: t in increments && increments[t] > 0
      ensures Valid()
      ensures this.bucketCount == bucketCount && this.increments == increments
      ensures pools == map[] && shaderVisiblePools == map[] && dedicated == map[]
      ensures nearest == None && linear == None && pipelines == map[]
    {
      this.bucketCount, this.increments := bucketCount, increments;
      pools, shaderVisiblePools, dedicated := map[], map[], map[];
      nearest, linear, pipelines := None, None, map[];
      nextObject := 0;
    }

    /**
     * A count below the bucket-array length allocates from bucket
     * (type, count), creating it on first use; a larger count gets a
     * dedicated heap of exactly that many descriptors, at its start.
     */
    method AllocateDescriptor(t: HeapType, count: nat) returns (r: Result<Handle>, ghost index: Index)
      requires Valid()
      modifies this, pools.Values
      ensures Valid()
      ensures shaderVisiblePools == old(shaderVisiblePools)
      ensures nearest == old(nearest) && linear == old(linear) && pipelines == old(pipelines)
      ensures count == 0 < bucketCount ==> r == Err(DivisionByZero) && pools == old(pools)
      ensures 0 < count < bucketCount ==>
                && r.Ok? && r.value.heap.Pooled? && r.value.heap.key == (t, count)
                && r.value.offset == DP.SlotOffset(index, count, increments[t])
                && dedicated == old(dedicated)
                && ((t, count) in old(pools) ==> pools == old(pools))
                && ((t, count) !in old(pools) ==>
                      (t, count) in pools && fresh(pools[(t, count)]) && pools == old(pools)[(t, count) := pools[(t, count)]])
                && (t, count) in pools
                && Claimed(pools[(t, count)],
                           if (t, count) in old(pools) then old(pools[(t, count)].live) else {},
                           if (t, count) in old(pools) then old(pools[(t, count)].masks) else map[],
                           r.value.heap.heap, index)
      ensures forall k :: k in old(pools) && k != (t, count) ==>
                k in pools && pools[k].live == old(pools[k].live) && pools[k].masks == old(pools[k].masks)
      ensures count >= bucketCount ==>
                && r == Ok(Handle(Dedicated(old(nextObject)), 0))
                && pools == old(pools)
                && dedicated == old(dedicated)[old(nextObject) := count]
    {
      if count < bucketCount {
        if count == 0 {
          r, index := Err(DivisionByZero), 0;
          return;
        }
        var h;
        h, index := AllocateInBucket(t, count);
        r := Ok(h);
      } else {
        var id := nextObject;
        nextObject := nextObject + 1;
        dedicated := dedicated[id := count];
        r, index := Ok(Handle(Dedicated(id), 0)), 0;
      }
    }

    /** The bucket path of AllocateDescriptor. */
    method AllocateInBucket(t: HeapType, count: nat) returns (h: Handle, ghost index: Index)
      requires Valid() && 1 <= count < bucketCount
      modifies this, pools.Values
      ensures Valid()
      ensures h.heap.Pooled? && h.heap.key == (t, count)
      ensures h.offset == DP.SlotOffset(index, count, increments[t])
      ensures shaderVisiblePools == old(shaderVisiblePools) && dedicated == old(dedicated)
      ensures nearest == old(nearest) && linear == old(linear) && pipelines == old(pipelines)
      ensures (t, count) in old(pools) ==> pools == old(pools)
      ensures (t, count) !in old(pools) ==>
                (t, count) in pools && fresh(pools[(t, count)]) && pools == old(pools)[(t, count) := pools[(t, count)]]
      ensures (t, count) in pools &&
              Claimed(pools[(t, count)],
                      if (t, count) in old(pools) then old(pools[(t, count)].live) else {},
                      if (t, count) in old(pools) then old(pools[(t, count)].masks) else map[],
                      h.heap.heap, index)
      ensures forall k :: k in old(pools) && k != (t, count) ==>
                pools[k].live == old(pools[k].live) && pools[k].masks == old(pools[k].masks)
    {
      var pool := GetOrCreatePool(t, count);
      h, index := AllocateFromPool(t, count, pool);
    }

    /** AllocateWithMask on the pool of bucket (t, count), in either bucket array. */
    method AllocateFromPool(t: HeapType, count: nat, pool: DP.DescriptorPool) returns (h: Handle, index: Index)
      requires Valid() && PoolFor((t, count), pool, bucketCount, increments)
      requires pool in pools.Values || pool in shaderVisiblePools.Values
      modifies pool
      ensures Valid()
      ensures h.heap.Pooled? && h.heap.key == (t, count)
      ensures h.offset == DP.SlotOffset(index, count, increments[t])
      ensures Claimed(pool, old(pool.live), old(pool.masks), h.heap.heap, index)
    {
      var heap, descriptor;
      heap, descriptor, index := pool.AllocateWithMask(count);
      h := Handle(Pooled((t, count), heap), descriptor.offset);
    }

    /** Free on the pool of bucket (t, count), in either bucket array. */
    method FreeToPool(t: HeapType, count: nat, pool: DP.DescriptorPool, h: Handle, ghost index: Index)
      requires Valid() && PoolFor((t, count), pool, bucketCount, increments)
      requires pool in pools.Values || pool in shaderVisiblePools.Values
      requires h.heap.Pooled? && (h.heap.heap, index) in pool.live
      requires h.offset == DP.SlotOffset(index, count, increments[t])
      modifies pool
      ensures Valid()
      ensures pool.live == old(pool.live) - {(h.heap.heap, index)}
      ensures pool.masks == old(pool.masks)[h.heap.heap := DP.Release(old(pool.masks)[h.heap.heap], index)]
    {
      pool.Free(h.heap.heap, DP.Descriptor(h.heap.heap, h.offset), count, index);
    }

    /** The lazily created bucket (type, count). */
    method GetOrCreatePool(t: HeapType, count: nat) returns (pool: DP.DescriptorPool)
      requires Valid() && 1 <= count < bucketCount
      modifies this
      ensures Valid() && (t, count) in pools && pool == pools[(t, count)]
      ensures (t, count) in old(pools) ==> pools == old(pools)
      ensures (t, count) !in old(pools) ==> fresh(pool) && pools == old(pools)[(t, count) := pool]
      ensures (t, count) !in old(pools) ==> pool.live == {} && pool.masks == map[]
      ensures nearest == old(nearest) && linear == old(linear) && pipelines == old(pipelines)
      ensures pool.incrementSize == increments[t]
      ensures shaderVisiblePools == old(shaderVisiblePools) && dedicated == old(dedicated)
      ensures nextObject == old(nextObject)
    {
      if (t, count) in pools {
        pool := pools[(t, count)];
      } else {
        pool := NewPool(count, increments[t], false);
        pools := pools[(t, count) := pool];
      }
    }

    /**
     * FreeDescriptor, with the dedicated-heap branch: a bucket descriptor goes
     * back to its pool, a dedicated heap is deleted.
     */
    method FreeDescriptor(t: HeapType, h: Handle, count: nat, ghost index: Index)
      requires Valid()
      requires FreeRoute(count, bucketCount) == Bucket ==>
                 && h.heap.Pooled? && h.heap.key == (t, count) && h.heap.key in pools
                 && (h.heap.heap, index) in pools[h.heap.key].live
                 && h.offset == DP.SlotOffset(index, count, increments[t])
      requires FreeRoute(count, bucketCount) == DedicatedHeap ==> h.heap.Dedicated? && h.heap.id in dedicated
      modifies this, pools.Values
      ensures Valid()
      ensures pools == old(pools) && shaderVisiblePools == old(shaderVisiblePools)
      ensures FreeRoute(count, bucketCount) == Bucket ==>
                && dedicated == old(dedicated)
                && pools[(t, count)].live == old(pools[(t, count)].live) - {(h.heap.heap, index)}
                && pools[(t, count)].masks == old(pools[(t, count)].masks)[h.heap.heap :=
                     DP.Release(old(pools[(t, count)].masks)[h.heap.heap], index)]
      ensures FreeRoute(count, bucketCount) == DedicatedHeap ==>
                dedicated == old(dedicated) - {h.heap.id}
    {
      if count < bucketCount {
        FreeToPool(t, count, pools[(t, count)], h, index);
      } else {
        dedicated := dedicated - {h.heap.id};
      }
    }

    /**
     * The shader-visible variant: the same routing over the second bucket
     * array; the GPU handle is offset by (ptr - heap CPU base) / increment
     * increments. Returns the CPU handle and the GPU byte offset.
     */
    method AllocateShaderVisibleDescriptor(t: HeapType, count: nat) returns (r: Result<(Handle, nat)>, ghost index: Index)
      requires Valid()
      modifies this, shaderVisiblePools.Values
      ensures Valid()
      ensures pools == old(pools)
      ensures nearest == old(nearest) && linear == old(linear) && pipelines == old(pipelines)
      ensures count == 0 < bucketCount ==> r == Err(DivisionByZero) && shaderVisiblePools == old(shaderVisiblePools)
      ensures 0 < count < bucketCount ==>
                && r.Ok? && r.value.0.heap.Pooled? && r.value.0.heap.key == (t, count)
                && r.value.0.offset == DP.SlotOffset(index, count, increments[t])
                && r.value.1 == r.value.0.offset
                && dedicated == old(dedicated)
                && ((t, count) in old(shaderVisiblePools) ==> shaderVisiblePools == old(shaderVisiblePools))
                && ((t, count) !in old(shaderVisiblePools) ==>
                      (t, count) in shaderVisiblePools && fresh(shaderVisiblePools[(t, count)]) &&
                      shaderVisiblePools == old(shaderVisiblePools)[(t, count) := shaderVisiblePools[(t, count)]])
                && (t, count) in shaderVisiblePools
                && Claimed(shaderVisiblePools[(t, count)],
                           if (t, count) in old(shaderVisiblePools) then old(shaderVisiblePools[(t, count)].live) else {},
                           if (t, count) in old(shaderVisiblePools) then old(shaderVisiblePools[(t, count)].masks) else map[],
                           r.value.0.heap.heap, index)
      ensures forall k :: k in old(shaderVisiblePools) && k != (t, count) ==>
                k in shaderVisiblePools && shaderVisiblePools[k].live == old(shaderVisiblePools[k].live) &&
                shaderVisiblePools[k].masks == old(shaderVisiblePools[k].masks)
      ensures count >= bucketCount ==>
                && r == Ok((Handle(Dedicated(old(nextObject)), 0), 0))
                && shaderVisiblePools == old(shaderVisiblePools)
                && dedicated == old(dedicated)[old(nextObject) := count]
    {
      if count < bucketCount {
        if count == 0 {
          r, index := Err(DivisionByZero), 0;
          return;
        }
        var h, gpu;
        h, gpu, index := AllocateShaderVisibleInBucket(t, count);
        r := Ok((h, gpu));
      } else {
        var id := nextObject;
        nextObject := nextObject + 1;
        dedicated := dedicated[id := count];
        r, index := Ok((Handle(Dedicated(id), 0), 0)), 0;
      }
    }

    /** The bucket path of AllocateShaderVisibleDescriptor. */
    method AllocateShaderVisibleInBucket(t: HeapType, count: nat) returns (h: Handle, gpu: nat, ghost index: Index)
      requires Valid() && 1 <= count < bucketCount
      modifies this, shaderVisiblePools.Values
      ensures Valid()
      ensures h.heap.Pooled? && h.heap.key == (t, count) && gpu == h.offset
      ensures h.offset == DP.SlotOffset(index, count, increments[t])
      ensures pools == old(pools) && dedicated == old(dedicated) && nextObject == old(nextObject)
      ensures nearest == old(nearest) && linear == old(linear) && pipelines == old(pipelines)
      ensures (t, count) in old(shaderVisiblePools) ==> shaderVisiblePools == old(shaderVisiblePools)
      ensures (t, count) !in old(shaderVisiblePools) ==>
                (t, count) in shaderVisiblePools && fresh(shaderVisiblePools[(t, count)]) &&
                shaderVisiblePools == old(shaderVisiblePools)[(t, count) := shaderVisiblePools[(t, count)]]
      ensures (t, count) in shaderVisiblePools &&
              Claimed(shaderVisiblePools[(t, count)],
                      if (t, count) in old(shaderVisiblePools) then old(shaderVisiblePools[(t, count)].live) else {},
                      if (t, count) in old(shaderVisiblePools) then old(shaderVisiblePools[(t, count)].masks) else map[],
                      h.heap.heap, index)
      ensures forall k :: k in old(shaderVisiblePools) && k != (t, count) ==>
                shaderVisiblePools[k].live == old(shaderVisiblePools[k].live) &&
                shaderVisiblePools[k].masks == old(shaderVisiblePools[k].masks)
    {
      var pool := GetOrCreateShaderVisiblePool(t, count);
      h, index := AllocateFromPool(t, count, pool);
      var increment := increments[t];
      GpuOffsetMatchesCpuOffset(index, count, increment);
      gpu := GpuOffset(h.offset, increment);
    }

    /** The lazily created shader-visible bucket (type, count). */
    method GetOrCreateShaderVisiblePool(t: HeapType, count: nat) returns (pool: DP.DescriptorPool)
      requires Valid() && 1 <= count < bucketCount
      modifies this
      ensures Valid() && (t, count) in shaderVisiblePools && pool == shaderVisiblePools[(t, count)]
      ensures (t, count) in old(shaderVisiblePools) ==> shaderVisiblePools == old(shaderVisiblePools)
      ensures (t, count) !in old(shaderVisiblePools) ==>
                fresh(pool) && shaderVisiblePools == old(shaderVisiblePools)[(t, count) := pool]
      ensures (t, count) !in old(shaderVisiblePools) ==> pool.live == {} && pool.masks == map[]
      ensures nearest == old(nearest) && linear == old(linear) && pipelines == old(pipelines)
      ensures pool.incrementSize == increments[t]
      ensures pools == old(pools) && dedicated == old(dedicated) && nextObject == old(nextObject)
    {
      if (t, count) in shaderVisiblePools {
        pool := shaderVisiblePools[(t, count)];
      } else {
        pool := NewPool(count, increments[t], true);
        shaderVisiblePools := shaderVisiblePools[(t, count) := pool];
      }
    }

    /** A bucket descriptor goes back to its pool; at or past the bucket-array length the heap is deleted. */
    method FreeShaderVisibleDescriptor(t: HeapType, h: Handle, count: nat, ghost index: Index)
      requires Valid()
      requires count < bucketCount ==>
                 && h.heap.Pooled? && h.heap.key == (t, count) && h.heap.key in shaderVisiblePools
                 && (h.heap.heap, index) in shaderVisiblePools[h.heap.key].live
                 && h.offset == DP.SlotOffset(index, count, increments[t])
      requires count >= bucketCount ==> h.heap.Dedicated? && h.heap.id in dedicated
      modifies this, shaderVisiblePools.Values
      ensures Valid()
      ensures pools == old(pools) && shaderVisiblePools == old(shaderVisiblePools)
      ensures count < bucketCount ==>
                && dedicated == old(dedicated)
                && shaderVisiblePools[(t, count)].live == old(shaderVisiblePools[(t, count)].live) - {(h.heap.heap, index)}
      ensures count >= bucketCount ==> dedicated == old(dedicated) - {h.heap.id}
    {
      if count < bucketCount {
        FreeToPool(t, count, shaderVisiblePools[(t, count)], h, index);
      } else {
        dedicated := dedicated - {h.heap.id};
      }
    }

    /** Nearest and Linear samplers are created on first request and shared afterwards; other filters get none. */
    method GetSampler(filter: Filter) returns (sampler: Option<nat>)
      requires Valid()
      modifies this
      ensures Valid()
      ensures pools == old(pools) && shaderVisiblePools == old(shaderVisiblePools) && dedicated == old(dedicated)
      ensures pipelines == old(pipelines)
      ensures filter == OtherFilter ==> sampler == None && nearest == old(nearest) && linear == old(linear)
      ensures filter == Nearest ==>
                && sampler.Some? && nearest == sampler && linear == old(linear)
                && (old(nearest).Some? ==> sampler == old(nearest))
      ensures filter == Linear ==>
                && sampler.Some? && linear == sampler && nearest == old(nearest)
                && (old(linear).Some? ==> sampler == old(linear))
    {
      if filter == Nearest {
        if nearest.None? {
          nearest := Some(nextObject);
          nextObject := nextObject + 1;
        }
        return nearest;
      }
      if filter == Linear {
        if linear.None? {
          linear := Some(nextObject);
          nextObject := nextObject + 1;
        }
        return linear;
      }
      return None;
    }

    /**
     * A cached pipeline is returned as is; a name outside the static table,
     * or whose shader file cannot be read, gives none and caches nothing;
     * otherwise the pipeline is built and cached.
     */
    method GetPipeline(name: string, shaderReadable: bool) returns (pipeline: Option<nat>)
      requires Valid()
      modifies this
      ensures Valid()
      ensures pools == old(pools) && shaderVisiblePools == old(shaderVisiblePools) && dedicated == old(dedicated)
      ensures nearest == old(nearest) && linear == old(linear)
      ensures name in old(pipelines) ==> pipeline == Some(old(pipelines)[name]) && pipelines == old(pipelines)
      ensures name !in old(pipelines) && (name !in PipelineTable || !shaderReadable) ==>
                pipeline == None && pipelines == old(pipelines)
      ensures name !in old(pipelines) && name in PipelineTable && shaderReadable ==>
                pipeline.Some? && pipelines == old(pipelines)[name := pipeline.value]
    {
      if name in pipelines {
        return Some(pipelines[name]);
      }
      if name !in PipelineTable || !shaderReadable {
        return None;
      }
      var id := nextObject;
      nextObject := nextObject + 1;
      pipelines := pipelines[name := id];
      return Some(id);
    }
  }
}

=== FILE: descriptor_pool.dfy ===
// A D3D12 descriptor pool that hands out descriptor ranges from a growing
// list of heaps. Each heap has a 64-bit free mask (bit i set = slot i free);
// allocation takes the lowest free slot of some heap with a free slot, and
// grows the pool by exactly one heap when none has one.
//
// Heaps are numbered in creation order; a descriptor is the heap it lies in
// and its byte offset from that heap's CPU base, so "ptr - base" is `offset`.

module DescriptorPool {
  import opened Common
  import opened Bits

  const NumDescriptorPerPool: nat := 64

  type HeapId = nat

  datatype Descriptor = Descriptor(heap: HeapId, offset: nat)

  /** Slots per heap of a pool for ranges of `descriptorCount`: min(256 / descriptorCount, 64). */
  function SlotsPerHeap(descriptorCount: nat): (n: nat)
    requires 1 <= descriptorCount <= 256
    ensures 1 <= n <= 64
    ensures n * descriptorCount <= 256
    ensures n < 64 ==> (n + 1) * descriptorCount > 256
  {
    Min(256 / descriptorCount, 64)
  }

  /** ((1 << (n - 1)) << 1) - 1 in 64-bit arithmetic: the low n bits, all 64 when n is 64. */
  function FullMask(n: nat): (m: bv64)
    requires 1 <= n <= 64
    ensures forall i: Index :: IsSet(m, i) <==> (i as int) < n
  {
    var k := ToIndex(n - 1);
    LowMaskBits(k, ((1 << k) << 1) - 1);
    ((1 << k) << 1) - 1
  }

  /** mask ^= cmask << index with cmask == 1. */
  function Claim(mask: bv64, index: Index): (r: bv64)
    ensures forall j: Index :: IsSet(r, j) <==> (if j == index then !IsSet(mask, j) else IsSet(mask, j))
  {
    ClaimBits(mask, index, mask ^ (1 << index));
    mask ^ (1 << index)
  }

  lemma ClaimBits(mask: bv64, index: Index, r: bv64)
    requires r == mask ^ (1 << index)
    ensures forall j: Index :: IsSet(r, j) <==> (if j == index then !IsSet(mask, j) else IsSet(mask, j))
  {
    forall j: Index
      ensures IsSet(r, j) <==> (if j == index then !IsSet(mask, j) else IsSet(mask, j))
    {
      XorBit(mask, index, r, j);
    }
  }

  /** mask |= 1 << index. */
  function Release(mask: bv64, index: Index): (r: bv64)
    ensures IsSet(r, index)
    ensures forall j: Index :: j != index ==> (IsSet(r, j) <==> IsSet(mask, j))
  {
    ReleaseBits(mask, index, mask | (1 << index));
    mask | (1 << index)
  }

  lemma ReleaseBits(mask: bv64, index: Index, r: bv64)
    requires r == mask | (1 << index)
    ensures forall j: Index :: IsSet(r, j) <==> j == index || IsSet(mask, j)
  {
    forall j: Index
      ensures IsSet(r, j) <==> j == index || IsSet(mask, j)
    {
      OrBit(mask, index, r, j);
    }
  }

  /** Releasing a slot that was just claimed from a free bit gives back the mask. */
  lemma ReleaseUndoesClaim(mask: bv64, index: Index)
    requires IsSet(mask, index)
    ensures Release(Claim(mask, index), index) == mask
  {}

  /** Freeing a slot whose bit is already set leaves the mask as it was. */
  lemma ReleaseFreeIsNoop(mask: bv64, index: Index)
    requires IsSet(mask, index)
    ensures Release(mask, index) == mask
  {}

  /** Byte offset of slot `index` in a heap: index * descriptorCount * increment. */
  function SlotOffset(index: Index, descriptorCount: nat, increment: nat): nat
  {
    (index as int) * (descriptorCount * increment)
  }

  /** Free's slot recovery: (ptr - base) / (descriptorCount * increment). */
  function SlotOf(offset: nat, descriptorCount: nat, increment: nat): nat
    requires descriptorCount * increment > 0
  {
    offset / (descriptorCount * increment)
  }

  /** Free recovers from a descriptor exactly the slot AllocateWithMask put it at. */
  lemma SlotOfSlotOffset(index: Index, descriptorCount: nat, increment: nat)
    requires descriptorCount > 0 && increment > 0
    ensures SlotOf(SlotOffset(index, descriptorCount, increment), descriptorCount, increment) == index as int
  {
    var unit := descriptorCount * increment;
    assert unit > 0 by { MulPositive(descriptorCount, increment); }
    DivOfMultiple(index as int, unit);
  }

  /** Distinct slots of one heap lie at distinct offsets. */
  lemma SlotOffsetInjective(i: Index, j: Index, descriptorCount: nat, increment: nat)
    requires descriptorCount > 0 && increment > 0
    requires SlotOffset(i, descriptorCount, increment) == SlotOffset(j, descriptorCount, increment)
    ensures i == j
  {
    SlotOfSlotOffset(i, descriptorCount, increment);
    SlotOfSlotOffset(j, descriptorCount, increment);
  }

  /** A slot below n starts inside a heap of n * descriptorCount descriptors. */
  lemma SlotInsideHeap(index: Index, n: nat, descriptorCount: nat, increment: nat)
    requires (index as int) < n && increment > 0
    ensures SlotOffset(index, descriptorCount, increment) + descriptorCount * increment
            <= n * descriptorCount * increment
  {
    var i := index as int;
    var unit := descriptorCount * increment;
    MulMonotone(i + 1, n, unit);
    MulSucc(i, unit);
    MulAssoc(n, descriptorCount, increment);
  }

  /**
   * Every heap has a mask and the pool's per-heap size, no mask has a bit
   * outside the full mask, the full mask has slot 0, and a slot that is
   * handed out has its bit clear.
   */
  ghost predicate PoolInv(heaps: seq<nat>, masks: map<HeapId, bv64>, fullMask: bv64, perHeap: nat,
                          live: set<(HeapId, Index)>)
  {
    && (forall h :: h in masks <==> 0 <= h < |heaps|)
    && (forall h :: 0 <= h < |heaps| ==> heaps[h] == perHeap)
    && (forall h, i: Index :: h in masks && IsSet(masks[h], i) ==> IsSet(fullMask, i))
    && IsSet(fullMask, 0)
    && (forall s :: s in live ==> s.0 in masks && !IsSet(masks[s.0], s.1) && IsSet(fullMask, s.1))
  }

  /** Claiming a free bit hands out a slot that was not out, and keeps the invariant. */
  lemma ClaimKeepsInv(heaps: seq<nat>, masks: map<HeapId, bv64>, fullMask: bv64, perHeap: nat,
                      live: set<(HeapId, Index)>, heap: HeapId, index: Index)
    requires PoolInv(heaps, masks, fullMask, perHeap, live)
    requires heap in masks && IsSet(masks[heap], index)
    ensures (heap, index) !in live
    ensures PoolInv(heaps, masks[heap := Claim(masks[heap], index)], fullMask, perHeap, live + {(heap, index)})
  {
  }

  /** A new heap with the full mask keeps the invariant. */
  lemma NewHeapKeepsInv(heaps: seq<nat>, masks: map<HeapId, bv64>, fullMask: bv64, perHeap: nat,
                        live: set<(HeapId, Index)>)
    requires PoolInv(heaps, masks, fullMask, perHeap, live)
    ensures PoolInv(heaps + [perHeap], masks[|heaps| := fullMask], fullMask, perHeap, live)
    ensures IsSet(masks[|heaps| := fullMask][|heaps|], 0)
  {
    var heaps', masks' := heaps + [perHeap], masks[|heaps| := fullMask];
    forall h | 0 <= h < |heaps'| ensures heaps'[h] == perHeap {
      if h < |heaps| { assert heaps'[h] == heaps[h]; }
    }
  }

  /** Setting the bit of a live slot again retires it and keeps the invariant. */
  lemma ReleaseKeepsInv(heaps: seq<nat>, masks: map<HeapId, bv64>, fullMask: bv64, perHeap: nat,
                        live: set<(HeapId, Index)>, heap: HeapId, index: Index)
    requires PoolInv(heaps, masks, fullMask, perHeap, live)
    requires (heap, index) in live
    ensures PoolInv(heaps, masks[heap := Release(masks[heap], index)], fullMask, perHeap, live - {(heap, index)})
  {
  }

  class DescriptorPool {
    /** Descriptors per heap: SlotsPerHeap(descriptorCount) * descriptorCount. */
    const descriptorCountPerHeap: nat
    /** The free mask of a fresh heap. */
    const fullMask: bv64
    /** The device's descriptor increment size for this heap type. */
    const incrementSize: nat
    /** Whether the pool's heaps carry D3D12_DESCRIPTOR_HEAP_FLAG_SHADER_VISIBLE. */
    const shaderVisible: bool

    /** The size, in descriptors, of each heap created so far. */
    var descriptorHeaps: seq<nat>
    var masks: map<HeapId, bv64>
    var activeDescriptorHeap: Option<HeapId>
    /** avtiveDescriptor's GPU handle: the start of the newest heap of a shader-visible pool. */
    var activeGpuHeap: Option<HeapId>
    /** The slots handed out and not yet freed. */
    ghost var live: set<(HeapId, Index)>

    ghost predicate Valid()
      reads this
    {
      incrementSize > 0 && PoolInv(descriptorHeaps, masks, fullMask, descriptorCountPerHeap, live)
    }

    /** The count-bucket constructor: ranges of descriptorCount descriptors. */
    constructor (descriptorCount: nat, incrementSize: nat, shaderVisible: bool)
      requires 1 <= descriptorCount <= 256 && incrementSize > 0
      ensures Valid()
      ensures fullMask == FullMask(SlotsPerHeap(descriptorCount))
      ensures descriptorCountPerHeap == SlotsPerHeap(descriptorCount) * descriptorCount
      ensures this.incrementSize == incrementSize && this.shaderVisible == shaderVisible
      ensures descriptorHeaps == [] && masks == map[] && live == {}
      ensures activeDescriptorHeap == None && activeGpuHeap == None
    {
      var n := 256 / descriptorCount;
      n := Min(n, 64);
      fullMask := FullMask(n);
      descriptorCountPerHeap := n * descriptorCount;
      this.incrementSize := incrementSize;
      this.shaderVisible := shaderVisible;
      descriptorHeaps := [];
      masks := map[];
      activeDescriptorHeap, activeGpuHeap := None, None;
      live := {};
    }

    /** Appends one heap of descriptorCountPerHeap descriptors and returns it. */
    method AllocateNextDescriptorHeap() returns (heap: HeapId)
      modifies this
      ensures descriptorHeaps == old(descriptorHeaps) + [descriptorCountPerHeap]
      ensures heap == |old(descriptorHeaps)|
      ensures masks == old(masks) && live == old(live)
      ensures activeDescriptorHeap == old(activeDescriptorHeap) && activeGpuHeap == old(activeGpuHeap)
    {
      heap := |descriptorHeaps|;
      descriptorHeaps := descriptorHeaps + [descriptorCountPerHeap];
    }

    /**
     * The scan over the masks: some heap whose mask is non-zero, with its
     * lowest set bit (the map's iteration order is unspecified, so any such
     * heap may be found), or none when every mask is zero.
     */
    method FindAvailable() returns (found: bool, heap: HeapId, index: Index)
      ensures found <==> exists h :: h in masks && masks[h] != 0
      ensures found ==> heap in masks && masks[heap] != 0 && index == TrailingZeros(masks[heap])
    {
      var keys := masks.Keys;
      found, heap, index := false, 0, 0;
      while keys != {} && !found
        invariant keys <= masks.Keys
        invariant !found ==> forall h :: h in masks && h !in keys ==> masks[h] == 0
        invariant found ==> heap in masks && masks[heap] != 0 && index == TrailingZeros(masks[heap])
        decreases |keys|, if found then 0 else 1
      {
        var h :| h in keys;
        var m := masks[h];
        if m != 0 {
          var i := TrailingZeros(m);
          var available := (m >> i) & 1 == 1;
          if available {
            found, heap, index := true, h, i;
          }
        }
        if !found {
          keys := keys - {h};
        }
      }
    }

    /**
     * Takes the lowest free slot of some heap whose mask is non-zero (the
     * map's iteration order is unspecified), or, when every heap is full,
     * slot 0 of one new heap with the full mask.
     */
    method AllocateWithMask(descriptorCount: nat) returns (heap: HeapId, descriptor: Descriptor, index: Index)
      requires Valid()
      modifies this
      ensures Valid()
      ensures (exists h :: h in old(masks) && old(masks)[h] != 0) ==>
                && heap in old(masks) && old(masks)[heap] != 0
                && index == TrailingZeros(old(masks)[heap])
                && descriptorHeaps == old(descriptorHeaps)
                && masks == old(masks)[heap := Claim(old(masks)[heap], index)]
                && activeDescriptorHeap == old(activeDescriptorHeap) && activeGpuHeap == old(activeGpuHeap)
      ensures (forall h :: h in old(masks) ==> old(masks)[h] == 0) ==>
                && heap == |old(descriptorHeaps)| && index == 0
                && descriptorHeaps == old(descriptorHeaps) + [descriptorCountPerHeap]
                && masks == old(masks)[heap := Claim(fullMask, 0)]
                && activeDescriptorHeap == Some(heap)
                && activeGpuHeap == (if shaderVisible then Some(heap) else old(activeGpuHeap))
      ensures descriptor == Descriptor(heap, SlotOffset(index, descriptorCount, incrementSize))
      ensures (heap, index) !in old(live) && live == old(live) + {(heap, index)}
    {
      var found;
      found, heap, index := FindAvailable();
      var mask: bv64 := if found then masks[heap] else 0;
      if mask == 0 {
        heap := AddHeap();
        index := 0;
      }
      ClaimSlot(heap, index);
      descriptor := Descriptor(heap, SlotOffset(index, descriptorCount, incrementSize));
    }

    /** The branch of AllocateWithMask where every heap is full: one new heap with the full mask. */
    method AddHeap() returns (heap: HeapId)
      requires Valid()
      modifies this
      ensures Valid()
      ensures heap == |old(descriptorHeaps)| && heap in masks && IsSet(masks[heap], 0)
      ensures descriptorHeaps == old(descriptorHeaps) + [descriptorCountPerHeap]
      ensures masks == old(masks)[heap := fullMask]
      ensures activeDescriptorHeap == Some(heap) && live == old(live)
      ensures activeGpuHeap == if shaderVisible then Some(heap) else old(activeGpuHeap)
    {
      NewHeapKeepsInv(descriptorHeaps, masks, fullMask, descriptorCountPerHeap, live);
      heap := AllocateNextDescriptorHeap();
      activeDescriptorHeap := Some(heap);
      if shaderVisible {
        activeGpuHeap := Some(heap);
      }
      masks := masks[heap := fullMask];
    }

    /** mask ^= 1 << index on a free slot, which is now handed out. */
    method ClaimSlot(heap: HeapId, index: Index)
      requires Valid() && heap in masks && IsSet(masks[heap], index)
      modifies this
      ensures Valid()
      ensures masks == old(masks)[heap := Claim(old(masks)[heap], index)]
      ensures (heap, index) !in old(live) && live == old(live) + {(heap, index)}
      ensures descriptorHeaps == old(descriptorHeaps)
      ensures activeDescriptorHeap == old(activeDescriptorHeap) && activeGpuHeap == old(activeGpuHeap)
    {
      ClaimKeepsInv(descriptorHeaps, masks, fullMask, descriptorCountPerHeap, live, heap, index);
      masks := masks[heap := Claim(masks[heap], index)];
      live := live + {(heap, index)};
    }

    /** Gives a slot back: the slot is recovered from the offset and its bit set again. */
    method Free(heap: HeapId, descriptor: Descriptor, descriptorCount: nat, ghost index: Index)
      requires Valid() && descriptorCount > 0
      requires (heap, index) in live || (heap in masks && IsSet(masks[heap], index))
      requires descriptor == Descriptor(heap, SlotOffset(index, descriptorCount, incrementSize))
      modifies this
      ensures Valid()
      ensures masks == old(masks)[heap := Release(old(masks)[heap], index)]
      ensures live == old(live) - {(heap, index)}
      ensures (heap, index) !in old(live) ==> masks == old(masks)
      ensures descriptorHeaps == old(descriptorHeaps)
      ensures activeDescriptorHeap == old(activeDescriptorHeap) && activeGpuHeap == old(activeGpuHeap)
    {
      var slot := SlotOf(descriptor.offset, descriptorCount, incrementSize);
      SlotOfSlotOffset(index, descriptorCount, incrementSize);
      var i := ToIndex(slot);
      IndexInjective(i, index);
      if (heap, index) in live {
        ReleaseKeepsInv(descriptorHeaps, masks, fullMask, descriptorCountPerHeap, live, heap, index);
      } else {
        ReleaseFreeIsNoop(masks[heap], index);
      }
      masks := masks[heap := Release(masks[heap], i)];
      live := live - {(heap, index)};
    }
  }
}

=== FILE: display_orientation.dfy ===
// The display-orientation filter (DisplayOrientationFilter.cpp): the flip
// flags its constructors store, the passthrough, the shader variant, the
// output textures created on the first run, and the dispatches each run
// records.
//
// Textures are their metadata. Reading the shader file is I/O: whether it
// opens is a parameter. Shader compilation and descriptor writes are
// recorded as values. The recording task is modelled as the list of
// dispatches it will issue.

module DisplayOrientation {
  import opened Common
  import opened Sampling
  import opened Textures

  datatype Tex = Tex(format: Format, width: nat, height: nat, mipLevels: nat, arrayLayers: nat)

  datatype Macro = HFLIP | VFLIP | TRANSPOSE

  /** A descriptor set of the flip pipeline: binding 0 the input, binding 1 the output. */
  datatype DescriptorSet = DescriptorSet(input: Option<Tex>, output: Tex)

  /** One Dispatch of the recording task: descriptor set index and thread-group counts. */
  datatype Dispatch = Dispatch(descriptorSet: nat, x: nat, y: nat)

  /** The macros the shader is compiled with, in the order they are added. */
  function Macros(hflip: bool, vflip: bool, rotation: int): (m: seq<Macro>)
    ensures |m| <= 3
    ensures HFLIP in m <==> hflip
    ensures VFLIP in m <==> vflip
    ensures TRANSPOSE in m <==> rotation == 90
    ensures forall i, j :: 0 <= i < j < |m| ==> m[i] != m[j]
  {
    (if hflip then [HFLIP] else []) + (if vflip then [VFLIP] else []) +
    (if rotation == 90 then [TRANSPOSE] else [])
  }

  /** The output texture for an input: sides swapped for a quarter turn, a full mip chain, one layer. */
  function OutputFor(t: Tex, rotation: int): (o: Tex)
    ensures o.format == t.format && o.arrayLayers == 1
    ensures rotation == 90 || rotation == 270 ==> o.width == t.height && o.height == t.width
    ensures rotation != 90 && rotation != 270 ==> o.width == t.width && o.height == t.height
    ensures o.mipLevels == MipLevels(o.width, o.height)
  {
    var (w, h) := if rotation == 90 || rotation == 270 then (t.height, t.width) else (t.width, t.height);
    Tex(t.format, w, h, MipLevels(w, h), 1)
  }

  /** The thread groups per axis as written: SLALIGN(side / 32, 32). */
  function GroupsAsWritten(side: nat): (g: nat)
    ensures g % 32 == 0
    ensures side < 32 ==> g == 0
  {
    AlignUp(side / 32, 32)
  }

  /** The intended count: the fewest groups of 32 that cover the side. */
  function Groups(side: nat): (g: nat)
    ensures g * 32 >= side
    ensures g == 0 || (g - 1) * 32 < side
  {
    AlignUp(side, 32) / 32
  }

  /**
   * Two sides the written count leaves partly uncovered: 16 (no group at
   * all) and 1025 (32 groups reach column 1024 only).
   */
  lemma GroupsAsWrittenMissesColumns()
    ensures GroupsAsWritten(16) * 32 < 16 && Groups(16) == 1
    ensures GroupsAsWritten(1025) * 32 < 1025 && Groups(1025) == 33
  {}

  /** The dispatches a run records: one per input, over the output's sides. */
  function Dispatches(output: seq<Tex>, count: nat): (d: seq<Dispatch>)
    requires count <= |output|
    ensures |d| == count
    ensures forall i :: 0 <= i < count ==> d[i] == Dispatch(i, Groups(output[i].width), Groups(output[i].height))
  {
    if count == 0 then []
    else Dispatches(output, count - 1) + [Dispatch(count - 1, Groups(output[count - 1].width), Groups(output[count - 1].height))]
  }

  class DisplayOrientationFilter {
    var hflip: bool
    var vflip: bool
    var rotation: int
    /** The compiled pipeline's macros, once the first run built it. */
    var pipeline: Option<seq<Macro>>
    var output: seq<Tex>
    var descriptorSets: seq<DescriptorSet>
    /** The dispatch list of every recording task a run handed to the worker. */
    var recorded: seq<seq<Dispatch>>

    predicate Passthrough()
      reads this
    {
      !hflip && !vflip && rotation == 0
    }

    ghost predicate Valid()
      reads this
    {
      (Passthrough() ==> descriptorSets == [] && pipeline == None) &&
      (!Passthrough() ==> |descriptorSets| == |output| && (output != [] ==> pipeline.Some?))
    }

    /** The flag constructor: a half turn toggles both flips and is kept as 180. */
    constructor (hflip: bool, vflip: bool, rotation: int)
      ensures Valid()
      ensures this.hflip == (hflip != (rotation == 180)) && this.vflip == (vflip != (rotation == 180))
      ensures this.rotation == rotation
      ensures output == [] && descriptorSets == [] && pipeline == None && recorded == []
    {
      this.hflip := hflip;
      this.vflip := vflip;
      this.rotation := rotation;
      output, descriptorSets, pipeline, recorded := [], [], None, [];
      new;
      if rotation == 180 {
        this.hflip := hflip != true;
        this.vflip := vflip != true;
      }
    }

    /** The EXIF-orientation constructor: the orientation is ignored and every flag is cleared. */
    constructor FromExif(exifOrientation: int)
      ensures Valid() && Passthrough()
      ensures output == [] && descriptorSets == [] && pipeline == None && recorded == []
    {
      hflip, vflip, rotation := false, false, 0;
      output, descriptorSets, pipeline, recorded := [], [], None, [];
    }

    /** The macro array the run fills, counted by numMacro. */
    method BuildMacros() returns (macros: seq<Macro>)
      ensures macros == Macros(hflip, vflip, rotation)
    {
      var slots := new Macro[4](_ => HFLIP);
      var numMacro := 0;
      if hflip {
        slots[numMacro] := HFLIP;
        numMacro := numMacro + 1;
      }
      if vflip {
        slots[numMacro] := VFLIP;
        numMacro := numMacro + 1;
      }
      if rotation == 90 {
        slots[numMacro] := TRANSPOSE;
        numMacro := numMacro + 1;
      }
      macros := slots[..numMacro];
    }

    /** The first run's loop: one output texture and one descriptor set per input. */
    method CreateOutputs(input: seq<Tex>)
      requires output == [] && descriptorSets == []
      modifies this
      ensures |output| == |input| && |descriptorSets| == |input|
      ensures forall i :: 0 <= i < |input| ==> output[i] == OutputFor(input[i], rotation)
      ensures forall i :: 0 <= i < |input| ==> descriptorSets[i] == DescriptorSet(None, output[i])
      ensures hflip == old(hflip) && vflip == old(vflip) && rotation == old(rotation)
      ensures pipeline == old(pipeline) && recorded == old(recorded)
    {
      for i := 0 to |input|
        invariant |output| == i && |descriptorSets| == i
        invariant forall j :: 0 <= j < i ==> output[j] == OutputFor(input[j], rotation)
        invariant forall j :: 0 <= j < i ==> descriptorSets[j] == DescriptorSet(None, output[j])
        invariant hflip == old(hflip) && vflip == old(vflip) && rotation == old(rotation)
        invariant pipeline == old(pipeline) && recorded == old(recorded)
      {
        var width, height := input[i].width, input[i].height;
        if rotation == 90 || rotation == 270 {
          width, height := height, width;
        }
        var levels := CalculateMipmapLevels(width, height);
        output := output + [Tex(input[i].format, width, height, levels, 1)];
        descriptorSets := descriptorSets + [DescriptorSet(None, output[i])];
      }
    }

    /** The input of each run is bound at binding 0 of its descriptor set. */
    method BindInputs(input: seq<Tex>)
      requires |input| <= |descriptorSets|
      modifies this
      ensures |descriptorSets| == old(|descriptorSets|)
      ensures forall i :: 0 <= i < |input| ==> descriptorSets[i] == old(descriptorSets[i]).(input := Some(input[i]))
      ensures forall i :: |input| <= i < |descriptorSets| ==> descriptorSets[i] == old(descriptorSets[i])
      ensures hflip == old(hflip) && vflip == old(vflip) && rotation == old(rotation)
      ensures output == old(output) && pipeline == old(pipeline) && recorded == old(recorded)
    {
      for i := 0 to |input|
        invariant |descriptorSets| == old(|descriptorSets|)
        invariant forall j :: 0 <= j < i ==> descriptorSets[j] == old(descriptorSets[j]).(input := Some(input[j]))
        invariant forall j :: i <= j < |descriptorSets| ==> descriptorSets[j] == old(descriptorSets[j])
        invariant hflip == old(hflip) && vflip == old(vflip) && rotation == old(rotation)
        invariant output == old(output) && pipeline == old(pipeline) && recorded == old(recorded)
      {
        descriptorSets := descriptorSets[i := descriptorSets[i].(input := Some(input[i]))];
      }
    }

    /**
     * Run: with no flip and no rotation the output is the input. Otherwise
     * the first run compiles the shader variant and creates the outputs
     * (and stops if the shader file does not open), every run binds its
     * inputs, and a recording task with one dispatch per input is queued.
     */
    method Run(input: seq<Tex>, shaderOpens: bool)
      requires Valid()
      requires !Passthrough() && output != [] ==> |input| <= |output|
      modifies this
      ensures Valid()
      ensures hflip == old(hflip) && vflip == old(vflip) && rotation == old(rotation)
      ensures Passthrough() ==>
        (output == input && descriptorSets == old(descriptorSets) &&
         pipeline == old(pipeline) && recorded == old(recorded))
      ensures !Passthrough() && old(output) == [] && !shaderOpens ==>
        (output == old(output) && descriptorSets == old(descriptorSets) &&
         pipeline == old(pipeline) && recorded == old(recorded))
      ensures !Passthrough() && old(output) == [] && shaderOpens ==>
        (pipeline == Some(Macros(hflip, vflip, rotation)) &&
         |output| == |input| && (forall i :: 0 <= i < |input| ==> output[i] == OutputFor(input[i], rotation)) &&
         (forall i :: 0 <= i < |input| ==> descriptorSets[i] == DescriptorSet(Some(input[i]), output[i])))
      ensures !Passthrough() && old(output) != [] ==>
        (output == old(output) && pipeline == old(pipeline) &&
         (forall i :: 0 <= i < |input| ==> descriptorSets[i] == old(descriptorSets[i]).(input := Some(input[i]))))
      ensures !Passthrough() && (old(output) != [] || shaderOpens) ==>
        recorded == old(recorded) + [Dispatches(output, |input|)]
    {
      if !hflip && !vflip && rotation == 0 {
        output := input;
        return;
      }
      if output == [] {
        if !shaderOpens {
          return;
        }
        var macros := BuildMacros();
        pipeline := Some(macros);
        CreateOutputs(input);
      }
      BindInputs(input);
      var dispatches := RecordDispatches(|input|);
      recorded := recorded + [dispatches];
    }

    /** The recording task's loop: one dispatch per input over its output. */
    method RecordDispatches(count: nat) returns (d: seq<Dispatch>)
      requires count <= |output|
      ensures d == Dispatches(output, count)
    {
      d := [];
      for i := 0 to count
        invariant d == Dispatches(output, i)
      {
        var x := AlignUp(output[i].width, 32) / 32;
        var y := AlignUp(output[i].height, 32) / 32;
        d := d + [Dispatch(i, x, y)];
      }
    }
  }
}

=== FILE: exif.dfy ===
// The TIFF/EXIF reader: an 8-byte image file header naming the byte order
// and the first image file directory (IFD), then chains of directories of
// 12-byte entries, as laid out in section 2 ("TIFF Structure") of TIFF
// Revision 6.0.
//
// The reader never checks that a read stays inside the buffer. Such a read is
// undefined behaviour in the source; here it ends the parse with the
// model-only status OutOfBounds. Likewise a directory chain that runs past the
// seven IFD slots would index past the slot array, and also gives OutOfBounds.

module Exif {
  import opened Common

  // ---------------------------------------------------------------- bytes

  /** InterpretAs on a little-endian host: the least significant byte first. */
  function LittleEndian(s: seq<Byte>): (v: nat)
    ensures v < Pow256(|s|)
  {
    if |s| == 0 then 0
    else
      var rest := LittleEndian(s[1..]);
      assert rest <= Pow256(|s| - 1) - 1;
      MulMonotone(rest, Pow256(|s| - 1) - 1, 256);
      s[0] + rest * 256
  }

  function Pow256(n: nat): (p: nat)
    ensures p >= 1
  {
    if n == 0 then 1 else 256 * Pow256(n - 1)
  }

  /** The reading TIFF prescribes for "MM" files: the most significant byte first. */
  function BigEndian(s: seq<Byte>): nat
  {
    if |s| == 0 then 0 else BigEndian(s[..|s| - 1]) * 256 + s[|s| - 1]
  }

  function Reverse(s: seq<Byte>): (r: seq<Byte>)
    ensures |r| == |s|
    ensures forall i :: 0 <= i < |s| ==> r[i] == s[|s| - 1 - i]
  {
    if |s| == 0 then [] else [s[|s| - 1]] + Reverse(s[..|s| - 1])
  }

  /** MMInterpretAs<T>: the bytes of a 2-, 4- or 8-byte value copied in reverse order. */
  function MMInterpretAs(s: seq<Byte>, width: nat): (v: nat)
    requires width == 2 || width == 4 || width == 8
    requires |s| >= width
    ensures v < Pow256(width)
  {
    LittleEndian(Reverse(s[..width]))
  }

  lemma {:induction false} ReversedLittleEndianIsBigEndian(s: seq<Byte>)
    ensures LittleEndian(Reverse(s)) == BigEndian(s)
  {
    if |s| > 0 {
      var r := Reverse(s);
      assert r[1..] == Reverse(s[..|s| - 1]);
      ReversedLittleEndianIsBigEndian(s[..|s| - 1]);
    }
  }

  /** MMInterpretAs is the big-endian reading of the value's bytes. */
  lemma MMInterpretAsIsBigEndian(s: seq<Byte>, width: nat)
    requires width == 2 || width == 4 || width == 8
    requires |s| >= width
    ensures MMInterpretAs(s, width) == BigEndian(s[..width])
  {
    ReversedLittleEndianIsBigEndian(s[..width]);
  }

  /** A 16- or 32-bit field at `at`, in the file's byte order; None past the buffer. */
  function ReadField(data: seq<Byte>, at: nat, width: nat, bigEndian: bool): (r: Option<nat>)
    requires width == 2 || width == 4
    ensures r.None? <==> at + width > |data|
    ensures r.Some? ==> r.value < Pow256(width)
  {
    if at + width > |data| then None
    else if bigEndian then
      ReversedLittleEndianIsBigEndian(data[at..at + width]);
      Some(MMInterpretAs(data[at..], width))
    else Some(LittleEndian(data[at..at + width]))
  }

  /** The bytes of a 32-bit field as stored in memory on a little-endian host. */
  function OffsetBytes(offset: nat): (b: seq<Byte>)
    requires offset < 0x1_0000_0000
    ensures |b| == 4
  {
    var q1 := offset / 256;
    var q2 := q1 / 256;
    var q3 := q2 / 256;
    [offset % 256, q1 % 256, q2 % 256, q3]
  }

  lemma LittleEndian2(s: seq<Byte>)
    requires |s| == 2
    ensures LittleEndian(s) == s[0] as int + s[1] as int * 256
  {
    assert s[1..][1..] == [];
  }

  lemma OffsetBytesRoundTrip(offset: nat)
    requires offset < 0x1_0000_0000
    ensures LittleEndian(OffsetBytes(offset)) == offset
  {
    var b := OffsetBytes(offset);
    assert b[1..][1..][1..][1..] == [];
    var q1 := offset / 256;
    var q2 := q1 / 256;
    var q3 := q2 / 256;
    var x0: int, x1: int, x2: int, x3: int := b[0], b[1], b[2], b[3];
    assert LittleEndian(b[3..]) == x3;
    assert LittleEndian(b[2..]) == x2 + x3 * 256;
    assert LittleEndian(b[1..]) == x1 + (x2 + x3 * 256) * 256;
    assert LittleEndian(b) == x0 + (x1 + (x2 + x3 * 256) * 256) * 256;
    assert x2 + x3 * 256 == q2;
    assert x1 + q2 * 256 == q1;
    assert x0 + q1 * 256 == offset;
  }

  // --------------------------------------------------------------- entries

  /** The tag an entry is stored under when its value could not be read. */
  const InvalidTag: nat := 0xFFFF
  /** IFDEntry::size(): every directory entry is 12 bytes. */
  const EntrySize: nat := 12
  /** IFDPRIVATE + 1 directory slots. */
  const SlotCount: nat := 7
  const IFD0: nat := 0
  const IFD2: nat := 2
  const SubIFD0: nat := 3
  /** The SubIFDs tag, whose value is the offset of a sub-directory chain. */
  const SubIFDsTag: nat := 0x014A

  datatype IFDEntry = IFDEntry(tag: nat, typ: nat, length: nat, offset: nat, value: seq<Byte>)

  /** The element size ReadValues reads for each type code; None for an unknown type. */
  function ElementWidth(typ: nat): (w: Option<nat>)
    ensures w.Some? <==> 1 <= typ <= 12
    ensures w.Some? ==> w.value in {1, 2, 4, 8}
  {
    match typ
    case 1 => Some(1)   // BYTE
    case 2 => Some(1)   // ASCII
    case 3 => Some(2)   // SHORT
    case 4 => Some(4)   // LONG
    case 5 => Some(8)   // RATIONAL
    case 6 => Some(1)   // SBYTE
    case 7 => Some(1)   // UNDEFINED
    case 8 => Some(2)   // SSHORT
    case 9 => Some(4)   // SLONG
    case 10 => Some(8)  // SRATIONAL
    case 11 => Some(4)  // FLOAT
    case 12 => Some(8)  // DOUBLE
    case _ => None
  }

  /**
   * IFDEntry::ReadValue<T> as written, with `end` the buffer length: a value
   * of at most 4 bytes comes from the offset field itself; a longer one is
   * rejected when size + offset >= end.
   */
  function ReadValueAsWritten(data: seq<Byte>, width: nat, length: nat, offset: nat): (r: Option<seq<Byte>>)
    requires offset < 0x1_0000_0000
    ensures r.Some? ==> |r.value| == width * length
  {
    var size := width * length;
    if size <= 4 then Some(OffsetBytes(offset)[..size])
    else if size + offset >= |data| then None
    else Some(data[offset..offset + size])
  }

  /** ReadValue with the bound the format calls for: the value may end exactly at the buffer's end. */
  function ReadValue(data: seq<Byte>, width: nat, length: nat, offset: nat): (r: Option<seq<Byte>>)
    requires offset < 0x1_0000_0000
    ensures r.Some? ==> |r.value| == width * length
  {
    var size := width * length;
    if size <= 4 then Some(OffsetBytes(offset)[..size])
    else if size + offset > |data| then None
    else Some(data[offset..offset + size])
  }

  /** The corrected ReadValue succeeds exactly when the value's bytes are available, and returns them. */
  lemma ReadValueReadsInBounds(data: seq<Byte>, width: nat, length: nat, offset: nat)
    requires offset < 0x1_0000_0000
    ensures ReadValue(data, width, length, offset).Some?
        <==> width * length <= 4 || offset + width * length <= |data|
    ensures width * length <= 4 ==>
      ReadValue(data, width, length, offset) == Some(OffsetBytes(offset)[..width * length])
    ensures width * length > 4 && offset + width * length <= |data| ==>
      ReadValue(data, width, length, offset) == Some(data[offset..offset + width * length])
  {}

  /** Wherever the code as written accepts a value, it reads what the corrected one reads. */
  lemma AsWrittenAgreesWhenAccepted(data: seq<Byte>, width: nat, length: nat, offset: nat)
    requires offset < 0x1_0000_0000
    requires ReadValueAsWritten(data, width, length, offset).Some?
    ensures ReadValue(data, width, length, offset) == ReadValueAsWritten(data, width, length, offset)
  {}

  /** Two LONGs stored in the last 8 bytes of a 12-byte buffer are rejected as written. */
  lemma ReadValueRejectsValueEndingAtEnd()
    ensures var data := seq(12, _ => 0);
      ReadValueAsWritten(data, 4, 2, 4).None? && ReadValue(data, 4, 2, 4) == Some(data[4..12])
  {}

  /** ReadValues: an unknown type or a failed read stores the entry under InvalidTag. */
  function ReadValues(e: IFDEntry, data: seq<Byte>): (r: IFDEntry)
    requires e.offset < 0x1_0000_0000
    ensures r.typ == e.typ && r.length == e.length && r.offset == e.offset
    ensures r.tag == e.tag || r.tag == InvalidTag
  {
    match ElementWidth(e.typ)
    case None => e.(tag := InvalidTag)
    case Some(w) =>
      match ReadValue(data, w, e.length, e.offset)
      case None => e.(tag := InvalidTag)
      case Some(v) => e.(value := v)
  }

  /** An IFDEntry built from the 12 bytes at `at`: tag, type, count, offset at 0, 2, 4, 8. */
  function ParseEntry(data: seq<Byte>, at: nat, bigEndian: bool): (r: Option<IFDEntry>)
    ensures r.Some? <==> at + EntrySize <= |data|
  {
    if at + EntrySize > |data| then None
    else
      var tag := ReadField(data, at, 2, bigEndian).value;
      var typ := ReadField(data, at + 2, 2, bigEndian).value;
      var length := ReadField(data, at + 4, 4, bigEndian).value;
      var offset := ReadField(data, at + 8, 4, bigEndian).value;
      Some(ReadValues(IFDEntry(tag, typ, length, offset, []), data))
  }

  /** A readable entry keeps its tag exactly when its type is known and its value is in the buffer. */
  lemma EntryInvalidIffUnreadable(data: seq<Byte>, at: nat, bigEndian: bool)
    requires at + EntrySize <= |data|
    ensures var e := ParseEntry(data, at, bigEndian).value;
      var tag := ReadField(data, at, 2, bigEndian).value;
      tag != InvalidTag ==>
        (e.tag == tag <==>
          ElementWidth(e.typ).Some? &&
          (ElementWidth(e.typ).value * e.length <= 4 || e.offset + ElementWidth(e.typ).value * e.length <= |data|))
  {
    var typ := ReadField(data, at + 2, 2, bigEndian).value;
    var length := ReadField(data, at + 4, 4, bigEndian).value;
    var offset := ReadField(data, at + 8, 4, bigEndian).value;
    if ElementWidth(typ).Some? {
      ReadValueReadsInBounds(data, ElementWidth(typ).value, length, offset);
    }
  }

  // ------------------------------------------------------------ directories

  /** The `count` consecutive 12-byte entries from `at`; None when one lies past the buffer. */
  function ParseEntries(data: seq<Byte>, at: nat, count: nat, bigEndian: bool): (r: Option<seq<IFDEntry>>)
    ensures r.Some? ==> |r.value| == count
    decreases count
  {
    if count == 0 then Some([])
    else
      match ParseEntry(data, at, bigEndian)
      case None => None
      case Some(e) =>
        match ParseEntries(data, at + EntrySize, count - 1, bigEndian)
        case None => None
        case Some(rest) => Some([e] + rest)
  }

  /** Entry j of a parsed run is the entry at at + 12 j, and the run parses iff it fits. */
  lemma ParseEntriesAt(data: seq<Byte>, at: nat, count: nat, bigEndian: bool)
    ensures ParseEntries(data, at, count, bigEndian).Some? <==> count == 0 || at + count * EntrySize <= |data|
    ensures ParseEntries(data, at, count, bigEndian).Some? ==>
      forall j :: 0 <= j < count ==>
        ParseEntry(data, at + j * EntrySize, bigEndian) == Some(ParseEntries(data, at, count, bigEndian).value[j])
  {
    ParseEntriesFit(data, at, count, bigEndian);
    if ParseEntries(data, at, count, bigEndian).Some? {
      forall j | 0 <= j < count
        ensures ParseEntry(data, at + j * EntrySize, bigEndian) == Some(ParseEntries(data, at, count, bigEndian).value[j])
      {
        ParseEntryAt(data, at, count, bigEndian, j, at + j * EntrySize);
      }
    }
  }

  lemma {:induction false} ParseEntriesFit(data: seq<Byte>, at: nat, count: nat, bigEndian: bool)
    ensures ParseEntries(data, at, count, bigEndian).Some? <==> count == 0 || at + count * EntrySize <= |data|
    decreases count
  {
    if count > 0 {
      ParseEntriesFit(data, at + EntrySize, count - 1, bigEndian);
      assert at + EntrySize + (count - 1) * EntrySize == at + count * EntrySize;
    }
  }

  lemma {:induction false} ParseEntryAt(data: seq<Byte>, at: nat, count: nat, bigEndian: bool, j: nat, offset: nat)
    requires ParseEntries(data, at, count, bigEndian).Some? && j < count && offset == at + j * EntrySize
    ensures ParseEntry(data, offset, bigEndian) == Some(ParseEntries(data, at, count, bigEndian).value[j])
    decreases j
  {
    ParseEntriesCons(data, at, count, bigEndian);
    if j > 0 {
      assert offset == at + EntrySize + (j - 1) * EntrySize by { MulSucc(j - 1, EntrySize); }
      ParseEntryAt(data, at + EntrySize, count - 1, bigEndian, j - 1, offset);
    }
  }

  /** A parsed run is its first entry followed by the run of the rest. */
  lemma ParseEntriesCons(data: seq<Byte>, at: nat, count: nat, bigEndian: bool)
    requires count > 0 && ParseEntries(data, at, count, bigEndian).Some?
    ensures ParseEntry(data, at, bigEndian).Some? && ParseEntries(data, at + EntrySize, count - 1, bigEndian).Some?
    ensures ParseEntries(data, at, count, bigEndian).value ==
      [ParseEntry(data, at, bigEndian).value] + ParseEntries(data, at + EntrySize, count - 1, bigEndian).value
  {}

  /** The entries inserted into m in order: IFD[index][tag] = entry. */
  function Insert(m: map<nat, IFDEntry>, es: seq<IFDEntry>): map<nat, IFDEntry>
    decreases |es|
  {
    if es == [] then m else Insert(m[es[0].tag := es[0]], es[1..])
  }

  /** The tags present afterwards are the earlier ones and those of the entries. */
  lemma {:induction false} InsertKeys(m: map<nat, IFDEntry>, es: seq<IFDEntry>)
    ensures Insert(m, es).Keys == m.Keys + set e | e in es :: e.tag
    decreases |es|
  {
    if es != [] {
      InsertKeys(m[es[0].tag := es[0]], es[1..]);
      assert forall e :: e in es <==> e == es[0] || e in es[1..];
    }
  }

  /** The entry at position k is the one kept for its tag when no later entry has that tag. */
  lemma {:induction false} LastEntryWins(m: map<nat, IFDEntry>, es: seq<IFDEntry>, k: nat)
    requires k < |es|
    requires forall j :: k < j < |es| ==> es[j].tag != es[k].tag
    ensures es[k].tag in Insert(m, es) && Insert(m, es)[es[k].tag] == es[k]
    decreases |es|
  {
    if k == 0 {
      EntriesKeep(m[es[0].tag := es[0]], es[1..], es[0].tag);
    } else {
      LastEntryWins(m[es[0].tag := es[0]], es[1..], k - 1);
    }
  }

  /** A tag no inserted entry carries keeps its earlier entry. */
  lemma {:induction false} EntriesKeep(m: map<nat, IFDEntry>, es: seq<IFDEntry>, t: nat)
    requires t in m
    requires forall j :: 0 <= j < |es| ==> es[j].tag != t
    ensures t in Insert(m, es) && Insert(m, es)[t] == m[t]
    decreases |es|
  {
    if es != [] {
      EntriesKeep(m[es[0].tag := es[0]], es[1..], t);
    }
  }

  /** Reading one more entry: the first entry goes in, then the remaining count - 1. */
  lemma EntriesStep(data: seq<Byte>, at: nat, count: nat, bigEndian: bool, m: map<nat, IFDEntry>)
    requires count > 0
    ensures ParseEntry(data, at, bigEndian).None? ==> Entries(data, at, count, bigEndian, m).None?
    ensures ParseEntry(data, at, bigEndian).Some? ==>
      var e := ParseEntry(data, at, bigEndian).value;
      Entries(data, at, count, bigEndian, m) == Entries(data, at + EntrySize, count - 1, bigEndian, m[e.tag := e])
  {
    var e := ParseEntry(data, at, bigEndian);
    var rest := ParseEntries(data, at + EntrySize, count - 1, bigEndian);
    if e.Some? && rest.Some? {
      assert ([e.value] + rest.value)[1..] == rest.value;
    }
  }

  /** The `count` entries from `at` inserted into m in order: a later duplicate tag overwrites. */
  function Entries(data: seq<Byte>, at: nat, count: nat, bigEndian: bool, m: map<nat, IFDEntry>): (r: Option<map<nat, IFDEntry>>)
    ensures r.Some? <==> count == 0 || at + count * EntrySize <= |data|
    ensures r.Some? ==> m.Keys <= r.value.Keys
  {
    ParseEntriesFit(data, at, count, bigEndian);
    match ParseEntries(data, at, count, bigEndian)
    case None => None
    case Some(es) => InsertKeys(m, es); Some(Insert(m, es))
  }

  /**
   * One directory at `at`: a 16-bit count, that many entries inserted into m,
   * then the 32-bit offset of the next directory.
   */
  function Directory(data: seq<Byte>, at: nat, bigEndian: bool, m: map<nat, IFDEntry>): (r: Option<(map<nat, IFDEntry>, nat)>)
    ensures r.Some? ==> at + 6 <= |data| && m.Keys <= r.value.0.Keys
  {
    match ReadField(data, at, 2, bigEndian)
    case None => None
    case Some(count) =>
      match Entries(data, at + 2, count, bigEndian, m)
      case None => None
      case Some(m') =>
        match ReadField(data, at + 2 + count * EntrySize, 4, bigEndian)
        case None => None
        case Some(next) => Some((m', next))
  }

  /**
   * ParseIFD(start, offset): directories at `next`, `next`'s successor, …
   * fill slots index, index + 1, … until a next offset of 0.
   */
  function Chain(data: seq<Byte>, bigEndian: bool, slots: seq<map<nat, IFDEntry>>, index: nat, next: nat): (r: Option<seq<map<nat, IFDEntry>>>)
    requires |slots| == SlotCount && index <= SlotCount
    ensures r.Some? ==> |r.value| == SlotCount
    decreases SlotCount - index
  {
    if next == 0 then Some(slots)
    else if index == SlotCount then None
    else
      match Directory(data, next, bigEndian, slots[index])
      case None => None
      case Some((m, next')) => Chain(data, bigEndian, slots[index := m], index + 1, next')
  }

  /** One link of a chain: the directory at `next` fills slot index, and the chain goes on from its next offset. */
  lemma ChainStep(data: seq<Byte>, bigEndian: bool, slots: seq<map<nat, IFDEntry>>, index: nat, next: nat)
    requires |slots| == SlotCount && index < SlotCount && next != 0
    ensures var d := Directory(data, next, bigEndian, slots[index]);
      && (d.None? ==> Chain(data, bigEndian, slots, index, next).None?)
      && (d.Some? ==> Chain(data, bigEndian, slots, index, next)
                      == Chain(data, bigEndian, slots[index := d.value.0], index + 1, d.value.1))
  {}

  /** A chain never touches the slots before its start. */
  lemma {:induction false} ChainKeepsEarlierSlots(data: seq<Byte>, bigEndian: bool, slots: seq<map<nat, IFDEntry>>, index: nat, next: nat)
    requires |slots| == SlotCount && index <= SlotCount
    requires Chain(data, bigEndian, slots, index, next).Some?
    ensures forall i :: 0 <= i < index ==> Chain(data, bigEndian, slots, index, next).value[i] == slots[i]
    decreases SlotCount - index
  {
    if next != 0 {
      var (m, next') := Directory(data, next, bigEndian, slots[index]).value;
      ChainKeepsEarlierSlots(data, bigEndian, slots[index := m], index + 1, next');
    }
  }

  /** A chain that parses puts its first directory, merged into that slot's earlier entries, in slot `index`. */
  lemma {:induction false} ChainFillsSuccessiveSlots(data: seq<Byte>, bigEndian: bool, slots: seq<map<nat, IFDEntry>>, index: nat, next: nat)
    requires |slots| == SlotCount && index < SlotCount && next != 0
    requires Chain(data, bigEndian, slots, index, next).Some?
    ensures var d := Directory(data, next, bigEndian, slots[index]);
      d.Some? && Chain(data, bigEndian, slots, index, next).value[index] == d.value.0
  {
    var (m, next') := Directory(data, next, bigEndian, slots[index]).value;
    ChainKeepsEarlierSlots(data, bigEndian, slots[index := m], index + 1, next');
  }

  // ----------------------------------------------------------------- header

  datatype Status = Success | CorruptStream | OutOfBounds

  /** The header's verdict and what ParseHeader records (byte order, first IFD offset). */
  datatype Header = Header(status: Status, bigEndian: bool, firstOffset: nat)

  /**
   * ParseHeader: "MM" selects big-endian, anything but "MM" or "II" is
   * corrupt; the first IFD offset is recorded before the 42 is checked.
   */
  function ReadHeader(data: seq<Byte>): (h: Header)
    ensures h.status == Success ==> |data| >= 8 && data[0] == data[1] && (data[0] == 0x4D || data[0] == 0x49)
    ensures h.status == Success ==> (h.bigEndian <==> data[0] == 0x4D)
  {
    if |data| < 2 then Header(OutOfBounds, false, 0)
    else
      var endian := LittleEndian(data[..2]);
      LittleEndian2(data[..2]);
      if endian != 0x4D4D && endian != 0x4949 then Header(CorruptStream, false, 0)
      else
        var big := endian == 0x4D4D;
        match (ReadField(data, 2, 2, big), ReadField(data, 4, 4, big))
        case (Some(fortyTwo), Some(first)) =>
          Header(if fortyTwo == 0x002A then Success else CorruptStream, big, first)
        case _ => Header(OutOfBounds, big, 0)
  }

  lemma HeaderByteOrder(data: seq<Byte>)
    requires |data| >= 8
    ensures ReadHeader(data).status == Success <==>
      ((data[0] == data[1] == 0x49 && data[2] == 0x2A && data[3] == 0) ||
       (data[0] == data[1] == 0x4D && data[2] == 0 && data[3] == 0x2A))
  {
    LittleEndian2(data[..2]);
    LittleEndian2(data[2..4]);
    LittleEndian2(Reverse(data[2..][..2]));
    assert data[2..][..2] == data[2..4];
  }

  // -------------------------------------------------------------- the reader

  datatype Lookup = Value(n: nat) | Overread

  function EmptySlots(): (s: seq<map<nat, IFDEntry>>)
    ensures |s| == SlotCount && forall i :: 0 <= i < SlotCount ==> s[i] == map[]
  {
    seq(SlotCount, _ => map[])
  }

  /**
   * ExifReader::GetValue<T>, T being `width` bytes: a value-initialised T for
   * a slot index out of range or a missing tag, else the first `width` bytes
   * of the stored value as an unsigned integer.
   */
  function GetValue(slots: seq<map<nat, IFDEntry>>, index: nat, tag: nat, width: nat): (r: Lookup)
    ensures index >= |slots| ==> r == Value(0)
    ensures index < |slots| && tag !in slots[index] ==> r == Value(0)
    ensures index < |slots| && tag in slots[index] && |slots[index][tag].value| >= width ==>
      r == Value(LittleEndian(slots[index][tag].value[..width]))
  {
    if index >= |slots| then Value(0)
    else if tag !in slots[index] then Value(0)
    else
      var v := slots[index][tag].value;
      if |v| < width then Overread else Value(LittleEndian(v[..width]))
  }

  /** What a reader holds after construction; `status` says where parsing stopped. */
  datatype ReaderState = ReaderState(status: Status, bigEndian: bool, firstOffset: nat, slots: seq<map<nat, IFDEntry>>)

  /** The three sub-IFD checks of IFD0..IFD2 after the IFD0 chain, from slot i on. */
  function SubChains(data: seq<Byte>, bigEndian: bool, slots: seq<map<nat, IFDEntry>>, i: nat): (r: (Status, seq<map<nat, IFDEntry>>))
    requires |slots| == SlotCount && i <= IFD2 + 1
    ensures |r.1| == SlotCount
    ensures r.0 == Success || r.0 == OutOfBounds
    decreases IFD2 + 1 - i
  {
    if i > IFD2 then (Success, slots)
    else if SubIFDsTag !in slots[i] then SubChains(data, bigEndian, slots, i + 1)
    else
      match GetValue(slots, i, SubIFDsTag, 4)
      case Overread => (OutOfBounds, slots)
      case Value(next) =>
        match Chain(data, bigEndian, slots, SubIFD0, next)
        case None => (OutOfBounds, slots)
        case Some(slots') => SubChains(data, bigEndian, slots', i + 1)
  }

  /**
   * The ExifReader constructor: header, the IFD0 chain, then the sub-IFD
   * chains. After an out-of-bounds read the slots are not modelled (empty).
   */
  function Read(data: seq<Byte>): (r: ReaderState)
    ensures |r.slots| == SlotCount
  {
    var h := ReadHeader(data);
    if h.status != Success then ReaderState(h.status, h.bigEndian, h.firstOffset, EmptySlots())
    else
      match Chain(data, h.bigEndian, EmptySlots(), IFD0, h.firstOffset)
      case None => ReaderState(OutOfBounds, h.bigEndian, h.firstOffset, EmptySlots())
      case Some(slots) =>
        var (s, slots') := SubChains(data, h.bigEndian, slots, IFD0);
        ReaderState(s, h.bigEndian, h.firstOffset, slots')
  }

  /** Read in the constructor's three steps: the header, the IFD0 chain, then the sub-IFD chains. */
  lemma ReadSteps(data: seq<Byte>)
    ensures var h := ReadHeader(data);
      && (h.status != Success ==> Read(data) == ReaderState(h.status, h.bigEndian, h.firstOffset, EmptySlots()))
      && (h.status == Success ==>
            var c := Chain(data, h.bigEndian, EmptySlots(), IFD0, h.firstOffset);
            && (c.None? ==> Read(data).status == OutOfBounds)
            && (c.Some? ==>
                  var r := SubChains(data, h.bigEndian, c.value, IFD0);
                  Read(data) == ReaderState(r.0, h.bigEndian, h.firstOffset, r.1)))
  {}

  /** A header that fails leaves every directory slot empty. */
  lemma HeaderFailureParsesNothing(data: seq<Byte>)
    requires ReadHeader(data).status != Success
    ensures Read(data).status == ReadHeader(data).status
    ensures forall i :: 0 <= i < SlotCount ==> Read(data).slots[i] == map[]
  {}

  /** Sub-IFD chains write only the slots from SubIFD0 on; IFD0..IFD2 keep the main chain's entries. */
  lemma {:induction false} SubChainsKeepMainSlots(data: seq<Byte>, bigEndian: bool, slots: seq<map<nat, IFDEntry>>, i: nat)
    requires |slots| == SlotCount && i <= IFD2 + 1
    ensures forall k :: 0 <= k < SubIFD0 ==> SubChains(data, bigEndian, slots, i).1[k] == slots[k]
    decreases IFD2 + 1 - i
  {
    if i <= IFD2 {
      var r := SubChainStep(data, bigEndian, slots, i);
      if r.Some? {
        SubChainsKeepMainSlots(data, bigEndian, r.value, i + 1);
      }
    }
  }

  /**
   * One step of SubChains at slot i: it stops with the slots unchanged, or
   * continues from slot i + 1 with slots that agree on IFD0..IFD2.
   */
  lemma SubChainStep(data: seq<Byte>, bigEndian: bool, slots: seq<map<nat, IFDEntry>>, i: nat)
    returns (r: Option<seq<map<nat, IFDEntry>>>)
    requires |slots| == SlotCount && i <= IFD2
    ensures r.None? ==> SubChains(data, bigEndian, slots, i).1 == slots
    ensures r.Some? ==> |r.value| == SlotCount && SubChains(data, bigEndian, slots, i) == SubChains(data, bigEndian, r.value, i + 1)
    ensures r.Some? ==> forall k :: 0 <= k < SubIFD0 ==> r.value[k] == slots[k]
  {
    if SubIFDsTag !in slots[i] {
      return Some(slots);
    }
    var v := GetValue(slots, i, SubIFDsTag, 4);
    if v.Overread? {
      return None;
    }
    var c := Chain(data, bigEndian, slots, SubIFD0, v.n);
    if c.None? {
      return None;
    }
    ChainKeepsEarlierSlots(data, bigEndian, slots, SubIFD0, v.n);
    return c;
  }

  /**
   * The reader's state: the seven directory maps in a fixed array, the byte
   * order and first-directory offset ParseHeader records, and where parsing
   * stopped.
   */
  class ExifReader {
    const data: seq<Byte>
    const ifd: array<map<nat, IFDEntry>>
    var isBigEndian: bool
    var offsetToFirstIFD: nat
    var status: Status

    ghost predicate Valid()
      reads this
    {
      ifd.Length == SlotCount
    }

    ghost function State(): ReaderState
      reads this, ifd
    {
      ReaderState(status, isBigEndian, offsetToFirstIFD, ifd[..])
    }

    constructor (data: seq<Byte>)
      ensures Valid() && status == Read(data).status
      ensures status != OutOfBounds ==> State() == Read(data)
    {
      this.data := data;
      ifd := new map<nat, IFDEntry>[SlotCount](_ => map[]);
      isBigEndian := false;
      offsetToFirstIFD := 0;
      status := Success;
      new;
      assert ifd[..] == EmptySlots();
      ReadSteps(data);
      var s := ParseHeader();
      if s != Success {
        status := s;
        return;
      }
      s := ParseIFDChain(IFD0, offsetToFirstIFD);
      if s != Success {
        status := s;
        return;
      }
      s := ParseSubIFDs();
      status := s;
    }

    /** ParseHeader: sets isBigEndian for "MM" and records the first IFD offset. */
    method ParseHeader() returns (s: Status)
      requires !isBigEndian && offsetToFirstIFD == 0
      modifies this
      ensures s == ReadHeader(data).status
      ensures isBigEndian == ReadHeader(data).bigEndian
      ensures offsetToFirstIFD == ReadHeader(data).firstOffset
      ensures status == old(status)
    {
      if |data| < 2 {
        return OutOfBounds;
      }
      var endian := LittleEndian(data[..2]);
      if endian == 0x4D4D {
        isBigEndian := true;
      } else if endian != 0x4949 {
        return CorruptStream;
      }
      var fortyTwo := ReadField(data, 2, 2, isBigEndian);
      var first := ReadField(data, 4, 4, isBigEndian);
      if fortyTwo.None? || first.None? {
        return OutOfBounds;
      }
      offsetToFirstIFD := first.value;
      s := if fortyTwo.value == 0x002A then Success else CorruptStream;
    }

    /**
     * ParseIFD(index, &offset) and MMParseIFD: read one directory into slot
     * `index` and return the next offset.
     */
    method ParseIFD(index: nat, at: nat) returns (next: Option<nat>)
      requires Valid() && index < SlotCount
      modifies ifd
      ensures var d := Directory(data, at, isBigEndian, old(ifd[index]));
        next == (if d.Some? then Some(d.value.1) else None) &&
        (d.Some? ==> ifd[..] == old(ifd[..])[index := d.value.0])
    {
      var count := ReadField(data, at, 2, isBigEndian);
      if count.None? {
        return None;
      }
      var ok := ReadEntries(index, at + 2, count.value);
      if !ok {
        return None;
      }
      next := ReadField(data, at + 2 + count.value * EntrySize, 4, isBigEndian);
    }

    /** The loop over numDirectoryEntries: each entry is stored under its tag in slot `index`. */
    method ReadEntries(index: nat, at: nat, count: nat) returns (ok: bool)
      requires Valid() && index < SlotCount
      modifies ifd
      ensures var r := Entries(data, at, count, isBigEndian, old(ifd[index]));
        ok == r.Some? && (ok ==> ifd[..] == old(ifd[..])[index := r.value])
    {
      var n: int := count;
      var p: nat := at;
      ghost var m0 := ifd[index];
      n := n - 1;
      while n >= 0
        invariant -1 <= n < count
        invariant ifd[..] == old(ifd[..])[index := ifd[index]]
        invariant Entries(data, p, n + 1, isBigEndian, ifd[index]) == Entries(data, at, count, isBigEndian, m0)
        decreases n
      {
        var entry := ParseEntry(data, p, isBigEndian);
        EntriesStep(data, p, n + 1, isBigEndian, ifd[index]);
        if entry.None? {
          return false;
        }
        ifd[index] := ifd[index][entry.value.tag := entry.value];
        p := p + EntrySize;
        n := n - 1;
      }
      ok := true;
    }

    /** ParseIFD(startIndex, offset): the chain loop, one slot per directory. */
    method ParseIFDChain(start: nat, offset: nat) returns (s: Status)
      requires Valid() && start < SlotCount
      modifies ifd
      ensures var c := Chain(data, isBigEndian, old(ifd[..]), start, offset);
        (s == Success <==> c.Some?) && (s != Success ==> s == OutOfBounds) &&
        (c.Some? ==> ifd[..] == c.value)
    {
      var index := start;
      var next := offset;
      while next != 0
        invariant start <= index <= SlotCount
        invariant Chain(data, isBigEndian, ifd[..], index, next) == Chain(data, isBigEndian, old(ifd[..]), start, offset)
        decreases SlotCount - index
      {
        if index == SlotCount {
          return OutOfBounds;
        }
        ChainStep(data, isBigEndian, ifd[..], index, next);
        var r := ParseIFD(index, next);
        if r.None? {
          return OutOfBounds;
        }
        next := r.value;
        index := index + 1;
      }
      s := Success;
    }

    /** The constructor's loop over IFD0..IFD2 looking for the SubIFDs tag. */
    method ParseSubIFDs() returns (s: Status)
      requires Valid()
      modifies ifd
      ensures var r := SubChains(data, isBigEndian, old(ifd[..]), IFD0);
        s == r.0 && (s == Success ==> ifd[..] == r.1)
    {
      var i := IFD0;
      while i <= IFD2
        invariant IFD0 <= i <= IFD2 + 1
        invariant SubChains(data, isBigEndian, ifd[..], i) == SubChains(data, isBigEndian, old(ifd[..]), IFD0)
        decreases IFD2 + 1 - i
      {
        s := ParseSubIFDsOf(i);
        if s != Success {
          return;
        }
        i := i + 1;
      }
      s := Success;
    }

    /** One pass of that loop: the sub-IFD chain that slot i's SubIFDs tag points at, if it has one. */
    method ParseSubIFDsOf(i: nat) returns (s: Status)
      requires Valid() && i <= IFD2
      modifies ifd
      ensures var r := SubChains(data, isBigEndian, old(ifd[..]), i);
        (s == Success ==> SubChains(data, isBigEndian, ifd[..], i + 1) == r) &&
        (s != Success ==> s == r.0)
    {
      if SubIFDsTag !in ifd[i] {
        return Success;
      }
      var v := GetValue(ifd[..], i, SubIFDsTag, 4);
      if v.Overread? {
        return OutOfBounds;
      }
      ghost var before := ifd[..];
      s := ParseIFDChain(SubIFD0, v.n);
      if s == Success {
        assert Chain(data, isBigEndian, before, SubIFD0, v.n) == Some(ifd[..]);
      }
    }
  }
}

=== FILE: file_system.dfy ===
// File names (FileSystem.cpp, FileSystem.h): the name after the last path
// separator, the name without its extension, and the entry filter and
// classification of ListDirectory.
//
// The directory iterator, is_regular_file, is_empty and the Win32 file
// attributes are I/O: each entry the iterator yields carries their answers.
// DirectoryEntry is not part of this model; its GetFileName is taken to be
// ParseFileName of the entry's path.

module FileNames {
  import opened Common

  type String = seq<char>

  predicate IsSeparator(c: char)
  {
    c == '/' || c == '\\'
  }

  predicate NoSeparator(s: String)
  {
    forall i :: 0 <= i < |s| ==> !IsSeparator(s[i])
  }

  /** The index just after the last separator, or 0 when there is none. */
  function NameStart(path: String): (k: nat)
    ensures k <= |path|
    ensures k > 0 ==> IsSeparator(path[k - 1])
    ensures NoSeparator(path[k..])
  {
    if |path| == 0 || IsSeparator(path[|path| - 1]) then |path|
    else
      var k := NameStart(path[..|path| - 1]);
      assert path[k..] == path[..|path| - 1][k..] + [path[|path| - 1]];
      k
  }

  /** The start is the only position with a separator before it and none after it. */
  lemma NameStartUnique(path: String, k: nat)
    requires k <= |path|
    requires k == 0 || IsSeparator(path[k - 1])
    requires NoSeparator(path[k..])
    ensures k == NameStart(path)
  {}

  /** ParseFileName: walks back from the end to just after the last '/' or '\'. */
  method ParseFileName(path: String) returns (name: String)
    ensures name == path[NameStart(path)..]
  {
    var p := |path|;
    while p != 0 && !IsSeparator(path[p - 1])
      invariant 0 <= p <= |path|
      invariant NoSeparator(path[p..])
    {
      assert path[p - 1..] == [path[p - 1]] + path[p..];
      p := p - 1;
    }
    NameStartUnique(path, p);
    name := path[p..];
  }

  /** path.rfind(c): the last index holding c, if any. */
  function RFind(path: String, c: char): (r: Option<nat>)
    ensures r.Some? ==> r.value < |path| && path[r.value] == c
    ensures r.Some? ==> forall i :: r.value < i < |path| ==> path[i] != c
    ensures r.None? ==> forall i :: 0 <= i < |path| ==> path[i] != c
  {
    if |path| == 0 then None
    else if path[|path| - 1] == c then Some(|path| - 1)
    else RFind(path[..|path| - 1], c)
  }

  /**
   * ExtractFileName: from just after the last separator up to the last '.'.
   * The count min(lastDot, size) - start is unsigned: a '.' before the start
   * wraps it to a huge count, and substr then runs to the end.
   */
  function ExtractFileName(path: String): (name: String)
    ensures |name| <= |path| - NameStart(path)
  {
    var start := NameStart(path);
    var dot := RFind(path, '.');
    if dot.Some? && dot.value >= start then path[start..dot.value] else path[start..]
  }

  /** The extracted name is the parsed name cut before its last '.', and has no '.' cut off after it. */
  lemma ExtractIsParsedWithoutExtension(path: String)
    ensures var parsed := path[NameStart(path)..];
      var n := ExtractFileName(path);
      n <= parsed &&
      (n != parsed ==> parsed[|n|] == '.' && forall i :: |n| < i < |parsed| ==> parsed[i] != '.')
  {
    var start := NameStart(path);
    var dot := RFind(path, '.');
    var parsed := path[start..];
    if dot.Some? && dot.value >= start {
      var n := path[start..dot.value];
      assert n == parsed[..dot.value - start];
      forall i | |n| < i < |parsed|
        ensures parsed[i] != '.'
      {
        assert parsed[i] == path[start + i];
      }
    }
  }

  /** The extracted name holds no separator. */
  lemma ExtractFileNameNoSeparator(path: String)
    ensures NoSeparator(ExtractFileName(path))
  {
    var parsed := path[NameStart(path)..];
    var n := ExtractFileName(path);
    ExtractIsParsedWithoutExtension(path);
    forall i | 0 <= i < |n|
      ensures !IsSeparator(n[i])
    {
      assert n[i] == parsed[i];
    }
  }

  /** "dir/a.b.txt" gives "a.b", and "x.d/name" gives "name" (the dot lies before the start). */
  lemma ExtractExamples()
    ensures ExtractFileName("dir/a.b.txt") == "a.b"
    ensures ExtractFileName("x.d/name") == "name"
  {
    var p := "dir/a.b.txt";
    assert NameStart(p[..4]) == 4;
    assert NameStart(p) == 4 by {
      NameStartUnique(p, 4);
    }
    assert p[7] == '.' && RFind(p, '.') == Some(7);
    var q := "x.d/name";
    assert NameStart(q) == 4 by {
      NameStartUnique(q, 4);
    }
    assert RFind(q, '.') == Some(1) by {
      assert q[1] == '.';
      assert forall i :: 1 < i < |q| ==> q[i] != '.';
    }
  }

  datatype FileType = RegularFile | Directory

  /**
   * What the directory iterator reports for one entry: its path, whether it
   * is a regular file, whether the Win32 SYSTEM attribute is set, and what
   * is_empty answers (None when it throws).
   */
  datatype RawEntry = RawEntry(path: String, regular: bool, system: bool, empty: Option<bool>)

  datatype DirectoryEntry = DirectoryEntry(path: String, fileType: FileType, isEmpty: bool)

  const SystemVolumeInformation: String := "System Volume Information"

  /** An empty name reads its terminating NUL, which is neither '$' nor '.'. */
  predicate Hidden(name: String)
  {
    (|name| > 0 && (name[0] == '$' || name[0] == '.')) || name == SystemVolumeInformation
  }

  /** Whether ListDirectory skips the entry; the SYSTEM attribute counts only on Win32. */
  predicate Skipped(e: RawEntry, win32: bool)
  {
    Hidden(e.path[NameStart(e.path)..]) || (win32 && e.system)
  }

  /** The entry ListDirectory appends: a directory unless it is a regular file; a failed is_empty counts as empty. */
  function Classify(e: RawEntry): (d: DirectoryEntry)
    ensures d.path == e.path
    ensures d.fileType == RegularFile <==> e.regular
    ensures d.fileType == RegularFile ==> !d.isEmpty
    ensures d.fileType == Directory ==> (d.isEmpty <==> e.empty != Some(false))
  {
    var t := if e.regular then RegularFile else Directory;
    DirectoryEntry(e.path, t, t == Directory && (e.empty.None? || e.empty.value))
  }

  /** The entries ListDirectory appends for an iteration, in order. */
  function Listed(entries: seq<RawEntry>, win32: bool): (r: seq<DirectoryEntry>)
    ensures |r| <= |entries|
  {
    if |entries| == 0 then []
    else
      var rest := Listed(entries[..|entries| - 1], win32);
      var e := entries[|entries| - 1];
      if Skipped(e, win32) then rest else rest + [Classify(e)]
  }

  /** Nothing listed is hidden, and each listed entry is the classification of a kept entry. */
  lemma {:induction false} ListedKept(entries: seq<RawEntry>, win32: bool)
    ensures forall d :: d in Listed(entries, win32) ==>
      exists e :: e in entries && !Skipped(e, win32) && d == Classify(e)
  {
    if |entries| > 0 {
      var init := entries[..|entries| - 1];
      ListedKept(init, win32);
      forall d | d in Listed(entries, win32)
        ensures exists e :: e in entries && !Skipped(e, win32) && d == Classify(e)
      {
        if d in Listed(init, win32) {
          var e :| e in init && !Skipped(e, win32) && d == Classify(e);
          assert e in entries;
        } else {
          assert d == Classify(entries[|entries| - 1]);
        }
      }
    }
  }

  /** Every kept entry is listed. */
  lemma {:induction false} KeptListed(entries: seq<RawEntry>, win32: bool)
    ensures forall e :: e in entries && !Skipped(e, win32) ==> Classify(e) in Listed(entries, win32)
  {
    if |entries| > 0 {
      var init := entries[..|entries| - 1];
      KeptListed(init, win32);
      forall e | e in entries && !Skipped(e, win32)
        ensures Classify(e) in Listed(entries, win32)
      {
        if e in init {
          assert Classify(e) in Listed(init, win32);
        }
      }
    }
  }

  /** ListDirectory: appends every entry the filter keeps, in iteration order, after what the vector held. */
  method ListDirectory(entries: seq<RawEntry>, win32: bool, directories: seq<DirectoryEntry>)
    returns (listed: seq<DirectoryEntry>)
    ensures listed == directories + Listed(entries, win32)
  {
    listed := directories;
    for i := 0 to |entries|
      invariant listed == directories + Listed(entries[..i], win32)
    {
      assert entries[..i + 1][..i] == entries[..i];
      var e := entries[i];
      var name := ParseFileName(e.path);
      if (|name| > 0 && (name[0] == '$' || name[0] == '.')) || name == SystemVolumeInformation {
        continue;
      }
      if win32 && e.system {
        continue;
      }
      var entry := Classify(e);
      listed := listed + [entry];
    }
    assert entries[..|entries|] == entries;
  }
}

=== FILE: jpeg.dfy ===
// The JPEG entropy-coded-segment bit reader (JpegCodec::BitTracker) and the
// two marker-segment helpers. Byte stuffing follows section F.1.2.3 of
// ITU-T T.81 (a 0xFF data byte is followed by a stuffed 0x00), restart
// markers RST0..RST7 are 0xFFD0..0xFFD7 (Table B.1), and a marker segment's
// 16-bit length is big-endian and counts its own two bytes (section B.1.1.4).
//
// The 64-bit `word` is modelled as its 64 bits, most significant first, so
// that `<<`, `>>`, `|` and `&` are slices and element-wise operations.

module Jpeg {
  import opened Common

  // ------------------------------------------------------------ 64-bit words

  function Zeros(k: nat): (z: seq<bool>)
    ensures |z| == k && forall i :: 0 <= i < k ==> !z[i]
  {
    seq(k, _ => false)
  }

  /** x << k on a 64-bit word. */
  function ShiftLeft(w: seq<bool>, k: nat): (r: seq<bool>)
    requires |w| == 64 && k <= 64
    ensures |r| == 64
  {
    w[k..] + Zeros(k)
  }

  /** x >> k on a 64-bit word. */
  function ShiftRight(w: seq<bool>, k: nat): (r: seq<bool>)
    requires |w| == 64 && k <= 64
    ensures |r| == 64
  {
    Zeros(k) + w[..64 - k]
  }

  /** x | y on 64-bit words. */
  function Or(a: seq<bool>, b: seq<bool>): (r: seq<bool>)
    requires |a| == 64 && |b| == 64
    ensures |r| == 64 && forall i :: 0 <= i < 64 ==> r[i] == (a[i] || b[i])
  {
    seq(64, i requires 0 <= i < 64 => a[i] || b[i])
  }

  /** x & (~0 << 8): the low byte cleared. */
  function ClearLowByte(w: seq<bool>): (r: seq<bool>)
    requires |w| == 64
    ensures |r| == 64
  {
    w[..56] + Zeros(8)
  }

  /** The bits of a byte, most significant first. */
  function ByteBits(b: Byte): (r: seq<bool>)
    ensures |r| == 8
  {
    seq(8, i requires 0 <= i < 8 => BitOf(b, 7 - i))
  }

  /** Bit k of n, counting from the least significant. */
  function BitOf(n: nat, k: nat): bool
  {
    if k == 0 then n % 2 == 1 else BitOf(n / 2, k - 1)
  }

  lemma {:induction false} ZeroBits(k: nat)
    ensures forall j :: 0 <= j <= k ==> !BitOf(0, j)
  {
    if k > 0 {
      ZeroBits(k - 1);
    }
  }

  /** A byte as a 64-bit word (the uint8_t widened by `bits |= byte`). */
  function Widen(b: Byte): (r: seq<bool>)
    ensures |r| == 64
  {
    Zeros(56) + ByteBits(b)
  }

  function BytesToBits(s: seq<Byte>): (r: seq<bool>)
    ensures |r| == 8 * |s|
  {
    if |s| == 0 then [] else BytesToBits(s[..|s| - 1]) + ByteBits(s[|s| - 1])
  }

  lemma BytesToBitsAppend(s: seq<Byte>, b: Byte)
    ensures BytesToBits(s + [b]) == BytesToBits(s) + ByteBits(b)
  {
    assert (s + [b])[..|s|] == s;
  }

  lemma {:induction false} BytesToBitsConcat(s: seq<Byte>, t: seq<Byte>)
    ensures BytesToBits(s + t) == BytesToBits(s) + BytesToBits(t)
    decreases |t|
  {
    if |t| == 0 {
      assert s + t == s;
    } else {
      var t' := t[..|t| - 1];
      var b := t[|t| - 1];
      assert s + t == (s + t') + [b];
      assert t == t' + [b];
      BytesToBitsAppend(s + t', b);
      BytesToBitsConcat(s, t');
      BytesToBitsAppend(t', b);
      assert BytesToBits(s) + BytesToBits(t') + ByteBits(b) == BytesToBits(s) + (BytesToBits(t') + ByteBits(b));
    }
  }

  // ------------------------------------------------------ the de-stuffed stream

  const RST0: Byte := 0xD0
  const RST7: Byte := 0xD7

  /**
   * One iteration of Move's loop: the byte it feeds, where the read pointer
   * ends, and whether a restart marker was met. Past the end it feeds 0.
   * A 0xFF that is the last byte of the buffer is fed as is; the source then
   * reads one byte past the end, which the model does not.
   */
  function Feed(data: seq<Byte>, ptr: nat): (r: (Byte, nat, bool))
    ensures ptr < r.1 <= |data| || (ptr >= |data| && r.1 == ptr)
  {
    if ptr >= |data| then (0, ptr, false)
    else
      var b := data[ptr];
      if b != 0xFF || ptr + 1 == |data| then (b, ptr + 1, false)
      else
        var next := data[ptr + 1];
        if next == 0 then (0xFF, ptr + 2, false)
        else if RST0 <= next <= RST7 then (next, ptr + 2, true)
        else (0xFF, ptr + 1, false)
  }

  /**
   * Feed's cases: a plain byte advances by one; 0xFF 0x00 feeds 0xFF and
   * skips the stuffed zero; 0xFF RSTn feeds the marker byte and flags a
   * restart; past the end it feeds 0 and stays.
   */
  lemma FeedCases(data: seq<Byte>, ptr: nat)
    ensures ptr >= |data| ==> Feed(data, ptr) == (0, ptr, false)
    ensures ptr + 1 < |data| && data[ptr] == 0xFF && data[ptr + 1] == 0x00 ==> Feed(data, ptr) == (0xFF, ptr + 2, false)
    ensures ptr + 1 < |data| && data[ptr] == 0xFF && RST0 <= data[ptr + 1] <= RST7 ==>
      Feed(data, ptr) == (data[ptr + 1], ptr + 2, true)
    ensures ptr < |data| && (data[ptr] != 0xFF || ptr + 1 == |data|) ==> Feed(data, ptr) == (data[ptr], ptr + 1, false)
  {}

  /** The read pointer after k feeds from the start. */
  function PtrAfter(data: seq<Byte>, k: nat): nat
  {
    if k == 0 then 0 else Feed(data, PtrAfter(data, k - 1)).1
  }

  /** The first k bytes of the de-stuffed stream. */
  function Stream(data: seq<Byte>, k: nat): (s: seq<Byte>)
    ensures |s| == k
  {
    if k == 0 then [] else Stream(data, k - 1) + [Feed(data, PtrAfter(data, k - 1)).0]
  }

  /** Whether a restart marker was met in feeds a .. b - 1. */
  function RestartBetween(data: seq<Byte>, a: nat, b: nat): bool
    requires a <= b
    decreases b - a
  {
    if a == b then false else RestartBetween(data, a, b - 1) || Feed(data, PtrAfter(data, b - 1)).2
  }

  /** The stream is one sequence: reading more bytes only extends what was read. */
  lemma {:induction false} StreamPrefix(data: seq<Byte>, a: nat, b: nat)
    requires a <= b
    ensures Stream(data, a) == Stream(data, b)[..a]
    decreases b - a
  {
    if a < b {
      StreamPrefix(data, a, b - 1);
      assert Stream(data, b)[..b - 1] == Stream(data, b - 1);
    }
  }

  /** Once the buffer is exhausted, every further byte of the stream is 0. */
  lemma {:induction false} ZerosPastEnd(data: seq<Byte>, a: nat, b: nat)
    requires a <= b && PtrAfter(data, a) >= |data|
    ensures PtrAfter(data, b) == PtrAfter(data, a)
    ensures forall i :: a <= i < b ==> Stream(data, b)[i] == 0
    decreases b - a
  {
    if a < b {
      ZerosPastEnd(data, a, b - 1);
      StreamPrefix(data, b - 1, b);
    }
  }

  // ------------------------------------------------------------- refill count

  /** How far Move(n) as written raises bitsLeft: whole bytes until bitsLeft >= n. */
  function RefillAsWritten(bitsLeft: nat, n: nat): (r: nat)
    ensures r >= n && r >= bitsLeft
    decreases n - bitsLeft
  {
    if n > bitsLeft then RefillAsWritten(bitsLeft + 8, n) else bitsLeft
  }

  /** GetBits(10) with 9 bits left asks Move(58), which raises bitsLeft to 65: `64 - bitsLeft` is negative. */
  lemma RefillAsWrittenOverflows()
    ensures RefillAsWritten(9, 10 + 48) == 65 > 64
  {
    assert RefillAsWritten(57, 58) == 65;
  }

  /** Move(n) with room checked: whole bytes while one still fits and bitsLeft < n. */
  function Refill(bitsLeft: nat, n: nat): (r: nat)
    ensures r >= bitsLeft
    ensures n <= bitsLeft || bitsLeft > 56 ==> r == bitsLeft
    decreases n - bitsLeft
  {
    if bitsLeft <= 56 && n > bitsLeft then Refill(bitsLeft + 8, n) else bitsLeft
  }

  /** The corrected refill never overfills the word and serves any request of at most 57 bits. */
  lemma {:induction false} RefillFits(bitsLeft: nat, n: nat)
    requires bitsLeft <= 64
    ensures bitsLeft <= Refill(bitsLeft, n) <= 64
    ensures Refill(bitsLeft, n) >= n || Refill(bitsLeft, n) > 56
    ensures (Refill(bitsLeft, n) - bitsLeft) % 8 == 0
    decreases n - bitsLeft
  {
    if bitsLeft <= 56 && n > bitsLeft {
      RefillFits(bitsLeft + 8, n);
    }
  }

  // ------------------------------------------------------------ the tracker

  class BitTracker {
    const data: seq<Byte>
    var ptr: nat
    /** The 64 bits of `word`, most significant first. */
    var word: seq<bool>
    var bitsLeft: nat
    var RestartMarker: bool
    /** Bytes fed into `word` since construction. */
    ghost var fed: nat

    /** The bits read so far from the stream, consumed or pending. */
    ghost function Fetched(): seq<bool>
      reads this
    {
      BytesToBits(Stream(data, fed))
    }

    /** The stream position of the next bit GetBits hands out. */
    ghost function Position(): int
      reads this
    {
      8 * fed - bitsLeft
    }

    /** `word` holds the bitsLeft not yet consumed bits at the top and zeros below. */
    ghost predicate Valid()
      reads this
    {
      bitsLeft <= 64 && bitsLeft <= 8 * fed &&
      ptr == PtrAfter(data, fed) &&
      word == Fetched()[8 * fed - bitsLeft..] + Zeros(64 - bitsLeft)
    }

    /** BitTracker(data, size): starts at the buffer and fills the word with Move(64). */
    constructor (data: seq<Byte>)
      ensures Valid() && this.data == data
      ensures bitsLeft == 64 && fed == 8 && Position() == 0
      ensures RestartMarker == RestartBetween(data, 0, 8)
    {
      this.data := data;
      ptr := 0;
      word := Zeros(64);
      bitsLeft := 0;
      RestartMarker := false;
      fed := 0;
      new;
      Move(64);
      RefillFits(0, 64);
    }

    /**
     * GetBits(n): the next n bits of the de-stuffed stream, right-aligned in
     * the returned 64-bit word; they are shifted out of `word`.
     */
    method GetBits(n: nat) returns (r: seq<bool>)
      requires Valid() && 1 <= n && (n <= 57 || (n <= 63 && n <= bitsLeft))
      modifies this
      ensures Valid() && Position() == old(Position()) + n
      ensures r == Zeros(64 - n) + Fetched()[old(Position())..Position()]
      ensures old(n > bitsLeft) ==> bitsLeft == Refill(old(bitsLeft), n + 48) - n
      ensures old(n <= bitsLeft) ==> bitsLeft == old(bitsLeft) - n && fed == old(fed)
    {
      if n > bitsLeft {
        Move(n + 48);
        RefillFits(old(bitsLeft), n + 48);
      }
      r := Take(n);
    }

    /** GetBits once at least n bits are pending. */
    method Take(n: nat) returns (r: seq<bool>)
      requires Valid() && 1 <= n <= bitsLeft
      modifies this
      ensures Valid() && Position() == old(Position()) + n
      ensures r == Zeros(64 - n) + Fetched()[old(Position())..Position()]
      ensures bitsLeft == old(bitsLeft) - n && fed == old(fed)
      ensures ptr == old(ptr) && RestartMarker == old(RestartMarker)
    {
      var ret := word;
      ghost var all := Fetched();
      Consume(ret, all, 8 * fed - bitsLeft, bitsLeft, n);
      bitsLeft := bitsLeft - n;
      word := ShiftLeft(word, n);
      r := ShiftRight(ret, 64 - n);
    }

    /**
     * Move(n): feeds whole bytes of the de-stuffed stream below the pending
     * bits until at least n bits are pending or no further byte fits.
     */
    method Move(n: nat)
      requires Valid()
      modifies this
      ensures Valid() && Position() == old(Position())
      ensures bitsLeft == Refill(old(bitsLeft), n) && fed >= old(fed)
      ensures RestartMarker == (old(RestartMarker) || RestartBetween(data, old(fed), fed))
    {
      ghost var all0 := Fetched();
      ghost var from := 8 * fed - bitsLeft;
      ghost var pending := bitsLeft;
      var bits;
      ghost var added;
      bits, added := Fill(n);
      BytesToBitsConcat(Stream(data, old(fed)), added);
      assert Fetched() == all0 + BytesToBits(added);
      PlaceBelow(word, bits, Fetched(), from, pending, 8 * |added|);
      word := Or(word, ShiftLeft(bits, 64 - bitsLeft));
    }

    /** Move's loop: the bytes fed, right-aligned in `bits`. */
    method Fill(n: nat) returns (bits: seq<bool>, ghost added: seq<Byte>)
      requires bitsLeft <= 64 && ptr == PtrAfter(data, fed)
      modifies this
      ensures bitsLeft == old(bitsLeft) + 8 * |added| == Refill(old(bitsLeft), n) <= 64
      ensures fed == old(fed) + |added| && ptr == PtrAfter(data, fed)
      ensures Stream(data, fed) == Stream(data, old(fed)) + added
      ensures bits == Zeros(64 - 8 * |added|) + BytesToBits(added)
      ensures RestartMarker == (old(RestartMarker) || RestartBetween(data, old(fed), fed))
      ensures word == old(word)
    {
      bits := Zeros(64);
      added := [];
      while bitsLeft <= 56 && n > bitsLeft
        invariant Filling(bits, added, old(fed), old(bitsLeft), old(RestartMarker))
        invariant Refill(bitsLeft, n) == Refill(old(bitsLeft), n)
        invariant word == old(word)
        decreases 64 - bitsLeft
      {
        bits, added := FeedNext(bits, added, old(fed), old(bitsLeft), old(RestartMarker));
      }
    }

    /** Move's loop invariant: the bytes fed since f0 are `added`, right-aligned in `bits`. */
    ghost predicate Filling(bits: seq<bool>, added: seq<Byte>, f0: nat, b0: nat, rm0: bool)
      reads this
    {
      bitsLeft == b0 + 8 * |added| <= 64 &&
      fed == f0 + |added| && ptr == PtrAfter(data, fed) &&
      Stream(data, fed) == Stream(data, f0) + added &&
      bits == Zeros(64 - 8 * |added|) + BytesToBits(added) &&
      RestartMarker == (rm0 || RestartBetween(data, f0, fed))
    }

    /** One iteration of Move's loop: one more byte fed, 8 more bits pending. */
    method FeedNext(bits: seq<bool>, ghost added: seq<Byte>, ghost f0: nat, ghost b0: nat, ghost rm0: bool)
      returns (r: seq<bool>, ghost added': seq<Byte>)
      requires bitsLeft <= 56 && Filling(bits, added, f0, b0, rm0)
      modifies this
      ensures bitsLeft == old(bitsLeft) + 8 && |added'| == |added| + 1
      ensures Filling(r, added', f0, b0, rm0)
      ensures word == old(word)
    {
      ghost var feed := Feed(data, ptr);
      ShiftIn(bits, added, feed.0);
      FeedStep(data, f0, fed, added);
      r := FeedByte(bits);
      bitsLeft := bitsLeft + 8;
      added' := added + [feed.0];
      fed := fed + 1;
      assert 64 - 8 * |added'| == 56 - 8 * |added|;
    }

    /**
     * One pass of Move's loop body after `bits <<= 8`: the next byte is or-ed
     * in; a stuffed 0x00 after 0xFF is skipped; a restart marker after 0xFF
     * replaces the low byte and sets RestartMarker.
     */
    method FeedByte(bits: seq<bool>) returns (r: seq<bool>)
      requires |bits| == 64
      modifies this
      ensures var f := Feed(data, old(ptr));
        ptr == f.1 && RestartMarker == (old(RestartMarker) || f.2) &&
        r == Or(ShiftLeft(bits, 8), Widen(f.0))
      ensures bitsLeft == old(bitsLeft) && word == old(word) && fed == old(fed)
    {
      r := ShiftLeft(bits, 8);
      if ptr < |data| {
        var byte := data[ptr];
        ptr := ptr + 1;
        ClearLowByteUndoesOr(r);
        r := Or(r, Widen(byte));
        if byte == 0xFF && ptr < |data| {
          var next := data[ptr];
          if next == 0 {
            ptr := ptr + 1;
          } else if RST0 <= next <= RST7 {
            r := Or(ClearLowByte(r), Widen(next));
            ptr := ptr + 1;
            RestartMarker := true;
          }
        }
      } else {
        OrZeroByte(r);
      }
    }
  }

  /** One more feed extends the stream by its byte and the restart record by its flag. */
  lemma FeedStep(data: seq<Byte>, f0: nat, fed: nat, added: seq<Byte>)
    requires f0 <= fed && Stream(data, fed) == Stream(data, f0) + added
    ensures var f := Feed(data, PtrAfter(data, fed));
      Stream(data, fed + 1) == Stream(data, f0) + (added + [f.0]) &&
      PtrAfter(data, fed + 1) == f.1 &&
      RestartBetween(data, f0, fed + 1) == (RestartBetween(data, f0, fed) || f.2)
  {}

  /** A zero byte or-ed in changes nothing. */
  lemma OrZeroByte(x: seq<bool>)
    requires |x| == 64
    ensures Or(x, Widen(0)) == x
  {
    ZeroBits(7);
    assert ByteBits(0) == Zeros(8);
  }

  /** Shifting `bits` left by 8 and or-ing a byte in appends the byte's bits. */
  lemma ShiftIn(before: seq<bool>, added: seq<Byte>, b: Byte)
    requires |added| < 8 && before == Zeros(64 - 8 * |added|) + BytesToBits(added)
    ensures Or(ShiftLeft(before, 8), Widen(b)) == Zeros(56 - 8 * |added|) + BytesToBits(added + [b])
  {
    var z, l := Zeros(56 - 8 * |added|), BytesToBits(added);
    calc {
      Or(ShiftLeft(before, 8), Widen(b));
    == { ShiftZeros(Zeros(64 - 8 * |added|), l); }
      Or(z + l + Zeros(8), Widen(b));
    == { OrLowByte(z + l, b); }
      z + l + ByteBits(b);
    == { AppendAssoc(z, l, ByteBits(b)); BytesToBitsAppend(added, b); }
      z + BytesToBits(added + [b]);
    }
  }

  lemma AppendAssoc(a: seq<bool>, b: seq<bool>, c: seq<bool>)
    ensures a + b + c == a + (b + c)
  {}

  lemma ShiftZeros(z: seq<bool>, l: seq<bool>)
    requires |z| >= 8 && |z| + |l| == 64 && z == Zeros(|z|)
    ensures ShiftLeft(z + l, 8) == Zeros(|z| - 8) + l + Zeros(8)
  {
    assert (z + l)[8..] == Zeros(|z| - 8) + l;
  }

  lemma OrLowByte(x: seq<bool>, b: Byte)
    requires |x| == 56
    ensures Or(x + Zeros(8), Widen(b)) == x + ByteBits(b)
  {
    var o := Or(x + Zeros(8), Widen(b));
    forall i | 0 <= i < 64 ensures o[i] == (x + ByteBits(b))[i] {
      if i >= 56 {
        assert Widen(b)[i] == ByteBits(b)[i - 56];
      }
    }
  }

  /** Clearing the low byte after or-ing one into a word whose low byte was zero restores it. */
  lemma ClearLowByteUndoesOr(w: seq<bool>)
    requires |w| == 64 && w[56..] == Zeros(8)
    ensures forall b: Byte :: ClearLowByte(Or(w, Widen(b))) == w
  {
    forall b: Byte ensures ClearLowByte(Or(w, Widen(b))) == w {
      var o := Or(w, Widen(b));
      assert o[..56] == w[..56];
      assert w == w[..56] + w[56..];
    }
  }

  /** `ret >> (64 - n)` is the first n pending bits; `word << n` drops them. */
  lemma Consume(word: seq<bool>, all: seq<bool>, from: nat, pending: nat, n: nat)
    requires 1 <= n <= pending <= 64 && from + pending == |all|
    requires word == all[from..] + Zeros(64 - pending)
    ensures ShiftRight(word, 64 - n) == Zeros(64 - n) + all[from..from + n]
    ensures ShiftLeft(word, n) == all[from + n..] + Zeros(64 - (pending - n))
  {
    assert word[..n] == all[from..from + n];
    assert word[n..] == all[from + n..] + Zeros(64 - pending);
  }

  /** The final `word |= bits << (64 - bitsLeft)` appends the fed bits below the pending ones. */
  lemma PlaceBelow(word: seq<bool>, bits: seq<bool>, all: seq<bool>, from: nat, pending: nat, added: nat)
    requires pending + added <= 64 && from + pending + added == |all|
    requires word == all[from..from + pending] + Zeros(64 - pending)
    requires bits == Zeros(64 - added) + all[from + pending..]
    ensures Or(word, ShiftLeft(bits, 64 - (pending + added))) == all[from..] + Zeros(64 - pending - added)
  {
    var shifted := ShiftLeft(bits, 64 - (pending + added));
    var want := all[from..] + Zeros(64 - pending - added);
    forall i | 0 <= i < 64 ensures (word[i] || shifted[i]) == want[i] {
      if i < pending {
        assert shifted[i] == bits[64 - pending - added + i];
      } else if i < pending + added {
        assert shifted[i] == bits[64 - pending - added + i];
        assert bits[64 - pending - added + i] == all[from + i];
      }
    }
  }

  // ------------------------------------------------------------ marker segments

  /** JpegCodec::Word: the big-endian 16-bit value of two bytes. */
  function Word(b0: Byte, b1: Byte): (v: nat)
    ensures v < 0x10000
  {
    b0 * 256 + b1
  }

  /** The two bytes a big-endian 16-bit field is stored as. */
  function WordBytes(v: nat): (b: (Byte, Byte))
    requires v < 0x10000
  {
    (v / 256, v % 256)
  }

  lemma WordRoundTrip(v: nat, b0: Byte, b1: Byte)
    requires v < 0x10000
    ensures Word(WordBytes(v).0, WordBytes(v).1) == v
    ensures WordBytes(Word(b0, b1)) == (b0, b1)
  {}

  /**
   * ParseMarker: from the marker code at `pos`, the segment length is the
   * word after it; returns the position after the segment and the start of
   * the body handed to `process`. None where the length lies past the buffer.
   */
  function ParseMarker(data: seq<Byte>, pos: nat): (r: Option<(nat, nat)>)
    ensures r.Some? <==> pos + 3 <= |data|
    ensures r.Some? ==> r.value.1 == pos + 3 && r.value.0 == pos + 1 + Word(data[pos + 1], data[pos + 2])
  {
    if pos + 3 > |data| then None
    else
      var length := Word(data[pos + 1], data[pos + 2]);
      Some((pos + 1 + length, pos + 3))
  }

  /** The body handed to `process` is the segment less its two length bytes. */
  lemma MarkerBodyLength(data: seq<Byte>, pos: nat)
    requires pos + 3 <= |data| && Word(data[pos + 1], data[pos + 2]) >= 2
    ensures var (next, body) := ParseMarker(data, pos).value;
      body <= next && next - body == Word(data[pos + 1], data[pos + 2]) - 2
  {}
}

=== FILE: light_array.dfy ===
// LightArray<T, Reserved>: a vector over a fixed buffer of Reserved
// elements. The buffer is an array of exactly Capacity elements; `size`
// counts the elements in use. The element type's value-initialised state
// (`T{}`) is the constructor's `zero`.
//
// The source's SLASSERTs (emplace_back below capacity, operator[] below size)
// are caller obligations here. `resize` has no bound check, so `size` may
// exceed the buffer; the operations that would then read or write past the
// buffer (clear, back, the moves) require size <= Capacity.

module LightArray {

  class LightArray<T> {
    /** The template argument Reserved, which capacity() returns. */
    const Capacity: nat
    const zero: T
    const data: array<T>
    var size: nat

    ghost predicate Valid()
      reads this
    {
      data.Length == Capacity
    }

    /** The elements in use. */
    ghost function Elements(): seq<T>
      reads this, data
      requires Valid() && size <= Capacity
    {
      data[..size]
    }

    constructor (reserved: nat, zero: T)
      ensures Valid() && Capacity == reserved && this.zero == zero
      ensures size == 0 && Elements() == []
      ensures forall i :: 0 <= i < Capacity ==> data[i] == zero
      ensures fresh(data)
    {
      Capacity := reserved;
      this.zero := zero;
      data := new T[reserved](_ => zero);
      size := 0;
    }

    /** The move constructor: takes over other's elements and leaves it empty. */
    constructor Move(other: LightArray<T>)
      requires other.Valid() && other.size <= other.Capacity
      modifies other, other.data
      ensures Valid() && Capacity == other.Capacity && zero == other.zero && fresh(data)
      ensures size == old(other.size) && Elements() == old(other.Elements())
      ensures other.Valid() && other.size == 0
      ensures forall i :: 0 <= i < old(other.size) ==> other.data[i] == other.zero
    {
      Capacity := other.Capacity;
      zero := other.zero;
      var n := other.size;
      var copy := new T[other.Capacity](i requires 0 <= i < other.data.Length reads other.data =>
        if i < n then other.data[i] else other.zero);
      data := copy;
      size := n;
      new;
      assert data[..size] == old(other.data[..other.size]);
      other.Clear();
    }

    /** Move assignment: the first other.size elements are copied, then other is cleared. */
    method MoveAssign(other: LightArray<T>)
      requires Valid() && other.Valid() && other != this && other.data != data
      requires other.size <= other.Capacity && other.size <= Capacity
      modifies this, data, other, other.data
      ensures Valid() && size == old(other.size) && Elements() == old(other.Elements())
      ensures forall i :: old(other.size) <= i < Capacity ==> data[i] == old(data[i])
      ensures other.Valid() && other.size == 0
    {
      size := other.size;
      forall i | 0 <= i < size {
        data[i] := other.data[i];
      }
      assert data[..size] == old(other.data[..other.size]);
      other.Clear();
    }

    function Size(): (n: nat)
      reads this
      ensures n == size
    {
      size
    }

    /** capacity() is Reserved whatever the size. */
    function GetCapacity(): (c: nat)
      reads this
      requires Valid()
      ensures c == Capacity == data.Length
    {
      Capacity
    }

    function Empty(): (b: bool)
      reads this
      ensures b <==> size == 0
    {
      size == 0
    }

    /** front() is buffer slot 0: the first element when there is one. */
    method Front() returns (x: T)
      requires Valid() && Capacity > 0
      ensures x == data[0]
      ensures 0 < size <= Capacity ==> x == Elements()[0]
    {
      x := data[0];
    }

    /** back() is the element at size - 1. */
    method Back() returns (x: T)
      requires Valid() && 1 <= size <= Capacity
      ensures x == Elements()[|Elements()| - 1]
    {
      x := data[size - 1];
    }

    /** resize only sets the size: no bound check, no element written. */
    method Resize(n: nat)
      modifies this
      ensures size == n && unchanged(data)
    {
      size := n;
    }

    /** emplace_back: the element goes at position size, which then grows by one. */
    method EmplaceBack(x: T)
      requires Valid() && size < Capacity
      modifies this, data
      ensures Valid() && size == old(size) + 1 && Elements() == old(Elements()) + [x]
      ensures forall i :: size <= i < Capacity ==> data[i] == old(data[i])
    {
      data[size] := x;
      size := size + 1;
    }

    /** operator[]: requires index < size. */
    method Get(index: nat) returns (x: T)
      requires Valid() && size <= Capacity && index < size
      ensures x == Elements()[index]
    {
      x := data[index];
    }

    /** Writing through the reference operator[] returns. */
    method Set(index: nat, x: T)
      requires Valid() && size <= Capacity && index < size
      modifies data
      ensures Elements() == old(Elements())[index := x]
      ensures forall i :: size <= i < Capacity ==> data[i] == old(data[i])
    {
      data[index] := x;
    }

    /** clear: the elements in use are reset to T{} and size becomes 0. */
    method Clear()
      requires Valid() && size <= Capacity
      modifies this, data
      ensures Valid() && size == 0
      ensures forall i :: 0 <= i < old(size) ==> data[i] == zero
      ensures forall i :: old(size) <= i < Capacity ==> data[i] == old(data[i])
    {
      var i := 0;
      while i < size
        invariant Valid() && size == old(size) && 0 <= i <= size
        invariant forall k :: 0 <= k < i ==> data[k] == zero
        invariant forall k :: i <= k < Capacity ==> data[k] == old(data[k])
      {
        data[i] := zero;
        i := i + 1;
      }
      size := 0;
    }
  }
}

=== FILE: lut3d.dfy ===
// The .cube 3D-LUT reader of Lut3DFilter (Adobe Cube LUT Specification 1.0):
// the white-space and comment classifier, the keyword-line parser ParseText,
// the LUT_3D_SIZE data loop that stores line k*s*s + j*s + i at slot
// i*s*s + j*s + k, and the interpolation entry point.
//
// A line is the characters std::getline stored before its terminating NUL.
// The file is a sequence of such lines; reading past the last one yields the
// empty line. Reading three floating-point numbers with sscanf is the
// parameter `scan`, which either yields a value or fails, and atoi is the
// parameter `atoi`.

module Lut3D {
  import opened Common

  type String = seq<char>

  /** isspace in the "C" locale. */
  function IsSpace(c: char): (b: bool)
    ensures b <==> c in {' ', '\U{000C}', '\n', '\r', '\t', '\U{000B}'}
    ensures b ==> c != '#'
  {
    c == ' ' || c == '\U{000C}' || c == '\n' || c == '\r' || c == '\t' || c == '\U{000B}'
  }

  /** The first i characters of line are all white space. */
  ghost predicate Spaces(line: String, i: nat)
    requires i <= |line|
  {
    forall k :: 0 <= k < i ==> IsSpace(line[k])
  }

  /** A blank or comment line: after leading white space it is empty or starts with '#'. */
  ghost predicate Skippable(line: String)
  {
    exists i :: 0 <= i <= |line| && Spaces(line, i) && (i == |line| || line[i] == '#')
  }

  /** SkipLine walks past the leading white space and looks at what follows. */
  method SkipLine(line: String) returns (skip: bool)
    ensures skip <==> Skippable(line)
  {
    var p := 0;
    while p < |line| && IsSpace(line[p])
      invariant p <= |line| && Spaces(line, p)
    {
      p := p + 1;
    }
    skip := p == |line| || line[p] == '#';
    if !skip {
      assert !IsSpace(line[p]);
      assert forall i :: p < i <= |line| ==> !Spaces(line, i);
    }
  }

  /** strncmp(line, key, |key|) == 0. */
  predicate StartsWith(line: String, key: String)
  {
    |key| <= |line| && line[..|key|] == key
  }

  /** The bound a DOMAIN_ line names: "MIN " or "MAX " right after the prefix. */
  datatype Bound = MinBound | MaxBound

  function DomainBound(line: String): (b: Option<Bound>)
    requires StartsWith(line, "DOMAIN_")
    ensures b == Some(MinBound) <==> StartsWith(line[7..], "MIN ")
    ensures b == Some(MaxBound) <==> StartsWith(line[7..], "MAX ")
  {
    if StartsWith(line[7..], "MIN ") then Some(MinBound)
    else if StartsWith(line[7..], "MAX ") then Some(MaxBound)
    else None
  }

  datatype ParseResult = InvalidData | Value | Text

  /** An RGB triple of the table or of a domain bound. */
  datatype Vector3 = Vector3(r: real, g: real, b: real)

  /** Three numbers read from the text, or a failed read (sscanf returned fewer than 3). */
  type Scanner = String -> Option<Vector3>

  /** The reader's state: the next line to read, the line buffer and the domain bounds. */
  datatype Reader = Reader(pos: nat, line: String, minValues: Vector3, maxValues: Vector3)

  /** getline: the next line, or the empty line once the file is exhausted. */
  function NextLine(lines: seq<String>, pos: nat): (l: String)
    ensures pos < |lines| ==> l == lines[pos]
    ensures pos >= |lines| ==> l == []
  {
    if pos < |lines| then lines[pos] else []
  }

  predicate IsTitle(line: String)
  {
    StartsWith(line, "TITLE")
  }

  predicate IsDomain(line: String)
  {
    StartsWith(line, "DOMAIN_")
  }

  /**
   * One DOMAIN_ line: the named bound takes the three numbers after the
   * eleventh character; an unknown suffix or a failed scan is InvalidData.
   */
  function DomainLine(line: String, scan: Scanner, r: Reader): (res: (ParseResult, Reader))
    requires IsDomain(line)
    ensures res.0 == Text <==> DomainBound(line).Some? && scan(line[11..]).Some?
    ensures res.0 != Value
    ensures res.0 == Text && DomainBound(line) == Some(MinBound) ==>
      res.1 == r.(minValues := scan(line[11..]).value)
    ensures res.0 == Text && DomainBound(line) == Some(MaxBound) ==>
      res.1 == r.(maxValues := scan(line[11..]).value)
  {
    match DomainBound(line)
    case None => (InvalidData, r)
    case Some(b) =>
      match scan(line[11..])
      case None => (InvalidData, r)
      case Some(v) =>
        if b == MinBound then (Text, r.(minValues := v)) else (Text, r.(maxValues := v))
  }

  /**
   * ParseText as the source is evidently meant to behave: read lines until
   * one is not skippable; DOMAIN_ and TITLE lines are Text, any other line
   * is Value and stays in the buffer. At the end of the file it is
   * InvalidData (ParseTextAsWritten shows the source never returns there).
   */
  ghost function Parsed(lines: seq<String>, scan: Scanner, r: Reader): (res: (ParseResult, Reader))
    decreases |lines| - r.pos
    ensures r.pos >= |lines| ==> res.0 == InvalidData && res.1.pos == r.pos
    ensures r.pos < |lines| ==> r.pos < res.1.pos <= |lines|
    ensures res.0 == Value ==>
      res.1.line == lines[res.1.pos - 1] && !IsDomain(res.1.line) && !IsTitle(res.1.line) && !Skippable(res.1.line)
    ensures res.0 == Value ==> forall p :: r.pos <= p < res.1.pos - 1 ==>
      Skippable(lines[p]) && !IsDomain(lines[p]) && !IsTitle(lines[p])
    ensures res.0 == Text ==> IsDomain(res.1.line) || IsTitle(res.1.line)
  {
    if r.pos >= |lines| then
      (InvalidData, r.(line := []))
    else
      var line := lines[r.pos];
      var r' := r.(pos := r.pos + 1, line := line);
      if IsDomain(line) then DomainLine(line, scan, r')
      else if IsTitle(line) then (Text, r')
      else if Skippable(line) then Parsed(lines, scan, r')
      else (Value, r')
  }

  /**
   * ParseText as written, run for at most `fuel` lines: None when the fuel
   * runs out. Past the end of the file getline leaves the empty line, which
   * is skippable, so the do-while reads again.
   */
  ghost function ParseTextAsWritten(lines: seq<String>, scan: Scanner, r: Reader, fuel: nat): (res: Option<(ParseResult, Reader)>)
    ensures res.Some? && res.value.0 == Value ==>
      res.value.1.pos > r.pos && !Skippable(res.value.1.line) && !IsTitle(res.value.1.line)
    decreases fuel
  {
    if fuel == 0 then None
    else
      var line := NextLine(lines, r.pos);
      var r' := r.(pos := r.pos + 1, line := line);
      if IsDomain(line) then Some(DomainLine(line, scan, r'))
      else if IsTitle(line) then Some((Text, r'))
      else if Skippable(line) then ParseTextAsWritten(lines, scan, r', fuel - 1)
      else Some((Value, r'))
  }

  lemma EmptyLineSkippable()
    ensures Skippable([])
  {
    assert Spaces([], 0);
  }

  /** Once the file is exhausted, ParseText as written never returns, whatever the fuel. */
  lemma {:induction false} ParseTextAsWrittenHangsAtEnd(lines: seq<String>, scan: Scanner, r: Reader, fuel: nat)
    requires r.pos >= |lines|
    ensures ParseTextAsWritten(lines, scan, r, fuel) == None
    decreases fuel
  {
    if fuel > 0 {
      EmptyLineSkippable();
      assert !IsDomain([]) && !IsTitle([]);
      ParseTextAsWrittenHangsAtEnd(lines, scan, r.(pos := r.pos + 1, line := []), fuel - 1);
    }
  }

  /** Whenever ParseText as written returns, it returns what Parsed gives. */
  lemma {:induction false} ParseTextAsWrittenAgrees(lines: seq<String>, scan: Scanner, r: Reader, fuel: nat)
    requires ParseTextAsWritten(lines, scan, r, fuel).Some?
    ensures r.pos < |lines|
    ensures ParseTextAsWritten(lines, scan, r, fuel).value == Parsed(lines, scan, r)
    decreases fuel
  {
    if r.pos >= |lines| {
      ParseTextAsWrittenHangsAtEnd(lines, scan, r, fuel);
      assert false;
    }
    var line := lines[r.pos];
    var r' := r.(pos := r.pos + 1, line := line);
    if !IsDomain(line) && !IsTitle(line) && Skippable(line) {
      ParseTextAsWrittenAgrees(lines, scan, r', fuel - 1);
    }
  }

  /**
   * One table entry, the body of the constructor's innermost loop: ParseText
   * until it is not Text, then three numbers from the line it left.
   */
  ghost function Datum(lines: seq<String>, scan: Scanner, r: Reader): (res: Option<(Vector3, Reader)>)
    decreases |lines| - r.pos
    ensures res.Some? ==> r.pos < res.value.1.pos <= |lines|
  {
    var (pr, r') := Parsed(lines, scan, r);
    match pr
    case InvalidData => None
    case Text => Datum(lines, scan, r')
    case Value =>
      match scan(r'.line)
      case None => None
      case Some(v) => Some((v, r'))
  }

  /** The first `count` table entries in file order, or None if one of them fails. */
  ghost function Data(lines: seq<String>, scan: Scanner, r: Reader, count: nat): (res: Option<(seq<Vector3>, Reader)>)
    ensures res.Some? ==> |res.value.0| == count
    ensures res.Some? && r.pos <= |lines| ==> r.pos <= res.value.1.pos <= |lines|
  {
    if count == 0 then Some(([], r))
    else
      match Data(lines, scan, r, count - 1)
      case None => None
      case Some((vs, r1)) =>
        match Datum(lines, scan, r1)
        case None => None
        case Some((v, r2)) => Some((vs + [v], r2))
  }

  lemma MulStrict(a: nat, b: nat, c: nat)
    requires a < b && c > 0
    ensures a * c < b * c
  {}

  /** a*S + r with r < S determines a and r. */
  lemma SameQuotient(a: nat, r: nat, a2: nat, r2: nat, size: nat)
    requires r < size && r2 < size && a * size + r == a2 * size + r2
    ensures a == a2 && r == r2
  {
    if a < a2 {
      MulStrict(a, a2, size);
      MulMonotone(a + 1, a2, size);
    } else if a2 < a {
      MulStrict(a2, a, size);
      MulMonotone(a2 + 1, a, size);
    }
  }

  lemma {:induction false} LowerDigits(b: nat, c: nat, s: nat)
    requires b < s && c < s
    ensures b * s + c < s * s
  {
    MulMonotone(b, s - 1, s);
  }

  /** The number of entries of an s*s*s table. */
  function Cube(s: nat): nat
  {
    s * (s * s)
  }

  lemma {:induction false} IdxBound(a: nat, low: nat, s: nat)
    requires a < s && low < s * s
    ensures a * (s * s) + low < Cube(s)
  {
    var sq := s * s;
    MulMonotone(a + 1, s, sq);
    assert (a + 1) * sq == a * sq + sq;
    assert s * sq == Cube(s);
  }

  /** Position (a, b, c) of an s*s*s table stored with the last coordinate fastest. */
  function Idx(a: nat, b: nat, c: nat, s: nat): (r: nat)
    requires a < s && b < s && c < s
    ensures r < Cube(s)
  {
    LowerDigits(b, c, s);
    IdxBound(a, b * s + c, s);
    a * (s * s) + (b * s + c)
  }

  lemma {:induction false} IdxInjective(a: nat, b: nat, c: nat, a2: nat, b2: nat, c2: nat, s: nat)
    requires a < s && b < s && c < s && a2 < s && b2 < s && c2 < s
    requires Idx(a, b, c, s) == Idx(a2, b2, c2, s)
    ensures a == a2 && b == b2 && c == c2
  {
    PlaceInjective(a, b, c, a2, b2, c2, s);
  }

  /** The digits of a * s * s + b * s + c in base s are a, b and c. */
  lemma {:induction false} PlaceInjective(a: nat, b: nat, c: nat, a2: nat, b2: nat, c2: nat, s: nat)
    requires a < s && b < s && c < s && a2 < s && b2 < s && c2 < s
    requires a * (s * s) + (b * s + c) == a2 * (s * s) + (b2 * s + c2)
    ensures a == a2 && b == b2 && c == c2
  {
    var sq, low, low2 := s * s, b * s + c, b2 * s + c2;
    assert low < sq by { LowerDigits(b, c, s); }
    assert low2 < sq by { LowerDigits(b2, c2, s); }
    assert a == a2 && low == low2 by { SameQuotient(a, low, a2, low2, sq); }
    SameQuotient(b, c, b2, c2, s);
  }

  /** The coordinates of slot m of an s*s*s table. */
  function Coords(m: nat, s: nat): (abc: (nat, nat, nat))
    requires m < Cube(s)
    ensures abc.0 < s && abc.1 < s && abc.2 < s
    ensures Idx(abc.0, abc.1, abc.2, s) == m
  {
    CoordsDigits(m, s);
    (m / (s * s), m % (s * s) / s, m % (s * s) % s)
  }

  /** m's digits in base s, most significant first. */
  lemma CoordsDigits(m: nat, s: nat)
    requires m < Cube(s)
    ensures s > 0
    ensures var sq := s * s; var rest := m % sq;
      m / sq < s && rest / s < s && rest % s < s && Idx(m / sq, rest / s, rest % s, s) == m
  {
    assert s > 0;
    var sq := s * s;
    var a, rest := m / sq, m % sq;
    assert a < s by { DivBelow(m, sq, s); }
    assert rest < sq;
    assert rest / s < s by { DivBelow(rest, s, s); }
    assert m == a * sq + rest;
    assert rest == rest / s * s + rest % s;
  }

  /**
   * Data line number k*s*s + j*s + i goes to slot i*s*s + j*s + k: distinct
   * lines go to distinct slots, and every slot of [0, s*s*s) receives the
   * line whose coordinates are its own transposed.
   */
  lemma StoreIsBijection(s: nat)
    ensures forall k: nat, j: nat, i: nat, k2: nat, j2: nat, i2: nat ::
      k < s && j < s && i < s && k2 < s && j2 < s && i2 < s && Idx(i, j, k, s) == Idx(i2, j2, k2, s) ==>
      Idx(k, j, i, s) == Idx(k2, j2, i2, s)
    ensures forall slot: nat :: slot < Cube(s) ==>
      var (i, j, k) := Coords(slot, s); Idx(i, j, k, s) == slot && Idx(k, j, i, s) < Cube(s)
  {
    forall k: nat, j: nat, i: nat, k2: nat, j2: nat, i2: nat |
      k < s && j < s && i < s && k2 < s && j2 < s && i2 < s && Idx(i, j, k, s) == Idx(i2, j2, k2, s)
      ensures Idx(k, j, i, s) == Idx(k2, j2, i2, s)
    {
      IdxInjective(i, j, k, i2, j2, k2, s);
    }
  }

  /** The table lines before `count` sit at their transposed slots. */
  ghost predicate StoredUpTo(t: seq<Vector3>, vals: seq<Vector3>, s: nat, count: nat)
    requires |t| == Cube(s) && |vals| == count
  {
    forall k: nat, j: nat, i: nat :: k < s && j < s && i < s && Idx(k, j, i, s) < count ==>
      t[Idx(i, j, k, s)] == vals[Idx(k, j, i, s)]
  }

  /** Storing line number Idx(k, j, i) at slot Idx(i, j, k) extends StoredUpTo by one line. */
  lemma StoreStep(t: seq<Vector3>, vals: seq<Vector3>, s: nat, k: nat, j: nat, i: nat, v: Vector3)
    requires k < s && j < s && i < s
    requires |t| == Cube(s) && |vals| == Idx(k, j, i, s)
    requires StoredUpTo(t, vals, s, |vals|)
    ensures StoredUpTo(t[Idx(i, j, k, s) := v], vals + [v], s, |vals| + 1)
  {
    forall k2: nat, j2: nat, i2: nat | k2 < s && j2 < s && i2 < s && Idx(k2, j2, i2, s) < |vals| + 1
      ensures t[Idx(i, j, k, s) := v][Idx(i2, j2, k2, s)] == (vals + [v])[Idx(k2, j2, i2, s)]
    {
      StoreStepAt(t, vals, s, k, j, i, v, k2, j2, i2);
    }
  }

  lemma StoreStepAt(t: seq<Vector3>, vals: seq<Vector3>, s: nat, k: nat, j: nat, i: nat, v: Vector3,
                    k2: nat, j2: nat, i2: nat)
    requires k < s && j < s && i < s && k2 < s && j2 < s && i2 < s
    requires |t| == Cube(s) && |vals| == Idx(k, j, i, s) && Idx(k2, j2, i2, s) <= |vals|
    requires Idx(k2, j2, i2, s) < |vals| ==> t[Idx(i2, j2, k2, s)] == vals[Idx(k2, j2, i2, s)]
    ensures t[Idx(i, j, k, s) := v][Idx(i2, j2, k2, s)] == (vals + [v])[Idx(k2, j2, i2, s)]
  {
    if Idx(k2, j2, i2, s) == |vals| {
      IdxInjective(k2, j2, i2, k, j, i, s);
    } else if Idx(i2, j2, k2, s) == Idx(i, j, k, s) {
      IdxInjective(i2, j2, k2, i, j, k, s);
    }
  }

  datatype LutType = Nearest | Trilinear | OtherType(code: nat)

  /** The compute shader entry point for each interpolation; any other type has none. */
  function GetEntryPoint(t: LutType): (e: Option<String>)
    ensures e.None? <==> t.OtherType?
    ensures t == Nearest ==> e == Some("InterpolateNearest")
    ensures t == Trilinear ==> e == Some("InterpolateTrilinear")
  {
    match t
    case Nearest => Some("InterpolateNearest")
    case Trilinear => Some("InterpolateTrilinear")
    case OtherType(_) => None
  }

  /** The loops run `size` times each, so a negative size reads no data. */
  function Side(size: int): (n: nat)
    ensures size >= 0 ==> n == size
    ensures size < 0 ==> n == 0
  {
    if size < 0 then 0 else size
  }

  /** atoi(line + 12); a line of exactly eleven characters is read as the empty text. */
  function SizeText(line: String): (t: String)
    ensures |line| >= 12 ==> line == line[..12] + t
    ensures |line| < 12 ==> t == []
  {
    if |line| >= 12 then line[12..] else []
  }

  /**
   * The constructor's outer getline loop: each LUT_3D_SIZE line sets the
   * size (out-of-range sizes are only logged) and reads a new table; other
   * lines are ignored. None when a table read aborts the constructor; else
   * the last size and table in file order.
   */
  ghost function TableScan(lines: seq<String>, scan: Scanner, atoi: String -> int, r: Reader,
                           size: int, table: seq<Vector3>): (res: Option<(int, seq<Vector3>)>)
    requires r.pos <= |lines|
    ensures res.Some? && |table| == Cube(Side(size)) ==> |res.value.1| == Cube(Side(res.value.0))
    decreases |lines| - r.pos
  {
    if r.pos == |lines| then Some((size, table))
    else
      var line := lines[r.pos];
      var r' := r.(pos := r.pos + 1, line := line);
      if StartsWith(line, "LUT_3D_SIZE") then
        var n := atoi(SizeText(line));
        var s := Side(n);
        match Data(lines, scan, r', Cube(s))
        case None => None
        case Some((vals, r'')) => TableScan(lines, scan, atoi, r'', n, vals)
      else
        TableScan(lines, scan, atoi, r', size, table)
  }

  /** One line of the outer loop: a LUT_3D_SIZE line loads a table, any other line is passed over. */
  lemma TableScanStep(lines: seq<String>, scan: Scanner, atoi: String -> int, r: Reader,
                      size: int, table: seq<Vector3>)
    requires r.pos < |lines|
    ensures var line := lines[r.pos];
      var r' := r.(pos := r.pos + 1, line := line);
      && (!StartsWith(line, "LUT_3D_SIZE") ==>
            TableScan(lines, scan, atoi, r, size, table) == TableScan(lines, scan, atoi, r', size, table))
      && (StartsWith(line, "LUT_3D_SIZE") ==>
            var n := atoi(SizeText(line));
            TableScan(lines, scan, atoi, r, size, table)
            == match Data(lines, scan, r', Cube(Side(n)))
               case None => None
               case Some((vals, r'')) => TableScan(lines, scan, atoi, r'', n, vals))
  {}

  /** The reader before the first line: DOMAIN_MIN 0 0 0 and DOMAIN_MAX 1 1 1. */
  function Initial(): (r: Reader)
    ensures r.pos == 0
  {
    Reader(0, [], Vector3(0.0, 0.0, 0.0), Vector3(1.0, 1.0, 1.0))
  }

  /** The input stream and the reader state ParseText works on. */
  class CubeStream {
    const lines: seq<String>
    const scan: Scanner
    var pos: nat
    var line: String
    var minValues: Vector3
    var maxValues: Vector3

    function State(): (r: Reader)
      reads this
      ensures r.pos == pos && r.line == line
    {
      Reader(pos, line, minValues, maxValues)
    }

    constructor (lines: seq<String>, scan: Scanner, minValues: Vector3, maxValues: Vector3)
      ensures this.lines == lines && this.scan == scan
      ensures State() == Reader(0, [], minValues, maxValues)
    {
      this.lines := lines;
      this.scan := scan;
      pos := 0;
      line := [];
      this.minValues := minValues;
      this.maxValues := maxValues;
    }

    /** getline into the line buffer; false once the file is exhausted. */
    method GetLine() returns (ok: bool)
      modifies this
      ensures ok <==> old(pos) < |lines|
      ensures ok ==> State() == old(State()).(pos := old(pos) + 1, line := lines[old(pos)])
      ensures !ok ==> State() == old(State()).(line := [])
    {
      if pos < |lines| {
        line := lines[pos];
        pos := pos + 1;
        ok := true;
      } else {
        line := [];
        ok := false;
      }
    }

    /** ParseText, stopping with InvalidData at the end of the file. */
    method ParseText() returns (res: ParseResult)
      modifies this
      ensures (res, State()) == Parsed(lines, scan, old(State()))
    {
      while true
        invariant Parsed(lines, scan, State()) == Parsed(lines, scan, old(State()))
        decreases |lines| - pos
      {
        var ok := GetLine();
        if !ok {
          return InvalidData;
        }
        if StartsWith(line, "DOMAIN_") {
          var b := DomainBound(line);
          if b.None? {
            return InvalidData;
          }
          var v := scan(line[11..]);
          if v.None? {
            return InvalidData;
          }
          if b == Some(MinBound) {
            minValues := v.value;
          } else {
            maxValues := v.value;
          }
          return Text;
        } else if StartsWith(line, "TITLE") {
          return Text;
        }
        var skip := SkipLine(line);
        if !skip {
          return Value;
        }
      }
    }

    /** One table entry: ParseText until it is not Text, then three numbers from the line. */
    method ReadDatum() returns (v: Option<Vector3>)
      modifies this
      ensures v.Some? <==> Datum(lines, scan, old(State())).Some?
      ensures v.Some? ==> Datum(lines, scan, old(State())).value == (v.value, State())
    {
      var ret := ParseText();
      while ret == Text
        invariant Datum(lines, scan, old(State())) ==
          if ret == InvalidData then None
          else if ret == Text then Datum(lines, scan, State())
          else match scan(line) case None => None case Some(x) => Some((x, State()))
        invariant ret == Text ==> pos <= |lines|
        decreases if ret == Text then |lines| - pos + 1 else 0
      {
        ret := ParseText();
      }
      if ret == InvalidData {
        return None;
      }
      v := scan(line);
    }
  }

  /** The filter's table and pipeline state after construction. */
  class Lut3DFilter {
    const lutType: LutType
    var lutSize: int
    /** The staging buffer's table, in slot order. */
    var staging: array<Vector3>
    /** The entry point the compute pipeline was created with; None when no pipeline exists. */
    var pipeline: Option<String>

    /**
     * The constructor from the file's lines on: every LUT_3D_SIZE line loads
     * a table; a failed entry returns before any pipeline is created; then
     * the pipeline is created with the type's entry point, if it has one.
     */
    constructor (lines: seq<String>, scan: Scanner, atoi: String -> int, lutType: LutType)
      ensures this.lutType == lutType
      ensures TableScan(lines, scan, atoi, Initial(), 0, []).None? ==> pipeline == None
      ensures TableScan(lines, scan, atoi, Initial(), 0, []).Some? ==>
        var (size, table) := TableScan(lines, scan, atoi, Initial(), 0, []).value;
        lutSize == size && pipeline == GetEntryPoint(lutType) &&
        staging.Length == Cube(Side(size)) && |table| == Cube(Side(size)) &&
        StoredUpTo(staging[..], table, Side(size), Cube(Side(size)))
    {
      this.lutType := lutType;
      lutSize := 0;
      staging := new Vector3[0];
      pipeline := None;
      new;
      var stream := new CubeStream(lines, scan, Vector3(0.0, 0.0, 0.0), Vector3(1.0, 1.0, 1.0));
      ghost var vals: seq<Vector3> := [];
      while true
        invariant stream.lines == lines && stream.scan == scan && stream.pos <= |lines|
        invariant staging.Length == Cube(Side(lutSize)) && |vals| == Cube(Side(lutSize))
        invariant StoredUpTo(staging[..], vals, Side(lutSize), Cube(Side(lutSize)))
        invariant TableScan(lines, scan, atoi, stream.State(), lutSize, vals) == TableScan(lines, scan, atoi, Initial(), 0, [])
        invariant pipeline == None && this.lutType == lutType
        decreases |lines| - stream.pos
      {
        if stream.pos < |lines| {
          TableScanStep(lines, scan, atoi, stream.State(), lutSize, vals);
        }
        var more := stream.GetLine();
        if !more {
          break;
        }
        if StartsWith(stream.line, "LUT_3D_SIZE") {
          var size := atoi(SizeText(stream.line));
          var ok;
          ok, vals := LoadTable(stream, size);
          if !ok {
            return;
          }
        }
      }
      pipeline := GetEntryPoint(lutType);
    }

    /**
     * One LUT_3D_SIZE line: a new staging table of Side(size)^3 entries,
     * filled by the k, j, i loops with line k*s*s + j*s + i at slot
     * i*s*s + j*s + k. False when an entry fails to read.
     */
    method LoadTable(stream: CubeStream, size: int) returns (ok: bool, ghost vals: seq<Vector3>)
      modifies this, stream
      ensures lutSize == size && pipeline == old(pipeline) && fresh(staging)
      ensures staging.Length == Cube(Side(size))
      ensures !ok ==> Data(stream.lines, stream.scan, old(stream.State()), Cube(Side(size))).None?
      ensures ok ==> Data(stream.lines, stream.scan, old(stream.State()), Cube(Side(size))) == Some((vals, stream.State()))
      ensures ok ==> StoredUpTo(staging[..], vals, Side(size), Cube(Side(size)))
    {
      lutSize := size;
      var s := Side(size);
      staging := new Vector3[Cube(s)](_ => Vector3(0.0, 0.0, 0.0));
      ghost var r0 := stream.State();
      vals := [];
      var k := 0;
      while k < s
        invariant 0 <= k <= s && |vals| == k * (s * s)
        invariant lutSize == size && pipeline == old(pipeline) && fresh(staging)
        invariant Filled(stream, r0, vals, s)
      {
        assert |vals| + s * s <= Cube(s) && (k + 1) * (s * s) == |vals| + s * s by { NextBlock(k, s, s * s); }
        ok, vals := LoadPlane(stream, s, k, r0, vals, Cube(s));
        if !ok {
          return;
        }
        k := k + 1;
      }
      assert k == s;
      ok := true;
    }

    /** The staging table holds the first |vals| entries read since r0, at their slots. */
    ghost predicate Filled(stream: CubeStream, r0: Reader, vals: seq<Vector3>, s: nat)
      reads this, staging, stream
    {
      staging.Length == Cube(s) &&
      Data(stream.lines, stream.scan, r0, |vals|) == Some((vals, stream.State())) &&
      StoredUpTo(staging[..], vals, s, |vals|)
    }

    /** The j and i loops for one k; on failure no read of `last` entries succeeds. */
    method LoadPlane(stream: CubeStream, s: nat, k: nat, ghost r0: Reader, ghost vals: seq<Vector3>, ghost last: nat)
      returns (ok: bool, ghost vals': seq<Vector3>)
      requires k < s && |vals| == k * (s * s) && |vals| + s * s <= last && Filled(stream, r0, vals, s)
      modifies staging, stream
      ensures !ok ==> Data(stream.lines, stream.scan, r0, last).None?
      ensures ok ==> |vals'| == |vals| + s * s && Filled(stream, r0, vals', s)
    {
      ghost var base := |vals|;
      vals' := vals;
      var j := 0;
      while j < s
        invariant 0 <= j <= s && |vals'| == base + j * s
        invariant Filled(stream, r0, vals', s)
      {
        assert |vals'| == Idx(k, j, 0, s) && |vals'| + s <= last && base + (j + 1) * s == |vals'| + s by {
          RowStart(k, j, s);
          NextBlock(j, s, s);
        }
        ok, vals' := LoadRow(stream, s, k, j, r0, vals', last);
        if !ok {
          return;
        }
        j := j + 1;
      }
      assert j == s;
      ok := true;
    }

    /** The i loop for one (k, j). */
    method LoadRow(stream: CubeStream, s: nat, k: nat, j: nat, ghost r0: Reader, ghost vals: seq<Vector3>, ghost last: nat)
      returns (ok: bool, ghost vals': seq<Vector3>)
      requires k < s && j < s && |vals| == Idx(k, j, 0, s) && |vals| + s <= last && Filled(stream, r0, vals, s)
      modifies staging, stream
      ensures !ok ==> Data(stream.lines, stream.scan, r0, last).None?
      ensures ok ==> |vals'| == |vals| + s && Filled(stream, r0, vals', s)
    {
      ghost var base := |vals|;
      vals' := vals;
      var i := 0;
      while i < s
        invariant 0 <= i <= s && |vals'| == base + i
        invariant Filled(stream, r0, vals', s)
      {
        assert Idx(k, j, i, s) == base + i;
        ok, vals' := LoadEntry(stream, s, k, j, i, r0, vals', last);
        if !ok {
          return;
        }
        i := i + 1;
      }
      assert i == s;
      ok := true;
    }

    /** The innermost body: read entry Idx(k, j, i) and store it at slot Idx(i, j, k). */
    method LoadEntry(stream: CubeStream, s: nat, k: nat, j: nat, i: nat, ghost r0: Reader, ghost vals: seq<Vector3>, ghost last: nat)
      returns (ok: bool, ghost vals': seq<Vector3>)
      requires k < s && j < s && i < s && |vals| == Idx(k, j, i, s) && |vals| < last && Filled(stream, r0, vals, s)
      modifies staging, stream
      ensures !ok ==> Data(stream.lines, stream.scan, r0, last).None?
      ensures ok ==> |vals'| == |vals| + 1 && Filled(stream, r0, vals', s)
    {
      var v := stream.ReadDatum();
      if v.None? {
        DataFailureExtends(stream.lines, stream.scan, r0, |vals| + 1, last);
        return false, vals;
      }
      StoreStep(staging[..], vals, s, k, j, i, v.value);
      staging[Idx(i, j, k, s)] := v.value;
      vals' := vals + [v.value];
      ok := true;
    }
  }

  /** Block k + 1 of `size` items follows block k, and the k < s blocks fit in s of them. */
  lemma NextBlock(k: nat, s: nat, size: nat)
    requires k < s
    ensures k * size + size <= s * size && (k + 1) * size == k * size + size
  {
    MulMonotone(k + 1, s, size);
    MulSucc(k, size);
  }

  /** Row j of plane k starts j rows into the plane. */
  lemma RowStart(k: nat, j: nat, s: nat)
    requires k < s && j < s
    ensures Idx(k, j, 0, s) == k * (s * s) + j * s
  {}

  /** Once an entry fails, every longer read fails too. */
  lemma {:induction false} DataFailureExtends(lines: seq<String>, scan: Scanner, r: Reader, n: nat, m: nat)
    requires n <= m && Data(lines, scan, r, n).None?
    ensures Data(lines, scan, r, m).None?
    decreases m - n
  {
    if n < m {
      DataFailureExtends(lines, scan, r, n + 1, m);
    }
  }

  /** A line whose first character is neither white space nor '#' is not skippable. */
  lemma NotSkippable(line: String)
    requires |line| > 0 && !IsSpace(line[0]) && line[0] != '#'
    ensures !Skippable(line)
  {
    assert forall i :: 0 < i <= |line| ==> !Spaces(line, i);
  }

  /** Two strings that differ at position k < |key| do not share the prefix key. */
  lemma DiffersAt(line: String, key: String, k: nat)
    requires k < |key| <= |line| && line[k] != key[k]
    ensures !StartsWith(line, key)
  {
    assert line[..|key|][k] == line[k];
  }

  const Black := Vector3(0.0, 0.0, 0.0)

  /** A scanner that reads every line as black. */
  function BlackScan(t: String): (v: Option<Vector3>)
    ensures v == Some(Black)
  {
    Some(Black)
  }

  /** An atoi that reads "1" and "2" only. */
  function SmallAtoi(t: String): (n: int)
    ensures t == "1" ==> n == 1
    ensures t == "2" ==> n == 2
  {
    if t == "1" then 1 else if t == "2" then 2 else 0
  }

  /** LUT_3D_SIZE 1 is outside [2, 256] but is only logged: its one entry loads. */
  lemma SizeOutOfRangeLoads()
    ensures TableScan(["LUT_3D_SIZE 1", "0 0 0"], BlackScan, SmallAtoi, Initial(), 0, []) == Some((1, [Black]))
  {
    var lines := ["LUT_3D_SIZE 1", "0 0 0"];
    assert StartsWith(lines[0], "LUT_3D_SIZE") && SizeText(lines[0]) == "1";
    var r1 := Initial().(pos := 1, line := lines[0]);
    DiffersAt(lines[1], "TITLE", 0);
    NotSkippable(lines[1]);
    var r2 := r1.(pos := 2, line := lines[1]);
    assert Parsed(lines, BlackScan, r1) == (Value, r2);
    assert Datum(lines, BlackScan, r1) == Some((Black, r2));
    assert Cube(1) == 1;
    assert Data(lines, BlackScan, r1, 0) == Some(([], r1));
    assert [] + [Black] == [Black];
    assert Data(lines, BlackScan, r1, 1) == Some(([Black], r2));
  }

  /** A DOMAIN_ line with a suffix other than "MIN " or "MAX " among the data aborts the load. */
  lemma UnknownDomainAborts()
    ensures TableScan(["LUT_3D_SIZE 1", "DOMAIN_MID 0 0 0"], BlackScan, SmallAtoi, Initial(), 0, []).None?
  {
    var lines := ["LUT_3D_SIZE 1", "DOMAIN_MID 0 0 0"];
    assert StartsWith(lines[0], "LUT_3D_SIZE") && SizeText(lines[0]) == "1";
    var r1 := Initial().(pos := 1, line := lines[0]);
    assert IsDomain(lines[1]);
    DiffersAt(lines[1][7..], "MIN ", 2);
    DiffersAt(lines[1][7..], "MAX ", 1);
    assert Parsed(lines, BlackScan, r1).0 == InvalidData;
    assert Data(lines, BlackScan, r1, Cube(1)).None?;
  }

  /**
   * A table of size 2 with no data lines: ParseText as written never returns
   * (ParseTextAsWrittenHangsAtEnd); the corrected reader aborts the load.
   */
  lemma TruncatedTableAborts()
    ensures TableScan(["LUT_3D_SIZE 2"], BlackScan, SmallAtoi, Initial(), 0, []).None?
    ensures forall fuel: nat :: ParseTextAsWritten(["LUT_3D_SIZE 2"], BlackScan, Initial().(pos := 1), fuel).None?
  {
    var lines := ["LUT_3D_SIZE 2"];
    assert StartsWith(lines[0], "LUT_3D_SIZE") && SizeText(lines[0]) == "2";
    var r1 := Initial().(pos := 1, line := lines[0]);
    assert Data(lines, BlackScan, r1, 1).None?;
    DataFailureExtends(lines, BlackScan, r1, 1, Cube(2));
    forall fuel: nat
      ensures ParseTextAsWritten(lines, BlackScan, Initial().(pos := 1), fuel).None?
    {
      ParseTextAsWrittenHangsAtEnd(lines, BlackScan, Initial().(pos := 1), fuel);
    }
  }
}

=== FILE: memory_resource.dfy ===
// A fixed-size object pool: blocks of `count` slots of `size` bytes, each
// block with a 64-bit mark word (bit i set = slot i free), allocated from in
// list order and grown one block at a time.
//
// Addresses are natural numbers. The backing allocator is not part of this
// model; blocks are placed one after another from `nextBlock`, which gives the
// only property the pool relies on: distinct blocks do not overlap.

module MemoryResource {
  import opened Common
  import opened Bits

  /** (2 << (count - 1)) - 1 in 64-bit arithmetic: the low `count` bits, all 64 when count is 64. */
  function InitialMark(count: nat): (m: bv64)
    requires 1 <= count <= 64
    ensures forall i: Index :: IsSet(m, i) <==> (i as int) < count
  {
    var k := ToIndex(count - 1);
    InitialMarkBits(count, k, (2 << k) - 1);
    (2 << k) - 1
  }

  lemma InitialMarkBits(count: nat, k: Index, w: bv64)
    requires 1 <= count <= 64 && k as int == count - 1 && w == (2 << k) - 1
    ensures forall i: Index :: IsSet(w, i) <==> (i as int) < count
  {
    ShiftTwice(k);
    LowMaskBits(k, w);
  }

  /** Unmark: index 0 clears bit 0; any other index XORs its bit. */
  function Unmarked(mark: bv64, index: Index): (r: bv64)
    ensures index == 0 ==> !IsSet(r, 0)
    ensures index != 0 ==> (IsSet(r, index) <==> !IsSet(mark, index))
    ensures forall j: Index :: j != index ==> (IsSet(r, j) <==> IsSet(mark, j))
  {
    var r := if index == 0 then mark & !1 else mark ^ (2 << (index - 1));
    UnmarkedBits(mark, index, r);
    r
  }

  lemma UnmarkedBits(mark: bv64, index: Index, r: bv64)
    requires r == if index == 0 then mark & !1 else mark ^ (2 << (index - 1))
    ensures index == 0 ==> !IsSet(r, 0)
    ensures index != 0 ==> (IsSet(r, index) <==> !IsSet(mark, index))
    ensures forall j: Index :: j != index ==> (IsSet(r, j) <==> IsSet(mark, j))
  {
    if index == 0 {
      ClearedBits(mark, r);
    } else {
      ToggledBits(mark, index, r);
    }
  }

  lemma ClearedBits(mark: bv64, r: bv64)
    requires r == mark & !1
    ensures forall j: Index :: IsSet(r, j) <==> j != 0 && IsSet(mark, j)
  {
    assert (1 as bv64) << (0 as Index) == 1;
    forall j: Index
      ensures IsSet(r, j) <==> j != 0 && IsSet(mark, j)
    {
      AndNotBit(mark, 0, r, j);
    }
  }

  lemma ToggledBits(mark: bv64, index: Index, r: bv64)
    requires index != 0 && r == mark ^ (2 << (index - 1))
    ensures forall j: Index :: IsSet(r, j) <==> (if j == index then !IsSet(mark, j) else IsSet(mark, j))
  {
    DoubleShift(index);
    forall j: Index
      ensures IsSet(r, j) <==> (if j == index then !IsSet(mark, j) else IsSet(mark, j))
    {
      XorBit(mark, index, r, j);
    }
  }

  /** Mark: sets bit `index`. */
  function Marked(mark: bv64, index: Index): (r: bv64)
    ensures IsSet(r, index)
    ensures forall j: Index :: j != index ==> (IsSet(r, j) <==> IsSet(mark, j))
  {
    if index == 0 then
      assert (1 as bv64) << (0 as Index) == 1;
      SetBits(mark, 0, mark | 1);
      mark | 1
    else
      DoubleShift(index);
      SetBits(mark, index, mark | (2 << (index - 1)));
      mark | (2 << (index - 1))
  }

  lemma SetBits(mark: bv64, index: Index, r: bv64)
    requires r == mark | (1 << index)
    ensures forall j: Index :: IsSet(r, j) <==> j == index || IsSet(mark, j)
  {
    forall j: Index
      ensures IsSet(r, j) <==> j == index || IsSet(mark, j)
    {
      OrBit(mark, index, r, j);
    }
  }

  /** Unmark clears a set bit; on a clear bit other than 0 it sets it instead. */
  lemma UnmarkTogglesAboveZero(mark: bv64, index: Index)
    ensures IsSet(mark, index) ==> !IsSet(Unmarked(mark, index), index)
    ensures !IsSet(mark, index) && index != 0 ==> IsSet(Unmarked(mark, index), index)
  {}

  /** Mark after Unmark of a free slot gives back the same word. */
  lemma MarkUndoesUnmark(mark: bv64, index: Index)
    requires IsSet(mark, index)
    ensures Marked(Unmarked(mark, index), index) == mark
  {
    if index == 0 {
      ClearThenSet(mark, 1);
    } else {
      var b: bv64 := 2 << (index - 1);
      assert mark & b == b;
      ToggleThenSet(mark, b);
    }
  }

  /** Mark of a slot that is already free gives back the same word: a double release changes nothing. */
  lemma MarkFreeIsNoop(mark: bv64, index: Index)
    requires IsSet(mark, index)
    ensures Marked(mark, index) == mark
  {
    if index == 0 {
      SetThenSet(mark, 1);
    } else {
      var b: bv64 := 2 << (index - 1);
      assert mark & b == b;
      SetThenSet(mark, b);
    }
  }

  lemma SetThenSet(m: bv64, b: bv64)
    requires m & b == b
    ensures m | b == m
  {}

  lemma ClearThenSet(m: bv64, b: bv64)
    requires m & b == b
    ensures (m & !b) | b == m
  {}

  lemma ToggleThenSet(m: bv64, b: bv64)
    requires m & b == b
    ensures (m ^ b) | b == m
  {}

  /** The slot a pointer into a block falls in: (ptr - data) / size. */
  function SlotOf(data: nat, ptr: nat, size: nat): nat
    requires data <= ptr && size > 0
  {
    (ptr - data) / size
  }

  /** Release recovers the slot Allocate handed out. */
  lemma SlotOfAllocated(data: nat, index: Index, size: nat)
    requires size > 0
    ensures SlotOf(data, data + (index as int) * size, size) == index as int
  {
    DivOfMultiple(index as int, size);
  }

  predicate InBlock(data: nat, ptr: nat, size: nat, count: nat)
  {
    data <= ptr < data + size * count
  }

  /** The slot of a pointer inside a block of at most 64 slots. */
  function SlotIndex(data: nat, ptr: nat, size: nat, count: nat): (i: Index)
    requires InBlock(data, ptr, size, count) && count <= 64
    ensures size > 0 && i as int == SlotOf(data, ptr, size) && (i as int) < count
  {
    InBlockSizePositive(data, ptr, size, count);
    DivBelow(ptr - data, size, count);
    ToIndex((ptr - data) / size)
  }

  lemma InBlockSizePositive(data: nat, ptr: nat, size: nat, count: nat)
    requires InBlock(data, ptr, size, count)
    ensures size > 0
  {
    assert size * count > 0;
  }

  /** Every set bit of the word is one of the block's `count` slots. */
  ghost predicate WithinCount(mark: bv64, count: nat)
  {
    forall i: Index :: IsSet(mark, i) ==> (i as int) < count
  }

  /**
   * Releasing what Allocate handed out: the pointer lies in the block, maps
   * back to the same slot, and marking it restores the word.
   */
  lemma AllocateThenRelease(data: nat, mark: bv64, size: nat, count: nat)
    requires mark != 0 && WithinCount(mark, count) && size > 0 && count <= 64
    ensures var index := TrailingZeros(mark);
            var ptr := data + (index as int) * size;
            && InBlock(data, ptr, size, count)
            && SlotIndex(data, ptr, size, count) == index
            && Marked(Unmarked(mark, index), index) == mark
  {
    var index := TrailingZeros(mark);
    assert (index as int) < count;
    AllocatedSlotInBlock(data, index, size, count);
    MarkUndoesUnmark(mark, index);
  }

  /** The pointer of slot `index` lies in the block and maps back to that slot. */
  lemma AllocatedSlotInBlock(data: nat, index: Index, size: nat, count: nat)
    requires (index as int) < count && size > 0 && count <= 64
    ensures InBlock(data, data + (index as int) * size, size, count)
    ensures SlotIndex(data, data + (index as int) * size, size, count) == index
  {
    var ptr := data + (index as int) * size;
    SlotInBlock(data, index as int, size, count);
    SlotOfAllocated(data, index, size);
    var i := SlotIndex(data, ptr, size, count);
    IndexInjective(i, index);
  }

  lemma SlotInBlock(data: nat, n: nat, size: nat, count: nat)
    requires n < count && size > 0
    ensures InBlock(data, data + n * size, size, count)
  {
    MulMonotone(n + 1, count, size);
    assert (n + 1) * size == n * size + size;
    assert count * size == size * count;
  }

  /** Allocate and Release keep every set bit inside the block. */
  lemma UnmarkedWithinCount(mark: bv64, index: Index, count: nat)
    requires WithinCount(mark, count) && IsSet(mark, index)
    ensures WithinCount(Unmarked(mark, index), count)
  {}

  lemma MarkedWithinCount(mark: bv64, index: Index, count: nat)
    requires WithinCount(mark, count) && (index as int) < count
    ensures WithinCount(Marked(mark, index), count)
  {}

  class MarkBuffer {
    const data: nat
    var mark: bv64

    constructor (data: nat, count: nat)
      requires 1 <= count <= 64
      ensures this.data == data && mark == InitialMark(count)
    {
      this.data := data;
      var k := ToIndex(count - 1);
      mark := (2 << k) - 1;
    }

    method Unmark(index: Index)
      modifies this
      ensures mark == Unmarked(old(mark), index)
    {
      if index == 0 {
        mark := mark & !1;
      } else {
        mark := mark ^ (2 << (index - 1));
      }
    }

    method Mark(index: Index)
      modifies this
      ensures mark == Marked(old(mark), index)
    {
      if index == 0 {
        mark := mark | 1;
      } else {
        mark := mark | (2 << (index - 1));
      }
    }

    /** None iff no slot is free; otherwise the lowest free slot, now taken. */
    method Allocate(size: nat) returns (ptr: Option<nat>)
      modifies this
      ensures ptr.None? <==> old(mark) == 0
      ensures old(mark) == 0 ==> mark == old(mark)
      ensures old(mark) != 0 ==>
                var index := TrailingZeros(old(mark));
                && ptr == Some(data + (index as int) * size)
                && mark == Unmarked(old(mark), index)
                && !IsSet(mark, index)
    {
      if mark == 0 {
        return None;
      }
      var index := TrailingZeros(mark);
      Unmark(index);
      ptr := Some(data + (index as int) * size);
    }

    /** Marks the pointer's slot free iff the pointer lies in this block of size * count bytes. */
    method Release(ptr: nat, size: nat, count: nat) returns (owned: bool)
      requires count <= 64
      modifies this
      ensures owned <==> InBlock(data, ptr, size, count)
      ensures owned ==> mark == Marked(old(mark), SlotIndex(data, ptr, size, count))
      ensures !owned ==> mark == old(mark)
    {
      if data <= ptr && ptr < data + size * count {
        Mark(SlotIndex(data, ptr, size, count));
        return true;
      }
      return false;
    }
  }

  /** The first block with a free slot, if any. */
  function FirstFree(marks: seq<bv64>): (k: Option<nat>)
    ensures k.Some? ==> k.value < |marks| && marks[k.value] != 0
                        && forall j :: 0 <= j < k.value ==> marks[j] == 0
    ensures k.None? ==> forall j :: 0 <= j < |marks| ==> marks[j] == 0
  {
    if marks == [] then None
    else if marks[0] != 0 then Some(0)
    else
      var rest := FirstFree(marks[1..]);
      if rest.Some? then Some(rest.value + 1) else None
  }

  ghost predicate Distinct(blocks: seq<MarkBuffer>)
  {
    forall i, j :: 0 <= i < j < |blocks| ==> blocks[i] != blocks[j]
  }

  /** Blocks of `span` bytes in address order, without overlap, all below `next`. */
  ghost predicate Laid(blocks: seq<MarkBuffer>, span: nat, next: nat)
  {
    && (forall i, j :: 0 <= i < j < |blocks| ==> blocks[i].data + span <= blocks[j].data)
    && (forall i :: 0 <= i < |blocks| ==> blocks[i].data + span <= next)
  }

  /** A new block placed at `next` extends the layout. */
  lemma AppendKeepsLayout(blocks: seq<MarkBuffer>, block: MarkBuffer, span: nat, next: nat)
    requires Distinct(blocks) && Laid(blocks, span, next)
    requires block !in blocks && block.data == next
    ensures Distinct(blocks + [block]) && Laid(blocks + [block], span, next + span)
  {
    var s := blocks + [block];
    forall i, j | 0 <= i < j < |s| ensures s[i] != s[j] {
      if j == |blocks| { assert s[i] in blocks; }
    }
  }

  class MemoryResource {
    const size: nat
    const count: nat
    var buffers: seq<MarkBuffer>
    /** Where the allocator places the next block (a layout inferred from its uses). */
    var nextBlock: nat

    /** Blocks are distinct objects, in address order, and do not overlap. */
    ghost predicate Valid()
      reads this, buffers
    {
      1 <= count <= 64 && Distinct(buffers) && Laid(buffers, size * count, nextBlock)
    }

    ghost function Marks(): seq<bv64>
      reads this, buffers
    {
      seq(|buffers|, i reads this, buffers requires 0 <= i < |buffers| => buffers[i].mark)
    }

    ghost function Datas(): seq<nat>
      reads this, buffers
    {
      seq(|buffers|, i reads this, buffers requires 0 <= i < |buffers| => buffers[i].data)
    }

    constructor (size: nat, count: nat)
      requires 1 <= count <= 64
      ensures Valid() && this.size == size && this.count == count && buffers == []
    {
      this.size, this.count := size, count;
      buffers := [];
      nextBlock := 0;
    }

    /**
     * Takes the lowest free slot of the first block with one; only when every
     * block is full, appends exactly one new block and takes its slot 0.
     */
    method Allocate() returns (ptr: Option<nat>)
      requires Valid()
      modifies this, buffers
      ensures Valid()
      ensures var k := FirstFree(old(Marks()));
        if k.Some? then
          var index := TrailingZeros(old(Marks())[k.value]);
          && buffers == old(buffers)
          && ptr == Some(old(Datas())[k.value] + (index as int) * size)
          && Marks() == old(Marks())[k.value := Unmarked(old(Marks())[k.value], index)]
        else
          && |buffers| == |old(buffers)| + 1 && buffers[..|old(buffers)|] == old(buffers)
          && fresh(buffers[|old(buffers)|])
          && ptr == Some(old(nextBlock))
          && Marks() == old(Marks()) + [Unmarked(InitialMark(count), 0)]
    {
      var k := FindFree();
      if k.Some? {
        ptr := AllocateIn(k.value);
      } else {
        ptr := AllocateInNewBlock();
      }
    }

    /** Allocate on block k, which has a free slot. */
    method AllocateIn(k: nat) returns (ptr: Option<nat>)
      requires Valid() && k < |buffers| && Marks()[k] != 0
      modifies buffers[k]
      ensures Valid()
      ensures var index := TrailingZeros(old(Marks())[k]);
        && ptr == Some(Datas()[k] + (index as int) * size)
        && Marks() == old(Marks())[k := Unmarked(old(Marks())[k], index)]
    {
      ptr := buffers[k].Allocate(size);
      assert Marks() == old(Marks())[k := buffers[k].mark];
    }

    /** The emplace_back path: a new block, whose slot 0 is handed out. */
    method AllocateInNewBlock() returns (ptr: Option<nat>)
      requires Valid()
      modifies this
      ensures Valid()
      ensures |buffers| == |old(buffers)| + 1 && buffers[..|old(buffers)|] == old(buffers)
      ensures fresh(buffers[|old(buffers)|])
      ensures ptr == Some(old(nextBlock))
      ensures Marks() == old(Marks()) + [Unmarked(InitialMark(count), 0)]
    {
      var buffer := Grow();
      ptr := buffer.Allocate(size);
      TrailingZeros0(InitialMark(count));
      assert Marks() == old(Marks()) + [buffer.mark];
    }

    /** emplace_back of a fresh block with every slot free, placed after all others. */
    method Grow() returns (buffer: MarkBuffer)
      requires Valid()
      modifies this
      ensures Valid() && fresh(buffer)
      ensures buffers == old(buffers) + [buffer]
      ensures buffer.data == old(nextBlock) && buffer.mark == InitialMark(count)
      ensures Marks() == old(Marks()) + [InitialMark(count)]
    {
      buffer := new MarkBuffer(nextBlock, count);
      AppendKeepsLayout(buffers, buffer, size * count, nextBlock);
      buffers := buffers + [buffer];
      nextBlock := nextBlock + size * count;
      assert Marks() == old(Marks()) + [InitialMark(count)];
    }

    /** Frees into the first block that owns the pointer; a foreign pointer is ignored. */
    method Release(ptr: nat)
      requires Valid()
      modifies buffers
      ensures Valid()
      ensures var k := FirstOwner(old(Datas()), ptr);
        if k.Some? then
          Marks() == old(Marks())[k.value := Marked(old(Marks())[k.value], SlotIndex(old(Datas())[k.value], ptr, size, count))]
        else Marks() == old(Marks())
    {
      var k := FindOwner(ptr);
      if k.Some? {
        var owned := buffers[k.value].Release(ptr, size, count);
        assert Marks() == old(Marks())[k.value := buffers[k.value].mark];
      }
    }

    /** The list walk of Allocate: the first block whose Allocate would not return null. */
    method FindFree() returns (k: Option<nat>)
      requires Valid()
      ensures k == FirstFree(Marks())
    {
      var i := 0;
      while i < |buffers|
        invariant 0 <= i <= |buffers|
        invariant forall j :: 0 <= j < i ==> Marks()[j] == 0
      {
        if buffers[i].mark != 0 {
          FirstFreeIs(Marks(), i);
          return Some(i);
        }
        i := i + 1;
      }
      FirstFreeNone(Marks());
      return None;
    }

    /** The list walk of Release: the first block whose Release would accept ptr. */
    method FindOwner(ptr: nat) returns (k: Option<nat>)
      requires Valid()
      ensures k == FirstOwner(Datas(), ptr)
    {
      var i := 0;
      while i < |buffers|
        invariant 0 <= i <= |buffers|
        invariant forall j :: 0 <= j < i ==> !InBlock(Datas()[j], ptr, size, count)
      {
        if buffers[i].data <= ptr && ptr < buffers[i].data + size * count {
          FirstOwnerIs(Datas(), ptr, i);
          return Some(i);
        }
        i := i + 1;
      }
      FirstOwnerNone(Datas(), ptr);
      return None;
    }

    /** The first block whose bytes contain ptr. */
    function FirstOwner(datas: seq<nat>, ptr: nat): (k: Option<nat>)
      ensures k.Some? ==> k.value < |datas| && InBlock(datas[k.value], ptr, size, count)
      ensures k.None? ==> forall j :: 0 <= j < |datas| ==> !InBlock(datas[j], ptr, size, count)
    {
      if datas == [] then None
      else if InBlock(datas[0], ptr, size, count) then Some(0)
      else
        var rest := FirstOwner(datas[1..], ptr);
        if rest.Some? then Some(rest.value + 1) else None
    }

    lemma FirstOwnerIs(datas: seq<nat>, ptr: nat, i: nat)
      requires i < |datas| && InBlock(datas[i], ptr, size, count)
      requires forall j :: 0 <= j < i ==> !InBlock(datas[j], ptr, size, count)
      ensures FirstOwner(datas, ptr) == Some(i)
    {
      if i > 0 {
        FirstOwnerIs(datas[1..], ptr, i - 1);
      }
    }

    /**
     * Blocks do not overlap, so the walk finds the block that really holds
     * the pointer: Release returns a slot to the block it came from.
     */
    lemma {:induction false} OwnerIsHoldingBlock(datas: seq<nat>, ptr: nat, k: nat)
      requires forall i, j :: 0 <= i < j < |datas| ==> datas[i] + size * count <= datas[j]
      requires k < |datas| && InBlock(datas[k], ptr, size, count)
      ensures FirstOwner(datas, ptr) == Some(k)
    {
      if k == 0 {
      } else {
        assert !InBlock(datas[0], ptr, size, count) by {
          assert datas[0] + size * count <= datas[k];
        }
        OwnerIsHoldingBlock(datas[1..], ptr, k - 1);
      }
    }

    lemma FirstOwnerNone(datas: seq<nat>, ptr: nat)
      requires forall j :: 0 <= j < |datas| ==> !InBlock(datas[j], ptr, size, count)
      ensures FirstOwner(datas, ptr) == None
    {}
  }

  lemma FirstFreeIs(marks: seq<bv64>, i: nat)
    requires i < |marks| && marks[i] != 0
    requires forall j :: 0 <= j < i ==> marks[j] == 0
    ensures FirstFree(marks) == Some(i)
  {
    if i > 0 {
      FirstFreeIs(marks[1..], i - 1);
    }
  }

  lemma FirstFreeNone(marks: seq<bv64>)
    requires forall j :: 0 <= j < |marks| ==> marks[j] == 0
    ensures FirstFree(marks) == None
  {}

  lemma TrailingZeros0(m: bv64)
    requires IsSet(m, 0)
    ensures TrailingZeros(m) == 0
  {}
}

=== FILE: mesh.dfy ===
// Meshes (Mesh.cpp): bone slots of a skinned vertex, the choice of the
// animation keys to interpolate between, the index buffer of the UV sphere,
// bone id assignment, and the animation state accessors.
//
// Mesh.h is not part of this model: the number of bone slots of a vertex
// is a parameter, key times are reals ordered by time, and the quaternion
// and vector blending and every vertex position (floating point) are left
// out. The assimp scene is given as the bones' names and weights.

module Meshes {
  type String = seq<char>

  /** The first slot whose weight is 0, or |weights| when every slot is taken. */
  function FirstFree(weights: seq<real>): (i: nat)
    ensures i <= |weights|
    ensures i < |weights| ==> weights[i] == 0.0
    ensures forall j :: 0 <= j < i ==> weights[j] != 0.0
  {
    if |weights| == 0 then 0
    else if weights[0] == 0.0 then 0
    else 1 + FirstFree(weights[1..])
  }

  class SkeletonVertex {
    const boneIds: array<nat>
    const weights: array<real>

    ghost predicate Valid()
      reads this
    {
      boneIds.Length == weights.Length
    }

    /** A vertex with every slot free. */
    constructor (slots: nat)
      ensures Valid() && fresh(boneIds) && fresh(weights)
      ensures boneIds.Length == slots
      ensures forall i :: 0 <= i < slots ==> weights[i] == 0.0
    {
      boneIds := new nat[slots](_ => 0);
      weights := new real[slots](_ => 0.0);
    }

    /** AddBone: (id, weight) goes into the first slot whose weight is 0; with no free slot nothing changes. */
    method AddBone(id: nat, weight: real)
      requires Valid()
      modifies boneIds, weights
      ensures var i := FirstFree(old(weights[..]));
        if i == weights.Length then boneIds[..] == old(boneIds[..]) && weights[..] == old(weights[..])
        else boneIds[..] == old(boneIds[..])[i := id] && weights[..] == old(weights[..])[i := weight]
    {
      for i := 0 to boneIds.Length
        invariant forall j :: 0 <= j < i ==> weights[j] != 0.0
      {
        if weights[i] == 0.0 {
          FirstFreeUnique(weights[..], i);
          boneIds[i] := id;
          weights[i] := weight;
          return;
        }
      }
      FirstFreeUnique(weights[..], weights.Length);
    }
  }

  /** The first free slot is the only one that is free with no free slot before it. */
  lemma FirstFreeUnique(weights: seq<real>, i: nat)
    requires i <= |weights|
    requires i < |weights| ==> weights[i] == 0.0
    requires forall j :: 0 <= j < i ==> weights[j] != 0.0
    ensures i == FirstFree(weights)
  {}

  /** Two AddBone calls on a vertex with free slots fill the first two free slots in order. */
  lemma AddBoneTwice(weights: seq<real>, w: real)
    requires |weights| == 4 && forall j :: 0 <= j < 4 ==> weights[j] == 0.0
    requires w != 0.0
    ensures FirstFree(weights) == 0 && FirstFree(weights[0 := w]) == 1
  {
    assert weights[0 := w][1..] == weights[1..][0 := weights[1]];
  }

  // ---- Interpolate: which keys an animation time falls between ----

  predicate StrictlySorted(times: seq<real>)
  {
    forall i, j :: 0 <= i < j < |times| ==> times[i] < times[j]
  }

  /** keys.lower_bound(t): the first key whose time is not below t. */
  function LowerBound(times: seq<real>, t: real): (i: nat)
    ensures i <= |times|
    ensures forall j :: 0 <= j < i ==> times[j] < t
    ensures i < |times| ==> t <= times[i]
  {
    if |times| == 0 then 0
    else if t <= times[0] then 0
    else 1 + LowerBound(times[1..], t)
  }

  /** The value Interpolate returns: one key's value, or a blend of two keys. */
  datatype Selection = Only(key: nat) | Between(start: nat, end: nat, factor: real)

  /**
   * Interpolate's key selection: a single key; past the last key, the last;
   * at or before the first, the first; otherwise the lower bound and its
   * predecessor, with factor (t - start) / (end - start).
   */
  function SelectKeys(times: seq<real>, t: real): (s: Selection)
    requires |times| >= 1 && StrictlySorted(times)
    ensures s.Only? ==> s.key < |times|
    ensures s.Between? ==> s.end == s.start + 1 && s.end < |times|
  {
    if |times| == 1 then Only(0)
    else
      var i := LowerBound(times, t);
      if i == |times| then Only(|times| - 1)
      else if i == 0 then Only(0)
      else Between(i - 1, i, (t - times[i - 1]) / (times[i] - times[i - 1]))
  }

  /** The blend brackets t, and the factor the assertion checks is always in [0, 1]. */
  lemma FactorInRange(times: seq<real>, t: real)
    requires |times| >= 1 && StrictlySorted(times)
    ensures var s := SelectKeys(times, t);
      s.Between? ==> times[s.start] < t <= times[s.end] && 0.0 < s.factor <= 1.0
  {
    var s := SelectKeys(times, t);
    if s.Between? {
      var a, b := times[s.start], times[s.end];
      assert a < t <= b;
      assert 0.0 < t - a <= b - a;
      DivideInUnit(t - a, b - a);
    }
  }

  lemma DivideInUnit(x: real, y: real)
    requires 0.0 < x <= y
    ensures 0.0 < x / y <= 1.0
  {
    assert x / y * y == x;
  }

  /** Outside the keys' span the end key is held; a single key is always held. */
  lemma SelectKeysClamps(times: seq<real>, t: real)
    requires |times| >= 1 && StrictlySorted(times)
    ensures t <= times[0] ==> SelectKeys(times, t) == Only(0)
    ensures t > times[|times| - 1] ==> SelectKeys(times, t) == Only(|times| - 1)
  {}

  // ---- CreateSphere: 30 latitude and 30 longitude bands ----

  const Bands := 30

  datatype Face = Face(a: nat, b: nat, c: nat)

  /** The two triangles of the quad at (lat, lon): (f, s, f + 1) and (s, s + 1, f + 1). */
  function QuadFaces(lat: nat, lon: nat): seq<Face>
  {
    var first := lat * (Bands + 1) + lon;
    var second := first + Bands + 1;
    [Face(first, second, first + 1), Face(second, second + 1, first + 1)]
  }

  /** The faces of the first `lon` quads of latitude band `lat`. */
  function Row(lat: nat, lon: nat): seq<Face>
  {
    if lon == 0 then [] else Row(lat, lon - 1) + QuadFaces(lat, lon - 1)
  }

  /** The faces of the first `lat` latitude bands. */
  function Rows(lat: nat): seq<Face>
  {
    if lat == 0 then [] else Rows(lat - 1) + Row(lat - 1, Bands)
  }

  predicate FaceBelow(f: Face, n: nat)
  {
    f.a < n && f.b < n && f.c < n
  }

  /** A band's row holds two faces per quad, each indexing the band's two vertex rings. */
  lemma {:induction false} RowShape(lat: nat, lon: nat)
    requires lon <= Bands
    ensures |Row(lat, lon)| == 2 * lon
    ensures forall o :: 0 <= o < lon ==> Row(lat, lon)[2 * o..2 * o + 2] == QuadFaces(lat, o)
    ensures forall i :: 0 <= i < |Row(lat, lon)| ==> FaceBelow(Row(lat, lon)[i], 31 * lat + 62)
  {
    if lon > 0 {
      RowShape(lat, lon - 1);
      var r := Row(lat, lon - 1);
      forall o | 0 <= o < lon
        ensures Row(lat, lon)[2 * o..2 * o + 2] == QuadFaces(lat, o)
      {
        if o < lon - 1 {
          assert Row(lat, lon)[2 * o..2 * o + 2] == r[2 * o..2 * o + 2];
        }
      }
    }
  }

  /** `lat` bands hold 2 · 30 faces each, and index only the first lat + 1 rings of 31 vertices. */
  lemma {:induction false} RowsShape(lat: nat)
    ensures |Rows(lat)| == 60 * lat
    ensures forall i :: 0 <= i < |Rows(lat)| ==> FaceBelow(Rows(lat)[i], 31 * lat + 31)
  {
    if lat > 0 {
      RowsShape(lat - 1);
      RowShape(lat - 1, Bands);
      var prev := Rows(lat - 1);
      forall i | 0 <= i < |Rows(lat)|
        ensures FaceBelow(Rows(lat)[i], 31 * lat + 31)
      {
        if i < |prev| {
          assert Rows(lat)[i] == prev[i];
          assert FaceBelow(prev[i], 31 * lat);
        } else {
          assert Rows(lat)[i] == Row(lat - 1, Bands)[i - |prev|];
        }
      }
    }
  }

  /**
   * Up to the sphere's 30 bands, every index is below its 31 × 31 = 961
   * vertices; the sphere itself has 2 × 30 × 30 triangles.
   */
  lemma SphereIndicesInRange(lat: nat)
    requires lat <= Bands
    ensures lat == Bands ==> |Rows(lat)| == 2 * 30 * 30
    ensures forall i :: 0 <= i < |Rows(lat)| ==> FaceBelow(Rows(lat)[i], 961)
  {
    RowsShape(lat);
  }

  /** CreateSphere's loops: one vertex per (latitude, longitude) point, then two faces per quad. */
  method CreateSphere() returns (vertexCount: nat, indices: seq<Face>)
    ensures vertexCount == (Bands + 1) * (Bands + 1)
    ensures indices == Rows(Bands)
  {
    vertexCount := 0;
    for latitude := 0 to Bands + 1
      invariant vertexCount == latitude * (Bands + 1)
    {
      for longitude := 0 to Bands + 1
        invariant vertexCount == latitude * (Bands + 1) + longitude
      {
        vertexCount := vertexCount + 1;
      }
    }
    indices := [];
    for latitude := 0 to Bands
      invariant indices == Rows(latitude)
    {
      for longitude := 0 to Bands
        invariant indices == Rows(latitude) + Row(latitude, longitude)
      {
        var first := latitude * (Bands + 1) + longitude;
        var second := first + Bands + 1;
        indices := indices + [Face(first, second, first + 1)];
        indices := indices + [Face(second, second + 1, first + 1)];
      }
    }
  }

  // ---- LoadBoneData: bone ids ----

  /** One bone of an assimp mesh: its name and its (vertex id, weight) pairs. */
  datatype Bone = Bone(name: String, weights: seq<(nat, real)>)

  /** An AddBone call LoadBoneData makes: vertex index, bone id, weight. */
  datatype AddBoneCall = AddBoneCall(vertex: nat, id: nat, weight: real)

  function Names(meshBones: seq<Bone>): (names: seq<String>)
    ensures |names| == |meshBones|
    ensures forall i :: 0 <= i < |meshBones| ==> names[i] == meshBones[i].name
  {
    if |meshBones| == 0 then [] else Names(meshBones[..|meshBones| - 1]) + [meshBones[|meshBones| - 1].name]
  }

  /** The bones map and counter after the names are seen in order: a first-seen name takes the counter. */
  function AssignIds(bones: map<String, nat>, names: seq<String>, numBones: nat): (r: (map<String, nat>, nat))
    ensures r.1 >= numBones
    ensures forall i :: 0 <= i < |names| ==> names[i] in r.0
    ensures forall n :: n in r.0 ==> n in bones || n in names
    ensures forall n :: n in bones ==> n in r.0 && r.0[n] == bones[n]
  {
    if |names| == 0 then (bones, numBones)
    else
      var (b, k) := AssignIds(bones, names[..|names| - 1], numBones);
      var name := names[|names| - 1];
      if name in b then (b, k) else (b[name := k], k + 1)
  }

  /** No two bones share an id, and every id is below the counter. */
  predicate IdsDistinct(bones: map<String, nat>, numBones: nat)
  {
    (forall n :: n in bones ==> bones[n] < numBones) &&
    (forall n, m :: n in bones && m in bones && n != m ==> bones[n] != bones[m])
  }

  /** Assignment keeps ids distinct and below the counter; each new name takes the counter's value. */
  lemma {:induction false} AssignIdsDistinct(bones: map<String, nat>, names: seq<String>, numBones: nat)
    requires IdsDistinct(bones, numBones)
    ensures var (b, k) := AssignIds(bones, names, numBones); IdsDistinct(b, k)
    decreases |names|
  {
    if |names| > 0 {
      AssignIdsDistinct(bones, names[..|names| - 1], numBones);
    }
  }

  /** A name seen twice keeps the id it got first. */
  lemma RepeatedNameKeepsId(bones: map<String, nat>, names: seq<String>, numBones: nat, name: String)
    requires name in AssignIds(bones, names, numBones).0
    ensures AssignIds(bones, names + [name], numBones) == AssignIds(bones, names, numBones)
  {
    assert (names + [name])[..|names|] == names;
  }

  /** The AddBone calls for one bone, in weight order. */
  function Weighted(baseVertex: nat, id: nat, weights: seq<(nat, real)>): (c: seq<AddBoneCall>)
    ensures |c| == |weights|
    ensures forall j :: 0 <= j < |weights| ==> c[j] == AddBoneCall(baseVertex + weights[j].0, id, weights[j].1)
  {
    if |weights| == 0 then []
    else
      var last := weights[|weights| - 1];
      Weighted(baseVertex, id, weights[..|weights| - 1]) + [AddBoneCall(baseVertex + last.0, id, last.1)]
  }

  /** The AddBone calls for the bones in order, each with its name's id in `ids`. */
  function Calls(meshBones: seq<Bone>, ids: map<String, nat>, baseVertex: nat): seq<AddBoneCall>
    requires forall i :: 0 <= i < |meshBones| ==> meshBones[i].name in ids
  {
    if |meshBones| == 0 then []
    else
      var last := meshBones[|meshBones| - 1];
      Calls(meshBones[..|meshBones| - 1], ids, baseVertex) + Weighted(baseVertex, ids[last.name], last.weights)
  }

  /** Calls depend only on the ids of the names they use. */
  lemma {:induction false} CallsStable(meshBones: seq<Bone>, ids: map<String, nat>, ids': map<String, nat>, baseVertex: nat)
    requires forall i :: 0 <= i < |meshBones| ==> meshBones[i].name in ids
    requires forall n :: n in ids ==> n in ids' && ids'[n] == ids[n]
    ensures Calls(meshBones, ids, baseVertex) == Calls(meshBones, ids', baseVertex)
  {
    if |meshBones| > 0 {
      CallsStable(meshBones[..|meshBones| - 1], ids, ids', baseVertex);
    }
  }

  /** The AddBone calls for one bone's weights, in order. */
  method WeightCalls(baseVertex: nat, id: nat, weights: seq<(nat, real)>) returns (calls: seq<AddBoneCall>)
    ensures calls == Weighted(baseVertex, id, weights)
  {
    calls := [];
    for j := 0 to |weights|
      invariant calls == Weighted(baseVertex, id, weights[..j])
    {
      assert weights[..j + 1][..j] == weights[..j];
      calls := calls + [AddBoneCall(baseVertex + weights[j].0, id, weights[j].1)];
    }
    assert weights[..|weights|] == weights;
  }

  /** One turn of LoadBoneData's loop extends the id assignment and the calls by bone i. */
  lemma LoadStep(meshBones: seq<Bone>, i: nat, bones0: map<String, nat>, numBones0: nat,
                 before: map<String, nat>, count: nat, baseVertex: nat)
    requires i < |meshBones|
    requires (before, count) == AssignIds(bones0, Names(meshBones[..i]), numBones0)
    requires forall j :: 0 <= j < i ==> meshBones[j].name in before
    ensures var name := meshBones[i].name;
      var (after, count') := AssignIds(bones0, Names(meshBones[..i + 1]), numBones0);
      after == (if name in before then before else before[name := count]) &&
      count' == (if name in before then count else count + 1) &&
      (forall j :: 0 <= j <= i ==> meshBones[j].name in after) &&
      Calls(meshBones[..i + 1], after, baseVertex) ==
        Calls(meshBones[..i], before, baseVertex) + Weighted(baseVertex, after[name], meshBones[i].weights)
  {
    var name := meshBones[i].name;
    assert meshBones[..i + 1][..i] == meshBones[..i];
    assert Names(meshBones[..i + 1]) == Names(meshBones[..i]) + [name];
    var after := if name in before then before else before[name := count];
    CallsStable(meshBones[..i], before, after, baseVertex);
  }

  class Mesh {
    var bones: map<String, nat>
    var currentAnimation: nat

    constructor ()
      ensures bones == map[] && currentAnimation == 0
    {
      bones := map[];
      currentAnimation := 0;
    }

    /**
     * LoadBoneData: false for a mesh without bones. Otherwise each bone
     * name not yet known gets id numBones and the counter increments, and
     * every weight of the bone becomes an AddBone call on vertex
     * baseVertex + vertex id with the name's id.
     */
    method LoadBoneData(meshBones: seq<Bone>, baseVertex: nat, numBones: nat)
      returns (ok: bool, numBones': nat, calls: seq<AddBoneCall>)
      modifies this
      ensures ok <==> |meshBones| > 0
      ensures currentAnimation == old(currentAnimation)
      ensures !ok ==> bones == old(bones) && numBones' == numBones && calls == []
      ensures ok ==> (bones, numBones') == AssignIds(old(bones), Names(meshBones), numBones)
      ensures ok ==> forall i :: 0 <= i < |meshBones| ==> meshBones[i].name in bones
      ensures ok ==> calls == Calls(meshBones, bones, baseVertex)
    {
      if |meshBones| == 0 {
        return false, numBones, [];
      }
      ok, numBones', calls := true, numBones, [];
      for i := 0 to |meshBones|
        invariant (bones, numBones') == AssignIds(old(bones), Names(meshBones[..i]), numBones)
        invariant forall j :: 0 <= j < i ==> meshBones[j].name in bones
        invariant calls == Calls(meshBones[..i], bones, baseVertex)
        invariant currentAnimation == old(currentAnimation)
      {
        ghost var before, count := bones, numBones';
        var id;
        id, numBones' := BoneId(meshBones[i].name, numBones');
        var more := WeightCalls(baseVertex, id, meshBones[i].weights);
        LoadStep(meshBones, i, old(bones), numBones, before, count, baseVertex);
        calls := calls + more;
      }
      assert meshBones[..|meshBones|] == meshBones;
    }

    /** The id of a bone name: its known id, or the counter's value for a name seen first. */
    method BoneId(name: String, numBones: nat) returns (id: nat, numBones': nat)
      modifies this
      ensures name in old(bones) ==> bones == old(bones) && numBones' == numBones
      ensures name !in old(bones) ==> bones == old(bones)[name := numBones] && numBones' == numBones + 1
      ensures id == bones[name] && currentAnimation == old(currentAnimation)
    {
      numBones' := numBones;
      if name !in bones {
        bones := bones[name := numBones'];
        numBones' := numBones' + 1;
      }
      id := bones[name];
    }

    method SwitchToAnimation(index: nat)
      modifies this
      ensures currentAnimation == index && bones == old(bones)
    {
      currentAnimation := index;
    }

    method GetAnimationState() returns (index: nat)
      ensures index == currentAnimation
    {
      index := currentAnimation;
    }
  }

  /** SwitchToAnimation(i) followed by GetAnimationState() gives i. */
  method SwitchThenGet(mesh: Mesh, i: nat) returns (state: nat)
    modifies mesh
    ensures state == i
  {
    mesh.SwitchToAnimation(i);
    state := mesh.GetAnimationState();
  }
}

=== FILE: picture.dfy ===
// The plane layout of SharedPictureData (Picture.cpp): strides, plane
// offsets and the size of one allocation holding all planes of a YUV
// picture; Swap; the destructor's release; the stride Picture passes.
//
// Picture.h is not part of this model: data and stride are taken to hold
// three planes. Memory is addresses: the block the memory resource or the
// allocator hands out is a parameter, and 0 is the null pointer.
// TextureAlignment, whose value is not part of this model, is a parameter.

module Picture {
  import opened Common
  import opened Sampling

  const PlaneCount := 3

  /** The factor plane i uses: what GetSamplingFactor wrote, else the default (0, 0). */
  function FactorFor(f: Format, i: nat): (s: SamplingFactor)
    ensures i < |PlaneFactors(f)| ==> s == PlaneFactors(f)[i]
    ensures i >= |PlaneFactors(f)| ==> s == Full
  {
    if i < |PlaneFactors(f)| then PlaneFactors(f)[i] else Full
  }

  /** pixelShift: 1 iff the format is high bit depth. */
  function PixelShift(f: Format): (s: nat)
    ensures s == 1 <==> IsHighBitDepth(f)
    ensures s <= 1
  {
    if IsHighBitDepth(f) then 1 else 0
  }

  /** (x << up) >> down on unsigned values. */
  function Shifted(x: nat, up: nat, down: nat): nat
  {
    MulMonotone(0, x, Pow2(up));
    x * Pow2(up) / Pow2(down)
  }

  /** stride[i] = SLALIGN((width << pixelShift) >> factor.x, 8). */
  function PlaneStride(f: Format, width: nat, i: nat): (s: nat)
    ensures s % 8 == 0
  {
    AlignUp(Shifted(width, PixelShift(f), FactorFor(f, i).x), 8)
  }

  /** The rows of plane i: SLALIGN(height, 2 for chroma, 1 for luma) >> factor.y. */
  function PlaneRows(f: Format, height: nat, i: nat): (rows: nat)
    ensures i == 0 ==> rows == height / Pow2(FactorFor(f, 0).y)
    ensures i > 0 ==> rows == AlignUp(height, 2) / Pow2(FactorFor(f, i).y)
  {
    AlignUp(height, if i > 0 then 2 else 1) / Pow2(FactorFor(f, i).y)
  }

  /** The bytes of plane i. */
  function PlaneBytes(f: Format, width: nat, height: nat, i: nat): nat
  {
    PlaneStride(f, width, i) * PlaneRows(f, height, i)
  }

  /** offsets[i]: the bytes of the planes before i. */
  function PlaneOffset(f: Format, width: nat, height: nat, i: nat): nat
  {
    if i == 0 then 0 else PlaneOffset(f, width, height, i - 1) + PlaneBytes(f, width, height, i - 1)
  }

  /** Plane i lies in [offset_i, offset_{i+1}); later planes start at or after its end. */
  lemma {:induction false} PlanesDisjoint(f: Format, width: nat, height: nat, i: nat, j: nat)
    requires i < j
    ensures PlaneOffset(f, width, height, i) + PlaneBytes(f, width, height, i) <= PlaneOffset(f, width, height, j)
    decreases j - i
  {
    if j > i + 1 {
      PlanesDisjoint(f, width, height, i, j - 1);
    }
  }

  /** Every plane ends within the allocation of PlaneOffset(3) bytes. */
  lemma PlanesFitAllocation(f: Format, width: nat, height: nat, i: nat)
    requires i < PlaneCount
    ensures PlaneOffset(f, width, height, i) + PlaneBytes(f, width, height, i) <= PlaneOffset(f, width, height, PlaneCount)
  {
    if i + 1 < PlaneCount {
      PlanesDisjoint(f, width, height, i, PlaneCount);
    }
  }

  /** One turn of the layout loop computes plane i's stride and the offset of plane i + 1. */
  lemma LayoutStep(f: Format, width: nat, height: nat, i: nat, factor: SamplingFactor, size: nat)
    requires factor == FactorFor(f, i) && size == PlaneOffset(f, width, height, i)
    ensures AlignUp(Shifted(width, PixelShift(f), factor.x), 8) == PlaneStride(f, width, i)
    ensures AlignUp(height, if i > 0 then 2 else 1) / Pow2(factor.y) == PlaneRows(f, height, i)
    ensures size + PlaneBytes(f, width, height, i) == PlaneOffset(f, width, height, i + 1)
  {}

  /** SamplingFactor factors[kMaxSublayer], default-constructed, then GetSamplingFactor. */
  method Factors(f: Format) returns (fs: seq<SamplingFactor>)
    ensures |fs| == 4 && forall p :: 0 <= p < 4 ==> fs[p] == FactorFor(f, p)
  {
    var factors := new SamplingFactor[4](_ => Full);
    GetSamplingFactor(f, factors);
    fs := factors[..];
  }

  /** The stride Picture(width, height, format) passes: (uint32_t)(width * texel size). */
  function PictureStride(width: nat, texelSize: nat): (s: nat)
    ensures s < 0x1_0000_0000
    ensures width * texelSize < 0x1_0000_0000 ==> s == width * texelSize
  {
    (width * texelSize) % 0x1_0000_0000
  }

  /**
   * The release function SetRelease installs. Both closures capture `this`:
   * the memory-resource one reads its owner's `memoryResource` when it runs,
   * so it is modelled by a reference to that owner; the heap one calls the
   * owner's stateless allocator, so which picture owns it does not matter.
   */
  datatype Release = NoRelease | ReleaseToResource(owner: SharedPictureData) | Deallocate

  /** The call the destructor makes: Release on a memory resource (None is a null one), or a deallocation. */
  datatype ReleaseCall = ResourceRelease(resource: Option<nat>) | HeapDeallocate

  class SharedPictureData {
    const data: array<nat>
    const stride: array<nat>
    var format: Format
    var width: nat
    var height: nat
    var timestamp: int
    var memoryType: nat
    var release: Release
    var memoryResource: Option<nat>
    /** The byte count handed to the allocator; 0 when the allocator is not called. */
    ghost var allocSize: nat

    ghost predicate Valid()
      reads this
    {
      data.Length == PlaneCount && stride.Length == PlaneCount && data != stride
    }

    /**
     * The constructor. Without allocation stride[0] is the given stride and
     * no data is set. With allocation stride[0] is aligned to
     * textureAlignment; a memory resource hands out one block; otherwise a
     * YUV picture gets the plane layout in one allocation of `heapBlock`
     * sized to the planes' total, and any other picture one of
     * stride[0] * height bytes.
     */
    constructor (format: Format, width: nat, height: nat, givenStride: nat, allocate: bool,
                 memoryResource: Option<nat>, textureAlignment: nat, resourceBlock: nat, heapBlock: nat)
      requires textureAlignment > 0
      ensures Valid() && fresh(data) && fresh(stride)
      ensures this.format == format && this.width == width && this.height == height
      ensures this.memoryResource == memoryResource && timestamp == 0 && memoryType == 0
      ensures !allocate ==> stride[0] == givenStride && data[..] == [0, 0, 0] && release == NoRelease
      ensures allocate && memoryResource.Some? ==>
        stride[0] == AlignUp(givenStride, textureAlignment) && data[0] == resourceBlock &&
        release == ReleaseToResource(this)
      ensures allocate && memoryResource.None? ==> release == Deallocate && data[0] == heapBlock
      ensures allocate && memoryResource.None? && IsYUV(format) ==>
        (forall i :: 0 <= i < PlaneCount ==> stride[i] == PlaneStride(format, width, i)) &&
        (forall i :: 1 <= i < PlaneCount ==> data[i] == heapBlock + PlaneOffset(format, width, height, i))
      ensures allocate && memoryResource.None? && !IsYUV(format) ==>
        stride[0] == AlignUp(givenStride, textureAlignment) &&
        allocSize == stride[0] * height
      ensures allocate && memoryResource.None? && IsYUV(format) ==>
        allocSize == PlaneOffset(format, width, height, PlaneCount)
      ensures !allocate || memoryResource.Some? ==> allocSize == 0
      ensures !(allocate && memoryResource.None? && IsYUV(format)) ==>
        data[1] == 0 && data[2] == 0 && stride[1] == 0 && stride[2] == 0
    {
      data := new nat[PlaneCount](_ => 0);
      stride := new nat[PlaneCount](_ => 0);
      this.format := format;
      this.width := width;
      this.height := height;
      timestamp := 0;
      memoryType := 0;
      release := NoRelease;
      this.memoryResource := memoryResource;
      allocSize := 0;
      new;
      stride[0] := givenStride;
      if allocate {
        stride[0] := AlignUp(stride[0], textureAlignment);
        if memoryResource.Some? {
          data[0] := resourceBlock;
          release := ReleaseToResource(this);
        } else {
          allocSize := AllocateFromHeap(heapBlock);
          release := Deallocate;
        }
      }
    }

    /**
     * The allocation without a memory resource: a YUV picture gets the plane
     * layout inside one block, any other picture stride[0] * height bytes.
     * Returns the byte count asked of the allocator.
     */
    method AllocateFromHeap(block: nat) returns (size: nat)
      requires Valid()
      modifies data, stride
      ensures data[0] == block
      ensures IsYUV(format) ==>
        size == PlaneOffset(format, width, height, PlaneCount) &&
        (forall i :: 0 <= i < PlaneCount ==> stride[i] == PlaneStride(format, width, i)) &&
        (forall i :: 1 <= i < PlaneCount ==> data[i] == block + PlaneOffset(format, width, height, i))
      ensures !IsYUV(format) ==>
        stride[..] == old(stride[..]) && data[1..] == old(data[1..]) && size == stride[0] * height
    {
      if IsYUV(format) {
        size := AllocatePlanes(block);
      } else {
        size := stride[0] * height;
        data[0] := block;
      }
    }

    /** A YUV picture: the plane layout, then each plane's address inside the one block. */
    method AllocatePlanes(block: nat) returns (size: nat)
      requires Valid()
      modifies data, stride
      ensures size == PlaneOffset(format, width, height, PlaneCount)
      ensures forall i :: 0 <= i < PlaneCount ==> stride[i] == PlaneStride(format, width, i)
      ensures data[0] == block
      ensures forall i :: 1 <= i < PlaneCount ==> data[i] == block + PlaneOffset(format, width, height, i)
    {
      var offsets;
      offsets, size := Layout();
      data[0] := block;
      for i := 1 to PlaneCount
        invariant data[0] == block
        invariant forall p :: 1 <= p < i ==> data[p] == block + offsets[p]
        invariant forall p :: 0 <= p < PlaneCount ==> stride[p] == PlaneStride(format, width, p)
      {
        data[i] := data[0] + offsets[i];
      }
    }

    /** The YUV layout loop: each plane's stride, its offset, and the running size. */
    method Layout() returns (offsets: seq<nat>, size: nat)
      requires Valid()
      modifies stride
      ensures |offsets| == PlaneCount && size == PlaneOffset(format, width, height, PlaneCount)
      ensures forall i :: 0 <= i < PlaneCount ==> stride[i] == PlaneStride(format, width, i)
      ensures forall i :: 0 <= i < PlaneCount ==> offsets[i] == PlaneOffset(format, width, height, i)
    {
      var fs := Factors(format);
      var shift := PixelShift(format);
      size := 0;
      offsets := [];
      for i := 0 to PlaneCount
        invariant |offsets| == i && size == PlaneOffset(format, width, height, i)
        invariant forall p :: 0 <= p < i ==> stride[p] == PlaneStride(format, width, p)
        invariant forall p :: 0 <= p < i ==> offsets[p] == PlaneOffset(format, width, height, p)
      {
        offsets := offsets + [size];
        size := PlaneStep(i, fs[i], shift, size);
      }
    }

    /** One turn of the layout loop: plane i's stride, and the running size past plane i. */
    method PlaneStep(i: nat, factor: SamplingFactor, shift: nat, size: nat) returns (size': nat)
      requires Valid() && i < PlaneCount
      requires factor == FactorFor(format, i) && shift == PixelShift(format)
      requires size == PlaneOffset(format, width, height, i)
      modifies stride
      ensures stride[i] == PlaneStride(format, width, i)
      ensures forall p :: 0 <= p < PlaneCount && p != i ==> stride[p] == old(stride[p])
      ensures size' == PlaneOffset(format, width, height, i + 1)
    {
      var y := AlignUp(height, if i > 0 then 2 else 1) / Pow2(factor.y);
      var st := AlignUp(Shifted(width, shift, factor.x), 8);
      assert st == PlaneStride(format, width, i) && y == PlaneRows(format, height, i) by {
        LayoutStep(format, width, height, i, factor, size);
      }
      assert size + st * y == PlaneOffset(format, width, height, i + 1);
      stride[i] := st;
      size' := size + st * y;
    }

    /**
     * The destructor: release(data[0]) when a release function is set. The
     * memory-resource closure releases into its owner's resource as it is
     * now, which after a Swap may not be the one the block came from.
     */
    method Destroy() returns (released: Option<(ReleaseCall, nat)>)
      requires Valid()
      ensures release == NoRelease <==> released.None?
      ensures release.ReleaseToResource? ==>
        released == Some((ResourceRelease(release.owner.memoryResource), data[0]))
      ensures release == Deallocate ==> released == Some((HeapDeallocate, data[0]))
    {
      match release
      case NoRelease =>
        released := None;
      case ReleaseToResource(owner) =>
        released := Some((ResourceRelease(owner.memoryResource), data[0]));
      case Deallocate =>
        released := Some((HeapDeallocate, data[0]));
    }

    /** Swap: every field but timestamp is exchanged, the plane arrays element by element. */
    method Swap(other: SharedPictureData)
      requires Valid() && other.Valid()
      requires other != this ==> {data, stride} !! {other.data, other.stride}
      modifies this, other, data, stride, other.data, other.stride
      ensures data[..] == old(other.data[..]) && other.data[..] == old(data[..])
      ensures stride[..] == old(other.stride[..]) && other.stride[..] == old(stride[..])
      ensures format == old(other.format) && other.format == old(format)
      ensures width == old(other.width) && other.width == old(width)
      ensures height == old(other.height) && other.height == old(height)
      ensures memoryType == old(other.memoryType) && other.memoryType == old(memoryType)
      ensures release == old(other.release) && other.release == old(release)
      ensures memoryResource == old(other.memoryResource) && other.memoryResource == old(memoryResource)
      ensures timestamp == old(timestamp) && other.timestamp == old(other.timestamp)
    {
      if other == this {
        return;
      }
      for i := 0 to PlaneCount
        invariant forall p :: 0 <= p < i ==> data[p] == old(other.data[p]) && other.data[p] == old(data[p])
        invariant forall p :: i <= p < PlaneCount ==> data[p] == old(data[p]) && other.data[p] == old(other.data[p])
        invariant stride[..] == old(stride[..]) && other.stride[..] == old(other.stride[..])
        invariant unchanged(this, other)
      {
        data[i], other.data[i] := other.data[i], data[i];
      }
      for i := 0 to PlaneCount
        invariant forall p :: 0 <= p < i ==> stride[p] == old(other.stride[p]) && other.stride[p] == old(stride[p])
        invariant forall p :: i <= p < PlaneCount ==> stride[p] == old(stride[p]) && other.stride[p] == old(other.stride[p])
        invariant data[..] == old(other.data[..]) && other.data[..] == old(data[..])
        invariant unchanged(this, other)
      {
        stride[i], other.stride[i] := other.stride[i], stride[i];
      }
      format, other.format := other.format, format;
      width, other.width := other.width, width;
      height, other.height := other.height, height;
      memoryType, other.memoryType := other.memoryType, memoryType;
      release, other.release := other.release, release;
      memoryResource, other.memoryResource := other.memoryResource, memoryResource;
    }
  }

  /**
   * Two pictures allocated from different memory resources, swapped, and the
   * second destroyed: its block is the first picture's, and the closure it
   * received reads the first picture's resource pointer, which the swap has
   * made the second resource. The block goes to a resource that does not own it.
   */
  method SwapThenDestroyReleasesToOtherResource(format: Format, width: nat, height: nat, stride: nat,
                                                alignment: nat, rA: nat, rB: nat, blockA: nat, blockB: nat)
    returns (released: Option<(ReleaseCall, nat)>)
    requires alignment > 0
    ensures released == Some((ResourceRelease(Some(rB)), blockA))
  {
    var a := new SharedPictureData(format, width, height, stride, true, Some(rA), alignment, blockA, 0);
    var b := new SharedPictureData(format, width, height, stride, true, Some(rB), alignment, blockB, 0);
    a.Swap(b);
    released := b.Destroy();
  }
}

=== FILE: raw.dfy ===
// The raw-image codec (Raw.cpp): the RGB to RGBA row copy and the format
// dispatch and error codes of Decode.
//
// LibRaw is I/O: what each of its calls answers is a field of `LibRawRun`.
// Samples are unsigned values of 8 or 16 bits; a picture is measured in
// samples, so a byte stride is the sample stride times the sample size.
// Offsets are unbounded: the `int` row offset the copy computes is taken
// not to overflow.

module Raw {
  import opened Common

  /** T(-1) for an unsigned sample of `bits` bits: every bit set. */
  function SampleMax(bits: nat): (m: nat)
    ensures m + 1 == Pow2(bits)
  {
    Pow2(bits) - 1
  }

  /** Sample c of pixel j in a 4-sample row starting at base. */
  function RowTarget(base: nat, j: nat, c: nat): nat
  {
    base + 4 * j + c
  }

  /** Sample c of pixel j in a 3-sample run starting at base. */
  function RowSource(base: nat, j: nat, c: nat): nat
  {
    base + 3 * j + c
  }

  /** Whether position k lies in the first `rows` rows, within the 4 · width samples the copy writes there. */
  predicate Written(dstStride: nat, width: nat, rows: nat, k: nat)
  {
    dstStride > 0 && k / dstStride < rows && k % dstStride < 4 * width
  }

  lemma DivModOf(i: nat, r: nat, s: nat)
    requires r < s
    ensures (i * s + r) / s == i && (i * s + r) % s == r
  {
    var k := i * s + r;
    var q, m := k / s, k % s;
    assert k == q * s + m;
    assert (i - q) * s == m - r;
    if i > q {
      MulMonotone(1, i - q, s);
    } else if q > i {
      MulMonotone(1, q - i, s);
    }
  }

  /** Row i lies after every sample the copy writes in rows before it. */
  lemma EarlierRowsBelow(i': nat, i: nat, s: nat, width: nat)
    requires i' < i && 4 * width <= s
    ensures i' * s + 4 * width <= i * s
  {
    MulMonotone(i' + 1, i, s);
  }

  /** A position in the written span of row i is written once i + 1 rows are done. */
  lemma SpanWritten(i: nat, s: nat, width: nat, k: nat)
    requires 4 * width <= s && i * s <= k < i * s + 4 * width
    ensures Written(s, width, i + 1, k)
  {
    DivModOf(i, k - i * s, s);
  }

  /**
   * Row i of the picture holds row i of the input: sample c < 3 of pixel j
   * at i · stride + 4j + c comes from i · width · channels + 3j + c (the
   * source advances 3 samples per pixel), and sample 3 is the maximum.
   */
  predicate RowCopied(d: seq<nat>, dstStride: nat, pixels: seq<nat>, width: nat, channels: nat, bits: nat, i: nat)
  {
    (forall j, c :: 0 <= j < width && 0 <= c < 3 ==>
      RowTarget(i * dstStride, j, c) < |d| && RowSource(i * (width * channels), j, c) < |pixels| &&
      d[RowTarget(i * dstStride, j, c)] == pixels[RowSource(i * (width * channels), j, c)]) &&
    (forall j :: 0 <= j < width ==>
      RowTarget(i * dstStride, j, 3) < |d| && d[RowTarget(i * dstStride, j, 3)] == SampleMax(bits))
  }

  /** Writing row i keeps every earlier row copied. */
  lemma RowKept(d: seq<nat>, d': seq<nat>, dstStride: nat, pixels: seq<nat>, width: nat, channels: nat,
                bits: nat, i': nat, i: nat)
    requires i' < i && 4 * width <= dstStride && |d| == |d'|
    requires forall k :: 0 <= k < |d| && !(i * dstStride <= k < i * dstStride + 4 * width) ==> d'[k] == d[k]
    requires RowCopied(d, dstStride, pixels, width, channels, bits, i')
    ensures RowCopied(d', dstStride, pixels, width, channels, bits, i')
  {
    EarlierRowsBelow(i', i, dstStride, width);
  }

  /** One row: pixel j's three samples move to 4j, 4j+1, 4j+2 and 4j+3 gets the maximum. */
  method CopyRow(dst: array<nat>, base: nat, pixels: seq<nat>, srcBase: nat, width: nat, bits: nat)
    requires base + 4 * width <= dst.Length
    requires srcBase + 3 * width <= |pixels|
    modifies dst
    ensures forall j, c :: 0 <= j < width && 0 <= c < 3 ==> dst[RowTarget(base, j, c)] == pixels[RowSource(srcBase, j, c)]
    ensures forall j :: 0 <= j < width ==> dst[RowTarget(base, j, 3)] == SampleMax(bits)
    ensures forall k :: 0 <= k < dst.Length && !(base <= k < base + 4 * width) ==> dst[k] == old(dst[k])
  {
    for j := 0 to width
      invariant forall j', c :: 0 <= j' < j && 0 <= c < 3 ==> dst[RowTarget(base, j', c)] == pixels[RowSource(srcBase, j', c)]
      invariant forall j' :: 0 <= j' < j ==> dst[RowTarget(base, j', 3)] == SampleMax(bits)
      invariant forall k :: 0 <= k < dst.Length && !(base <= k < base + 4 * j) ==> dst[k] == old(dst[k])
    {
      var d, s := base + 4 * j, srcBase + 3 * j;
      dst[d] := pixels[s];
      dst[d + 1] := pixels[s + 1];
      dst[d + 2] := pixels[s + 2];
      dst[d + 3] := SampleMax(bits);
    }
  }

  /**
   * ReadPixelsToPicture: for each of `height` rows, the 3 samples of each
   * pixel go to the first three samples of a 4-sample pixel of the picture
   * row, and the fourth sample is the largest value. Nothing outside the
   * written span of each row changes. The source pointer advances by 3 per
   * pixel whatever `channels` is; the caller's buffer must hold what that
   * reads.
   */
  method ReadPixelsToPicture(dst: array<nat>, dstStride: nat, pixels: seq<nat>,
                             width: nat, height: nat, channels: nat, bits: nat)
    requires 4 * width <= dstStride
    requires height == 0 || (height - 1) * dstStride + 4 * width <= dst.Length
    requires height == 0 || (height - 1) * (width * channels) + 3 * width <= |pixels|
    modifies dst
    ensures forall i :: 0 <= i < height ==> RowCopied(dst[..], dstStride, pixels, width, channels, bits, i)
    ensures forall k :: 0 <= k < dst.Length && !Written(dstStride, width, height, k) ==> dst[k] == old(dst[k])
  {
    for i := 0 to height
      invariant forall i' :: 0 <= i' < i ==> RowCopied(dst[..], dstStride, pixels, width, channels, bits, i')
      invariant forall k :: 0 <= k < dst.Length && !Written(dstStride, width, i, k) ==> dst[k] == old(dst[k])
    {
      MulMonotone(i, height - 1, dstStride);
      MulMonotone(i, height - 1, width * channels);
      ghost var before := dst[..];
      CopyRow(dst, i * dstStride, pixels, i * (width * channels), width, bits);
      forall i' | 0 <= i' < i
        ensures RowCopied(dst[..], dstStride, pixels, width, channels, bits, i')
      {
        RowKept(before, dst[..], dstStride, pixels, width, channels, bits, i', i);
      }
      forall k | 0 <= k < dst.Length && !Written(dstStride, width, i + 1, k)
        ensures dst[k] == old(dst[k])
      {
        if i * dstStride <= k < i * dstStride + 4 * width {
          SpanWritten(i, dstStride, width, k);
        }
      }
    }
  }

  /** With three channels, output pixel j of row i is input pixel i · width + j, sample for sample. */
  lemma ThreeChannelsCopyPixels(width: nat, i: nat, j: nat, c: nat)
    ensures RowSource(i * (width * 3), j, c) == 3 * (i * width + j) + c
  {
    assert i * (width * 3) == 3 * (i * width);
  }
  datatype OutputFormat = BayerLayerRGGB | RGBA16 | RGBA8 | OtherFormat(code: nat)

  datatype CodecError = Success | ExternalFailed | UnsupportFormat

  /** The frame sizes LibRaw reports after unpacking. */
  datatype RawSizes = RawSizes(iwidth: nat, iheight: nat, leftMargin: nat, topMargin: nat, rawPitch: nat)

  /** The memory image dcraw_make_mem_image returns. */
  datatype ProcessedImage = ProcessedImage(width: nat, height: nat, colors: nat, data: seq<nat>)

  /** What each LibRaw call of one Decode answers. */
  datatype LibRawRun = LibRawRun(opens: bool, unpacks: bool, processes: bool, makesImage: bool,
                                 sizes: RawSizes, image: ProcessedImage)

  /**
   * The decoded picture. A Bayer picture points into LibRaw's raw image,
   * `byteOffset` bytes past its start, with the raw pitch as stride, and
   * keeps the processor alive until it is released. An RGBA picture owns
   * its samples.
   */
  datatype DecodedPicture =
    | BayerView(width: nat, height: nat, byteOffset: nat, stride: nat)
    | Rgba(width: nat, height: nat, format: OutputFormat, stride: nat, samples: seq<nat>)

  /** The output bit depth Decode asks dcraw for: 16 for RGBA16, else 8. */
  function OutputBits(format: OutputFormat): (bits: nat)
    ensures bits == 16 <==> format == RGBA16
    ensures bits == 8 <==> format != RGBA16
  {
    if format == RGBA16 then 16 else 8
  }

  /** The code Decode returns for a run of LibRaw. */
  function Outcome(format: OutputFormat, run: LibRawRun): (e: CodecError)
    ensures e == Success <==>
      (run.opens && run.unpacks &&
       (format == BayerLayerRGGB || ((format == RGBA16 || format == RGBA8) && run.processes && run.makesImage)))
    ensures e == UnsupportFormat <==> run.opens && run.unpacks && format.OtherFormat?
    ensures !run.opens || !run.unpacks ==> e == ExternalFailed
  {
    if !run.opens || !run.unpacks then ExternalFailed
    else if format == BayerLayerRGGB then Success
    else if format == RGBA16 || format == RGBA8 then
      if !run.processes || !run.makesImage then ExternalFailed else Success
    else UnsupportFormat
  }

  /** The Bayer view: left margin in 16-bit samples, then top margin rows of the raw pitch. */
  function BayerPicture(sizes: RawSizes): (p: DecodedPicture)
    ensures p.BayerView? && p.width == sizes.iwidth && p.height == sizes.iheight
    ensures p.stride == sizes.rawPitch
    ensures p.byteOffset == 2 * sizes.leftMargin + sizes.rawPitch * sizes.topMargin
  {
    BayerView(sizes.iwidth, sizes.iheight, 2 * sizes.leftMargin + sizes.rawPitch * sizes.topMargin, sizes.rawPitch)
  }

  /** The memory image holds what the copy reads: height rows of width · colors samples. */
  predicate ImageReadable(image: ProcessedImage)
  {
    image.height == 0 || (image.height - 1) * (image.width * image.colors) + 3 * image.width <= |image.data|
  }

  class RawCodec {
    const format: OutputFormat
    /** The picture of the last successful Decode. */
    var picture: Option<DecodedPicture>
    /** The bit depth last handed to dcraw_process. */
    var outputBits: nat

    constructor (outputFormat: OutputFormat)
      ensures format == outputFormat && picture == None && outputBits == 8
    {
      format := outputFormat;
      picture := None;
      outputBits := 8;
    }

    /**
     * Decode: a buffer LibRaw cannot open or unpack is ExternalFailed; a
     * Bayer output is a view of the raw image; an RGBA output runs dcraw at
     * 16 or 8 bits and copies the memory image into a new picture of
     * 4 · width samples per row rounded up to `alignment`, each row holding
     * the image row's pixels with an opaque alpha; any other format
     * is UnsupportFormat. A failure leaves the last picture in place.
     */
    method Decode(run: LibRawRun, alignment: nat) returns (e: CodecError)
      requires alignment > 0
      requires run.makesImage ==> ImageReadable(run.image)
      modifies this
      ensures e == Outcome(format, run)
      ensures e != Success ==> picture == old(picture)
      ensures e == Success && format == BayerLayerRGGB ==> picture == Some(BayerPicture(run.sizes))
      ensures e == Success && format != BayerLayerRGGB ==>
        picture.Some? && picture.value.Rgba? && picture.value.format == format &&
        picture.value.width == run.image.width && picture.value.height == run.image.height &&
        picture.value.stride == AlignUp(4 * run.image.width, alignment) &&
        |picture.value.samples| == picture.value.stride * run.image.height
      ensures e == Success && format != BayerLayerRGGB ==>
        forall i :: 0 <= i < run.image.height ==>
          RowCopied(picture.value.samples, picture.value.stride, run.image.data,
                    run.image.width, run.image.colors, OutputBits(format), i)
      ensures run.opens && run.unpacks && (format == RGBA16 || format == RGBA8) ==> outputBits == OutputBits(format)
      ensures !(run.opens && run.unpacks && (format == RGBA16 || format == RGBA8)) ==> outputBits == old(outputBits)
    {
      if !run.opens || !run.unpacks {
        return ExternalFailed;
      }
      if format == BayerLayerRGGB {
        picture := Some(BayerPicture(run.sizes));
        return Success;
      } else if format == RGBA16 || format == RGBA8 {
        outputBits := if format == RGBA16 then 16 else 8;
        if !run.processes || !run.makesImage {
          return ExternalFailed;
        }
        var image := run.image;
        var stride := AlignUp(4 * image.width, alignment);
        var dst := new nat[stride * image.height];
        if image.height > 0 {
          MulMonotone(image.height - 1, image.height, stride);
          assert (image.height - 1) * stride + 4 * image.width <= image.height * stride;
        }
        ReadPixelsToPicture(dst, stride, image.data, image.width, image.height, image.colors, outputBits);
        picture := Some(Rgba(image.width, image.height, format, stride, dst[..]));
        return Success;
      }
      return UnsupportFormat;
    }
  }
}

=== FILE: render2d.dfy ===
// The sprite batcher (Render2D.cpp): the shared quad index buffer, batches
// of rectangles, and the texture slots a batch binds.
//
// Transforms, colours, texture coordinates and tiling factors are floating
// point and are not modelled: a vertex keeps its corner, its texture index
// and its object id. Textures are handles. The draw a Flush records on the
// GPU worker is modelled as its index count, appended to `draws`.

module Render2DBatch {

  const MaxTextureSlots := 32
  const MaxRects := 20000
  const MaxVertices := MaxRects * 4
  const MaxIndices := MaxRects * 6

  /** The corner the k-th index of a quad names: two triangles (0, 1, 2) and (2, 3, 0). */
  function Corner(k: nat): (c: nat)
    requires k < 6
    ensures c < 4
  {
    [0, 1, 2, 2, 3, 0][k]
  }

  /** The position of index k of quad q in the index buffer. */
  function Slot(q: nat, k: nat): nat
  {
    6 * q + k
  }

  /** Every index of every quad names one of the buffer's MaxVertices vertices. */
  lemma IndicesInVertexBuffer(q: nat, k: nat)
    requires q < MaxIndices / 6 && k < 6
    ensures 4 * q + Corner(k) < MaxVertices
  {}

  /** The two triangles of a quad share its diagonal and together cover all four corners. */
  lemma QuadCoversCorners()
    ensures Corner(0) == 0 && Corner(1) == 1 && Corner(2) == 2 && Corner(4) == 3
    ensures Corner(2) == Corner(3) && Corner(0) == Corner(5)
  {}

  /** The constructor's loop over the mapped index buffer: six indices per quad, four vertices apart. */
  method FillIndices(ptr: array<nat>)
    requires ptr.Length == MaxIndices
    modifies ptr
    ensures forall q, k :: 0 <= q < MaxRects && 0 <= k < 6 ==> ptr[Slot(q, k)] == 4 * q + Corner(k)
  {
    var i, offset := 0, 0;
    ghost var q := 0;
    while i < MaxIndices
      invariant i == 6 * q && offset == 4 * q && q <= MaxRects
      invariant forall p, k :: 0 <= p < q && 0 <= k < 6 ==> ptr[Slot(p, k)] == 4 * p + Corner(k)
    {
      ptr[i + 0] := offset + 0;
      ptr[i + 1] := offset + 1;
      ptr[i + 2] := offset + 2;
      ptr[i + 3] := offset + 2;
      ptr[i + 4] := offset + 3;
      ptr[i + 5] := offset + 0;
      assert forall k :: 0 <= k < 6 ==> ptr[Slot(q, k)] == offset + Corner(k);
      offset := offset + 4;
      i := i + 6;
      q := q + 1;
    }
  }

  /** One written vertex: its corner of the quad, the texture index it samples, and its object id. */
  datatype RectVertex = RectVertex(corner: nat, texIndex: int, objectId: int)

  /** The four vertices of one rectangle. */
  function Quad(texIndex: int, objectId: int): (v: seq<RectVertex>)
    ensures |v| == 4
    ensures forall i :: 0 <= i < 4 ==> v[i].corner == i && v[i].texIndex == texIndex && v[i].objectId == objectId
  {
    [RectVertex(0, texIndex, objectId), RectVertex(1, texIndex, objectId),
     RectVertex(2, texIndex, objectId), RectVertex(3, texIndex, objectId)]
  }

  /**
   * The texture-slot choice as written: the search loop breaks at the first
   * slot holding the texture, and the found index is then decremented; a
   * texture not found takes the next free slot. Returns the texture index
   * written into the vertices and the new slot count.
   */
  function TexIndexAsWritten(textures: seq<nat>, texture: nat): (r: (int, nat))
    ensures texture in textures <==> r.1 == |textures|
    ensures texture in textures ==> -1 <= r.0 < |textures| - 1 && textures[r.0 + 1] == texture
    ensures texture !in textures ==> r.0 == |textures|
  {
    var i := FirstSlot(textures, texture);
    if i == |textures| then (i, |textures| + 1) else (i - 1, |textures|)
  }

  /** The first slot holding the texture, or |textures| when none does. */
  function FirstSlot(textures: seq<nat>, texture: nat): (i: nat)
    ensures i <= |textures|
    ensures i < |textures| ==> textures[i] == texture
    ensures forall j :: 0 <= j < i ==> textures[j] != texture
  {
    if |textures| == 0 then 0
    else if textures[0] == texture then 0
    else 1 + FirstSlot(textures[1..], texture)
  }

  /** As written, a texture drawn twice in a batch gets index 0 and then -1. */
  lemma ReusedTextureShifts(texture: nat)
    ensures TexIndexAsWritten([], texture) == (0, 1)
    ensures TexIndexAsWritten([texture], texture) == (-1, 1)
  {}

  /** As written, a reused texture never gets the slot that holds it. */
  lemma ReusedSlotMissed(textures: seq<nat>, texture: nat)
    requires texture in textures
    ensures var (index, count) := TexIndexAsWritten(textures, texture);
      count == |textures| && index + 1 == FirstSlot(textures, texture)
  {}

  /** The intended choice: the slot that holds the texture, or the next free one. */
  function TexIndex(textures: seq<nat>, texture: nat): (r: (nat, nat))
    ensures r.0 < r.1
    ensures r.1 == |textures| || r.1 == |textures| + 1
    ensures (textures + [texture])[r.0] == texture
    ensures r.1 == |textures| <==> texture in textures
  {
    var i := FirstSlot(textures, texture);
    if i == |textures| then (i, |textures| + 1) else (i, |textures|)
  }

  /** Drawing the same texture again in a batch gives the same index and takes no new slot. */
  lemma TexIndexStable(textures: seq<nat>, texture: nat)
    ensures var (index, count) := TexIndex(textures, texture);
      var slots := if count == |textures| then textures else textures + [texture];
      TexIndex(slots, texture) == (index, |slots|)
  {
    var (index, count) := TexIndex(textures, texture);
    if count != |textures| {
      var slots := textures + [texture];
      assert FirstSlot(slots, texture) == |textures| by {
        assert slots[|textures|] == texture;
        assert forall j :: 0 <= j < |textures| ==> slots[j] == textures[j];
      }
    }
  }

  /** The draw Flush records: none for an empty batch. */
  function Flushed(indexCount: nat): (d: seq<nat>)
    ensures d == [] <==> indexCount == 0
    ensures d != [] ==> d == [indexCount]
  {
    if indexCount == 0 then [] else [indexCount]
  }

  /** Texture slot j is bound at binding j + 1. */
  ghost predicate BoundAt(bindings: map<nat, nat>, textures: array<nat>, j: nat)
    reads textures
    requires j < textures.Length
  {
    j + 1 in bindings && bindings[j + 1] == textures[j]
  }

  class Render2D {
    var rectIndexCount: nat
    var textureIndex: nat
    const textures: array<nat>
    /** The descriptor set's bindings: binding 0 is the sampler, binding k + 1 texture slot k. */
    var bindings: map<nat, nat>
    /** The vertices written into the mapped vertex buffer since the batch started. */
    var vertices: seq<RectVertex>
    /** The texture each of those vertices was drawn with. */
    ghost var sampled: seq<nat>
    /** The index count of every draw Flush recorded. */
    var draws: seq<nat>

    ghost predicate Valid()
      reads this, textures
    {
      textures.Length == MaxTextureSlots &&
      textureIndex <= MaxTextureSlots &&
      rectIndexCount <= MaxIndices && rectIndexCount % 6 == 0 &&
      |vertices| * 6 == rectIndexCount * 4 && |sampled| == |vertices| &&
      (forall j :: 0 <= j < textureIndex ==> BoundAt(bindings, textures, j)) &&
      (forall i :: 0 <= i < |vertices| ==>
        0 <= vertices[i].texIndex < textureIndex && textures[vertices[i].texIndex] == sampled[i])
    }

    /** The vertex writes stay inside the MaxVertices the vertex buffer holds. */
    lemma VerticesFit()
      requires Valid()
      ensures |vertices| <= MaxVertices
    {}

    /**
     * The constructor: with a readable shader file the linear sampler is
     * bound at binding 0; without one nothing is created or bound.
     */
    constructor (sampler: nat, shaderReadable: bool)
      ensures Valid() && fresh(textures)
      ensures rectIndexCount == 0 && textureIndex == 0 && vertices == [] && draws == []
      ensures bindings == if shaderReadable then map[0 := sampler] else map[]
    {
      rectIndexCount := 0;
      textureIndex := 0;
      textures := new nat[MaxTextureSlots];
      bindings := if shaderReadable then map[0 := sampler] else map[];
      vertices := [];
      sampled := [];
      draws := [];
    }

    /** Flush: records one draw of the batch's indices, and nothing when the batch is empty. */
    method Flush()
      requires Valid()
      modifies this
      ensures Valid()
      ensures draws == old(draws) + Flushed(old(rectIndexCount))
      ensures rectIndexCount == old(rectIndexCount) && textureIndex == old(textureIndex)
      ensures vertices == old(vertices) && sampled == old(sampled) && bindings == old(bindings)
    {
      if rectIndexCount == 0 {
        return;
      }
      draws := draws + [rectIndexCount];
    }

    /** StartBatch: an empty batch, from the start of the vertex buffer, with no texture slots taken. */
    method StartBatch()
      requires Valid()
      modifies this
      ensures Valid()
      ensures rectIndexCount == 0 && textureIndex == 0 && vertices == [] && sampled == []
      ensures draws == old(draws) && bindings == old(bindings)
    {
      rectIndexCount := 0;
      vertices := [];
      sampled := [];
      textureIndex := 0;
    }

    method NextBatch()
      requires Valid()
      modifies this
      ensures Valid()
      ensures draws == old(draws) + Flushed(old(rectIndexCount))
      ensures rectIndexCount == 0 && textureIndex == 0 && vertices == [] && sampled == []
      ensures bindings == old(bindings)
    {
      Flush();
      StartBatch();
    }

    /** The search loop over the batch's texture slots. */
    method FindTexture(texture: nat) returns (index: nat)
      requires Valid()
      ensures index == FirstSlot(textures[..textureIndex], texture)
    {
      index := 0;
      while index < textureIndex
        invariant index <= textureIndex
        invariant forall j :: 0 <= j < index ==> textures[j] != texture
      {
        if textures[index] == texture {
          break;
        }
        index := index + 1;
      }
      FirstSlotUnique(textures[..textureIndex], texture, index);
    }

    /**
     * The texture-slot choice of DrawRect: the slot already holding the
     * texture, or the next free one, which is filled and bound at
     * binding slot + 1.
     */
    method TakeSlot(texture: nat) returns (index: nat)
      requires Valid() && textureIndex < MaxTextureSlots
      modifies this, textures
      ensures Valid()
      ensures (index, textureIndex) == TexIndex(old(textures[..textureIndex]), texture)
      ensures textures[..textureIndex] ==
        if textureIndex == old(textureIndex) then old(textures[..textureIndex]) else old(textures[..textureIndex]) + [texture]
      ensures bindings ==
        if textureIndex == old(textureIndex) then old(bindings) else old(bindings)[textureIndex := texture]
      ensures rectIndexCount == old(rectIndexCount) && draws == old(draws)
      ensures vertices == old(vertices) && sampled == old(sampled)
    {
      index := FindTexture(texture);
      if index == textureIndex {
        index := textureIndex;
        textureIndex := textureIndex + 1;
        bindings := bindings[textureIndex := texture];
        textures[index] := texture;
        assert textures[..textureIndex] == old(textures[..textureIndex]) + [texture];
      }
      forall j | 0 <= j < textureIndex
        ensures BoundAt(bindings, textures, j)
      {
        if j < old(textureIndex) {
          assert old(BoundAt(bindings, textures, j));
        }
      }
    }

    /** The four vertices of one rectangle, and its six indices. */
    method WriteQuad(index: nat, texture: nat, objectId: int)
      requires Valid() && index < textureIndex && textures[index] == texture
      requires rectIndexCount < MaxIndices
      modifies this
      ensures Valid()
      ensures vertices == old(vertices) + Quad(index, objectId)
      ensures sampled == old(sampled) + [texture, texture, texture, texture]
      ensures rectIndexCount == old(rectIndexCount) + 6
      ensures textureIndex == old(textureIndex) && bindings == old(bindings) && draws == old(draws)
    {
      for i := 0 to 4
        invariant vertices == old(vertices) + Quad(index, objectId)[..i]
        invariant sampled == old(sampled) + [texture, texture, texture, texture][..i]
        invariant textureIndex == old(textureIndex) && rectIndexCount == old(rectIndexCount)
        invariant bindings == old(bindings) && draws == old(draws)
      {
        vertices := vertices + [RectVertex(i, index, objectId)];
        sampled := sampled + [texture];
      }
      rectIndexCount := rectIndexCount + 6;
    }

    /**
     * DrawRect with the texture index corrected: a full batch (by indices or
     * by texture slots) is flushed first; the rectangle's vertices then name
     * the slot holding its texture.
     */
    method DrawRect(texture: nat, objectId: int)
      requires Valid()
      modifies this, textures
      ensures Valid()
      ensures var restart := old(rectIndexCount) >= MaxIndices || old(textureIndex) >= MaxTextureSlots;
        draws == old(draws) + (if restart then Flushed(old(rectIndexCount)) else [])
      ensures var restart := old(rectIndexCount) >= MaxIndices || old(textureIndex) >= MaxTextureSlots;
        var slots := if restart then [] else old(textures[..textureIndex]);
        var (index, count) := TexIndex(slots, texture);
        textureIndex == count &&
        textures[..textureIndex] == (if count == |slots| then slots else slots + [texture]) &&
        vertices == (if restart then [] else old(vertices)) + Quad(index, objectId) &&
        sampled == (if restart then [] else old(sampled)) + [texture, texture, texture, texture] &&
        rectIndexCount == (if restart then 0 else old(rectIndexCount)) + 6
      ensures forall i :: |vertices| - 4 <= i < |vertices| ==>
        0 <= vertices[i].texIndex < textureIndex && textures[vertices[i].texIndex] == texture
    {
      if rectIndexCount >= MaxIndices || textureIndex >= MaxTextureSlots {
        NextBatch();
      }
      var index := TakeSlot(texture);
      WriteQuad(index, texture, objectId);
    }
  }

  /** The first matching slot is the only index with a match there and none before. */
  lemma FirstSlotUnique(textures: seq<nat>, texture: nat, i: nat)
    requires i <= |textures|
    requires i < |textures| ==> textures[i] == texture
    requires forall j :: 0 <= j < i ==> textures[j] != texture
    ensures i == FirstSlot(textures, texture)
  {}
}

=== FILE: render_context.dfy ===
// The D3D12 render context (Platform/D3D12/RenderContext.cpp): the
// rectangle intersection area, the swap-chain colour space, the choice of
// the output that shows most of the window, the HDR metadata and the two
// fence waits.
//
// DXGI and the GPU are I/O: the colour spaces the swap chain can present,
// the outputs and their descriptions, the back-buffer index the swap chain
// hands out and the fence are inputs or fields. Areas are unbounded
// integers (the source's int product could overflow for huge rectangles),
// and the best area, which the source keeps in a float, is exact here.

module RenderContext {
  import opened Common

  /** (x1, y1) the left-top corner, (x2, y2) the right-bottom corner. */
  datatype Rect = Rect(x1: int, y1: int, x2: int, y2: int)

  /** The overlap of [lo1, hi1) and [lo2, hi2), or 0. */
  function Overlap(lo1: int, hi1: int, lo2: int, hi2: int): (r: int)
    ensures r >= 0
    ensures r == Max(0, Min(hi1, hi2) - Max(lo1, lo2))
  {
    Max(0, Min(hi1, hi2) - Max(lo1, lo2))
  }

  /** ComputeIntersectionArea: the overlap in x times the overlap in y. */
  function IntersectionArea(a: Rect, b: Rect): (area: int)
    ensures area >= 0
  {
    Overlap(a.x1, a.x2, b.x1, b.x2) * Overlap(a.y1, a.y2, b.y1, b.y2)
  }

  lemma IntersectionSymmetric(a: Rect, b: Rect)
    ensures IntersectionArea(a, b) == IntersectionArea(b, a)
  {}

  /** Rectangles that do not overlap in one axis have no common area. */
  lemma DisjointNoArea(a: Rect, b: Rect)
    requires a.x2 <= b.x1 || b.x2 <= a.x1 || a.y2 <= b.y1 || b.y2 <= a.y1
    ensures IntersectionArea(a, b) == 0
  {}

  /** A well-formed rectangle inside another intersects it in its whole area. */
  lemma ContainedFullArea(a: Rect, b: Rect)
    requires a.x1 <= a.x2 && a.y1 <= a.y2
    requires b.x1 <= a.x1 && a.x2 <= b.x2 && b.y1 <= a.y1 && a.y2 <= b.y2
    ensures IntersectionArea(a, b) == (a.x2 - a.x1) * (a.y2 - a.y1)
  {}

  /** The common area never exceeds the area of a well-formed rectangle. */
  lemma AreaBounded(a: Rect, b: Rect)
    requires a.x1 <= a.x2 && a.y1 <= a.y2
    ensures IntersectionArea(a, b) <= (a.x2 - a.x1) * (a.y2 - a.y1)
  {
    var w, h := Overlap(a.x1, a.x2, b.x1, b.x2), Overlap(a.y1, a.y2, b.y1, b.y2);
    MulMonotone(w, a.x2 - a.x1, h);
    assert (a.x2 - a.x1) * h <= (a.x2 - a.x1) * (a.y2 - a.y1);
  }

  datatype ColorSpace = RgbFullG22P709 | RgbFullG2084P2020 | RgbFullG10P709 | OtherColorSpace(code: nat)

  datatype BitDepth = Depth8 | Depth10 | Depth16 | OtherDepth(bits: nat)

  /** The display curve root constant the shaders read. */
  datatype DisplayCurve = CurveSRGB | CurveST2084 | CurveNone

  /** The colour space EnsureSwapChainColorSpace asks for. */
  function TargetColorSpace(depth: BitDepth, st2084: bool): (c: ColorSpace)
    ensures c == RgbFullG2084P2020 <==> depth == Depth10 && st2084
    ensures c == RgbFullG10P709 <==> depth == Depth16
    ensures c == RgbFullG22P709 <==> !(depth == Depth10 && st2084) && depth != Depth16
  {
    match depth
    case Depth10 => if st2084 then RgbFullG2084P2020 else RgbFullG22P709
    case Depth16 => RgbFullG10P709
    case _ => RgbFullG22P709
  }

  /** The display curve it sets; an unknown depth leaves the curve as it was. */
  function CurveFor(depth: BitDepth, st2084: bool, current: DisplayCurve): (c: DisplayCurve)
    ensures depth.OtherDepth? ==> c == current
    ensures c == CurveST2084 && !depth.OtherDepth? <==> depth == Depth10 && st2084
    ensures depth == Depth16 ==> c == CurveNone
  {
    match depth
    case Depth8 => CurveSRGB
    case Depth10 => if st2084 then CurveST2084 else CurveSRGB
    case Depth16 => CurveNone
    case OtherDepth(_) => current
  }

  /** The colour space after the call: the target, if it differs and the swap chain can present it. */
  function NextColorSpace(current: ColorSpace, target: ColorSpace, presentable: set<ColorSpace>): (c: ColorSpace)
    ensures c == target || c == current
    ensures c != current <==> target != current && target in presentable
  {
    if current != target && target in presentable then target else current
  }

  /** Asking twice for the same target changes nothing the second time. */
  lemma NextColorSpaceIdempotent(current: ColorSpace, target: ColorSpace, presentable: set<ColorSpace>)
    ensures var once := NextColorSpace(current, target, presentable);
      NextColorSpace(once, target, presentable) == once
  {}

  /** What an output of the adapter reports: its desktop rectangle and its colour space. */
  datatype OutputDesc = OutputDesc(desktop: Rect, colorSpace: ColorSpace)

  /**
   * The output CheckDisplayHDRSupport settles on among the first n: the
   * first one whose area with the window is larger than every area before
   * it, starting from -1, so the first output is taken when all areas are 0.
   */
  function BestAmong(window: Rect, outputs: seq<OutputDesc>, n: nat): (best: Option<nat>)
    requires n <= |outputs|
    ensures best.None? <==> n == 0
    ensures best.Some? ==> best.value < n
    ensures best.Some? ==> forall k :: 0 <= k < n ==>
      IntersectionArea(window, outputs[k].desktop) <= IntersectionArea(window, outputs[best.value].desktop)
    ensures best.Some? ==> forall k :: 0 <= k < best.value ==>
      IntersectionArea(window, outputs[k].desktop) < IntersectionArea(window, outputs[best.value].desktop)
  {
    if n == 0 then None
    else
      var prev := BestAmong(window, outputs, n - 1);
      var area := IntersectionArea(window, outputs[n - 1].desktop);
      if prev.None? || area > IntersectionArea(window, outputs[prev.value].desktop) then Some(n - 1) else prev
  }

  /** The scan over the outputs: the best index so far and its area, -1 before the first. */
  method BestOutput(window: Rect, outputs: seq<OutputDesc>) returns (best: Option<nat>)
    ensures best == BestAmong(window, outputs, |outputs|)
  {
    best := None;
    var bestArea := -1;
    var i := 0;
    while i < |outputs|
      invariant 0 <= i <= |outputs|
      invariant best == BestAmong(window, outputs, i)
      invariant best.None? ==> bestArea == -1
      invariant best.Some? ==> bestArea == IntersectionArea(window, outputs[best.value].desktop)
    {
      var area := IntersectionArea(window, outputs[i].desktop);
      if area > bestArea {
        best := Some(i);
        bestArea := area;
      }
      i := i + 1;
    }
  }

  /** The first output holding the largest area is the unique output with both properties BestAmong promises. */
  lemma BestAmongUnique(window: Rect, outputs: seq<OutputDesc>, k: nat)
    requires k < |outputs|
    requires forall j :: 0 <= j < |outputs| ==>
      IntersectionArea(window, outputs[j].desktop) <= IntersectionArea(window, outputs[k].desktop)
    requires forall j :: 0 <= j < k ==>
      IntersectionArea(window, outputs[j].desktop) < IntersectionArea(window, outputs[k].desktop)
    ensures BestAmong(window, outputs, |outputs|) == Some(k)
  {}

  /** The chromaticities of the HDR10 metadata. */
  datatype Gamut = Rec709 | Rec2020

  /** A Set call on the swap chain's HDR metadata; the levels are the arguments before conversion. */
  datatype MetadataCall =
    | NoMetadata
    | Hdr10(gamut: Gamut, maxOutputNits: real, minOutputNits: real, maxCLL: real, maxFALL: real)

  /**
   * SetHDRMetaData as written: with HDR support, a depth and colour space
   * that match neither HDR pair set NONE and then go on to set HDR10
   * metadata with the Rec709 chromaticities.
   */
  function HdrMetadataAsWritten(hasSwapchain: bool, hdrSupport: bool, depth: BitDepth, current: ColorSpace,
                                maxNits: real, minNits: real, maxCLL: real, maxFALL: real): (calls: seq<MetadataCall>)
    ensures !hasSwapchain <==> calls == []
    ensures |calls| <= 2
    ensures |calls| == 2 <==>
      (hasSwapchain && hdrSupport &&
       !((depth == Depth16 && current == RgbFullG10P709) || (depth == Depth10 && current == RgbFullG2084P2020)))
    ensures |calls| == 2 ==> calls == [NoMetadata, Hdr10(Rec709, maxNits, minNits, maxCLL, maxFALL)]
  {
    if !hasSwapchain then []
    else if !hdrSupport then [NoMetadata]
    else if depth == Depth16 && current == RgbFullG10P709 then [Hdr10(Rec709, maxNits, minNits, maxCLL, maxFALL)]
    else if depth == Depth10 && current == RgbFullG2084P2020 then [Hdr10(Rec2020, maxNits, minNits, maxCLL, maxFALL)]
    else [NoMetadata, Hdr10(Rec709, maxNits, minNits, maxCLL, maxFALL)]
  }

  /** An 8-bit sRGB swap chain on an HDR display ends up with HDR10 metadata. */
  lemma SdrSwapchainGetsHdr10()
    ensures var calls := HdrMetadataAsWritten(true, true, Depth8, RgbFullG22P709, 1000.0, 0.001, 2000.0, 500.0);
      calls[|calls| - 1].Hdr10?
  {}

  /**
   * SetHDRMetaData as evidently intended: the unmatched case sets NONE and
   * stops, like the branch for a display without HDR support.
   */
  function HdrMetadata(hasSwapchain: bool, hdrSupport: bool, depth: BitDepth, current: ColorSpace,
                       maxNits: real, minNits: real, maxCLL: real, maxFALL: real): (calls: seq<MetadataCall>)
    ensures !hasSwapchain <==> calls == []
    ensures |calls| <= 1
    ensures hasSwapchain ==>
      (calls[0].Hdr10? <==>
        (hdrSupport &&
         ((depth == Depth16 && current == RgbFullG10P709) || (depth == Depth10 && current == RgbFullG2084P2020))))
    ensures hasSwapchain && calls[0].Hdr10? ==> (calls[0].gamut == Rec2020 <==> depth == Depth10)
    ensures hasSwapchain && calls[0].Hdr10? ==>
      calls[0].maxOutputNits == maxNits && calls[0].minOutputNits == minNits &&
      calls[0].maxCLL == maxCLL && calls[0].maxFALL == maxFALL
  {
    if !hasSwapchain then []
    else if !hdrSupport then [NoMetadata]
    else if depth == Depth16 && current == RgbFullG10P709 then [Hdr10(Rec709, maxNits, minNits, maxCLL, maxFALL)]
    else if depth == Depth10 && current == RgbFullG2084P2020 then [Hdr10(Rec2020, maxNits, minNits, maxCLL, maxFALL)]
    else [NoMetadata]
  }

  /** The two agree everywhere except in the unmatched case, where the written one appends HDR10. */
  lemma HdrMetadataDiffersOnlyUnmatched(hasSwapchain: bool, hdrSupport: bool, depth: BitDepth, current: ColorSpace,
                                        maxNits: real, minNits: real, maxCLL: real, maxFALL: real)
    ensures var w := HdrMetadataAsWritten(hasSwapchain, hdrSupport, depth, current, maxNits, minNits, maxCLL, maxFALL);
      var f := HdrMetadata(hasSwapchain, hdrSupport, depth, current, maxNits, minNits, maxCLL, maxFALL);
      w == f || w == f + [Hdr10(Rec709, maxNits, minNits, maxCLL, maxFALL)]
  {}

  class RenderContext {
    var currentColorSpace: ColorSpace
    var displayCurve: DisplayCurve
    var bitDepth: BitDepth
    var hdrSupport: bool
    var hasSwapchain: bool
    /** Every colour space set on the swap chain, in order. */
    var colorSpaceCalls: seq<ColorSpace>
    /** Every HDR metadata Set on the swap chain, in order. */
    var metadataCalls: seq<MetadataCall>
    /** One fence value per frame in flight. */
    const fenceValues: array<nat>
    var frameIndex: nat
    /** The fence: the value the GPU has reached, and every value the queue was told to signal. */
    var completed: nat
    var signals: seq<nat>

    ghost predicate Valid()
      reads this
    {
      frameIndex < fenceValues.Length
    }

    constructor (frameCount: nat)
      requires frameCount > 0
      ensures Valid() && fenceValues.Length == frameCount && frameIndex == 0
      ensures forall i :: 0 <= i < frameCount ==> fenceValues[i] == 0
      ensures currentColorSpace == RgbFullG22P709 && bitDepth == Depth8 && !hdrSupport
      ensures hasSwapchain && colorSpaceCalls == [] && metadataCalls == [] && completed == 0 && signals == []
    {
      fenceValues := new nat[frameCount](_ => 0);
      frameIndex := 0;
      currentColorSpace, displayCurve, bitDepth, hdrSupport, hasSwapchain := RgbFullG22P709, CurveSRGB, Depth8, false, true;
      colorSpaceCalls, metadataCalls, completed, signals := [], [], 0, [];
    }

    /**
     * EnsureSwapChainColorSpace: sets the display curve for the depth, and
     * the target colour space only when it differs from the current one and
     * the swap chain reports it presentable.
     */
    method EnsureSwapChainColorSpace(depth: BitDepth, st2084: bool, presentable: set<ColorSpace>)
      modifies this
      ensures displayCurve == CurveFor(depth, st2084, old(displayCurve))
      ensures currentColorSpace == NextColorSpace(old(currentColorSpace), TargetColorSpace(depth, st2084), presentable)
      ensures colorSpaceCalls == old(colorSpaceCalls) +
        (if currentColorSpace != old(currentColorSpace) then [currentColorSpace] else [])
      ensures bitDepth == old(bitDepth) && hdrSupport == old(hdrSupport) && hasSwapchain == old(hasSwapchain)
      ensures metadataCalls == old(metadataCalls) && frameIndex == old(frameIndex)
      ensures completed == old(completed) && signals == old(signals)
    {
      var colorSpace := RgbFullG22P709;
      match depth {
        case Depth8 =>
          displayCurve := CurveSRGB;
        case Depth10 =>
          colorSpace := if st2084 then RgbFullG2084P2020 else RgbFullG22P709;
          displayCurve := if st2084 then CurveST2084 else CurveSRGB;
        case Depth16 =>
          colorSpace := RgbFullG10P709;
          displayCurve := CurveNone;
        case OtherDepth(_) =>
      }
      if currentColorSpace != colorSpace {
        if colorSpace in presentable {
          colorSpaceCalls := colorSpaceCalls + [colorSpace];
          currentColorSpace := colorSpace;
        }
      }
    }

    /**
     * CheckDisplayHDRSupport: scans the adapter's outputs for the one with
     * the largest area in common with the window (the first on ties) and
     * records whether it presents in the ST.2084 / Rec2020 colour space.
     * With no output at all the source calls through a null bestOutput;
     * the model returns `found` false then and changes nothing.
     */
    method CheckDisplayHDRSupport(window: Rect, outputs: seq<OutputDesc>) returns (found: bool)
      modifies this
      ensures found <==> |outputs| > 0
      ensures found ==> hdrSupport == (outputs[BestAmong(window, outputs, |outputs|).value].colorSpace == RgbFullG2084P2020)
      ensures !found ==> hdrSupport == old(hdrSupport)
      ensures currentColorSpace == old(currentColorSpace) && displayCurve == old(displayCurve)
      ensures bitDepth == old(bitDepth) && hasSwapchain == old(hasSwapchain)
      ensures colorSpaceCalls == old(colorSpaceCalls) && metadataCalls == old(metadataCalls)
      ensures frameIndex == old(frameIndex) && completed == old(completed) && signals == old(signals)
    {
      var best := BestOutput(window, outputs);
      if best.None? {
        return false;
      }
      hdrSupport := outputs[best.value].colorSpace == RgbFullG2084P2020;
      return true;
    }

    /** SetHDRMetaData, with the unmatched case stopping after NONE. */
    method SetHDRMetaData(maxNits: real, minNits: real, maxCLL: real, maxFALL: real)
      modifies this
      ensures metadataCalls == old(metadataCalls) +
        HdrMetadata(hasSwapchain, hdrSupport, bitDepth, currentColorSpace, maxNits, minNits, maxCLL, maxFALL)
      ensures currentColorSpace == old(currentColorSpace) && displayCurve == old(displayCurve)
      ensures bitDepth == old(bitDepth) && hdrSupport == old(hdrSupport) && hasSwapchain == old(hasSwapchain)
      ensures colorSpaceCalls == old(colorSpaceCalls) && frameIndex == old(frameIndex)
      ensures completed == old(completed) && signals == old(signals)
    {
      if !hasSwapchain {
        return;
      }
      if !hdrSupport {
        metadataCalls := metadataCalls + [NoMetadata];
        return;
      }
      var gamut := Rec709;
      if bitDepth == Depth16 && currentColorSpace == RgbFullG10P709 {
        gamut := Rec709;
      } else if bitDepth == Depth10 && currentColorSpace == RgbFullG2084P2020 {
        gamut := Rec2020;
      } else {
        metadataCalls := metadataCalls + [NoMetadata];
        return;
      }
      metadataCalls := metadataCalls + [Hdr10(gamut, maxNits, minNits, maxCLL, maxFALL)];
    }

    /**
     * WaitForGPU: signals the current frame's fence value, waits until the
     * GPU has reached it, and moves that frame's value on by one.
     */
    method WaitForGPU()
      requires Valid()
      modifies this, fenceValues
      ensures Valid()
      ensures signals == old(signals) + [old(fenceValues[frameIndex])]
      ensures completed == Max(old(completed), old(fenceValues[frameIndex]))
      ensures fenceValues[frameIndex] == old(fenceValues[frameIndex]) + 1
      ensures forall i :: 0 <= i < fenceValues.Length && i != frameIndex ==> fenceValues[i] == old(fenceValues[i])
      ensures frameIndex == old(frameIndex)
      ensures currentColorSpace == old(currentColorSpace) && displayCurve == old(displayCurve)
      ensures bitDepth == old(bitDepth) && hdrSupport == old(hdrSupport) && hasSwapchain == old(hasSwapchain)
      ensures colorSpaceCalls == old(colorSpaceCalls) && metadataCalls == old(metadataCalls)
    {
      var value := fenceValues[frameIndex];
      signals := signals + [value];
      completed := Max(completed, value);
      fenceValues[frameIndex] := value + 1;
    }

    /**
     * WaitForPreviousFrame: signals the current frame's value, moves to the
     * back buffer the swap chain hands out next, waits if the GPU has not
     * yet reached that buffer's value, and gives the buffer the signalled
     * value plus one.
     */
    method WaitForPreviousFrame(next: nat) returns (index: nat)
      requires Valid() && next < fenceValues.Length
      modifies this, fenceValues
      ensures Valid() && index == next && frameIndex == next
      ensures signals == old(signals) + [old(fenceValues[frameIndex])]
      ensures completed == Max(old(completed), old(fenceValues[next]))
      ensures fenceValues[next] == old(fenceValues[frameIndex]) + 1
      ensures forall i :: 0 <= i < fenceValues.Length && i != next ==> fenceValues[i] == old(fenceValues[i])
      ensures currentColorSpace == old(currentColorSpace) && displayCurve == old(displayCurve)
      ensures bitDepth == old(bitDepth) && hdrSupport == old(hdrSupport) && hasSwapchain == old(hasSwapchain)
      ensures colorSpaceCalls == old(colorSpaceCalls) && metadataCalls == old(metadataCalls)
    {
      var current := fenceValues[frameIndex];
      signals := signals + [current];
      frameIndex := next;
      if completed < fenceValues[frameIndex] {
        completed := fenceValues[frameIndex];
      }
      fenceValues[frameIndex] := current + 1;
      index := frameIndex;
    }
  }
}

=== FILE: sampling_factor.dfy ===
// Chroma sampling factors (SamplingFactor.h): how many times each plane of
// a YUV picture is halved horizontally (x) and vertically (y).
//
// Format.h is not part of this model. A format is one of the named formats
// the switches mention, or another format carrying the two answers Picture
// asks of Format::IsType (YUV and high bit depth).

module Sampling {

  datatype Format =
    | YUV444P | YUV444P10 | YUV444P12 | YUV444P16
    | YUV422P | YUV422P10 | YUV422P12 | YUV422P16
    | YUV420P | YUV420P10 | YUV420P12 | YUV420P16
    | NV12 | P010LE | Y210 | Y216
    | OtherFormat(code: nat, yuv: bool, highBitDepth: bool)

  /** Format::IsType(YUV): every named format is YUV (meaning inferred from the format names). */
  predicate IsYUV(f: Format)
  {
    !f.OtherFormat? || f.yuv
  }

  /** Format::IsType(HightBitDepth): the 10, 12 and 16-bit formats (meaning inferred from the format names). */
  predicate IsHighBitDepth(f: Format)
  {
    match f
    case YUV444P | YUV422P | YUV420P | NV12 => false
    case OtherFormat(_, _, deep) => deep
    case _ => true
  }

  /** The families GetSamplingFactor's switch tells apart. */
  datatype Family = Planar444 | Planar422 | Planar420 | Packed422 | Unhandled

  function FamilyOf(f: Format): Family
  {
    match f
    case YUV444P | YUV444P10 | YUV444P12 | YUV444P16 => Planar444
    case YUV422P | YUV422P10 | YUV422P12 | YUV422P16 => Planar422
    case YUV420P | YUV420P10 | YUV420P12 | YUV420P16 | NV12 | P010LE => Planar420
    case Y210 | Y216 => Packed422
    case OtherFormat(_, _, _) => Unhandled
  }

  /** The three-plane families GetSamplingFactor handles. */
  predicate IsPlanar(f: Format)
  {
    FamilyOf(f) in {Planar444, Planar422, Planar420}
  }

  datatype SamplingFactor = SamplingFactor(x: nat, y: nat)

  /** The default factor: no subsampling. */
  const Full := SamplingFactor(0, 0)

  /**
   * SamplingFactor(format): the chroma factor of the 8 and 10-bit planar
   * formats, NV12 and P010LE; every other format keeps (0, 0).
   */
  function FactorOf(f: Format): (s: SamplingFactor)
    ensures s.x == 1 <==> f in {YUV422P, YUV422P10, YUV420P, YUV420P10, NV12, P010LE}
    ensures s.y == 1 <==> f in {YUV420P, YUV420P10, NV12, P010LE}
    ensures s.x <= 1 && s.y <= s.x
  {
    match f
    case YUV444P | YUV444P10 => SamplingFactor(0, 0)
    case YUV422P | YUV422P10 => SamplingFactor(1, 0)
    case YUV420P | YUV420P10 | NV12 | P010LE => SamplingFactor(1, 1)
    case _ => Full
  }

  /** The factors GetSamplingFactor writes, plane by plane from plane 0. */
  function PlaneFactors(f: Format): (p: seq<SamplingFactor>)
    ensures IsPlanar(f) ==> |p| == 3 && p[0] == Full && p[1] == p[2]
    ensures FamilyOf(f) == Planar444 ==> p[1] == Full
    ensures FamilyOf(f) == Planar422 ==> p[1] == SamplingFactor(1, 0)
    ensures FamilyOf(f) == Planar420 ==> p[1] == SamplingFactor(1, 1)
    ensures FamilyOf(f) == Packed422 ==> p == [SamplingFactor(1, 0)]
    ensures FamilyOf(f) == Unhandled ==> p == []
  {
    match FamilyOf(f)
    case Planar444 => [Full, Full, Full]
    case Planar422 => [Full, SamplingFactor(1, 0), SamplingFactor(1, 0)]
    case Planar420 => [Full, SamplingFactor(1, 1), SamplingFactor(1, 1)]
    case Packed422 => [SamplingFactor(1, 0)]
    case Unhandled => []
  }

  /** GetSamplingFactor: writes the planes it knows and leaves the rest of the caller's array alone. */
  method GetSamplingFactor(format: Format, factors: array<SamplingFactor>)
    requires factors.Length >= |PlaneFactors(format)|
    modifies factors
    ensures factors[..] == PlaneFactors(format) + old(factors[|PlaneFactors(format)|..])
  {
    match format {
      case YUV444P | YUV444P10 | YUV444P12 | YUV444P16 =>
        factors[0] := Full;
        factors[1] := Full;
        factors[2] := Full;
      case YUV422P | YUV422P10 | YUV422P12 | YUV422P16 =>
        factors[0] := Full;
        factors[1] := SamplingFactor(1, 0);
        factors[2] := SamplingFactor(1, 0);
      case YUV420P | YUV420P10 | YUV420P12 | YUV420P16 | NV12 | P010LE =>
        factors[0] := Full;
        factors[1] := SamplingFactor(1, 1);
        factors[2] := SamplingFactor(1, 1);
      case Y210 | Y216 =>
        factors[0] := SamplingFactor(1, 0);
      case OtherFormat(_, _, _) =>
    }
  }

  /**
   * Where the format constructor picks a factor, it is the chroma factor
   * GetSamplingFactor gives planes 1 and 2.
   */
  lemma ConstructorMatchesChroma(f: Format)
    requires f in {YUV444P, YUV444P10, YUV422P, YUV422P10, YUV420P, YUV420P10, NV12, P010LE}
    ensures |PlaneFactors(f)| == 3 && FactorOf(f) == PlaneFactors(f)[1] == PlaneFactors(f)[2]
  {}

  /**
   * The 12 and 16-bit planar formats are the exception: the constructor
   * keeps (0, 0) while GetSamplingFactor subsamples their chroma.
   */
  lemma ConstructorIgnoresDeepFormats(f: Format)
    requires f in {YUV422P12, YUV422P16, YUV420P12, YUV420P16}
    ensures FactorOf(f) == Full && PlaneFactors(f)[1] != Full
  {}
}

=== FILE: texture.dfy ===
// Texture (Texture.h): the mip-level count of a width × height texture and
// the exchange of the metadata two textures hold.
//
// Width and height are unsigned; `x >> k` is x / 2^k. The model takes the
// integer type wide enough that no shift reaches its width.

module Textures {
  import opened Common
  import opened Sampling

  /** The loop's exit test: one side shifted right by `levels` is 0. */
  predicate Stops(width: nat, height: nat, levels: nat)
  {
    width / Pow2(levels) == 0 || height / Pow2(levels) == 0
  }

  /** 1 + floor(log2 m) for m >= 1, and 1 for m < 2. */
  function Levels(m: nat): (l: nat)
    ensures l >= 1
    decreases m
  {
    if m < 2 then 1 else 1 + Levels(m / 2)
  }

  /** The mip-level count, as a function of the shorter side. */
  function MipLevels(width: nat, height: nat): (l: nat)
    ensures l >= 1
  {
    Levels(Min(width, height))
  }

  lemma DivIsZero(x: nat, d: nat)
    requires d >= 1
    ensures x / d == 0 <==> x < d
  {
    if x >= d {
      assert x / d >= 1;
    }
  }

  /** m < 2^Levels(m), and m >= 2^l for every l from 1 below Levels(m). */
  lemma {:induction false} LevelsBounds(m: nat)
    ensures m < Pow2(Levels(m))
    ensures forall l: nat :: 1 <= l < Levels(m) ==> Pow2(l) <= m
    decreases m
  {
    if m >= 2 {
      LevelsBounds(m / 2);
      forall l: nat | 1 <= l < Levels(m)
        ensures Pow2(l) <= m
      {
        if l > 1 {
          assert Pow2(l - 1) <= m / 2;
        }
      }
    }
  }

  /** Stops at L exactly when the shorter side is below 2^L. */
  lemma StopsIff(width: nat, height: nat, levels: nat)
    ensures Stops(width, height, levels) <==> Min(width, height) < Pow2(levels)
  {
    DivIsZero(width, Pow2(levels));
    DivIsZero(height, Pow2(levels));
  }

  /** MipLevels is the least L >= 1 at which the loop stops. */
  lemma MipLevelsLeast(width: nat, height: nat)
    ensures Stops(width, height, MipLevels(width, height))
    ensures forall l: nat :: 1 <= l < MipLevels(width, height) ==> !Stops(width, height, l)
  {
    var m := Min(width, height);
    LevelsBounds(m);
    StopsIff(width, height, MipLevels(width, height));
    forall l: nat | 1 <= l < MipLevels(width, height)
      ensures !Stops(width, height, l)
    {
      StopsIff(width, height, l);
    }
  }

  /** A texture with a zero side has one level. */
  lemma ZeroSideOneLevel(width: nat, height: nat)
    requires width == 0 || height == 0
    ensures MipLevels(width, height) == 1
  {}

  /** Exchanging width and height gives the same count. */
  lemma MipLevelsSymmetric(width: nat, height: nat)
    ensures MipLevels(width, height) == MipLevels(height, width)
  {}

  /** A 1920 × 1080 texture has 11 levels (1080 >> 11 == 0, 1080 >> 10 == 1). */
  lemma FullHdLevels()
    ensures MipLevels(1920, 1080) == 11
  {
    assert Levels(1) == 1;
    assert Levels(2) == 2;
    assert Levels(4) == 3;
    assert Levels(8) == 4;
    assert Levels(16) == 5;
    assert Levels(33) == 6;
    assert Levels(67) == 7;
    assert Levels(135) == 8;
    assert Levels(270) == 9;
    assert Levels(540) == 10;
  }

  /** CalculateMipmapLevels: counts up from 1 while both sides shifted right stay non-zero. */
  method CalculateMipmapLevels(width: nat, height: nat) returns (levels: nat)
    ensures levels == MipLevels(width, height)
  {
    MipLevelsLeast(width, height);
    levels := 1;
    while width / Pow2(levels) != 0 && height / Pow2(levels) != 0
      invariant 1 <= levels <= MipLevels(width, height)
      invariant forall l: nat :: 1 <= l < levels ==> !Stops(width, height, l)
      decreases MipLevels(width, height) - levels
    {
      levels := levels + 1;
    }
    assert Stops(width, height, levels);
  }

  class Texture {
    var format: Format
    var width: nat
    var height: nat
    var mipLevels: nat
    var arrayLayers: nat

    constructor (format: Format, width: nat, height: nat, mipLevels: nat, arrayLayers: nat)
      ensures this.format == format && this.width == width && this.height == height
      ensures this.mipLevels == mipLevels && this.arrayLayers == arrayLayers
    {
      this.format := format;
      this.width := width;
      this.height := height;
      this.mipLevels := mipLevels;
      this.arrayLayers := arrayLayers;
    }

    /** Swap: the five metadata fields change places, and nothing else. */
    method Swap(other: Texture)
      modifies this, other
      ensures format == old(other.format) && other.format == old(format)
      ensures width == old(other.width) && other.width == old(width)
      ensures height == old(other.height) && other.height == old(height)
      ensures mipLevels == old(other.mipLevels) && other.mipLevels == old(mipLevels)
      ensures arrayLayers == old(other.arrayLayers) && other.arrayLayers == old(arrayLayers)
    {
      format, other.format := other.format, format;
      width, other.width := other.width, width;
      height, other.height := other.height, height;
      mipLevels, other.mipLevels := other.mipLevels, mipLevels;
      arrayLayers, other.arrayLayers := other.arrayLayers, arrayLayers;
    }
  }
}

=== FILE: vulkan_device.dfy ===
// The Vulkan device's selection rules: queue priorities, device-extension
// enabling, dedicated queue-family choice, first-fit queue occupation, the
// per-thread command-pool map, the memory-type scan and the rotating destroy
// queues.
//
// Queue capabilities are sets of capability bits; memory-type bits and
// property flags are 32-bit words, as in the source. Native objects are
// numbers drawn from a counter, and the deferred destroy callbacks are
// identified by numbers whose invocation is recorded in a trace.

module VulkanDevice {
  import opened Common

  datatype QueueBit = GraphicsBit | ComputeBit | TransferBit | OtherBit

  datatype QueueFamily = QueueFamily(flags: set<QueueBit>, queueCount: nat)

  /** A compute request excludes graphics families; a transfer request excludes graphics and compute ones. */
  function ExclusionMask(request: set<QueueBit>): (mask: set<QueueBit>)
    ensures GraphicsBit in mask <==> ComputeBit in request || TransferBit in request
    ensures ComputeBit in mask <==> TransferBit in request
    ensures TransferBit !in mask && OtherBit !in mask
  {
    (if ComputeBit in request then {GraphicsBit} else {})
    + (if TransferBit in request then {GraphicsBit, ComputeBit} else {})
  }

  /** A family serves the request: it has a requested bit and none of the excluded ones. */
  predicate Serves(family: QueueFamily, request: set<QueueBit>)
  {
    family.flags * request != {} && family.flags * ExclusionMask(request) == {}
  }

  /** GetQueueFailyIndex as a function: the first serving family, or 0 when none serves. */
  function FamilyIndex(families: seq<QueueFamily>, request: set<QueueBit>): (r: nat)
    ensures (exists i :: 0 <= i < |families| && Serves(families[i], request)) ==>
              r < |families| && Serves(families[r], request)
              && forall j :: 0 <= j < r ==> !Serves(families[j], request)
    ensures (forall i :: 0 <= i < |families| ==> !Serves(families[i], request)) ==> r == 0
  {
    if families == [] then 0
    else if Serves(families[0], request) then 0
    else
      var rest := FamilyIndex(families[1..], request);
      if exists i :: 0 <= i < |families[1..]| && Serves(families[1..][i], request) then rest + 1
      else 0
  }

  /** GetQueueFailyIndex: a read-only scan of the queue-family properties. */
  method GetQueueFamilyIndex(families: seq<QueueFamily>, request: set<QueueBit>) returns (r: nat)
    ensures r == FamilyIndex(families, request)
  {
    var mask: set<QueueBit> := {};
    if ComputeBit in request {
      mask := mask + {GraphicsBit};
    }
    if TransferBit in request {
      mask := mask + {GraphicsBit, ComputeBit};
    }
    assert mask == ExclusionMask(request);
    var i := 0;
    while i < |families|
      invariant 0 <= i <= |families|
      invariant forall j :: 0 <= j < i ==> !Serves(families[j], request)
    {
      var queueFlags := families[i].flags;
      if queueFlags * request != {} && queueFlags * mask == {} {
        FamilyIndexIsFirst(families, request, i);
        return i;
      }
      i := i + 1;
    }
    return 0;
  }

  lemma {:induction false} FamilyIndexIsFirst(families: seq<QueueFamily>, request: set<QueueBit>, i: nat)
    requires i < |families| && Serves(families[i], request)
    requires forall j :: 0 <= j < i ==> !Serves(families[j], request)
    ensures FamilyIndex(families, request) == i
  {
    assert exists k :: 0 <= k < |families| && Serves(families[k], request);
  }

  /** A dedicated transfer family is never the graphics or compute family a compute request would pick. */
  lemma DedicatedTransferFamily(families: seq<QueueFamily>)
    requires exists i :: 0 <= i < |families| && Serves(families[i], {TransferBit})
    ensures var f := families[FamilyIndex(families, {TransferBit})].flags;
            TransferBit in f && GraphicsBit !in f && ComputeBit !in f
  {}

  /** 0.5 for every queue, 1.0 for queue 0 of the high-priority graphics family. */
  datatype Priority = Normal | High

  method QueuePriorities(families: seq<QueueFamily>, highPriorityGraphics: bool) returns (props: seq<seq<Priority>>)
    requires highPriorityGraphics && FamilyIndex(families, {GraphicsBit}) < |families| ==>
               families[FamilyIndex(families, {GraphicsBit})].queueCount >= 1
    ensures |props| == |families|
    ensures forall i :: 0 <= i < |families| ==> |props[i]| == families[i].queueCount
    ensures forall i, j :: 0 <= i < |families| && 0 <= j < |props[i]| ==>
              (props[i][j] == High <==>
                 highPriorityGraphics && j == 0 && i == FamilyIndex(families, {GraphicsBit}))
  {
    props := [];
    var index := 0;
    while index < |families|
      invariant 0 <= index <= |families| && |props| == index
      invariant forall i :: 0 <= i < index ==> |props[i]| == families[i].queueCount
      invariant forall i, j :: 0 <= i < index && 0 <= j < |props[i]| ==>
                  (props[i][j] == High <==>
                     highPriorityGraphics && j == 0 && i == FamilyIndex(families, {GraphicsBit}))
    {
      var row := seq(families[index].queueCount, _ => Normal);
      var graphics := GetQueueFamilyIndex(families, {GraphicsBit});
      if highPriorityGraphics && graphics == index {
        row := row[0 := High];
      }
      props := props + [row];
      index := index + 1;
    }
  }

  datatype Enabling = Enabled(extensions: seq<string>) | MissingRequired(name: string)

  const DedicatedAllocationPair: seq<string> := ["VK_KHR_get_memory_requirements2", "VK_KHR_dedicated_allocation"]

  /** The requested extensions that are supported, in request order. */
  function Supported(requested: seq<(string, bool)>, supported: set<string>): (names: seq<string>)
    ensures forall n :: n in names <==> exists k :: 0 <= k < |requested| && requested[k].0 == n && n in supported
  {
    if requested == [] then []
    else
      var rest := Supported(requested[1..], supported);
      assert forall k :: 1 <= k < |requested| ==> requested[k] == requested[1..][k - 1];
      if requested[0].0 in supported then [requested[0].0] + rest else rest
  }

  /**
   * Device-extension enabling: the dedicated-allocation pair when both are
   * supported, then every requested extension that is supported, in order; a
   * missing optional one is skipped, a missing required one stops device
   * creation.
   */
  method EnableExtensions(supported: set<string>, requested: seq<(string, bool)>) returns (r: Enabling)
    ensures r.MissingRequired? <==> exists k :: 0 <= k < |requested| && requested[k].0 !in supported && !requested[k].1
    ensures r.MissingRequired? ==> r.name !in supported
    ensures r.Enabled? ==>
              r.extensions == (if DedicatedAllocationPair[0] in supported && DedicatedAllocationPair[1] in supported
                               then DedicatedAllocationPair else [])
                              + Supported(requested, supported)
  {
    var enabled: seq<string> := [];
    if DedicatedAllocationPair[0] in supported && DedicatedAllocationPair[1] in supported {
      enabled := DedicatedAllocationPair;
    }
    ghost var prefix := enabled;
    var i := 0;
    while i < |requested|
      invariant 0 <= i <= |requested|
      invariant enabled == prefix + SupportedPrefix(requested, supported, i)
      invariant forall k :: 0 <= k < i ==> requested[k].0 in supported || requested[k].1
    {
      var (name, isOptional) := requested[i];
      if name in supported {
        enabled := enabled + [name];
      } else if !isOptional {
        return MissingRequired(name);
      }
      SupportedPrefixStep(requested, supported, i);
      i := i + 1;
    }
    SupportedPrefixAll(requested, supported);
    return Enabled(enabled);
  }

  /** The supported names among the first i requests. */
  function SupportedPrefix(requested: seq<(string, bool)>, supported: set<string>, i: nat): seq<string>
    requires i <= |requested|
  {
    Supported(requested[..i], supported)
  }

  lemma {:induction false} SupportedAppend(a: seq<(string, bool)>, x: (string, bool), supported: set<string>)
    ensures Supported(a + [x], supported) == Supported(a, supported) + (if x.0 in supported then [x.0] else [])
  {
    if a == [] {
      assert [x][1..] == [];
    } else {
      assert (a + [x])[1..] == a[1..] + [x];
      SupportedAppend(a[1..], x, supported);
    }
  }

  lemma SupportedPrefixStep(requested: seq<(string, bool)>, supported: set<string>, i: nat)
    requires i < |requested|
    ensures SupportedPrefix(requested, supported, i + 1)
            == SupportedPrefix(requested, supported, i) + (if requested[i].0 in supported then [requested[i].0] else [])
  {
    assert requested[..i + 1] == requested[..i] + [requested[i]];
    SupportedAppend(requested[..i], requested[i], supported);
  }

  lemma SupportedPrefixAll(requested: seq<(string, bool)>, supported: set<string>)
    ensures SupportedPrefix(requested, supported, |requested|) == Supported(requested, supported)
  {
    assert requested[..|requested|] == requested;
  }

  /** A bit position of a 32-bit word. */
  type Pos32 = k: bv6 | k < 32

  /** The k-th bit of a 32-bit word. */
  predicate Bit32(w: bv32, k: Pos32)
  {
    (w >> k) & 1 == 1
  }

  /** memoryTypes[k].propertyFlags. */
  function FlagsOf(propertyFlags: seq<bv32>, k: Pos32): bv32
    requires |propertyFlags| == 32
  {
    propertyFlags[k]
  }

  /** A memory type fits: its bit is set in the requirement bits and its flags include the requested properties. */
  predicate Fits(bits: bv32, propertyFlags: seq<bv32>, properties: bv32, k: Pos32)
    requires |propertyFlags| == 32
  {
    Bit32(bits, k) && FlagsOf(propertyFlags, k) & properties == properties
  }

  datatype MemoryTypeResult = Found(index: Pos32) | NotFound | AssertFailed

  /** The scan's local `bits` after k shifts. */
  function Shifted(bits: bv32, k: bv6): bv32
    requires k <= 32
  {
    bits >> k
  }

  lemma ShiftStep(bits: bv32, b: bv32, k: Pos32)
    requires b == Shifted(bits, k)
    ensures b >> 1 == Shifted(bits, k + 1)
  {}

  lemma LowBit(bits: bv32, b: bv32, k: Pos32)
    requires b == Shifted(bits, k)
    ensures (b & 1 == 1) == Bit32(bits, k)
  {}

  /**
   * GetMemoryType over the device's VK_MAX_MEMORY_TYPES (32) property
   * entries, of which the first memoryTypeCount are real: the least i below
   * memoryTypeCount whose bit is set and whose flags include `properties`.
   * When none fits, NotFound if the caller passed a flag to report it,
   * otherwise the assertion fails.
   */
  method GetMemoryType(bits: bv32, propertyFlags: seq<bv32>, memoryTypeCount: bv6, properties: bv32, reportsFound: bool)
      returns (r: MemoryTypeResult)
    requires |propertyFlags| == 32 && memoryTypeCount <= 32
    ensures r.Found? <==> exists k: Pos32 :: k < memoryTypeCount && Fits(bits, propertyFlags, properties, k)
    ensures r.Found? ==> r.index < memoryTypeCount && Fits(bits, propertyFlags, properties, r.index)
                         && forall k: Pos32 :: k < r.index ==> !Fits(bits, propertyFlags, properties, k)
    ensures r.NotFound? <==> !r.Found? && reportsFound
  {
    var found := FirstFit(bits, propertyFlags, memoryTypeCount, properties);
    if found.Some? {
      return Found(found.value);
    }
    if reportsFound {
      return NotFound;
    }
    return AssertFailed;
  }

  /** No memory type below i fits. */
  ghost predicate NoFitBelow(bits: bv32, propertyFlags: seq<bv32>, properties: bv32, i: bv6)
    requires |propertyFlags| == 32
  {
    forall k: Pos32 :: k < i ==> !Fits(bits, propertyFlags, properties, k)
  }

  lemma NoFitStep(bits: bv32, propertyFlags: seq<bv32>, properties: bv32, i: Pos32)
    requires |propertyFlags| == 32
    requires NoFitBelow(bits, propertyFlags, properties, i)
    requires !Fits(bits, propertyFlags, properties, i)
    ensures NoFitBelow(bits, propertyFlags, properties, i + 1)
  {}

  /** The scan itself: shift the requirement bits one type at a time. */
  method FirstFit(bits: bv32, propertyFlags: seq<bv32>, memoryTypeCount: bv6, properties: bv32)
      returns (r: Option<Pos32>)
    requires |propertyFlags| == 32 && memoryTypeCount <= 32
    ensures r.Some? ==> r.value < memoryTypeCount && Fits(bits, propertyFlags, properties, r.value)
    ensures forall k: Pos32 :: k < memoryTypeCount && (r.None? || k < r.value) ==>
              !Fits(bits, propertyFlags, properties, k)
  {
    var b := bits;
    var i: bv6 := 0;
    while i < memoryTypeCount
      invariant i <= memoryTypeCount
      invariant b == Shifted(bits, i)
      invariant NoFitBelow(bits, propertyFlags, properties, i)
    {
      LowBit(bits, b, i);
      if b & 1 == 1 {
        if FlagsOf(propertyFlags, i) & properties == properties {
          return Some(i);
        }
      }
      NoFitStep(bits, propertyFlags, properties, i);
      ShiftStep(bits, b, i);
      b := b >> 1;
      i := i + 1;
    }
    return None;
  }

  class Device {
    const families: seq<QueueFamily>
    /** queues[f][q].IsOccupied(), per family and queue. */
    var occupied: seq<seq<bool>>
    /** Command pools by thread id. */
    var commandPools: map<nat, nat>
    var nextObject: nat
    /** The deferred-destruction queues and their two cursors. */
    var destroyQueues: seq<seq<nat>>
    var working: nat
    var freeing: nat
    /** Destroy callbacks run so far, in order. */
    var destroyed: seq<nat>

    ghost predicate Valid()
      reads this
    {
      && |families| >= 1 && families[0].queueCount >= 1
      && |occupied| == |families|
      && (forall f :: 0 <= f < |families| ==> |occupied[f]| == families[f].queueCount)
      && working < |destroyQueues| && freeing < |destroyQueues|
      && (forall t :: t in commandPools ==> commandPools[t] < nextObject)
    }

    /** Queue q of family f can take a request for `flags`. */
    static predicate Available(families: seq<QueueFamily>, occupied: seq<seq<bool>>, f: nat, q: nat, flags: set<QueueBit>)
    {
      f < |families| && f < |occupied| && q < |occupied[f]| && flags <= families[f].flags && !occupied[f][q]
    }

    /** (f, q) comes before (f', q') in the family-major scan. */
    static predicate Before(f: nat, q: nat, f': nat, q': nat)
    {
      f < f' || (f == f' && q < q')
    }

    constructor (families: seq<QueueFamily>, destroyQueueCount: nat)
      requires |families| >= 1 && families[0].queueCount >= 1
      requires destroyQueueCount >= 1
      ensures Valid() && this.families == families
      ensures forall f, q :: 0 <= f < |families| && 0 <= q < |occupied[f]| ==> !occupied[f][q]
      ensures commandPools == map[] && destroyed == []
      ensures |destroyQueues| == destroyQueueCount && forall k :: 0 <= k < destroyQueueCount ==> destroyQueues[k] == []
    {
      this.families := families;
      occupied := seq(|families|, f requires 0 <= f < |families| => seq(families[f].queueCount, _ => false));
      commandPools := map[];
      nextObject := 0;
      destroyQueues := seq(destroyQueueCount, _ => []);
      working, freeing := 0, 0;
      destroyed := [];
    }

    /** The first free queue, in family-major order, whose family has every requested bit. */
    method FindFreeQueue(flags: set<QueueBit>) returns (r: Option<(nat, nat)>)
      requires Valid()
      ensures r.Some? ==> r.value.0 < |families| && r.value.1 < families[r.value.0].queueCount
                          && Available(families, occupied, r.value.0, r.value.1, flags)
                          && forall f, q :: (0 <= f < |families| && 0 <= q < families[f].queueCount
                               && Before(f, q, r.value.0, r.value.1)) ==> !Available(families, occupied, f, q, flags)
      ensures r.None? ==> forall f, q :: 0 <= f < |families| && 0 <= q < families[f].queueCount
                               ==> !Available(families, occupied, f, q, flags)
    {
      var f := 0;
      while f < |families|
        invariant 0 <= f <= |families|
        invariant forall f', q :: 0 <= f' < f && 0 <= q < families[f'].queueCount ==> !Available(families, occupied, f', q, flags)
      {
        var q := 0;
        while q < families[f].queueCount
          invariant 0 <= q <= families[f].queueCount
          invariant forall q' :: 0 <= q' < q ==> !Available(families, occupied, f, q', flags)
        {
          if flags <= families[f].flags && !occupied[f][q] {
            return Some((f, q));
          }
          q := q + 1;
        }
        f := f + 1;
      }
      return None;
    }

    /**
     * CreateQueue: occupies and returns the first free queue whose family has
     * every requested bit; when there is none, queue 0 of family 0 is
     * occupied and returned whatever its state.
     */
    method CreateQueue(flags: set<QueueBit>) returns (f: nat, q: nat)
      requires Valid()
      modifies this
      ensures Valid()
      ensures f < |families| && q < families[f].queueCount
      ensures (exists f', q' :: 0 <= f' < |families| && 0 <= q' < families[f'].queueCount
                 && Available(families, old(occupied), f', q', flags)) ==>
                Available(families, old(occupied), f, q, flags)
                && forall f', q' :: (0 <= f' < |families| && 0 <= q' < families[f'].queueCount
                     && Before(f', q', f, q)) ==> !Available(families, old(occupied), f', q', flags)
      ensures (forall f', q' :: 0 <= f' < |families| && 0 <= q' < families[f'].queueCount
                 ==> !Available(families, old(occupied), f', q', flags)) ==> f == 0 && q == 0
      ensures occupied == old(occupied)[f := old(occupied)[f][q := true]]
      ensures commandPools == old(commandPools) && destroyQueues == old(destroyQueues)
      ensures working == old(working) && freeing == old(freeing) && destroyed == old(destroyed)
    {
      var found := FindFreeQueue(flags);
      if found.Some? {
        f, q := found.value.0, found.value.1;
      } else {
        f, q := 0, 0;
      }
      occupied := occupied[f := occupied[f][q := true]];
    }

    /** One command pool per thread id, created on the thread's first request and reused afterwards. */
    method CommandPoolFor(threadId: nat) returns (pool: nat)
      requires Valid()
      modifies this
      ensures Valid()
      ensures threadId in old(commandPools) ==> pool == old(commandPools)[threadId] && commandPools == old(commandPools)
      ensures threadId !in old(commandPools) ==>
                commandPools == old(commandPools)[threadId := pool]
                && forall t :: t in old(commandPools) ==> old(commandPools)[t] != pool
      ensures occupied == old(occupied) && destroyQueues == old(destroyQueues)
      ensures working == old(working) && freeing == old(freeing) && destroyed == old(destroyed)
    {
      if threadId in commandPools {
        pool := commandPools[threadId];
      } else {
        pool := nextObject;
        nextObject := nextObject + 1;
        commandPools := commandPools[threadId := pool];
      }
    }

    /**
     * DestroyObjects: the queue at `freeing` is taken, both cursors step
     * round the ring, then that queue is drained front to back.
     */
    method DestroyObjects()
      requires Valid()
      modifies this
      ensures Valid()
      ensures working == Rotate(old(working), |old(destroyQueues)|)
      ensures freeing == Rotate(old(freeing), |old(destroyQueues)|)
      ensures destroyed == old(destroyed) + old(destroyQueues)[old(freeing)]
      ensures destroyQueues == old(destroyQueues)[old(freeing) := []]
      ensures occupied == old(occupied) && commandPools == old(commandPools)
    {
      var k := freeing;
      working := Rotate(working, |destroyQueues|);
      freeing := Rotate(freeing, |destroyQueues|);
      var queue := destroyQueues[k];
      var ran := destroyed;
      while queue != []
        invariant ran + queue == destroyed + old(destroyQueues)[k]
        invariant |queue| <= |old(destroyQueues)[k]|
        decreases |queue|
      {
        var func := queue[0];
        queue := queue[1..];
        ran := ran + [func];
      }
      destroyed := ran;
      destroyQueues := destroyQueues[k := []];
    }
  }

  /** Both cursors step together, so the distance between them never changes. */
  lemma RotateKeepsDistance(working: nat, freeing: nat, n: nat)
    requires working < n && freeing < n
    ensures (Rotate(working, n) - Rotate(freeing, n)) % n == (working - freeing) % n
  {
    var d := working - freeing;
    if working + 1 == n && freeing + 1 != n {
      assert Rotate(working, n) - Rotate(freeing, n) == d - n;
      ModShift(d - n, n);
    } else if working + 1 != n && freeing + 1 == n {
      assert Rotate(working, n) - Rotate(freeing, n) == d + n;
      ModShift(d, n);
    } else {
      assert Rotate(working, n) - Rotate(freeing, n) == d;
    }
  }
}

=== FILE: vulkan_image.dfy ===
// The Vulkan image (src/Platform/Vulkan/VulkanImage.cpp): the image type
// an extent gets, the two constructors (wrapping an existing handle and
// creating one through the allocator) and the move constructor.
//
// The allocator call is outside the model: the handle and memory it
// returns are parameters. VulkanImage.h is not part of this model, so a
// member a constructor does not initialise is `None` here (indeterminate
// or the header's default).

module VulkanImage {
  import opened Common

  datatype Extent = Extent(width: nat, height: nat, depth: nat)

  datatype ImageType = Image1D | Image2D | Image3D

  /** How many sides ImageType counts: width >= 1, height >= 1, depth > 1. */
  function Dimensions(e: Extent): (n: nat)
    ensures n <= 3
  {
    (if e.width >= 1 then 1 else 0) + (if e.height >= 1 then 1 else 0) + (if e.depth > 1 then 1 else 0)
  }

  /**
   * ImageType: 1, 2 and 3 counted sides give a 1D, 2D and 3D image. With
   * none it logs an error and returns the zero value, which is 1D.
   */
  function TypeOf(e: Extent): (r: (ImageType, bool))
    ensures r.1 <==> e.width == 0 && e.height == 0 && e.depth <= 1
    ensures r.0 == Image3D <==> e.width >= 1 && e.height >= 1 && e.depth > 1
    ensures r.0 == Image1D <==> Dimensions(e) <= 1
  {
    match Dimensions(e)
    case 0 => (Image1D, true)
    case 1 => (Image1D, false)
    case 2 => (Image2D, false)
    case _ => (Image3D, false)
  }

  /** A flat image (depth 1) with both sides set is 2D, even one pixel high. */
  lemma FlatImagesAre2D(width: nat, height: nat)
    requires width >= 1 && height >= 1
    ensures TypeOf(Extent(width, height, 1)).0 == Image2D
    ensures TypeOf(Extent(width, height, 0)).0 == Image2D
  {}

  datatype Usage = TransferSrc | TransferDst | Sampled | Storage | ColorAttachment
                 | DepthStencilAttachment | TransientAttachment | InputAttachment

  datatype SharingMode = Exclusive | Concurrent

  /** The sharing part of the image create info. */
  datatype Sharing = Sharing(mode: SharingMode, families: seq<nat>)

  /** Concurrent over the given families when there are any, else exclusive with no family list. */
  function SharingFor(numQueueFamilies: nat, queueFamilies: seq<nat>): (s: Sharing)
    requires numQueueFamilies <= |queueFamilies|
    ensures s.mode == Concurrent <==> numQueueFamilies != 0
    ensures |s.families| == numQueueFamilies
    ensures forall k :: 0 <= k < numQueueFamilies ==> s.families[k] == queueFamilies[k]
  {
    if numQueueFamilies != 0 then Sharing(Concurrent, queueFamilies[..numQueueFamilies]) else Sharing(Exclusive, [])
  }

  /** The allocator is asked to prefer lazily allocated memory iff the image is a transient attachment. */
  function PrefersLazy(usage: set<Usage>): (lazy: bool)
    ensures lazy <==> TransientAttachment in usage
  {
    TransientAttachment in usage
  }

  class ImageView {
    /** The image the view refers to, re-pointed by Set. */
    var image: VulkanImage?

    constructor (image: VulkanImage?)
      ensures this.image == image
    {
      this.image := image;
    }
  }

  class VulkanImage {
    var handle: Option<nat>
    var memory: Option<nat>
    var imageType: ImageType
    var extent: Extent
    var format: nat
    var sampleCount: nat
    var usage: set<Usage>
    var tiling: Option<nat>
    var arrayLayerCount: Option<nat>
    /** The subresource: mip levels and array layers. */
    var mipLevel: nat
    var arrayLayer: nat
    var mappedData: Option<nat>
    var mapped: bool
    var views: seq<ImageView>
    /**
     * The create info's sharing and memory preference, for images this class
     * creates. They are locals of the create call in the source, not members,
     * so they are ghost here: they record what was asked of the allocator.
     */
    ghost var sharing: Option<Sharing>
    ghost var lazilyAllocated: bool

    /** Wrapping an existing handle: the type from the extent and a subresource of one level and one layer. */
    constructor Wrapping(handle: nat, extent: Extent, format: nat, usage: set<Usage>, sampleCount: nat)
      ensures this.handle == Some(handle) && this.extent == extent && imageType == TypeOf(extent).0
      ensures this.format == format && this.usage == usage && this.sampleCount == sampleCount
      ensures mipLevel == 1 && arrayLayer == 1
      ensures arrayLayerCount == None && tiling == None && memory == None && sharing == None
      ensures views == [] && !mapped && mappedData == None
    {
      this.handle := Some(handle);
      this.extent := extent;
      imageType := TypeOf(extent).0;
      this.format := format;
      this.usage := usage;
      this.sampleCount := sampleCount;
      mipLevel, arrayLayer := 1, 1;
      arrayLayerCount, tiling, memory, sharing := None, None, None, None;
      views, mapped, mappedData, lazilyAllocated := [], false, None, false;
    }

    /**
     * Creating an image: at least one mip level and one layer are asserted;
     * the sharing is concurrent over the given families iff there are any,
     * and lazily allocated memory is preferred iff the image is a transient
     * attachment. `created` and `allocation` are what vmaCreateImage returns.
     */
    constructor Creating(extent: Extent, format: nat, usage: set<Usage>, sampleCount: nat, mipLevels: nat,
                         arrayLayers: nat, tiling: nat, numQueueFamilies: nat, queueFamilies: seq<nat>,
                         created: nat, allocation: nat)
      requires mipLevels > 0 && arrayLayers > 0
      requires numQueueFamilies <= |queueFamilies|
      ensures handle == Some(created) && memory == Some(allocation)
      ensures this.extent == extent && imageType == TypeOf(extent).0
      ensures this.format == format && this.usage == usage && this.sampleCount == sampleCount
      ensures mipLevel == mipLevels && arrayLayer == arrayLayers && arrayLayerCount == Some(arrayLayers)
      ensures this.tiling == Some(tiling)
      ensures sharing == Some(SharingFor(numQueueFamilies, queueFamilies))
      ensures lazilyAllocated == PrefersLazy(usage)
      ensures views == [] && !mapped && mappedData == None
    {
      this.extent := extent;
      imageType := TypeOf(extent).0;
      this.format := format;
      this.usage := usage;
      this.sampleCount := sampleCount;
      arrayLayerCount := Some(arrayLayers);
      this.tiling := Some(tiling);
      mipLevel, arrayLayer := mipLevels, arrayLayers;
      var s := Sharing(Exclusive, []);
      if numQueueFamilies != 0 {
        s := Sharing(Concurrent, queueFamilies[..numQueueFamilies]);
      }
      sharing := Some(s);
      lazilyAllocated := false;
      if TransientAttachment in usage {
        lazilyAllocated := true;
      }
      handle, memory := Some(created), Some(allocation);
      views, mapped, mappedData := [], false, None;
    }

    /**
     * The move constructor as written: the layer count is not among the
     * members it copies, and it re-points the views of the new image,
     * which has none, so the source's views stay with the source.
     */
    constructor MovingAsWritten(other: VulkanImage)
      modifies other
      ensures handle == old(other.handle) && memory == old(other.memory)
      ensures mappedData == old(other.mappedData) && mapped == old(other.mapped)
      ensures imageType == old(other.imageType) && extent == old(other.extent) && format == old(other.format)
      ensures sampleCount == old(other.sampleCount) && usage == old(other.usage) && tiling == old(other.tiling)
      ensures mipLevel == old(other.mipLevel) && arrayLayer == old(other.arrayLayer)
      ensures arrayLayerCount == None && views == [] && other.views == old(other.views)
      ensures other.arrayLayerCount == old(other.arrayLayerCount)
      ensures other.handle == None && other.memory == None && other.mappedData == None && !other.mapped
    {
      handle, memory := other.handle, other.memory;
      imageType, extent, format := other.imageType, other.extent, other.format;
      sampleCount, usage, tiling := other.sampleCount, other.usage, other.tiling;
      mipLevel, arrayLayer := other.mipLevel, other.arrayLayer;
      mappedData, mapped := other.mappedData, other.mapped;
      arrayLayerCount, views, sharing, lazilyAllocated := None, [], None, false;
      new;
      other.handle := None;
      other.memory := None;
      other.mappedData := None;
      other.mapped := false;
    }

    /**
     * The move constructor as evidently intended: every member moves,
     * including the layer count and the views, which are re-pointed at the
     * new image; the source keeps no handle, memory, mapping or view.
     */
    constructor Moving(other: VulkanImage)
      modifies other, other.views
      ensures handle == old(other.handle) && memory == old(other.memory)
      ensures mappedData == old(other.mappedData) && mapped == old(other.mapped)
      ensures imageType == old(other.imageType) && extent == old(other.extent) && format == old(other.format)
      ensures sampleCount == old(other.sampleCount) && usage == old(other.usage) && tiling == old(other.tiling)
      ensures mipLevel == old(other.mipLevel) && arrayLayer == old(other.arrayLayer)
      ensures arrayLayerCount == old(other.arrayLayerCount)
      ensures views == old(other.views) && forall v :: v in views ==> v.image == this
      ensures other.handle == None && other.memory == None && other.mappedData == None && !other.mapped
      ensures other.views == []
    {
      handle, memory := other.handle, other.memory;
      imageType, extent, format := other.imageType, other.extent, other.format;
      sampleCount, usage, tiling := other.sampleCount, other.usage, other.tiling;
      mipLevel, arrayLayer := other.mipLevel, other.arrayLayer;
      mappedData, mapped := other.mappedData, other.mapped;
      arrayLayerCount, views := other.arrayLayerCount, other.views;
      sharing, lazilyAllocated := other.sharing, other.lazilyAllocated;
      new;
      other.handle := None;
      other.memory := None;
      other.mappedData := None;
      other.mapped := false;
      other.views := [];
      for i := 0 to |views|
        invariant forall k :: 0 <= k < i ==> views[k].image == this
        modifies views
      {
        views[i].image := this;
      }
    }
  }

  /** Moving a created six-layer image as written loses its layer count and leaves its view behind. */
  method MoveAsWrittenLosesLayers() returns (moved: VulkanImage, source: VulkanImage, view: ImageView)
    ensures source.arrayLayerCount == Some(6) && moved.arrayLayerCount == None
    ensures view in source.views && view.image == source && view !in moved.views
  {
    source := new VulkanImage.Creating(Extent(64, 64, 1), 0, {Sampled}, 1, 1, 6, 0, 0, [], 1, 2);
    view := new ImageView(source);
    source.views := [view];
    moved := new VulkanImage.MovingAsWritten(source);
  }

  /** Moving the same image as intended keeps the layer count and carries the view, now pointing at the new image. */
  method MoveKeepsLayers() returns (moved: VulkanImage, source: VulkanImage, view: ImageView)
    ensures moved.arrayLayerCount == Some(6) && moved.views == [view] && view.image == moved
    ensures source.views == [] && source.handle == None
  {
    source := new VulkanImage.Creating(Extent(64, 64, 1), 0, {Sampled}, 1, 1, 6, 0, 0, [], 1, 2);
    view := new ImageView(source);
    source.views := [view];
    moved := new VulkanImage.Moving(source);
  }
}

=== FILE: vulkan_instance.dfy ===
// The Vulkan instance (Platform/Vulkan/Instance.cpp): the extensions and
// layers the constructor enables, the debug-messenger chain of a debug
// build, adopting an existing instance, the physical-device choice, surface
// creation and the severity of the two debug callbacks.
//
// The Vulkan loader is I/O: the extensions and layers it lists, the
// physical devices it enumerates, the handle vkCreateInstance returns and
// the result of the surface calls are inputs. Instance.h and Window.h are
// not part of this model. A constructor that throws sets `failure`.

module VulkanInstance {
  import opened Common

  type String = seq<char>

  const DebugUtilsName: String := "VK_EXT_debug_utils"
  const DebugReportName: String := "VK_EXT_debug_report"
  const HeadlessName: String := "VK_EXT_headless_surface"
  const Properties2Name: String := "VK_KHR_get_physical_device_properties2"
  const SurfaceName: String := "VK_KHR_surface"

  /** The names the constructor enables on its own, outside the caller's request. */
  predicate BuiltIn(e: String)
  {
    e == DebugUtilsName || e == DebugReportName || e == HeadlessName || e == Properties2Name || e == SurfaceName
  }

  /** What one listed extension adds in the scan of the available extensions. */
  function Picks(ext: String, headless: bool, debug: bool): (r: seq<String>)
    ensures forall e :: e in r <==>
      e == ext && ((debug && ext == DebugUtilsName) || (headless && ext == HeadlessName) || ext == Properties2Name)
  {
    (if debug && ext == DebugUtilsName then [DebugUtilsName] else []) +
    (if headless && ext == HeadlessName then [HeadlessName] else []) +
    (if ext == Properties2Name then [Properties2Name] else [])
  }

  /** The scan: debug utils (debug builds), headless surface (headless only) and properties2, in listing order. */
  function Scanned(available: seq<String>, headless: bool, debug: bool): (r: seq<String>)
    ensures forall e :: e in r <==>
      (e in available && ((debug && e == DebugUtilsName) || (headless && e == HeadlessName) || e == Properties2Name))
  {
    if |available| == 0 then []
    else Scanned(available[..|available| - 1], headless, debug) + Picks(available[|available| - 1], headless, debug)
  }

  /** The names of the caller's requested extensions, in the map's iteration order. */
  function Names(requested: seq<(String, bool)>): (r: seq<String>)
    ensures |r| == |requested|
    ensures forall k :: 0 <= k < |r| ==> r[k] == requested[k].0
  {
    if |requested| == 0 then [] else Names(requested[..|requested| - 1]) + [requested[|requested| - 1].0]
  }

  /** The requested extensions that the loader lists, in request order; a missing one, optional or not, only logs. */
  function RequestedPresent(requested: seq<(String, bool)>, available: seq<String>): (r: seq<String>)
    ensures forall e :: e in r <==> e in Names(requested) && e in available
  {
    if |requested| == 0 then []
    else
      var name := requested[|requested| - 1].0;
      assert Names(requested) == Names(requested[..|requested| - 1]) + [name];
      RequestedPresent(requested[..|requested| - 1], available) + (if name in available then [name] else [])
  }

  /** Whether the surface extension is enabled: always, unless a headless instance lacks the headless surface. */
  predicate SurfaceEnabled(available: seq<String>, headless: bool)
  {
    !(headless && HeadlessName !in available)
  }

  /** The extension list the constructor passes to vkCreateInstance. */
  function EnabledExtensions(available: seq<String>, requested: seq<(String, bool)>, headless: bool, debug: bool): (r: seq<String>)
    ensures Scanned(available, headless, debug) <= r
    ensures SurfaceEnabled(available, headless) ==> SurfaceName in r
    ensures debug && DebugUtilsName !in available ==> DebugReportName in r
  {
    Scanned(available, headless, debug) +
    (if SurfaceEnabled(available, headless) then [SurfaceName] else []) +
    (if debug && DebugUtilsName !in available then [DebugReportName] else []) +
    RequestedPresent(requested, available)
  }

  /** A requested extension outside the built-in names is enabled iff the loader lists it. */
  lemma RequestedEnabledIffPresent(available: seq<String>, requested: seq<(String, bool)>, headless: bool, debug: bool, e: String)
    requires e in Names(requested) && !BuiltIn(e)
    ensures e in EnabledExtensions(available, requested, headless, debug) <==> e in available
  {}

  /**
   * The surface extension, when the caller does not request it, is enabled
   * iff the instance is not headless or the headless surface is listed;
   * debug report is enabled iff a debug build lacks debug utils.
   */
  lemma SurfaceAndReportRule(available: seq<String>, requested: seq<(String, bool)>, headless: bool, debug: bool)
    requires SurfaceName !in Names(requested) && SurfaceName !in available
    requires DebugReportName !in Names(requested) && DebugReportName !in available
    ensures SurfaceName in EnabledExtensions(available, requested, headless, debug) <==>
      (!headless || HeadlessName in available)
    ensures DebugReportName in EnabledExtensions(available, requested, headless, debug) <==>
      (debug && DebugUtilsName !in available)
  {}

  /** Everything enabled is listed by the loader, except the surface and debug report the constructor adds unchecked. */
  lemma EnabledAreListed(available: seq<String>, requested: seq<(String, bool)>, headless: bool, debug: bool)
    ensures forall e :: e in EnabledExtensions(available, requested, headless, debug) ==>
      e in available || e == SurfaceName || e == DebugReportName
  {}

  /** Whether every required layer is among the available ones. */
  predicate LayersPresent(required: seq<String>, available: seq<String>)
  {
    forall l :: l in required ==> l in available
  }

  /** The find_if / inner loop: whether name is in the list. */
  method Contains(list: seq<String>, name: String) returns (found: bool)
    ensures found <==> name in list
  {
    found := false;
    for i := 0 to |list|
      invariant found <==> name in list[..i]
    {
      if list[i] == name {
        return true;
      }
    }
    assert list[..|list|] == list;
  }

  /** ValidateLayers: true iff every required layer is available; stops at the first missing one. */
  method ValidateLayers(required: seq<String>, available: seq<String>) returns (ok: bool)
    ensures ok <==> LayersPresent(required, available)
  {
    for i := 0 to |required|
      invariant LayersPresent(required[..i], available)
    {
      var found := Contains(available, required[i]);
      if !found {
        return false;
      }
      assert required[..i + 1] == required[..i] + [required[i]];
    }
    assert required[..|required|] == required;
    return true;
  }

  /** The extension loop over the loader's list. */
  method ScanAvailable(available: seq<String>, headless: bool, debug: bool) returns (enabled: seq<String>)
    ensures enabled == Scanned(available, headless, debug)
  {
    enabled := [];
    for i := 0 to |available|
      invariant enabled == Scanned(available[..i], headless, debug)
    {
      assert available[..i + 1][..i] == available[..i];
      var ext := available[i];
      if debug && ext == DebugUtilsName {
        enabled := enabled + [DebugUtilsName];
      }
      if headless && ext == HeadlessName {
        enabled := enabled + [HeadlessName];
      }
      if ext == Properties2Name {
        enabled := enabled + [Properties2Name];
      }
    }
    assert available[..|available|] == available;
  }

  /** The loop over the caller's requested extensions. */
  method EnableRequested(requested: seq<(String, bool)>, available: seq<String>) returns (enabled: seq<String>)
    ensures enabled == RequestedPresent(requested, available)
  {
    enabled := [];
    for i := 0 to |requested|
      invariant enabled == RequestedPresent(requested[..i], available)
    {
      assert requested[..i + 1][..i] == requested[..i];
      var present := Contains(available, requested[i].0);
      if present {
        enabled := enabled + [requested[i].0];
      }
    }
    assert requested[..|requested|] == requested;
  }

  /** The constructor's extension list: the scan, the surface, debug report, then the requested ones. */
  method BuildExtensions(requested: seq<(String, bool)>, available: seq<String>, headless: bool, debug: bool)
    returns (extensions: seq<String>)
    ensures extensions == EnabledExtensions(available, requested, headless, debug)
  {
    extensions := ScanAvailable(available, headless, debug);
    extensions := AppendSurface(extensions, available, headless);
    extensions := AppendReport(extensions, available, debug);
    var present := EnableRequested(requested, available);
    extensions := extensions + present;
  }

  /** The surface step: skipped only by a headless instance without the headless surface. */
  method AppendSurface(extensions: seq<String>, available: seq<String>, headless: bool) returns (r: seq<String>)
    ensures r == extensions + (if SurfaceEnabled(available, headless) then [SurfaceName] else [])
  {
    var headlessExtension := headless && HeadlessName in available;
    r := extensions;
    if headless && !headlessExtension {
    } else {
      r := r + [SurfaceName];
    }
  }

  /** The debug-report step: a debug build without debug utils falls back to debug report. */
  method AppendReport(extensions: seq<String>, available: seq<String>, debug: bool) returns (r: seq<String>)
    ensures r == extensions + (if debug && DebugUtilsName !in available then [DebugReportName] else [])
  {
    var debugUtils := debug && DebugUtilsName in available;
    r := extensions;
    if debug && !debugUtils {
      r := r + [DebugReportName];
    }
  }

  /** The structure a debug build chains into the instance create info. */
  datatype DebugChain = NoChain | UtilsMessengerInfo | ReportCallbackInfo | ReportCallbackHandle

  /** As written: without debug utils, pNext points at the report callback handle, not at its create info. */
  function DebugChainAsWritten(debug: bool, debugUtils: bool): (c: DebugChain)
    ensures c == NoChain <==> !debug
    ensures c == MessengerCreated(debug, debugUtils) <==> !(debug && !debugUtils)
  {
    if !debug then NoChain else if debugUtils then UtilsMessengerInfo else ReportCallbackHandle
  }

  /** A debug build without debug utils chains a handle where a create info is expected. */
  lemma ReportChainIsHandle()
    ensures DebugChainAsWritten(true, false) == ReportCallbackHandle
  {}

  /** The messenger a debug build creates right after the instance. */
  function MessengerCreated(debug: bool, debugUtils: bool): (m: DebugChain)
    ensures m == NoChain <==> !debug
  {
    if !debug then NoChain else if debugUtils then UtilsMessengerInfo else ReportCallbackInfo
  }

  /** As evidently intended: the chained structure is the create info of that messenger. */
  function DebugChainFor(debug: bool, debugUtils: bool): (c: DebugChain)
    ensures c == MessengerCreated(debug, debugUtils)
    ensures c != ReportCallbackHandle
  {
    if !debug then NoChain else if debugUtils then UtilsMessengerInfo else ReportCallbackInfo
  }

  datatype DeviceType = Other | IntegratedGpu | DiscreteGpu | VirtualGpu | Cpu

  datatype Failure = NoPhysicalDevice | InvalidInstance

  /** SuitablePhysicalDevice: the first discrete GPU, else device 0 unless it is a CPU; None where the source throws. */
  function SuitableIndex(devices: seq<DeviceType>): (r: Option<nat>)
    ensures r.Some? ==> r.value < |devices|
    ensures r.Some? && devices[r.value] == DiscreteGpu ==> forall k :: 0 <= k < r.value ==> devices[k] != DiscreteGpu
    ensures r.Some? && devices[r.value] != DiscreteGpu ==>
      r.value == 0 && devices[0] != Cpu && forall k :: 0 <= k < |devices| ==> devices[k] != DiscreteGpu
    ensures r.None? <==> |devices| == 0 || (devices[0] == Cpu && DiscreteGpu !in devices)
  {
    if |devices| == 0 then None
    else
      var d := FirstDiscrete(devices, 0);
      if d.Some? then d else if devices[0] == Cpu then None else Some(0)
  }

  /** The first discrete GPU at or after `from`. */
  function FirstDiscrete(devices: seq<DeviceType>, from: nat): (r: Option<nat>)
    requires from <= |devices|
    ensures r.Some? ==> from <= r.value < |devices| && devices[r.value] == DiscreteGpu
    ensures r.Some? ==> forall k :: from <= k < r.value ==> devices[k] != DiscreteGpu
    ensures r.None? ==> forall k :: from <= k < |devices| ==> devices[k] != DiscreteGpu
    decreases |devices| - from
  {
    if from == |devices| then None
    else if devices[from] == DiscreteGpu then Some(from)
    else FirstDiscrete(devices, from + 1)
  }

  /** Instance(VkInstance) as written: it throws exactly when the handle is valid. */
  function AdoptAsWritten(handle: Option<nat>): (f: Option<Failure>)
    ensures f.Some? <==> handle.Some?
    ensures f != Adopt(handle)
  {
    if handle.Some? then Some(InvalidInstance) else None
  }

  /** Every real instance handle is refused, and the null one goes on to query devices. */
  lemma AdoptRefusesValidHandles(h: nat)
    ensures AdoptAsWritten(Some(h)) == Some(InvalidInstance) && AdoptAsWritten(None) == None
  {}

  /** As evidently intended: only the null handle is refused. */
  function Adopt(handle: Option<nat>): (f: Option<Failure>)
    ensures f.Some? <==> handle.None?
    ensures f.Some? ==> f.value == InvalidInstance
  {
    if handle.None? then Some(InvalidInstance) else None
  }

  datatype WindowKind = NoWindow | HeadlessWindow | GlfwWindow | NativeWindow

  datatype Platform = Win32 | Linux

  datatype VkResult = Success | ErrorInitializationFailed | OtherResult(code: int)

  /** What CreateSurface leaves in *pSurface. */
  datatype SurfaceOut = NullSurface | CreatedSurface | Untouched

  /** CreateSurface as written: the Win32 call is given nullptr for the surface, so *pSurface is never set. */
  function CreateSurfaceAsWritten(window: WindowKind, platform: Platform, callResult: VkResult): (r: (VkResult, SurfaceOut))
    ensures r.1 == CreatedSurface ==> window == GlfwWindow
    ensures r != CreateSurface(window, platform, callResult) <==>
      window == NativeWindow && platform == Win32 && callResult == Success
  {
    match window
    case NoWindow | HeadlessWindow => (Success, NullSurface)
    case GlfwWindow => (callResult, if callResult == Success then CreatedSurface else Untouched)
    case NativeWindow =>
      if platform == Win32 then (callResult, Untouched) else (ErrorInitializationFailed, Untouched)
  }

  /** A native Win32 window whose surface call succeeds hands back no surface. */
  lemma Win32SurfaceLost()
    ensures CreateSurfaceAsWritten(NativeWindow, Win32, Success) == (Success, Untouched)
  {}

  /**
   * CreateSurface as evidently intended: a missing or headless window gets
   * a null surface and success; GLFW and Win32 windows get the surface
   * their call creates; native windows on Linux fail.
   */
  function CreateSurface(window: WindowKind, platform: Platform, callResult: VkResult): (r: (VkResult, SurfaceOut))
    ensures r.1 == NullSurface <==> window == NoWindow || window == HeadlessWindow
    ensures r.1 == NullSurface ==> r.0 == Success
    ensures r.0 == Success && r.1 != NullSurface ==> r.1 == CreatedSurface
    ensures window == NativeWindow && platform == Linux ==> r.0 == ErrorInitializationFailed
    ensures (window == GlfwWindow || (window == NativeWindow && platform == Win32)) ==> r.0 == callResult
  {
    match window
    case NoWindow | HeadlessWindow => (Success, NullSurface)
    case GlfwWindow => (callResult, if callResult == Success then CreatedSurface else Untouched)
    case NativeWindow =>
      if platform == Win32 then (callResult, if callResult == Success then CreatedSurface else Untouched)
      else (ErrorInitializationFailed, Untouched)
  }

  datatype LogLevel = Info | Warn | Err

  /** The debug-utils callback: verbose (0x1) and info (0x10) log as info, warning (0x100) as a warning, the rest as errors. */
  function UtilsLevel(severity: nat): (l: LogLevel)
    ensures l == Info <==> severity == 0x1 || severity == 0x10
    ensures l == Warn <==> severity == 0x100
  {
    if severity == 0x1 || severity == 0x10 then Info
    else if severity == 0x100 then Warn
    else Err
  }

  /** The debug-report callback: error (0x8) logs as an error, warning (0x2) and performance warning (0x4) as warnings, the rest as info. */
  function ReportLevel(flags: nat): (l: LogLevel)
    ensures l == Err <==> flags == 0x8
    ensures l == Warn <==> flags == 0x2 || flags == 0x4
  {
    if flags == 0x8 then Err
    else if flags == 0x2 || flags == 0x4 then Warn
    else Info
  }

  /** The report switch compares the whole flag word: an error with a warning bit logs as info. */
  lemma CombinedReportFlagsLogAsInfo()
    ensures ReportLevel(0x8 + 0x2) == Info
  {}

  class Instance {
    var handle: Option<nat>
    var enabledExtensions: seq<String>
    var enabledLayers: seq<String>
    var layersValidated: bool
    var chain: DebugChain
    var physicalDevices: seq<DeviceType>
    var failure: Option<Failure>

    /**
     * The constructor: builds the extension list, validates the layers
     * (which only logs), chains the debug messenger's create info, creates
     * the instance and queries the physical devices, throwing when there
     * are none.
     */
    constructor (requested: seq<(String, bool)>, requiredLayers: seq<String>, headless: bool, debug: bool,
                 available: seq<String>, availableLayers: seq<String>, created: nat, devices: seq<DeviceType>)
      ensures enabledExtensions == EnabledExtensions(available, requested, headless, debug)
      ensures enabledLayers == requiredLayers
      ensures layersValidated <==> LayersPresent(requiredLayers, availableLayers)
      ensures chain == DebugChainFor(debug, debug && DebugUtilsName in available)
      ensures handle == Some(created)
      ensures failure.Some? <==> |devices| == 0
      ensures failure.None? ==> physicalDevices == devices
    {
      var extensions := BuildExtensions(requested, available, headless, debug);
      enabledExtensions := extensions;
      var layersOk := ValidateLayers(requiredLayers, availableLayers);
      layersValidated := layersOk;
      enabledLayers := requiredLayers;
      chain := DebugChainFor(debug, debug && DebugUtilsName in available);
      handle := Some(created);
      physicalDevices := [];
      failure := None;
      new;
      QueryPhysicalDevice(devices);
    }

    /** Instance(VkInstance), refusing only the null handle. */
    constructor Adopting(instance: Option<nat>, devices: seq<DeviceType>)
      ensures handle == instance && enabledExtensions == [] && enabledLayers == []
      ensures failure.Some? <==> instance.None? || |devices| == 0
      ensures instance.None? ==> failure == Adopt(instance)
      ensures failure.None? ==> physicalDevices == devices
    {
      handle := instance;
      enabledExtensions, enabledLayers, layersValidated, chain := [], [], false, NoChain;
      physicalDevices := [];
      failure := Adopt(instance);
      new;
      if failure.None? {
        QueryPhysicalDevice(devices);
      }
    }

    /** QueryPhysicalDevice: throws when the loader reports no device, else wraps every device in order. */
    method QueryPhysicalDevice(devices: seq<DeviceType>)
      requires failure.None? && physicalDevices == []
      modifies this
      ensures failure.Some? <==> |devices| == 0
      ensures failure.Some? ==> failure.value == NoPhysicalDevice && physicalDevices == []
      ensures failure.None? ==> physicalDevices == devices
      ensures handle == old(handle) && enabledExtensions == old(enabledExtensions)
      ensures enabledLayers == old(enabledLayers) && layersValidated == old(layersValidated) && chain == old(chain)
    {
      if |devices| == 0 {
        failure := Some(NoPhysicalDevice);
        return;
      }
      var wrapped := [];
      for i := 0 to |devices|
        invariant wrapped == devices[..i]
      {
        wrapped := wrapped + [devices[i]];
      }
      assert devices[..|devices|] == devices;
      physicalDevices := wrapped;
    }

    /** SuitablePhysicalDevice: the loop over the devices, then the fallback to device 0. */
    method SuitablePhysicalDevice() returns (r: Option<nat>)
      ensures r == SuitableIndex(physicalDevices)
    {
      if |physicalDevices| == 0 {
        return None;
      }
      for i := 0 to |physicalDevices|
        invariant FirstDiscrete(physicalDevices, 0) == FirstDiscrete(physicalDevices, i)
      {
        if physicalDevices[i] == DiscreteGpu {
          return Some(i);
        }
      }
      if physicalDevices[0] == Cpu {
        return None;
      }
      return Some(0);
    }
  }
}
